=== FILE: README.md ===
# VidForge core, modelled in Dafny

VidForge is a desktop tool for concert and live-show video files. It reads
artist, date, venue, city, format and "additional" tags from a file name,
keeps most-recently-used lists of these values in a JSON cache, renames and
files the videos with a user-written naming scheme, and picks a Photoshop
template (PSD) for the poster of each show.

This project models the parts of VidForge that decide these results.

- **Naming-scheme evaluators.** A naming scheme mixes `%token%`
  placeholders with `$func(args)` calls.
  - `Evaluator` models `Evaluator` in utils/evaluator.py. gui/naming_editor.py
    holds `_Evaluator`, an identical copy used by the live preview.
  - `QueueManager` and `ApplyScheme` model `_split_args`, `_truthy`,
    `resolve_output_base` and `_apply_scheme` in utils/queue_manager.py.
  - `QueueHelpers` models `SchemeEvaluator` and
    `_folder_template_from_scheme` in utils/queue_helpers.py.
  - `NamingSchemeHelpers` models `_clean_root`, `_extract_root` and
    `handle_special_tokens` in gui/naming_scheme_helpers.py.
  - `NamingRenderer` models `render_scheme` in utils/naming_renderer.py.
- **File-name inference.**
  - `Helpers` models utils/helpers.py.
  - `TextUtils` models utils/text_utils.py.
  - `VidForge` models the legacy inference in VidForge.py.
  - `ArtistAliases` models `extract_artist` in utils/artist_aliases.py.
  - `Dates` holds the calendar and the three date patterns that all three
    `extract_date` copies share.
- **Caches.** `CacheManager` and `CacheUtils` model the most-recently-used
  lists of utils/cache_manager.py and utils/cache_utils.py. Each has a
  `Cache` class whose `entries` field is the JSON dictionary the code updates
  in place.
- **Templates.** `TemplateManager` models `_normalize`, `scan_templates` and
  `choose_psd` of utils/template_manager.py.

Shared library modules:

- `PyStr` has Python string operations (`strip`, `lower`, `title`, `split`,
  `replace`, `zfill`, slicing, `\w` and `\s`).
- `PyDict` has insertion-ordered dictionaries as sequences of pairs.
- `ReSub` has `re.sub` as a left-to-right scan with a match function.
- `FuncCall` has the `\$(\w+)\(([^)]*)\)` call pattern.
- `ReplaceLoop` has the `str.replace` loop over a token table.
- `Tidy` has the dash and whitespace clean-up patterns.
- `Wrappers` has `Option` and `Result`.
- `Readings` has `Reading`, which is `AsWritten` or `Intended`.
- `PyStr` also has `int()` and `float()` on text: signs, surrounding
  whitespace, single underscores between digits, a fraction and an exponent.

Where the code does something its authors evidently did not intend (see
Findings), the member takes a `Reading`. `_apply_scheme` and everything it
calls, down to `_split_args` and the display of arithmetic results, is
modelled both ways: `AsWritten` follows the code line by line, and
`Intended` uses the corrected definitions. `render_scheme` is modelled the
same way. A lemma stated "under either reading" holds for the code as
written.

Regular expressions are written out as matching functions over positions.
Each has lemmas that pin down what it matches: leftmost, greedy or lazy, as
`re` decides. Loops in the source are methods with loop invariants, proved
against the function that specifies them.

## Model

| member | source | states |
|---|---|---|
| Evaluator.SplitArgs | utils/evaluator.py:107-136 | the quote-aware argument splitter computes exactly the character-by-character state machine `SplitArgsSpec` |
| Evaluator.SplitArgsRoundTrip | utils/evaluator.py:107-136 | splitting the comma-joined written form of well-formed arguments (bare, or quoted and possibly holding commas) gives back each argument's stripped text, without quotes |
| Evaluator.SplitRunConcat | utils/evaluator.py:107-136 | feeding two pieces of text one after the other is feeding their concatenation |
| Evaluator.SplitTwoArgs | utils/evaluator.py:107-136 | two well-formed arguments split back into their two stripped texts |
| Evaluator.SplitThreeArgs | utils/evaluator.py:107-136 | three well-formed arguments split back into their three stripped texts |
| Evaluator.Resolve | utils/evaluator.py:25-31 | a bare key reads its value, and an argument that is neither `%…%` nor a key is its own stripped text |
| Evaluator.ResolveStrips | utils/evaluator.py:25-31 | whitespace around an argument does not change what it resolves to |
| Evaluator.ResolveKeyRef | utils/evaluator.py:25-31 | `%k%` resolves to the metadata value of k, or "" when k is missing |
| Evaluator.ShowBool | utils/evaluator.py:83-91 | `str()` of a bool is "True" exactly when the bool holds |
| Evaluator.ListToken | utils/evaluator.py:13-18 | with an index inside the list the result is that entry; with an index outside it the result is "" |
| Evaluator.NonBlank | utils/evaluator.py:142-143 | the format and additional entry lists hold no empty entry |
| Evaluator.ReplaceMeta | utils/evaluator.py:162-165 | the loop over the metadata computes the ordered replacement `MetaReplace` |
| Evaluator.FillPlaceholders | utils/evaluator.py:142-165 | the placeholder part of `eval` (list passes for format and additional, then the other keys) computes `TokenPhase` |
| Evaluator.RunToFixedPoint | utils/evaluator.py:168-171 | the substitution loop returns text that one more pass leaves unchanged |
| Evaluator.Eval | utils/evaluator.py:138-173 | `eval` computes `EvalSpec`, and a successful result contains no call that a further pass would change |
| Evaluator.FixStable | utils/evaluator.py:168-171 | once a pass leaves the text unchanged, the loop returns that text |
| Evaluator.FixTwoPasses | utils/evaluator.py:168-171 | when the next pass leaves the first pass's output alone, the loop returns that output |
| Evaluator.EvalPlainText | utils/evaluator.py:138-173 | text with neither `%` nor `$` comes out of `eval` unchanged |
| Evaluator.EvalPlaceholder | utils/evaluator.py:138-173 | a single `%w%` in plain text is replaced by its numbered, joined or first list entry, or its metadata value, or is left as it is; the rest of the text is kept |
| Evaluator.TokenPhaseDelimited | utils/evaluator.py:142-165 | on text whose only `%`s surround one word, the placeholder phase replaces that word by `Placeholder(meta, w)` |
| Evaluator.PhaseFormatHit | utils/evaluator.py:145-151 | a `%format%`, `%formatN%` or `%formatN<k>%` placeholder is decided by the format entries, before any additional or metadata pass |
| Evaluator.PhaseAdditionalHit | utils/evaluator.py:153-159 | an additional placeholder that no format pass touched is decided by the additional entries |
| Evaluator.PhaseOtherKey | utils/evaluator.py:162-165 | a placeholder of any other word gets the first metadata value the loop does not skip, or is left as it is |
| Evaluator.MetaReplaceGetOr | utils/evaluator.py:162-165 | the meta loop puts the first non-skipped value for the word in place of `%w%`, or leaves it |
| Evaluator.IndexedSubHit | utils/evaluator.py:145-159 | `%<field>N<k>%` becomes the k-th entry (1-based) of that list, or "" when k is out of range |
| Evaluator.IndexedSubMiss | utils/evaluator.py:145-159 | a placeholder that is no numbered name of the list is not touched by the numbered pass |
| Evaluator.EvalOneCall | utils/evaluator.py:138-173 | a single call in plain text is replaced by what `_eval_func` makes of it, or `eval` fails as `_eval_func` does |
| Evaluator.UnknownCallVerbatim | utils/evaluator.py:104-105 | an unknown function, or a known one with an argument count it does not take, stays in the text exactly as written |
| Evaluator.EvalFunc | utils/evaluator.py:20-105 | `_eval_func` fails with ValueError only in the `int()` conversions of `substr`, `left`, `right` and `pad`, with TypeError only for a `pad` fill that is not one character, and never runs out of passes |
| Evaluator.IfPicksBranch | utils/evaluator.py:94-95 | `$if(c, x, y)`, in any letter case, gives x's resolved value when c is true and y's otherwise |
| Evaluator.IfOfParts | utils/evaluator.py:94-95 | `$if` over any argument text with three parts chooses by the truth of the first part |
| Evaluator.DivByZero | utils/evaluator.py:75-80 | `$div(a, b)` whose divisor reads as 0 gives the infinity sign rather than failing |
| Evaluator.DivZeroDenominator | utils/evaluator.py:75-80 | the same for any argument text whose second part reads as 0 |
| Evaluator.FirstResolvedFirst | utils/evaluator.py:97-102 | `$if2` gives the first candidate with a non-empty value, and the resolved fallback when there is none |
| Evaluator.DatePartOfDate | utils/evaluator.py:58-68 | `$year`, `$month` and `$day` of a `%Y-%m-%d` date give its year (unpadded) and its two-digit month and day |
| Evaluator.DatePartNotDate | utils/evaluator.py:58-68 | a value that `strptime` refuses gives "" for all three |
| QueueManager.SplitArgs | utils/queue_manager.py:26-42 | the loop computes the splitter as written, `SplitArgsAsWritten`, or with `fixed` the corrected one, `SplitArgsSpec` (see Findings) |
| QueueManager.SplitRoundTrip | utils/queue_manager.py:26-42 | either loop, as written or corrected, gives back each argument of a written form that it reads correctly: stripped, without its quotes, and a comma inside a quotation does not split |
| QueueManager.SplitArgsRoundTrip | utils/queue_manager.py:26-42 | the corrected splitter gives every well-formed argument list back; the splitter as written does so when no quoted argument holds a quote of the other kind |
| QueueManager.RunConcat | utils/queue_manager.py:29-39 | running the loop over two pieces is running it over their concatenation |
| QueueManager.BareValue | utils/queue_manager.py:36 | a bare argument's value is its stripped text |
| QueueManager.SplitArgsMixedQuotes | utils/queue_manager.py:26-42 | as written, `q a o b q , c` with two different quote characters comes back as one part: the inner quote takes over the quotation and the comma is kept |
| QueueManager.SplitArgsMixedQuotesFixed | utils/queue_manager.py:26-42 | corrected, the same text splits into its two arguments |
| QueueManager.Truthy | utils/queue_manager.py:45-46 | a truthy value is non-empty, and any value longer than the longest falsy word (`false`) is truthy |
| QueueManager.TruthyIgnoresCase | utils/queue_manager.py:45-46 | upper-, lower- or title-casing a value never changes whether it is truthy |
| QueueManager.ResolveOutputBase | utils/queue_manager.py:49-56 | the result is the fallback root or the given directory, and it is the given directory whenever that is non-empty and not `(Root)` after stripping |
| QueueManager.ResolveOutputBaseIdempotent | utils/queue_manager.py:49-56 | resolving an already resolved base gives the same base |
| ApplyScheme.ZFillTwoDigits | utils/queue_manager.py:69-74 | `str(n).zfill(2)` is the two-digit form of any n below 100 |
| ApplyScheme.DateTextIso | utils/queue_manager.py:69-74 | a valid date stored as a four-digit year and an unpadded month and day gives its `%Y-%m-%d` text, which `strptime` reads back as the same date |
| ApplyScheme.NumberedPhaseNoPercent | utils/queue_manager.py:100-103 | text without `%` holds no numbered token |
| ApplyScheme.NumberedPhaseOneToken | utils/queue_manager.py:100-103 | a `%w%` whose w is no numbered list name is not touched by either numbered pass |
| ApplyScheme.NumberedPhaseToken | utils/queue_manager.py:91-103 | `%formatN<k>%` or `%additionalN<k>%`, in any case, becomes the k-th format or additional part, or "" out of range, or all parts joined when there are no digits |
| ApplyScheme.NumberedTokenAt | utils/queue_manager.py:91-103 | the same, for any text whose only `%`s open and close a token at a given position that is not preceded by `[` |
| ApplyScheme.NumberedBracketedAt | utils/queue_manager.py:91-102 | `[%formatN<k>%]` or `[%additionalN<k>%]`, in any case, in otherwise `%`-free text, is replaced with its brackets by the first pass with the k-th format or additional part ("" out of range, all parts joined without digits); when that part holds no `%` the second pass keeps the result |
| ApplyScheme.ReplKeys | utils/queue_manager.py:76-85 | every key of the token table is a word between two `%`s |
| ApplyScheme.TokenPhaseOneToken | utils/queue_manager.py:87-107 | a single `%w%` that is no numbered list token becomes its table value, or stays when w is no key, and nothing else changes |
| ApplyScheme.TokenPhaseNoPercent | utils/queue_manager.py:87-107 | text without `%` passes the token phase unchanged |
| ApplyScheme.PickIf2 | utils/queue_manager.py:186-192 | the `for a in alts` loop computes `FirstTruthy` |
| ApplyScheme.FirstTruthyFirst | utils/queue_manager.py:186-192 | `$if2` gives the value of the first alternative whose value is truthy, and the fallback's value when none is |
| ApplyScheme.UnknownCallVerbatim | utils/queue_manager.py:197 | under either splitter, an unknown function, or a known one with an argument count it does not take, stays in the text exactly as written |
| ApplyScheme.FuncSub | utils/queue_manager.py:110-197 | under either splitter, only the `int()` conversions of `substr`, `left`, `right` and `pad`, the `float()` conversions of the arithmetic (ValueError) and a `pad` fill that is not one character (TypeError) make a call fail |
| ApplyScheme.ArithOfParts | utils/queue_manager.py:157-164 | `$add`, `$sub`, `$mul` and `$div` with two parts give the reading's arithmetic on the two `float()` values (an empty value reads as 0), or fail with ValueError when either is no number |
| ApplyScheme.ArithOnDigits | utils/queue_manager.py:157-164 | two parts of plain digits that are no metadata keys are read as their numbers |
| ApplyScheme.SplitZero | utils/queue_manager.py:26-42 | both splitters read `d,0` as d and "0" |
| ApplyScheme.AddZero | utils/queue_manager.py:157-164 | `$add(d,0)` under either reading is that reading's sum of d and 0 |
| ApplyScheme.AddZeroCall | utils/queue_manager.py:157-164 | the whole call `$add(d,0)` gives "" as written and d as intended, for plain digits d |
| ApplyScheme.ArithAgrees | utils/queue_manager.py:157-164 | apart from a zero second operand and a result shown in scientific form, the arithmetic as written and as intended agree |
| ApplyScheme.ArithZero | utils/queue_manager.py:157-164 | a zero second operand empties every operation as written; as intended only a division by zero is empty |
| ApplyScheme.AddZeroLost | utils/queue_manager.py:157-164 | `$add(5, 0)` is "" as written and "5" as intended |
| ApplyScheme.ShowNumWhole | utils/queue_manager.py:161 | a whole number shown as `<digits>.0` loses its `.0` |
| ApplyScheme.ZeroStripped | utils/queue_manager.py:161 | as written, a text with a `.` ending in a zero after another character loses that zero |
| ApplyScheme.ExponentZeroLost | utils/queue_manager.py:161 | a product shown as `1.5e+20` comes out as `1.5e+2` as written and unchanged as intended |
| ApplyScheme.CompareSwap | utils/queue_manager.py:166-174 | `$lt(a, b)` is `$gt(b, a)`, and `$eq` does not depend on the order of its arguments |
| ApplyScheme.CompareTrichotomy | utils/queue_manager.py:166-174 | for any two values exactly one of `$eq`, `$lt` and `$gt` holds (a value that `float()` reads as nan lies outside the model, see Left out) |
| ApplyScheme.ValOfToken | utils/queue_manager.py:114-121 | a `%tok%` argument reads the table value the token phase would put in place of the token, and "" for a token outside the table |
| ApplyScheme.IfPicksBranch | utils/queue_manager.py:183-184 | `$if(c, x, y)` gives x's value when c's value is truthy and y's otherwise, for every argument list the reading's splitter gives back: any well-formed one as intended, one whose quotations hold no quote as written |
| ApplyScheme.IfOfParts | utils/queue_manager.py:183-184 | under either splitter, `$if` over any argument text that splits into three parts chooses by the truth of the first part |
| ApplyScheme.TrimLead | utils/queue_manager.py:210-211 | after the leading loop the text no longer starts with the separator |
| ApplyScheme.TrimTail | utils/queue_manager.py:212-213 | after the trailing loop the text no longer ends with the separator |
| ApplyScheme.TrimSeparators | utils/queue_manager.py:209-213 | the separator loops compute `TrimAll` over `" - "`, `"--"` and `"- -"` |
| ApplyScheme.TrimInert | utils/queue_manager.py:209-213 | text with no whitespace at either end and no `--` or `- -` is left alone by the separator loops |
| ApplyScheme.CleanupShape | utils/queue_manager.py:205-213 | the separator loops never fire after the dash pass, the whitespace pass and `strip()`; the result has no two dashes with only whitespace between them, no whitespace run and no whitespace at either end |
| ApplyScheme.ApplyScheme | utils/queue_manager.py:59-215 | `_apply_scheme` computes `ApplySchemeSpec`, under the reading it is given |
| ApplyScheme.ApplySchemeSpec | utils/queue_manager.py:59-215 | under either reading, every successful result has no loose dash pair, no `--` or `- -`, no whitespace run and no whitespace at either end, whatever the scheme |
| ApplyScheme.ApplySchemePlain | utils/queue_manager.py:59-215 | under either reading, a scheme with neither `%` nor `$` only goes through the clean-up |
| ApplyScheme.ApplySchemeOneToken | utils/queue_manager.py:59-215 | under either reading, a single `%w%` in otherwise plain text comes out as its table value, or as itself when w is no token, and is then cleaned up |
| QueueHelpers.NewEvaluator | utils/queue_helpers.py:54-55 | the evaluator keeps the metadata it was given, or an empty dict for none |
| QueueHelpers.BuildDate | utils/queue_helpers.py:58-67 | the stripped year, month and day give `Y-MM-DD` when all three are present, `Y-MM` when only the day is missing, and the year otherwise |
| QueueHelpers.BuildDateAsDateTok | utils/queue_helpers.py:58-67 | on whitespace-free fields `_build_date` gives the same token as `date_tok` in `_apply_scheme` |
| QueueHelpers.BuildDateIso | utils/queue_helpers.py:58-67 | a valid date stored as a four-digit year and an unpadded month and day gives its `%Y-%m-%d` text, which `strptime` reads back |
| QueueHelpers.Evaluate | utils/queue_helpers.py:70-103 | `evaluate` computes `EvaluateSpec` on the evaluator's metadata |
| QueueHelpers.EvaluateSpec | utils/queue_helpers.py:70-103 | an empty template gives ""; a result has no dash or space at either end, no two dashes with only whitespace between them and no two whitespace characters in a row |
| QueueHelpers.TidyShape | utils/queue_helpers.py:98-102 | the tidy pass leaves neither a space nor a dash at either end, no loose dash pair and no run of whitespace longer than one character |
| QueueHelpers.SubstitutedOneToken | utils/queue_helpers.py:74-96 | a single `%token%` in `$`-free text becomes its table value (a stripped field, or the built date), and an unknown `%word%` stays |
| QueueHelpers.SubstitutedPlain | utils/queue_helpers.py:85-96 | text without `%` and `$` is left alone by the token loop and the year call |
| QueueHelpers.YearCallIsYear | utils/queue_helpers.py:90-96 | `$year(date)`, in any case and with any whitespace inside the parentheses, becomes the stripped year field |
| QueueHelpers.EmptyBracketsDropped | utils/queue_helpers.py:99 | a pair of brackets holding only whitespace, among bracket-free text, is removed |
| QueueHelpers.NestedBracketsLeft | utils/queue_helpers.py:99 | `[[]]` evaluates to `[]`: the bracket pass runs once |
| QueueHelpers.FolderTemplate | utils/queue_helpers.py:109-124 | a dict gives its "folder" entry or the default; a string the JSON parser refuses, and any other value, give the default |
| QueueHelpers.FolderTemplateJson | utils/queue_helpers.py:119-121 | a JSON string is read as the dict it encodes |
| QueueHelpers.FolderTemplateSource | utils/queue_helpers.py:109-124 | the template is the scheme's "folder" entry where there is one, and `%artist%/$year(date)` otherwise |
| NamingSchemeHelpers.CleanRoot | gui/naming_scheme_helpers.py:25-28 | the root label or nothing gives ""; otherwise one leading `(Root)/` is dropped and the rest kept |
| NamingSchemeHelpers.CleanRootLabelled | gui/naming_scheme_helpers.py:25-28 | a folder shown under the root label comes back as itself |
| NamingSchemeHelpers.Slashed | gui/naming_scheme_helpers.py:33 | every back-slash becomes a slash and every other character is kept |
| NamingSchemeHelpers.ReplaceBackslash | gui/naming_scheme_helpers.py:33 | `replace("\\", "/")` maps each character on its own |
| NamingSchemeHelpers.Cut | gui/naming_scheme_helpers.py:34-35 | the cut is at the first `%` or `$`, or at the end when there is neither |
| NamingSchemeHelpers.ExtractRoot | gui/naming_scheme_helpers.py:30-37 | an empty pattern has no root; a root has no `%`, `$`, back-slash or trailing slash and is a prefix of the normalised pattern |
| NamingSchemeHelpers.ExtractRootOfPattern | gui/naming_scheme_helpers.py:30-37 | the root of `root/…/<placeholder or call>…` is `root`, whatever the trailing slashes |
| NamingSchemeHelpers.ExtractRootNone | gui/naming_scheme_helpers.py:30-37 | a pattern that starts with a placeholder or a call, after any slashes, has no root |
| NamingSchemeHelpers.HandleSpecialTokens | gui/naming_scheme_helpers.py:39-54 | the method computes `SpecialTokens`: the year calls, then the metadata loop |
| NamingSchemeHelpers.YearPassNoDollar | gui/naming_scheme_helpers.py:50 | text without `$` holds no year call |
| NamingSchemeHelpers.YearCallReplaced | gui/naming_scheme_helpers.py:41-50 | `$year(key)` becomes the year of the key's value, or "" when that value is not a `%Y-%m-%d` date |
| NamingSchemeHelpers.WrappedGet | gui/naming_scheme_helpers.py:51-52 | looking up `%key%` in the wrapped table is looking up key in the metadata |
| NamingSchemeHelpers.SpecialTokensOnePlaceholder | gui/naming_scheme_helpers.py:39-54 | a single `%key%` becomes the key's sample value, or stays as it is for an unknown key |
| NamingRenderer.YearText | utils/naming_renderer.py:5-27 | text that is not a `%Y-%m-%d` date gives its first four characters |
| NamingRenderer.RenderPlain | utils/naming_renderer.py:5-27 | text without `%` and `$` renders as it is under either reading |
| NamingRenderer.RenderSchemeAsWritten | utils/naming_renderer.py:5-27 | `render_scheme` as written leaves text without `%` and `$` as it is |
| NamingRenderer.RenderScheme | utils/naming_renderer.py:5-27 | the corrected `render_scheme` leaves text without `%` and `$` as it is, and renders text without `$` exactly as the code does |
| NamingRenderer.ReadingsAgree | utils/naming_renderer.py:5-27 | the two readings differ only on year calls: text without `$` renders alike |
| NamingRenderer.RenderOnePlaceholder | utils/naming_renderer.py:5-27 | a placeholder becomes its field's value, or `<word>` for a missing field, and the value is not scanned again |
| NamingRenderer.RenderOneYearCall | utils/naming_renderer.py:5-27 | a year call becomes the year of its date, or the date's first four characters when it is not a `%Y-%m-%d` date |
| NamingRenderer.YearOfDateField | utils/naming_renderer.py:5-27 | as written `$year(date)` renders as "date" even when the metadata holds a date; as intended it renders as that date's year |
| NamingRenderer.IntendedKeepsLiteral | utils/naming_renderer.py:5-27 | read as intended, an argument that names no field is the date itself, as the code does |
| Helpers.NormalizeKey | utils/helpers.py:20-22 | a key is no longer than its source |
| Helpers.NormalizeKeyChars | utils/helpers.py:20-22 | a key holds only lower-case word characters |
| Helpers.NormalizeIdempotent | utils/helpers.py:20-22 | normalising a key again changes nothing |
| Helpers.NormalizeConcat | utils/helpers.py:20-22 | normalising a concatenation normalises each piece |
| Helpers.NormalizeOfTitle | utils/helpers.py:20-22 | title-casing does not change a key |
| Helpers.NormalizeKeys | utils/text_utils.py:152-153 | the normalised dict has each key once, and its keys are exactly the normalised source keys |
| Helpers.NormalizeKeysValues | utils/text_utils.py:152-153 | every value in the normalised dict is that of the last source entry with that normalised key, and the last entry with each normalised key is found under it (a later duplicate overwrites an earlier one) |
| Helpers.SplitTokensSpec | utils/helpers.py:24-26 | tokens are non-empty and lower-case, and read in order they are exactly the text's word characters and apostrophes |
| TextUtils.TokensOfJoin | utils/text_utils.py:220-221 | joining well-formed tokens with spaces and splitting again gives them back |
| Helpers.SplitExtRoot | utils/text_utils.py:155 | `os.path.splitext(p)[0]` is a prefix of p; it is p itself, or p cut just before a `.` followed by no other `.` or `/`, with a non-dot before the cut in the last `/`-component; and whenever the last component holds a `.` after a non-dot, the cut happens |
| Helpers.SplitExtOfName | utils/text_utils.py:155 | for a file name `stem + "." + ext` whose ext has no `.` or `/` and whose stem's last component holds a character other than `.`, the root is exactly `stem` |
| Helpers.FindState | utils/helpers.py:28-36 | the first state token, its position and its upper-case form; no earlier token is a state, and none means no token is |
| Helpers.SepSplit | utils/helpers.py:74 | at least one piece, and no piece holds a separator character |
| Helpers.WindowFromFirst | utils/helpers.py:74-80 | the window search returns an accepted window, every window visited before it is rejected, and none means every window is |
| Helpers.FirstKeyIn | utils/helpers.py:81-85 | the first dictionary key contained in the name; no earlier key is contained, and none means no key is |
| Helpers.ExtractVenue | utils/helpers.py:55-86 | the venue is "" or one of the dictionary's values |
| Helpers.ExtractVenueResult | utils/helpers.py:67-72 | a third dash slot that is a dictionary key decides the venue |
| Helpers.InferResolutionFinds | utils/helpers.py:88-91 | a resolution number after digit-free text is found, whatever follows, and given a `p` |
| Helpers.CityStateFrom | utils/helpers.py:13-16 | the search finds the leftmost start and there the longest city; no earlier start matches, and none means no start does |
| Helpers.CityStateSearch | utils/helpers.py:13-16 | a match gives a non-empty city of letters and spaces and a two-letter state |
| PyStr.ParseIntOfStr | utils/queue_manager.py:139-153 | `int()` reads back what `str()` writes for any integer |
| PyStr.ParseIntUnderscore | utils/queue_manager.py:139-153 | `int()` accepts one underscore between digits and reads the digits as if it were not there |
| PyStr.ParseFloatDigits | utils/queue_manager.py:158 | `float()` of plain digits is their value |
| PyStr.ParseFloatScientific | utils/queue_manager.py:158 | `float()` reads `<digits>e<digits>` as the mantissa times ten to the exponent |
| Dates.MakeDate | utils/helpers.py:48-50 | a date exists exactly when the year, month and day form a calendar day |
| Dates.ParseIso | utils/helpers.py:49 | `strptime(s, "%Y-%m-%d")` only ever gives a valid calendar day |
| Dates.ParseFormatIso | utils/helpers.py:49-50 | formatting a valid date and parsing it back gives the same date |
| Dates.FindShape | utils/helpers.py:40-46 | the leftmost match of a date pattern; no earlier position matches, and none means no position does |
| Dates.ExtractDate | utils/helpers.py:38-53 | `extract_date` gives "" or a ten-character date that `strptime("%Y-%m-%d")` accepts |
| Dates.ExtractDateFindsIso | utils/helpers.py:38-53 | a valid `YYYY-MM-DD` date after digit-free text is found, whatever follows |
| Dates.ExtractDateFindsUs | utils/helpers.py:38-53 | a valid `MM-DD-YYYY` date with no other digits around it is read month first and rendered as `YYYY-MM-DD` |
| TextUtils.NormalizeCache.NormalizeName | utils/text_utils.py:36-41 | the memoised `normalize_name` answers `NormalizeKey(s)`, keeps every cached answer correct, and records the answer for s |
| TextUtils.MatchVenue | utils/text_utils.py:66-86 | the venue is "" or one of the dictionary's values |
| TextUtils.MatchVenueResult | utils/text_utils.py:66-86 | an exact key wins, then the first key contained in the name |
| TextUtils.MatchCity | utils/text_utils.py:88-116 | the city is "" or one of the dictionary's values |
| TextUtils.CityFallbackKeys | utils/text_utils.py:100-112 | both fallback spellings normalise to the same key, so the "City ST" lookup never succeeds where "City, ST" failed |
| TextUtils.MatchCityFallback | utils/text_utils.py:88-116 | without an exact match the city is decided by the regex city's and state's keys alone |
| TextUtils.MatchFormatAndAdditional | utils/text_utils.py:118-141 | the loop computes the joined `FormatsOf` and `AdditionalsOf` lists |
| TextUtils.FirstAdditional | utils/text_utils.py:134-139 | the inner loop finds the first tag of the list contained in the token, ignoring case, or none |
| TextUtils.FormatsOfSpec | utils/text_utils.py:126-132 | the format list holds each format token of the name exactly once and nothing else |
| TextUtils.AdditionalsOfDistinct | utils/text_utils.py:133-139 | each additional tag is listed once |
| TextUtils.AdditionalsOfSound | utils/text_utils.py:133-139 | every listed tag is in the tag list and is the first tag found in some non-format token |
| TextUtils.AdditionalsOfComplete | utils/text_utils.py:133-139 | the tag of every non-format token that has one is listed |
| TextUtils.KeepNotExcluded | utils/text_utils.py:220 | every kept token is a token of the name whose lower-case form is not excluded |
| TextUtils.FirstContained | utils/text_utils.py:202-216 | the dictionary loop gives the value of the first key contained in the name, or "" |
| TextUtils.ArtistFallbackTokens | utils/text_utils.py:219-221 | with no dictionary match the artist is the remaining tokens, which split back into themselves |
| TextUtils.InferFromName | utils/text_utils.py:144-227 | `infer_from_name` fills the fields as `InferSpec` says |
| VidForge.FindStateReversed | VidForge.py:161-164 | `find_state` on the reversed tokens finds the last state token, and no later token is a state |
| VidForge.StateSearchFrom | VidForge.py:104-106 | the legacy search finds the leftmost start and there the shortest city |
| VidForge.StateSearch | VidForge.py:104-106 | a match gives a state from the abbreviation list |
| VidForge.ExtractVenue | VidForge.py:109-132 | the venue is "", a dictionary value, or the title-cased third dash slot |
| VidForge.ExtractVenueResult | VidForge.py:110-118 | a non-empty third slot that is no key is the venue, title-cased |
| VidForge.ArtistOf | VidForge.py:139-140 | the artist is a dictionary value or the title-cased first piece of the name |
| VidForge.FirstPiece | VidForge.py:139-140 | the first piece is a prefix without separators, ended by a separator or the end of the name |
| VidForge.ArtistNonEmpty | VidForge.py:139-140 | the artist is never empty when the name starts with anything but a separator |
| VidForge.FormatOf | VidForge.py:142-143 | the format is "" or a resolution followed by `p` |
| VidForge.CityEndsWithState | VidForge.py:152-159 | a dictionary city's upper-case form ends with the regex state whenever the regex finds one |
| VidForge.Purified | VidForge.py:146-149 | the name is kept, or its third dash slot is dropped, and only when that slot's key is the venue's |
| VidForge.CityOf | VidForge.py:152-167 | without a non-empty dictionary city the city is "" or ends with `, ` and a state abbreviation in upper case |
| VidForge.CityFromLastState | VidForge.py:160-167 | without a dictionary key the city is the token before the last state token, looked up or title-cased, with the state |
| VidForge.InferFromName | VidForge.py:135-169 | the additional field is never filled and the format is "" or a resolution |
| VidForge.LoadNames | VidForge.py:203-211 | `_load_names` computes `NamesOf` over the lines of the word file |
| VidForge.NamesOfSpec | VidForge.py:203-211 | keys are the normalised non-blank lines, each once, and every stored name is a non-blank stripped line under its own key |
| ArtistAliases.Matches | utils/artist_aliases.py:40-47 | the matches are exactly the aliases equal to some lower-cased piece of the name |
| ArtistAliases.ExtractArtist | utils/artist_aliases.py:33-60 | both loops together compute `ExtractArtistSpec` |
| ArtistAliases.ExtractArtistFirst | utils/artist_aliases.py:33-60 | the first matching alias decides; every earlier alias matches no piece; no match at all is the error |
| CacheManager.Take | utils/cache_manager.py:78 | `s[:n]` has the clamped length and is a prefix of s |
| CacheManager.RemoveFirst | utils/cache_manager.py:75-76 | `remove` takes one occurrence of a present value out, and leaves a list without it alone |
| CacheManager.Pushed | utils/cache_manager.py:70-79 | the new list is at most `max_len` long and starts with the value |
| CacheManager.Cache.GetList | utils/cache_manager.py:67-68 | the stored value under the key, or an empty list when the key is missing |
| CacheManager.Cache.AddValue | utils/cache_manager.py:70-79 | a blank value changes nothing; otherwise only the key's entry changes, to the pushed list |
| CacheManager.RemoveFirstNoDup | utils/cache_manager.py:75-76 | on a list without repeats, `remove` removes every occurrence |
| CacheManager.PushedOrder | utils/cache_manager.py:74-78 | on a list without repeats, the new list is the value, then the other entries in their old order, cut to the cap |
| CacheManager.PushedOnce | utils/cache_manager.py:74-78 | the value occurs exactly once and the list keeps having no repeats |
| CacheManager.PushedTwice | utils/cache_manager.py:70-79 | adding the same value twice is adding it once |
| CacheManager.NormMapKeys | utils/cache_manager.py:64-65 | the keys are exactly the normalised raw names, each once (also `build_normalized_map`, utils/cache_utils.py:31-33) |
| CacheManager.NormMapValues | utils/cache_manager.py:64-65 | each key maps to a raw name whose normal form it is, and the last raw name with a given normal form wins |
| CacheUtils.CleanItems | utils/cache_utils.py:59-61 | the cleaned items are non-empty, stripped, and there are none exactly when every item strips to "" |
| CacheUtils.Cleaned | utils/cache_utils.py:59-64 | a single value is kept stripped, even when blank |
| CacheUtils.Absent | utils/cache_utils.py:70 | every kept old entry is in the old list and not among the new values |
| CacheUtils.Merged | utils/cache_utils.py:68-74 | the list is at most `max_len` long, starts with the new values when they fit, and goes on with old entries not among them |
| CacheUtils.Cache.GetList | utils/cache_utils.py:47-52 | the stored list, or an empty list when the key is missing or holds something else |
| CacheUtils.Cache.AddValue | utils/cache_utils.py:54-75 | nothing to add changes nothing; otherwise only the key's entry changes, to the merged list |
| CacheUtils.TextAtHead | utils/cache_utils.py:62-74 | a single value, even blank, heads the new list |
| CacheUtils.MergedNoDup | utils/cache_utils.py:68-74 | when neither the old list nor the new values repeat, the new list has no repeats |
| CacheUtils.MergedTwice | utils/cache_utils.py:54-75 | adding the same values twice is adding them once, when they fit |
| CacheUtils.RepeatedItemsKept | utils/cache_utils.py:59-74 | a list argument that repeats a value keeps the repeat |
| TemplateManager.Normalize | utils/template_manager.py:98-99 | the normal form holds only lower-case alphanumeric characters and is no longer than its source |
| TemplateManager.NormalizeIdempotent | utils/template_manager.py:98-99 | normalising twice is normalising once |
| TemplateManager.NormalizeIgnoresCase | utils/template_manager.py:98-99 | letter case does not matter to the normal form |
| TemplateManager.SortNames | utils/template_manager.py:37 | `sorted` gives the same names in ascending order |
| TemplateManager.PsdFiles | utils/template_manager.py:36-37 | the kept names are exactly the listed names ending in `.psd`, in any case |
| TemplateManager.ScanTemplates | utils/template_manager.py:13-48 | the walk loop computes `Scan` |
| TemplateManager.ScanEntries | utils/template_manager.py:21-41 | every key is a first-level folder with no `/`, mapped to the sorted, non-empty `.psd` names of a walk entry for that folder |
| TemplateManager.ScanFinds | utils/template_manager.py:21-41 | a first-level folder holding a `.psd`, listed once from then on, is in the map with its sorted `.psd` names |
| TemplateManager.ScanNonEmpty | utils/template_manager.py:21-41 | no list in the map is empty |
| TemplateManager.PathJoin | utils/template_manager.py:121 | an absolute second part replaces the first; otherwise the result ends with it |
| TemplateManager.Pick | utils/template_manager.py:131 | the random choice is one of the names |
| TemplateManager.MatchFolder | utils/template_manager.py:143-151 | the first non-generic folder whose normal form is the artist's; no earlier folder qualifies, and none means no folder does |
| TemplateManager.ChoosePsd | utils/template_manager.py:102-160 | the choice fails only by default or for a back cover, and only when some folder has no templates; an explicit choice that succeeds names an existing file |
| TemplateManager.ChooseExplicit | utils/template_manager.py:119-125 | an explicit name is used in the chosen (or the artist's) folder if, and only if, that file exists |
| TemplateManager.ChooseRandom | utils/template_manager.py:128-141 | a random choice never fails; it is a template of the chosen folder (or of the generic one when none is named) whenever that folder has any, else a template of the generic folder, and there is none only when both are empty |
| TemplateManager.ChooseDefault | utils/template_manager.py:143-151 | by default the first PSD of the first matching non-generic folder is used |
| TemplateManager.ChooseGeneric | utils/template_manager.py:153-160 | without a matching folder the generic folder's first PSD is used, else none |
| TemplateManager.NonEmptyNeverFails | utils/template_manager.py:102-160 | the only failure of the choice is indexing an empty matched folder, so a map without empty lists never makes it raise |
| TemplateManager.ScannedNeverFails | utils/template_manager.py:13-160 | on a map made by `scan_templates` the choice never raises |
| TemplateManager.EmptyMatchFails | utils/template_manager.py:143-151 | a matched folder with an empty list raises IndexError |

## Left out

- Reading and writing files: cache and normalise-cache load and save, `is_cache_valid`, `load_txt_file`, alias load and save, and `touch`. The cache classes model the dictionary only.
- Tk widgets, dialogs, logging and the Photoshop bridge, including `update_template_dropdown`.
- The clock: `$datetime()` reads `utcnow()`, so its text is a parameter of the evaluation context.
- `random.choice` is given its index as a parameter (`Pick`).
- `os.walk` is given as a listing of (relative folder, file names). `os.path.isfile` is a predicate parameter. Paths are POSIX.
- `json.loads` is a parameter of `FolderTemplate`.
- Floating point: the arithmetic functions work on exact reals, and `str(float)` is a parameter `show`. Rounding is not modelled.
- PyStr.ParseFloat: `float()` of `inf`, `infinity` and `nan` (any case, any sign) gives no value, since exact reals hold none; the code reads them as the IEEE special values.
- ApplyScheme.CompareTrichotomy, ApplyScheme.Compare: with a value that `float()` reads as nan (`nan`, `-NaN`, …) the code compares floats and `$eq`, `$lt` and `$gt` all give "0"; the model, which has no nan, compares such a pair as text, where exactly one holds.
- Dates.FormatIso: a year below 1000 is written with four digits; glibc's `strftime("%Y")` writes it unpadded, so `extract_date` of `0999-01-01` gives `999-01-01`.
- Dates.ParseFormatIso: relies on the four-digit year, so for the code it holds only for years 1000 to 9999 (see Dates.FormatIso).
- Dates.ExtractDate: its ten-character result relies on the four-digit year, so for the code it holds only for years 1000 to 9999 (see Dates.FormatIso).
- PyStr.ParseInt, PyStr.ParseFloat: only ASCII digits are read; Python also accepts other Unicode decimal digits.
- Character classes are ASCII: `\w`, `\s`, `isalnum`, `lower`, `upper` and `title` do not cover other Unicode letters.
- `str(v)` of non-string list items in `cache_add_value` of utils/cache_utils.py is not modelled: items are strings.
- Evaluator.Eval: the fixed-point loop is bounded by a `fuel` argument. A scheme needing more passes ends in `OutOfFuel`, where the code would go on.
- ApplyScheme.ApplyScheme: the same `fuel` bound on its substitution loop.
- The `try`/`except` around `infer_from_name` in utils/text_utils.py is not modelled: no modelled step raises.
- QueueHelpers.EvaluateSpec: the docstring promises no leftover `[]`; one bracket pass leaves `[]` from `[[]]` (`NestedBracketsLeft`).
- CacheUtils.Merged: the docstring promises dropped duplicates; that holds only when the list argument has none (`RepeatedItemsKept`).
- CacheManager.PushedOnce: "exactly once" needs the stored list to have no repeats, which every list built by `AddValue` keeps.
- CacheManager.Cache.AddValue: requires a list under the key; the code raises on any other value there.
- ArtistAliases.ExtractArtist: where the code raises `UnboundLocalError` for no match, the model returns an error value.

## Findings

| source | as written | input that shows it | evidently intended | confidence | as-written member | corrected member |
|---|---|---|---|---|---|---|
| utils/queue_manager.py:30-34 | a quote of the other kind inside a quotation takes over as the closing character | `'a"b',c` gives one part, `a"b',c` (SplitArgsMixedQuotes) | quotes of the other kind are literal inside a quotation, giving `a"b` and `c` | not executed | QueueManager.SplitArgsAsWritten | QueueManager.SplitArgsSpec |
| utils/queue_manager.py:157-164 | all four results are computed before one is picked, so `a / 0` empties `$add`, `$sub` and `$mul` too | `$add(5,0)` gives "" (AddZeroLost, and AddZeroCall for the whole call) | "5"; only a division by zero is empty | not executed | ApplyScheme.ArithAsWritten | ApplyScheme.Arith |
| utils/queue_manager.py:161 | `rstrip("0")` runs on any text with a `.`, so the zeros of an exponent go too | `$mul(1.5,100000000000000000000)`, shown by `str()` as `1.5e+20`, gives `1.5e+2` (ExponentZeroLost) | only the trailing zeros of a fraction are dropped, giving `1.5e+20` | not executed | ApplyScheme.ShowNumAsWritten | ApplyScheme.ShowNum |
| utils/naming_renderer.py:5-27 | the year call's argument is used as the date itself (`year_arg or meta.get("date")`), and the argument is never empty | `$year(date)` with date `2024-05-01` gives "date" (YearOfDateField) | the argument names the metadata field to read, giving "2024" | not executed | NamingRenderer.RenderSchemeAsWritten | NamingRenderer.RenderScheme |

=== FILE: apply_scheme.dfy ===
/** `_apply_scheme` of utils/queue_manager.py: the queue's own scheme
    renderer.  It fills the numbered list tokens, then the eight `%token%`s,
    then evaluates `$func(...)` calls until nothing changes, and finally
    tidies dashes and whitespace. */
module ApplyScheme {
  import opened Wrappers
  import opened PyStr
  import opened PyDict
  import opened ReSub
  import opened FuncCall
  import opened Tidy
  import opened ReplaceLoop
  import opened Readings
  import Dates
  import Evaluator
  import QueueManager

  type EvalError = Evaluator.EvalError

  /** The arguments of `_apply_scheme` and what it takes from its
      environment: the text `datetime.utcnow().strftime(...)` gives and
      `str()` of a float. */
  datatype Env = Env(md: Dict<string>, artist: string, date: string, filename: string,
                     now: string, showFloat: real -> string)

  // ---------------------------------------------------------------- the token table

  /** `f"{year}-{month.zfill(2)}-{day.zfill(2)}"` */
  function DateText(year: string, month: string, day: string): string {
    year + "-" + ZFill(month, 2) + "-" + ZFill(day, 2)
  }

  /** `date_tok`: year, month and day from the metadata, as far as they go. */
  function DateTok(md: Dict<string>): string {
    var y := GetOr(md, "year", "");
    var m := GetOr(md, "month", "");
    var d := GetOr(md, "day", "");
    if y != [] && m != [] && d != [] then DateText(y, m, d)
    else if y != [] && m != [] then y + "-" + ZFill(m, 2)
    else y
  }

  /** `date_tok or date` */
  function DateValue(e: Env): string {
    var t := DateTok(e.md);
    if t != [] then t else e.date
  }

  /** `year or (date[:4] if date else "")` */
  function YearValue(e: Env): string {
    var y := GetOr(e.md, "year", "");
    if y != [] then y else Slice(e.date, 0, Some(4))
  }

  /** `repl`, in its insertion order. */
  function Repl(e: Env): Dict<string> {
    [("%artist%", e.artist),
     ("%year%", YearValue(e)),
     ("%date%", DateValue(e)),
     ("%venue%", GetOr(e.md, "venue", "")),
     ("%city%", GetOr(e.md, "city", "")),
     ("%format%", GetOr(e.md, "format", "")),
     ("%additional%", GetOr(e.md, "additional", "")),
     ("%filename%", e.filename)]
  }

  /** `str(n).zfill(2)` is the two-digit form of a number below 100. */
  lemma ZFillTwoDigits(n: nat)
    requires 1 <= n < 100
    ensures ZFill(NatToStr(n), 2) == Dates.Pad2(n)
  {
    if n < 10 {
      assert NatToStr(n) == [DigitChar(n)];
      assert Repeat('0', 1) == ['0'];
      assert DigitChar(n / 10) == '0';
    } else {
      assert NatToStr(n / 10) == [DigitChar(n / 10)];
    }
  }

  /** Metadata holding a valid date as a four-digit year and an unpadded
      month and day gives the `%Y-%m-%d` text of that date, which
      `strptime` reads back as the same date. */
  lemma DateTextIso(d: Dates.Date)
    requires Dates.ValidDate(d)
    ensures DateText(Dates.Pad4(d.year), NatToStr(d.month), NatToStr(d.day)) == Dates.FormatIso(d)
    ensures Dates.ParseIso(DateText(Dates.Pad4(d.year), NatToStr(d.month), NatToStr(d.day))) == Some(d)
  {
    ZFillTwoDigits(d.month);
    ZFillTwoDigits(d.day);
    Dates.ParseFormatIso(d);
  }

  // ---------------------------------------------------------------- numbered list tokens

  /** `\s`-split format parts and the stripped, non-empty comma-separated
      additional parts (the extra `rstrip(",")` never finds a comma left). */
  function FmtParts(e: Env): seq<string> {
    SplitWs(GetOr(e.md, "format", ""))
  }

  function AddParts(e: Env): seq<string> {
    Evaluator.Entries(GetOr(e.md, "additional", ""))
  }

  /** `formatN`, in any case, at j. */
  predicate FormatNAt(t: string, j: nat) {
    j + 7 <= |t| && LowerChar(t[j]) == 'f' && LowerChar(t[j + 1]) == 'o' && LowerChar(t[j + 2]) == 'r'
    && LowerChar(t[j + 3]) == 'm' && LowerChar(t[j + 4]) == 'a' && LowerChar(t[j + 5]) == 't'
    && LowerChar(t[j + 6]) == 'n'
  }

  /** `additionalN`, in any case, at j. */
  predicate AdditionalNAt(t: string, j: nat) {
    j + 11 <= |t| && LowerChar(t[j]) == 'a' && LowerChar(t[j + 1]) == 'd' && LowerChar(t[j + 2]) == 'd'
    && LowerChar(t[j + 3]) == 'i' && LowerChar(t[j + 4]) == 't' && LowerChar(t[j + 5]) == 'i'
    && LowerChar(t[j + 6]) == 'o' && LowerChar(t[j + 7]) == 'n' && LowerChar(t[j + 8]) == 'a'
    && LowerChar(t[j + 9]) == 'l' && LowerChar(t[j + 10]) == 'n'
  }

  /** w is a list name, in any case, as the numbered patterns spell it. */
  predicate ListName(w: string) {
    (|w| == 7 && FormatNAt(w, 0)) || (|w| == 11 && AdditionalNAt(w, 0))
  }

  /** The length of the list name `formatN` or `additionalN` (in any case)
      at j, or 0. */
  function BaseAt(t: string, j: nat): (n: nat)
    ensures n == 0 || j + n <= |t|
  {
    if FormatNAt(t, j) then 7 else if AdditionalNAt(t, j) then 11 else 0
  }

  /** `[%(formatN|additionalN)(\d*)%]` (bracketed) or
      `%(formatN|additionalN)(\d*)%` at i, case-insensitively: the list
      entry it names, or the whole list space-joined when it has no number. */
  function NumTokAt(t: string, i: nat, fmts: seq<string>, adds: seq<string>, bracketed: bool): (r: Option<Hit>)
    ensures r.Some? ==> i + r.value.len <= |t|
  {
    var j := if bracketed then i + 2 else i + 1;
    if !(j <= |t| && t[j - 1] == '%' && (!bracketed || t[i] == '[')) then None
    else TokAfter(t, i, j, BaseAt(t, j), fmts, adds, bracketed)
  }

  /** The rest of a numbered token whose list name of length base starts at j. */
  function TokAfter(t: string, i: nat, j: nat, base: nat, fmts: seq<string>, adds: seq<string>, bracketed: bool): (r: Option<Hit>)
    requires i < j <= |t| && (base == 0 || j + base <= |t|)
    ensures r.Some? ==> i + r.value.len <= |t|
  {
    if base == 0 then None
    else
      var k := j + base;
      var n := RunLen(t, k, IsDigit);
      var e := k + n;
      var end := if bracketed then e + 2 else e + 1;
      if !(end <= |t| && t[e] == '%' && (!bracketed || t[e + 1] == ']')) then None
      else
        var src := if base == 7 then fmts else adds;
        assert AllDigits(t[k..e]);
        var idx := if n == 0 then None else Some(DigitsValue(t[k..e]) - 1);
        Some(Hit(Evaluator.ListToken(src, idx), end - i))
  }

  function Matcher(fmts: seq<string>, adds: seq<string>, bracketed: bool): (string, nat) -> Option<Hit> {
    (s: string, i: nat) => NumTokAt(s, i, fmts, adds, bracketed)
  }

  /** The two `re.sub` passes over numbered tokens, bracketed first. */
  function NumberedPhase(t: string, fmts: seq<string>, adds: seq<string>): string {
    SubAll(SubAll(t, Matcher(fmts, adds, true)), Matcher(fmts, adds, false))
  }

  /** Every numbered token starts at a `%` (after a `[` when bracketed),
      goes on with a list name and ends with a later `%`. */
  lemma NumTokShape(t: string, i: nat, fmts: seq<string>, adds: seq<string>, bracketed: bool)
    requires NumTokAt(t, i, fmts, adds, bracketed).Some?
    ensures var j := if bracketed then i + 2 else i + 1;
      j <= |t| && t[j - 1] == '%' && BaseAt(t, j) != 0
    ensures exists q :: i + 8 <= q < |t| && t[q] == '%'
  {
    var j := if bracketed then i + 2 else i + 1;
    var base := BaseAt(t, j);
    assert TokAfter(t, i, j, base, fmts, adds, bracketed).Some?;
    var e := j + base + RunLen(t, j + base, IsDigit);
    assert t[e] == '%';
  }

  /** Text without `%` holds no numbered token. */
  lemma NumberedPhaseNoPercent(t: string, fmts: seq<string>, adds: seq<string>)
    requires '%' !in t
    ensures NumberedPhase(t, fmts, adds) == t
  {
    forall p, b: bool | 0 <= p < |t| ensures NumTokAt(t, p, fmts, adds, b).None? {
      if NumTokAt(t, p, fmts, adds, b).Some? {
        NumTokShape(t, p, fmts, adds, b);
        assert false;
      }
    }
    SubNone(t, 0, Matcher(fmts, adds, true));
    SubNone(t, 0, Matcher(fmts, adds, false));
  }

  /** No `%` inside a list name: `%` is no letter. */
  lemma NameNoPercent(t: string, j: nat, k: nat)
    requires BaseAt(t, j) != 0 && j <= k < j + BaseAt(t, j)
    ensures t[k] != '%'
  {
    var m := k - j;
    if BaseAt(t, j) == 7 {
      assert m == 0 || m == 1 || m == 2 || m == 3 || m == 4 || m == 5 || m == 6;
    } else {
      assert m == 0 || m == 1 || m == 2 || m == 3 || m == 4 || m == 5 || m == 6 || m == 7
        || m == 8 || m == 9 || m == 10;
    }
  }

  /** A list name found in one text is found wherever the same characters stand. */
  lemma NameMove(t: string, j: nat, u: string, i: nat)
    requires BaseAt(t, j) != 0 && i + BaseAt(t, j) <= |u|
    requires t[j..j + BaseAt(t, j)] == u[i..i + BaseAt(t, j)]
    ensures BaseAt(u, i) == BaseAt(t, j)
  {
    var s := t[j..j + BaseAt(t, j)];
    if BaseAt(t, j) == 7 {
      assert FormatNAt(s, 0);
    } else {
      assert AdditionalNAt(s, 0);
    }
  }

  /** w begins with a numbered list name, in any case. */
  predicate NumberedBase(w: string) {
    BaseAt(w, 0) != 0
  }

  /** A list name right after a `%` that is followed by w and another `%`
      lies inside w. */
  lemma NameAfterPercent(pre: string, w: string, post: string)
    requires '%' !in w && BaseAt(pre + "%" + w + "%" + post, |pre| + 1) != 0
    ensures NumberedBase(w)
  {
    var t := pre + "%" + w + "%" + post;
    var a := |pre|;
    var n := BaseAt(t, a + 1);
    if |w| < n {
      assert t[a + 1 + |w|] == '%';
      NameNoPercent(t, a + 1, a + 1 + |w|);
    } else {
      assert t[a + 1..a + 1 + n] == w[0..n];
      NameMove(t, a + 1, w, 0);
    }
  }

  /** The `%`s of the text are at a and b only. */
  predicate PercentsAt(t: string, a: nat, b: nat) {
    forall q :: 0 <= q < |t| && t[q] == '%' ==> q == a || q == b
  }

  function Lead(bracketed: bool): nat { if bracketed then 2 else 1 }

  /** A token needs its opening `%` at a, since a closing `%` must follow. */
  lemma NoTokenElsewhere(t: string, p: nat, fmts: seq<string>, adds: seq<string>, bk: bool, a: nat, b: nat)
    requires PercentsAt(t, a, b) && a < b && p < |t| && p + Lead(bk) - 1 != a
    ensures NumTokAt(t, p, fmts, adds, bk).None?
  {
    if NumTokAt(t, p, fmts, adds, bk).Some? {
      NumTokShape(t, p, fmts, adds, bk);
      assert false;
    }
  }

  lemma PercentsAround(pre: string, w: string, post: string)
    requires '%' !in pre && '%' !in w && '%' !in post
    ensures PercentsAt(pre + "%" + w + "%" + post, |pre|, |pre| + |w| + 1)
  {
    var t := pre + "%" + w + "%" + post;
    var a := |pre|;
    var b := |pre| + |w| + 1;
    forall q | 0 <= q < |t| && q != a && q != b ensures t[q] != '%' {
      if q < a {
        assert t[q] == pre[q];
      } else if q < b {
        assert t[q] == w[q - a - 1];
      } else {
        assert t[q] == post[q - b - 1];
      }
    }
  }

  /** At the opening `%` of a word that is no numbered list name. */
  lemma NoTokenAtOpen(pre: string, w: string, post: string, p: nat, fmts: seq<string>, adds: seq<string>, bk: bool)
    requires '%' !in w && !NumberedBase(w) && p + Lead(bk) - 1 == |pre|
    ensures NumTokAt(pre + "%" + w + "%" + post, p, fmts, adds, bk).None?
  {
    var t := pre + "%" + w + "%" + post;
    if NumTokAt(t, p, fmts, adds, bk).Some? {
      NumTokShape(t, p, fmts, adds, bk);
      NameAfterPercent(pre, w, post);
      assert false;
    }
  }

  /** Where `%` occurs only around a word that is no numbered list name,
      neither numbered pass finds anything. */
  lemma NumberedPhaseOneToken(pre: string, w: string, post: string, fmts: seq<string>, adds: seq<string>)
    requires '%' !in pre && '%' !in w && '%' !in post && !NumberedBase(w)
    ensures var t := pre + "%" + w + "%" + post; NumberedPhase(t, fmts, adds) == t
  {
    var t := pre + "%" + w + "%" + post;
    PercentsAround(pre, w, post);
    forall p, bk: bool | 0 <= p < |t| ensures NumTokAt(t, p, fmts, adds, bk).None? {
      if p + Lead(bk) - 1 == |pre| {
        NoTokenAtOpen(pre, w, post, p, fmts, adds, bk);
      } else {
        NoTokenElsewhere(t, p, fmts, adds, bk, |pre|, |pre| + |w| + 1);
      }
    }
    SubNone(t, 0, Matcher(fmts, adds, true));
    SubNone(t, 0, Matcher(fmts, adds, false));
  }

  /** `%formatN<digits>%` or `%additionalN<digits>%`, in any case and
      standing alone in otherwise `%`-free text, becomes the entry of that
      number (counted from 1), or the whole list space-joined when there are
      no digits. */
  lemma NumberedPhaseToken(pre: string, w: string, digits: string, post: string, fmts: seq<string>, adds: seq<string>)
    requires ListName(w)
    requires AllDigits(digits) && '%' !in pre && '%' !in post
    requires pre == [] || pre[|pre| - 1] != '['
    ensures NumberedPhase(pre + "%" + w + digits + "%" + post, fmts, adds) ==
      pre + Evaluator.ListToken(if |w| == 7 then fmts else adds,
                                if digits == [] then None else Some(DigitsValue(digits) - 1)) + post
  {
    var t := pre + "%" + w + digits + "%" + post;
    NameDigitsNoPercent(w, digits);
    TokenShape(pre, w, digits, post);
    TokenRead(pre, w, digits, post);
    NumberedTokenAt(t, |pre|, |w|, digits, fmts, adds);
  }

  /** `[%formatN<digits>%]` or `[%additionalN<digits>%]`, in any case and
      standing alone in otherwise `%`-free text, is replaced by the first
      pass with the entry of that number (counted from 1), or the whole
      list space-joined when there are no digits, brackets included; when
      that entry holds no `%`, the second pass leaves the result alone. */
  lemma NumberedBracketedAt(pre: string, w: string, digits: string, post: string, fmts: seq<string>, adds: seq<string>)
    requires ListName(w)
    requires AllDigits(digits) && '%' !in pre && '%' !in post
    ensures var rep := Evaluator.ListToken(if |w| == 7 then fmts else adds,
                                           if digits == [] then None else Some(DigitsValue(digits) - 1));
      var t := pre + "[%" + w + digits + "%]" + post;
      SubAll(t, Matcher(fmts, adds, true)) == pre + rep + post
      && ('%' !in rep ==> NumberedPhase(t, fmts, adds) == pre + rep + post)
  {
    BracketedPass(pre, w, digits, post, fmts, adds);
    ThenPlain(pre + "[%" + w + digits + "%]" + post, pre,
              Evaluator.ListToken(if |w| == 7 then fmts else adds,
                                  if digits == [] then None else Some(DigitsValue(digits) - 1)),
              post, fmts, adds);
  }

  /** When the first pass leaves `%`-free text, the second leaves it alone. */
  lemma ThenPlain(t: string, pre: string, rep: string, post: string, fmts: seq<string>, adds: seq<string>)
    requires SubAll(t, Matcher(fmts, adds, true)) == pre + rep + post
    requires '%' !in pre && '%' !in post
    ensures '%' !in rep ==> NumberedPhase(t, fmts, adds) == pre + rep + post
  {
    if '%' !in rep {
      PlainPassNoPercent(pre + rep + post, fmts, adds);
    }
  }

  /** The first pass over `pre[%<w><digits>%]post` replaces that token alone. */
  lemma BracketedPass(pre: string, w: string, digits: string, post: string, fmts: seq<string>, adds: seq<string>)
    requires ListName(w)
    requires AllDigits(digits) && '%' !in pre && '%' !in post
    ensures SubAll(pre + "[%" + w + digits + "%]" + post, Matcher(fmts, adds, true)) ==
      pre + Evaluator.ListToken(if |w| == 7 then fmts else adds,
                                if digits == [] then None else Some(DigitsValue(digits) - 1)) + post
  {
    var t := pre + "[%" + w + digits + "%]" + post;
    BracketedFacts(pre, w, digits, post);
    BracketedPassAt(t, |pre|, |w|, digits, fmts, adds, pre, post);
  }

  /** What the bracketed pass needs to know of `pre[%<w><digits>%]post`. */
  lemma BracketedFacts(pre: string, w: string, digits: string, post: string)
    requires ListName(w)
    requires AllDigits(digits) && '%' !in pre && '%' !in post
    ensures var t := pre + "[%" + w + digits + "%]" + post; var i := |pre|; var base := |w|;
      i + 4 + base + |digits| <= |t| && t[i] == '[' && t[i + 1] == '%'
      && t[i + 2 + base + |digits|] == '%' && t[i + 3 + base + |digits|] == ']'
      && base != 0 && BaseAt(t, i + 2) == base && RunLen(t, i + 2 + base, IsDigit) == |digits|
      && t[i + 2 + base..i + 2 + base + |digits|] == digits
      && PercentsAt(t, i + 1, i + 2 + base + |digits|)
      && t[..i] == pre && t[i + 4 + base + |digits|..] == post
  {
    var t := pre + "[%" + w + digits + "%]" + post;
    BracketedRegroup(pre, w, digits, post);
    BracketedShape(t, pre + "[", w, digits, "]" + post);
    BracketedEnds(pre, w, digits, post);
  }

  lemma BracketedRegroup(pre: string, w: string, digits: string, post: string)
    ensures pre + "[%" + w + digits + "%]" + post == (pre + "[") + "%" + w + digits + "%" + ("]" + post)
  {
  }

  lemma BracketedEnds(pre: string, w: string, digits: string, post: string)
    ensures var t := pre + "[%" + w + digits + "%]" + post; var b := |pre| + 2 + |w| + |digits|;
      b + 2 <= |t| && t[..|pre|] == pre && t[b + 2..] == post
  {
    var t := pre + "[%" + w + digits + "%]" + post;
    assert t == pre + ("[%" + w + digits + "%]") + post;
  }

  /** The brackets, `%`s and digits of `pre1%<w><digits>%post1` when pre1
      ends with `[` and post1 starts with `]`, and what the matcher reads
      there. */
  lemma BracketedShape(t: string, pre1: string, w: string, digits: string, post1: string)
    requires t == pre1 + "%" + w + digits + "%" + post1
    requires ListName(w) && AllDigits(digits) && '%' !in pre1 && '%' !in post1
    requires pre1 != [] && pre1[|pre1| - 1] == '[' && post1 != [] && post1[0] == ']'
    ensures var a := |pre1|; var b := a + 1 + |w| + |digits|;
      b + 1 < |t| && t[a - 1] == '[' && t[a] == '%' && t[b] == '%' && t[b + 1] == ']'
      && BaseAt(t, a + 1) == |w| && RunLen(t, a + 1 + |w|, IsDigit) == |digits|
      && t[a + 1 + |w|..b] == digits && PercentsAt(t, a, b)
  {
    BracketedPercents(pre1, w, digits, post1);
    TokenRead(pre1, w, digits, post1);
  }

  lemma BracketedPercents(pre1: string, w: string, digits: string, post1: string)
    requires ListName(w) && AllDigits(digits) && '%' !in pre1 && '%' !in post1
    requires pre1 != [] && pre1[|pre1| - 1] == '[' && post1 != [] && post1[0] == ']'
    ensures var t := pre1 + "%" + w + digits + "%" + post1; var a := |pre1|; var b := a + 1 + |w| + |digits|;
      b + 1 < |t| && t[a - 1] == '[' && t[a] == '%' && t[b] == '%' && t[b + 1] == ']'
      && t[a + 1 + |w|..b] == digits && PercentsAt(t, a, b)
  {
    NameDigitsNoPercent(w, digits);
    PercentsAround(pre1, w + digits, post1);
    assert pre1 + "%" + (w + digits) + "%" + post1 == pre1 + "%" + w + digits + "%" + post1;
    TokenSlices(pre1, w, digits, post1);
  }

  /** The first pass over text whose only `%`s are those of a bracketed
      token at i: that token alone is replaced. */
  lemma BracketedPassAt(t: string, i: nat, base: nat, digits: string, fmts: seq<string>, adds: seq<string>,
                        pre: string, post: string)
    requires i + 4 + base + |digits| <= |t| && t[i] == '[' && t[i + 1] == '%'
    requires t[i + 2 + base + |digits|] == '%' && t[i + 3 + base + |digits|] == ']'
    requires base != 0 && BaseAt(t, i + 2) == base && RunLen(t, i + 2 + base, IsDigit) == |digits|
    requires AllDigits(digits) && t[i + 2 + base..i + 2 + base + |digits|] == digits
    requires PercentsAt(t, i + 1, i + 2 + base + |digits|)
    requires t[..i] == pre && t[i + 4 + base + |digits|..] == post
    ensures SubAll(t, Matcher(fmts, adds, true)) ==
      pre + Evaluator.ListToken(if base == 7 then fmts else adds,
                                if digits == [] then None else Some(DigitsValue(digits) - 1)) + post
  {
    BracketedHit(t, i, fmts, adds, base, digits);
    var m := Matcher(fmts, adds, true);
    assert m(t, i) == NumTokAt(t, i, fmts, adds, true);
    forall p | 0 <= p < |t| && p != i ensures m(t, p).None? {
      NoTokenElsewhere(t, p, fmts, adds, true, i + 1, i + 2 + base + |digits|);
    }
    SubOne(t, i, m);
  }

  /** What the bracketed pattern makes of a list name and a digit run
      between `[%` and `%]`. */
  lemma BracketedHit(t: string, i: nat, fmts: seq<string>, adds: seq<string>, base: nat, digits: string)
    requires i + 4 + base + |digits| <= |t| && t[i] == '[' && t[i + 1] == '%'
    requires t[i + 2 + base + |digits|] == '%' && t[i + 3 + base + |digits|] == ']'
    requires base != 0 && BaseAt(t, i + 2) == base && RunLen(t, i + 2 + base, IsDigit) == |digits|
    requires AllDigits(digits) && t[i + 2 + base..i + 2 + base + |digits|] == digits
    ensures NumTokAt(t, i, fmts, adds, true) ==
      Some(Hit(Evaluator.ListToken(if base == 7 then fmts else adds,
                                   if digits == [] then None else Some(DigitsValue(digits) - 1)),
               base + |digits| + 4))
  {
  }

  /** The second pass finds nothing in `%`-free text. */
  lemma PlainPassNoPercent(t: string, fmts: seq<string>, adds: seq<string>)
    requires '%' !in t
    ensures SubAll(t, Matcher(fmts, adds, false)) == t
  {
    forall p | 0 <= p < |t| ensures NumTokAt(t, p, fmts, adds, false).None? {
      if NumTokAt(t, p, fmts, adds, false).Some? {
        NumTokShape(t, p, fmts, adds, false);
        assert false;
      }
    }
    SubNone(t, 0, Matcher(fmts, adds, false));
  }

  /** The `%`s and slices of `pre%<w><digits>%post`. */
  lemma TokenShape(pre: string, w: string, digits: string, post: string)
    requires '%' !in w + digits && '%' !in pre && '%' !in post
    requires pre == [] || pre[|pre| - 1] != '['
    ensures var t := pre + "%" + w + digits + "%" + post; var a := |pre|; var b := a + 1 + |w| + |digits|;
      b < |t| && t[a] == '%' && t[b] == '%' && t[a + 1 + |w|..b] == digits
      && PercentsAt(t, a, b) && (a == 0 || t[a - 1] != '[')
      && t[..a] == pre && t[b + 1..] == post
  {
    var t := pre + "%" + w + digits + "%" + post;
    var a := |pre|;
    var b := a + 1 + |w| + |digits|;
    TokenSlices(pre, w, digits, post);
    assert t == pre + "%" + (w + digits) + "%" + post;
    PercentsAround(pre, w + digits, post);
    assert a == 0 || t[a - 1] != '[' by {
      if a > 0 {
        assert t[a - 1] == pre[|pre| - 1];
      }
    }
    assert t[..a] == pre && t[b + 1..] == post;
  }

  /** The matcher reads the list name and the digits of `pre%<w><digits>%post`. */
  lemma TokenRead(pre: string, w: string, digits: string, post: string)
    requires ListName(w) && AllDigits(digits)
    ensures var t := pre + "%" + w + digits + "%" + post; var a := |pre|;
      |w| != 0 && BaseAt(t, a + 1) == |w| && RunLen(t, a + 1 + |w|, IsDigit) == |digits|
  {
    var t := pre + "%" + w + digits + "%" + post;
    var a := |pre|;
    assert t[a + 1..a + 1 + |w|] == w && t[a + 1 + |w|..a + 1 + |w| + |digits|] == digits
        && t[a + 1 + |w| + |digits|] == '%' by {
      TokenSlices(pre, w, digits, post);
    }
    TokenFacts(t, a, w, digits);
  }

  /** The same in any text whose only `%`s open and close a token at a,
      knowing of the name only that the matcher reads a list name of
      length base there. */
  lemma NumberedTokenAt(t: string, a: nat, base: nat, digits: string, fmts: seq<string>, adds: seq<string>)
    requires a + 2 + base + |digits| <= |t| && t[a] == '%' && t[a + 1 + base + |digits|] == '%'
    requires base != 0 && BaseAt(t, a + 1) == base && RunLen(t, a + 1 + base, IsDigit) == |digits|
    requires AllDigits(digits) && t[a + 1 + base..a + 1 + base + |digits|] == digits
    requires PercentsAt(t, a, a + 1 + base + |digits|) && (a == 0 || t[a - 1] != '[')
    ensures NumberedPhase(t, fmts, adds) ==
      t[..a] + Evaluator.ListToken(if base == 7 then fmts else adds,
                                   if digits == [] then None else Some(DigitsValue(digits) - 1))
      + t[a + 2 + base + |digits|..]
  {
    NumTokHit(t, a, fmts, adds, base, digits);
    NumberedPassAt(t, a, a + 1 + base + |digits|, fmts, adds,
                   Evaluator.ListToken(if base == 7 then fmts else adds,
                                       if digits == [] then None else Some(DigitsValue(digits) - 1)),
                   base + |digits| + 2);
  }

  /** Both passes over text whose only `%`s are at a and b, with no `[`
      before a, when the plain pass matches the token from a to b: that
      token alone is replaced. */
  lemma NumberedPassAt(t: string, a: nat, b: nat, fmts: seq<string>, adds: seq<string>, rep: string, len: nat)
    requires PercentsAt(t, a, b) && a < b < |t| && b == a + len - 1
    requires a == 0 || t[a - 1] != '['
    requires NumTokAt(t, a, fmts, adds, false) == Some(Hit(rep, len))
    ensures NumberedPhase(t, fmts, adds) == t[..a] + rep + t[a + len..]
  {
    BracketedNone(t, a, b, fmts, adds);
    PlainPassAt(t, a, b, fmts, adds, rep, len);
  }

  /** The plain pass over text whose only `%`s are at a and b, when the
      token from a to b matches. */
  lemma PlainPassAt(t: string, a: nat, b: nat, fmts: seq<string>, adds: seq<string>, rep: string, len: nat)
    requires PercentsAt(t, a, b) && a < b < |t| && b == a + len - 1
    requires NumTokAt(t, a, fmts, adds, false) == Some(Hit(rep, len))
    ensures SubAll(t, Matcher(fmts, adds, false)) == t[..a] + rep + t[a + len..]
  {
    forall p | 0 <= p < |t| && (p < a || p >= b + 1) ensures NumTokAt(t, p, fmts, adds, false).None? {
      NoTokenElsewhere(t, p, fmts, adds, false, a, b);
    }
    var m := Matcher(fmts, adds, false);
    assert m(t, a) == NumTokAt(t, a, fmts, adds, false);
    SubOne(t, a, m);
  }

  /** With no `[` before the opening `%`, the bracketed pass finds nothing. */
  lemma BracketedNone(t: string, a: nat, b: nat, fmts: seq<string>, adds: seq<string>)
    requires PercentsAt(t, a, b) && a < b < |t| && (a == 0 || t[a - 1] != '[')
    ensures SubAll(t, Matcher(fmts, adds, true)) == t
  {
    forall p | 0 <= p < |t| ensures NumTokAt(t, p, fmts, adds, true).None? {
      if p + 1 == a {
        assert t[p..p + 2][0] != '[';
      } else {
        NoTokenElsewhere(t, p, fmts, adds, true, a, b);
      }
    }
    SubNone(t, 0, Matcher(fmts, adds, true));
  }

  lemma NameDigitsNoPercent(w: string, digits: string)
    requires ListName(w)
    requires AllDigits(digits)
    ensures '%' !in w + digits
  {
    forall k | 0 <= k < |w| ensures w[k] != '%' {
      NameNoPercent(w, 0, k);
    }
  }

  lemma TokenFacts(t: string, a: nat, w: string, digits: string)
    requires ListName(w) && AllDigits(digits) && a + 2 + |w| + |digits| <= |t|
    requires t[a + 1..a + 1 + |w|] == w && t[a + 1 + |w|..a + 1 + |w| + |digits|] == digits
    requires t[a + 1 + |w| + |digits|] == '%'
    ensures BaseAt(t, a + 1) == |w| && RunLen(t, a + 1 + |w|, IsDigit) == |digits|
  {
    DigitRun(t, a + 1 + |w|, digits);
    BaseAtName(t, a + 1, w);
  }

  /** What the plain pattern makes of a list name and a digit run between two `%`s. */
  lemma NumTokHit(t: string, i: nat, fmts: seq<string>, adds: seq<string>, base: nat, digits: string)
    requires i + 2 + base + |digits| <= |t| && t[i] == '%' && t[i + 1 + base + |digits|] == '%'
    requires base != 0 && BaseAt(t, i + 1) == base && RunLen(t, i + 1 + base, IsDigit) == |digits|
    requires AllDigits(digits) && t[i + 1 + base..i + 1 + base + |digits|] == digits
    ensures NumTokAt(t, i, fmts, adds, false) ==
      Some(Hit(Evaluator.ListToken(if base == 7 then fmts else adds,
                                   if digits == [] then None else Some(DigitsValue(digits) - 1)),
               base + |digits| + 2))
  {
  }

  /** A list name found in the text has its own length. */
  lemma BaseAtName(t: string, j: nat, w: string)
    requires ListName(w) && j + |w| <= |t| && t[j..j + |w|] == w
    ensures BaseAt(t, j) == |w|
  {
    assert BaseAt(w, 0) == |w|;
    assert w[0..|w|] == t[j..j + |w|];
    NameMove(w, 0, t, j);
  }

  lemma DigitRun(t: string, k: nat, digits: string)
    requires AllDigits(digits) && k + |digits| < |t| && t[k..k + |digits|] == digits && t[k + |digits|] == '%'
    ensures RunLen(t, k, IsDigit) == |digits|
  {
    forall q | k <= q < k + |digits| ensures IsDigit(t[q]) {
      assert t[q] == digits[q - k];
    }
    RunLenExact(t, k, IsDigit, |digits|);
  }

  lemma TokenSlices(pre: string, w: string, digits: string, post: string)
    ensures var t := pre + "%" + w + digits + "%" + post; var a := |pre|;
      t[a] == '%' && t[a + 1..a + 1 + |w|] == w && t[a + 1 + |w|..a + 1 + |w| + |digits|] == digits
      && t[a + 1 + |w| + |digits|] == '%'
  {
  }

  // ---------------------------------------------------------------- the token loop

  /** The token table's keys are `%`-delimited words. */
  lemma ReplKeys(e: Env)
    ensures DelimitedKeys(Repl(e))
  {
    var d := Repl(e);
    forall i | 0 <= i < |d| ensures '%' !in d[i].0[1..|d[i].0| - 1] {
      InnerNoPercent(d[i].0);
    }
  }

  /** No value of the token table holds a `%`. */
  predicate EnvNoPercent(e: Env) {
    ValuesNoPercent(Repl(e))
  }

  /** Everything `_apply_scheme` does before the function calls. */
  function TokenPhase(e: Env, pattern: string): string {
    ReplaceEach(NumberedPhase(pattern, FmtParts(e), AddParts(e)), Repl(e))
  }

  /** What `%w%` becomes: its value in the token table, or itself. */
  function TokenValue(e: Env, w: string): string {
    GetOr(Repl(e), "%" + w + "%", "%" + w + "%")
  }

  /** A single `%w%` that is no numbered list token, in `%`-free text, is
      replaced by its table value (or kept when w is no key) and nothing
      else changes. */
  lemma TokenPhaseOneToken(e: Env, pre: string, w: string, post: string)
    requires '%' !in pre && '%' !in w && '%' !in post && !NumberedBase(w) && EnvNoPercent(e)
    ensures TokenPhase(e, pre + "%" + w + "%" + post) == pre + TokenValue(e, w) + post
  {
    ReplKeys(e);
    OneTokenWith(pre, w, post, FmtParts(e), AddParts(e), Repl(e));
  }

  /** The same, for any table of `%`-delimited keys. */
  lemma OneTokenWith(pre: string, w: string, post: string, fmts: seq<string>, adds: seq<string>, d: Dict<string>)
    requires '%' !in pre && '%' !in w && '%' !in post && !NumberedBase(w)
    requires DelimitedKeys(d) && ValuesNoPercent(d)
    ensures ReplaceEach(NumberedPhase(pre + "%" + w + "%" + post, fmts, adds), d) ==
      pre + GetOr(d, "%" + w + "%", "%" + w + "%") + post
  {
    NumberedPhaseOneToken(pre, w, post, fmts, adds);
    ReplaceEachDelimited(pre, w, post, d);
  }

  /** Text without `%` passes the token phase unchanged. */
  lemma TokenPhaseNoPercent(e: Env, pattern: string)
    requires '%' !in pattern
    ensures TokenPhase(e, pattern) == pattern
  {
    NumberedPhaseNoPercent(pattern, FmtParts(e), AddParts(e));
    ReplKeys(e);
    ReplaceEachNoPercent(pattern, Repl(e));
  }

  // ---------------------------------------------------------------- function calls

  /** `_val`: a `%tok%` argument reads the token table (missing is ""),
      `artist`, `filename` and `date` read the call's own values, anything
      else reads the metadata or stands for itself. */
  function Val(e: Env, arg: string): string {
    if StartsWith(arg, "%") && EndsWith(arg, "%") then GetOr(Repl(e), arg, "")
    else if arg == "artist" then e.artist
    else if arg == "filename" then e.filename
    else if arg == "date" then DateValue(e)
    else GetOr(e.md, arg, arg)
  }

  /** `float(x or 0)`: the empty value counts as 0. */
  function ToNumber(s: string): Option<real> {
    if s == [] then Some(0.0) else ParseFloat(s)
  }

  /** `f"{res}".rstrip("0").rstrip(".")` when the text has a `.`, else the
      text itself, as written: in the scientific form `str()` gives large
      and small floats ("1.5e+20") the zeros stripped are the exponent's. */
  function ShowNumAsWritten(s: string): string {
    if '.' in s then RStrip(RStrip(s, {'0'}), {'.'}) else s
  }

  /** The display as evidently intended: only the trailing zeros of a
      fraction (and then its `.`) go; a text in scientific form is kept. */
  function ShowNum(s: string): string {
    if '.' in s && 'e' !in s then RStrip(RStrip(s, {'0'}), {'.'}) else s
  }

  datatype ArithOp = Add | Sub | Mul | Div

  function ArithOpOf(func: string): Option<ArithOp> {
    if func == "add" then Some(Add) else if func == "sub" then Some(Sub)
    else if func == "mul" then Some(Mul) else if func == "div" then Some(Div) else None
  }

  function Apply(op: ArithOp, a: real, b: real): real
    requires op.Div? ==> b != 0.0
  {
    match op
    case Add => a + b
    case Sub => a - b
    case Mul => a * b
    case Div => a / b
  }

  /** The arithmetic as written: the dictionary of all four results is built
      before one is picked, so a zero second operand raises
      `ZeroDivisionError` and empties every one of them. */
  function ArithAsWritten(op: ArithOp, a: real, b: real, show: real -> string): string {
    if b == 0.0 then "" else ShowNumAsWritten(show(Apply(op, a, b)))
  }

  /** The arithmetic as evidently intended: only a division by zero is empty. */
  function Arith(op: ArithOp, a: real, b: real, show: real -> string): string {
    if op.Div? && b == 0.0 then "" else ShowNum(show(Apply(op, a, b)))
  }

  /** The arithmetic of a reading. */
  function ArithIn(reading: Reading, op: ArithOp, a: real, b: real, show: real -> string): string {
    match reading
    case AsWritten => ArithAsWritten(op, a, b, show)
    case Intended => Arith(op, a, b, show)
  }

  datatype Cmp = Eq | Lt | Gt

  function CmpOf(func: string): Option<Cmp> {
    if func == "eq" then Some(Eq) else if func == "lt" then Some(Lt)
    else if func == "gt" then Some(Gt) else None
  }

  /** `$eq`, `$lt`, `$gt`: as numbers when both values read as floats,
      otherwise as strings. */
  predicate Compare(c: Cmp, a: string, b: string) {
    match (ParseFloat(a), ParseFloat(b))
    case (Some(x), Some(y)) =>
      (match c
       case Eq => x == y
       case Lt => x < y
       case Gt => x > y)
    case _ =>
      (match c
       case Eq => a == b
       case Lt => LexLess(a, b)
       case Gt => LexLess(b, a))
  }

  /** `$if2`: the value of the first alternative whose value is truthy, or
      the fallback's value. */
  function FirstTruthy(e: Env, alts: seq<string>, fallback: string): string
    decreases |alts|
  {
    if alts == [] then Val(e, fallback)
    else
      var v := Val(e, alts[0]);
      if QueueManager.Truthy(v) then v else FirstTruthy(e, alts[1..], fallback)
  }

  /** The `for a in alts` loop of `$if2`. */
  method PickIf2(e: Env, alts: seq<string>, fallback: string) returns (r: string)
    ensures r == FirstTruthy(e, alts, fallback)
  {
    var i := 0;
    while i < |alts|
      invariant 0 <= i <= |alts|
      invariant FirstTruthy(e, alts[i..], fallback) == FirstTruthy(e, alts, fallback)
    {
      var v := Val(e, alts[i]);
      if QueueManager.Truthy(v) {
        return v;
      }
      assert alts[i..][1..] == alts[i + 1..];
      i := i + 1;
    }
    r := Val(e, fallback);
  }

  /** `_split_args` of a reading: the loop as written, or with a quote of
      the other kind literal inside a quotation. */
  function SplitIn(reading: Reading, raw: string): seq<string> {
    match reading
    case AsWritten => QueueManager.SplitArgsAsWritten(raw)
    case Intended => QueueManager.SplitArgsSpec(raw)
  }

  /** `_func_sub` on one match: the name group (compared in lower case) and
      the raw argument group.  A name with an argument count it does not
      handle is left as the matched text.  Only the `int()` conversions,
      the `float()` conversions of the arithmetic and a `pad` fill that is
      not one character make a call fail. */
  function FuncSub(e: Env, reading: Reading, name: string, raw: string): (r: Result<string, EvalError>)
    ensures r == Failure(Evaluator.ValueError) ==>
      Lower(name) in {"substr", "left", "right", "pad", "add", "sub", "mul", "div"}
    ensures r == Failure(Evaluator.TypeError) ==> Lower(name) == "pad"
    ensures r != Failure(Evaluator.OutOfFuel)
  {
    FuncOfFailures(e, reading, Lower(name), SplitIn(reading, raw), CallText(name, raw));
    FuncOf(e, reading, Lower(name), SplitIn(reading, raw), CallText(name, raw))
  }

  /** The dispatch of `_func_sub` on the lower-cased name and the split
      arguments; `verbatim` is the matched text. */
  function FuncOf(e: Env, reading: Reading, func: string, args: seq<string>, verbatim: string): Result<string, EvalError> {
    var n := |args|;
    if (func == "upper" || func == "lower" || func == "title") && n == 1 then
      var txt := Val(e, args[0]);
      Success(if func == "upper" then Upper(txt) else if func == "lower" then Lower(txt) else Title(txt))
    else if (func == "year" || func == "month" || func == "day") && n == 1 then
      var v := Val(e, args[0]);
      Success(Evaluator.DatePart(func, if v != [] then v else e.date))
    else if func == "len" && n == 1 then Success(NatToStr(|Val(e, args[0])|))
    else if func == "substr" && 2 <= n <= 3 then Evaluator.SubstrOf(Val(e, args[0]), args[1..])
    else if func == "left" && n == 2 then Evaluator.LeftOf(Val(e, args[0]), args[1])
    else if func == "right" && n == 2 then Evaluator.RightOf(Val(e, args[0]), args[1])
    else if func == "replace" && n == 3 then Success(Replace(Val(e, args[0]), args[1], args[2]))
    else if func == "pad" && n >= 2 then
      Evaluator.PadOf(Val(e, args[0]), args[1], if n == 3 && args[2] != [] then args[2] else " ")
    else if ArithOpOf(func).Some? && n == 2 then
      match (ToNumber(Val(e, args[0])), ToNumber(Val(e, args[1])))
      case (Some(a), Some(b)) => Success(ArithIn(reading, ArithOpOf(func).value, a, b, e.showFloat))
      case _ => Failure(Evaluator.ValueError)
    else if CmpOf(func).Some? && n == 2 then
      Success(if Compare(CmpOf(func).value, Val(e, args[0]), Val(e, args[1])) then "1" else "0")
    else if func == "and" then
      Success(if forall i | 0 <= i < n :: QueueManager.Truthy(Val(e, args[i])) then "1" else "0")
    else if func == "or" then
      Success(if exists i | 0 <= i < n :: QueueManager.Truthy(Val(e, args[i])) then "1" else "0")
    else if func == "not" && n == 1 then Success(if QueueManager.Truthy(Val(e, args[0])) then "0" else "1")
    else if func == "if" && n == 3 then
      Success(if QueueManager.Truthy(Val(e, args[0])) then Val(e, args[1]) else Val(e, args[2]))
    else if func == "if2" && n >= 2 then Success(FirstTruthy(e, args[..n - 1], args[n - 1]))
    else if func == "datetime" && n == 0 then Success(e.now)
    else Success(verbatim)
  }

  /** The callback handed to `FUNC_RE.sub`, and one pass of it. */
  function Callback(e: Env, reading: Reading): (string, string) -> Result<string, EvalError> {
    (name: string, raw: string) => FuncSub(e, reading, name, raw)
  }

  function Pass(e: Env, reading: Reading): string -> Result<string, EvalError> {
    (t: string) => SubCalls(t, 0, Callback(e, reading))
  }

  // ---------------------------------------------------------------- properties of the calls

  /** An unknown function, or a known one with an argument count it does not
      take, is left in the text exactly as written. */
  lemma UnknownCallVerbatim(e: Env, reading: Reading, name: string, raw: string)
    requires !Evaluator.Handled(Lower(name), |SplitIn(reading, raw)|)
    ensures FuncSub(e, reading, name, raw) == Success(CallText(name, raw))
  {
  }

  /** Only the `int()` conversions of `substr`, `left`, `right` and `pad`,
      the `float()` conversions of the arithmetic and a `pad` fill that is
      not one character make a call fail. */
  lemma FuncOfFailures(e: Env, reading: Reading, func: string, args: seq<string>, verbatim: string)
    ensures FuncOf(e, reading, func, args, verbatim) == Failure(Evaluator.ValueError) ==>
      func in {"substr", "left", "right", "pad", "add", "sub", "mul", "div"}
    ensures FuncOf(e, reading, func, args, verbatim) == Failure(Evaluator.TypeError) ==> func == "pad"
    ensures FuncOf(e, reading, func, args, verbatim) != Failure(Evaluator.OutOfFuel)
  {
    if func !in {"substr", "left", "right", "pad", "add", "sub", "mul", "div"} {
      FuncOfTotal(e, reading, func, args, verbatim);
    } else if func != "pad" {
      FuncOfParsing(e, reading, func, args, verbatim);
    }
  }

  lemma FuncOfTotal(e: Env, reading: Reading, func: string, args: seq<string>, verbatim: string)
    requires func !in {"substr", "left", "right", "pad", "add", "sub", "mul", "div"}
    ensures FuncOf(e, reading, func, args, verbatim).Success?
  {
    assert ArithOpOf(func).None?;
  }

  lemma FuncOfParsing(e: Env, reading: Reading, func: string, args: seq<string>, verbatim: string)
    requires func in {"substr", "left", "right", "add", "sub", "mul", "div"}
    ensures FuncOf(e, reading, func, args, verbatim).Success? || FuncOf(e, reading, func, args, verbatim) == Failure(Evaluator.ValueError)
  {
  }

  /** Apart from a zero second operand and a result shown in scientific
      form, the arithmetic as written and as intended agree. */
  lemma ArithAgrees(op: ArithOp, a: real, b: real, show: real -> string)
    requires b != 0.0 && 'e' !in show(Apply(op, a, b))
    ensures ArithAsWritten(op, a, b, show) == Arith(op, a, b, show)
  {
  }

  /** A division by zero is empty either way; `$add`, `$sub` and `$mul` with
      a zero second operand are empty only as written. */
  lemma ArithZero(op: ArithOp, a: real, show: real -> string)
    ensures ArithAsWritten(op, a, 0.0, show) == ""
    ensures Arith(op, a, 0.0, show) == if op.Div? then "" else ShowNum(show(Apply(op, a, 0.0)))
  {
  }

  /** `$add(5, 0)`: with `str(5.0) == "5.0"` the intended result is "5", the
      result as written is "". */
  lemma AddZeroLost(show: real -> string)
    requires show(5.0) == "5.0"
    ensures ArithAsWritten(Add, 5.0, 0.0, show) == ""
    ensures Arith(Add, 5.0, 0.0, show) == "5"
  {
    assert Apply(Add, 5.0, 0.0) == 5.0;
    assert "5" + ".0" == "5.0";
    ShowNumWhole("5");
  }

  /** `$add(d,0)` as a whole call, for any plain number d that `str()`
      shows with a `.0` and that is no metadata key (nor is "0"): the call
      as written gives "", as intended d itself. */
  lemma AddZeroCall(e: Env, d: string)
    requires d != [] && AllDigits(d) && e.showFloat(DigitsValue(d) as real) == d + ".0"
    requires !HasKey(e.md, d) && !HasKey(e.md, "0")
    ensures FuncSub(e, AsWritten, "add", d + ",0") == Success("")
    ensures FuncSub(e, Intended, "add", d + ",0") == Success(d)
  {
    AddZero(e, AsWritten, d);
    AddZero(e, Intended, d);
    ShowNumWhole(d);
  }

  /** `$add(d,0)` under either reading is that reading's sum of d and 0. */
  lemma AddZero(e: Env, reading: Reading, d: string)
    requires d != [] && AllDigits(d) && !HasKey(e.md, d) && !HasKey(e.md, "0")
    ensures FuncSub(e, reading, "add", d + ",0") == Success(ArithIn(reading, Add, DigitsValue(d) as real, 0.0, e.showFloat))
  {
    assert Lower("add") == "add" && ArithOpOf("add") == Some(Add);
    assert AllDigits("0") && DigitsValue("0") == 0;
    SplitZero(reading, d);
    ArithOnDigits(e, reading, "add", d + ",0", d, "0");
  }

  /** Both splitters read `d,0` as the two values d and "0". */
  lemma SplitZero(reading: Reading, d: string)
    requires d != [] && AllDigits(d)
    ensures SplitIn(reading, d + ",0") == [d, "0"]
  {
    var args := [Bare(d), Bare("0")];
    assert Join(",", ArgTexts(args)) == d + ",0" by {
      assert ArgTexts(args) == [d, "0"];
    }
    assert forall k :: 0 <= k < |d| ==> d[k] != ',' && !QueueManager.IsQuote(d[k]);
    assert QueueManager.AllGivenBack(args, false);
    QueueManager.SplitArgsRoundTrip(args);
    QueueManager.ValuesPair(args[0], args[1], QueueManager.Value);
    assert args == [args[0], args[1]];
    assert QueueManager.Value(args[0]) == d && QueueManager.Value(args[1]) == "0" by {
      QueueManager.BareValue(d);
      QueueManager.BareValue("0");
      DigitsUnstripped(d);
      DigitsUnstripped("0");
    }
  }

  /** An arithmetic call on two plain numbers that are no metadata keys
      computes the arithmetic of the reading on their values. */
  lemma ArithOnDigits(e: Env, reading: Reading, name: string, raw: string, x: string, y: string)
    requires ArithOpOf(Lower(name)).Some? && SplitIn(reading, raw) == [x, y]
    requires x != [] && AllDigits(x) && !HasKey(e.md, x)
    requires y != [] && AllDigits(y) && !HasKey(e.md, y)
    ensures FuncSub(e, reading, name, raw) ==
      Success(ArithIn(reading, ArithOpOf(Lower(name)).value, DigitsValue(x) as real, DigitsValue(y) as real, e.showFloat))
  {
    ValOfDigits(e, x);
    ValOfDigits(e, y);
    ArithOfParts(e, reading, name, raw);
  }

  /** A value of plain digits that is not a metadata key is read as their
      number. */
  lemma ValOfDigits(e: Env, d: string)
    requires d != [] && AllDigits(d) && !HasKey(e.md, d)
    ensures ToNumber(Val(e, d)) == Some(DigitsValue(d) as real)
  {
    assert !StartsWith(d, "%") by {
      assert IsDigit(d[0]);
    }
    assert d != "artist" && d != "filename" && d != "date" by {
      assert IsDigit(d[0]);
    }
    ParseFloatDigits(d);
  }

  /** `$add`, `$sub`, `$mul` and `$div` with two arguments compute the
      arithmetic of the reading on their values read as floats, and fail
      with `ValueError` when a value does not read as one. */
  lemma ArithOfParts(e: Env, reading: Reading, name: string, raw: string)
    requires ArithOpOf(Lower(name)).Some? && |SplitIn(reading, raw)| == 2
    ensures var args := SplitIn(reading, raw);
      FuncSub(e, reading, name, raw) ==
        match (ToNumber(Val(e, args[0])), ToNumber(Val(e, args[1])))
        case (Some(a), Some(b)) => Success(ArithIn(reading, ArithOpOf(Lower(name)).value, a, b, e.showFloat))
        case _ => Failure(Evaluator.ValueError)
  {
    ArithOf(e, reading, Lower(name), SplitIn(reading, raw), CallText(name, raw));
  }

  lemma ArithOf(e: Env, reading: Reading, func: string, args: seq<string>, verbatim: string)
    requires ArithOpOf(func).Some? && |args| == 2
    ensures FuncOf(e, reading, func, args, verbatim) ==
      match (ToNumber(Val(e, args[0])), ToNumber(Val(e, args[1])))
      case (Some(a), Some(b)) => Success(ArithIn(reading, ArithOpOf(func).value, a, b, e.showFloat))
      case _ => Failure(Evaluator.ValueError)
  {
    assert func in {"add", "sub", "mul", "div"};
  }

  /** A whole number shown as `<digits>.0` loses its `.0`. */
  lemma ShowNumWhole(d: string)
    requires d != [] && AllDigits(d)
    ensures ShowNum(d + ".0") == d
  {
    var s := d + ".0";
    assert s[|d|] == '.';
    var t := RStrip(s, {'0'});
    assert TrailLen(s, {'0'}) == 1 by {
      assert s[..|s| - 1] == d + ".";
      assert TrailLen(d + ".", {'0'}) == 0;
    }
    assert t == d + ".";
    assert TrailLen(t, {'.'}) == 1 by {
      assert t[..|t| - 1] == d;
      assert d[|d| - 1] != '.';
    }
    assert RStrip(t, {'.'}) == d;
  }

  /** As written, a text with a `.` that ends in one zero after a non-zero
      character loses that zero. */
  lemma ZeroStripped(p: string)
    requires '.' in p && p != [] && p[|p| - 1] != '0' && p[|p| - 1] != '.'
    ensures ShowNumAsWritten(p + "0") == p
  {
    var s := p + "0";
    assert '.' in s by {
      var j :| 0 <= j < |p| && p[j] == '.';
      assert s[j] == '.';
    }
    assert TrailLen(s, {'0'}) == 1 by {
      assert s[..|s| - 1] == p;
    }
    assert RStrip(s, {'0'}) == p by {
      assert s[..|s| - 1] == p;
    }
    assert TrailLen(p, {'.'}) == 0;
    assert RStrip(p, {'.'}) == p;
  }

  /** `$mul(1.5, 100000000000000000000)`: `str()` shows the product as
      "1.5e+20"; as written the exponent's zero is stripped, as intended the
      text is kept. */
  lemma ExponentZeroLost(show: real -> string)
    requires show(150000000000000000000.0) == "1.5e+20"
    ensures ArithAsWritten(Mul, 1.5, 100000000000000000000.0, show) == "1.5e+2"
    ensures Arith(Mul, 1.5, 100000000000000000000.0, show) == "1.5e+20"
  {
    assert Apply(Mul, 1.5, 100000000000000000000.0) == 150000000000000000000.0;
    var p := "1.5e+2";
    assert p[1] == '.' && p[3] == 'e';
    assert p + "0" == "1.5e+20";
    ZeroStripped(p);
    var s := "1.5e+20";
    assert s[3] == 'e';
  }

  /** `$lt(a, b)` is `$gt(b, a)`, and `$eq` does not depend on the order. */
  lemma CompareSwap(a: string, b: string)
    ensures Compare(Lt, a, b) == Compare(Gt, b, a)
    ensures Compare(Eq, a, b) == Compare(Eq, b, a)
  {
  }

  /** Exactly one of `$eq`, `$lt` and `$gt` gives "1" for any two values. */
  lemma CompareTrichotomy(a: string, b: string)
    ensures Compare(Eq, a, b) || Compare(Lt, a, b) || Compare(Gt, a, b)
    ensures !(Compare(Eq, a, b) && Compare(Lt, a, b))
    ensures !(Compare(Eq, a, b) && Compare(Gt, a, b))
    ensures !(Compare(Lt, a, b) && Compare(Gt, a, b))
  {
    LexLessTotal(a, b);
    LexLessAsymmetric(a, b);
    LexLessIrreflexive(a);
  }

  /** `$if2`: when the alternatives before i all have untruthy values, the
      first one with a truthy value decides, and with none at all the
      fallback's value is the result. */
  lemma {:induction false} FirstTruthyFirst(e: Env, alts: seq<string>, fallback: string, i: nat)
    requires i <= |alts| && forall j :: 0 <= j < i ==> !QueueManager.Truthy(Val(e, alts[j]))
    ensures i < |alts| && QueueManager.Truthy(Val(e, alts[i])) ==> FirstTruthy(e, alts, fallback) == Val(e, alts[i])
    ensures i == |alts| ==> FirstTruthy(e, alts, fallback) == Val(e, fallback)
    decreases i
  {
    if i > 0 {
      var tail := alts[1..];
      assert !QueueManager.Truthy(Val(e, alts[0]));
      FirstTruthySkip(e, alts, fallback);
      forall j | 0 <= j < i - 1 ensures !QueueManager.Truthy(Val(e, tail[j])) {
        assert tail[j] == alts[j + 1];
      }
      FirstTruthyFirst(e, tail, fallback, i - 1);
      if i < |alts| {
        assert tail[i - 1] == alts[i];
      }
    }
  }

  /** An alternative whose value is not truthy is passed over. */
  lemma FirstTruthySkip(e: Env, alts: seq<string>, fallback: string)
    requires alts != [] && !QueueManager.Truthy(Val(e, alts[0]))
    ensures FirstTruthy(e, alts, fallback) == FirstTruthy(e, alts[1..], fallback)
  {
  }

  /** A `%tok%` argument reads what the token phase puts in place of the
      token when it is in the table, and "" where the token phase would
      leave it. */
  lemma ValOfToken(e: Env, w: string)
    ensures Val(e, "%" + w + "%") == if HasKey(Repl(e), "%" + w + "%") then TokenValue(e, w) else ""
  {
    var k := "%" + w + "%";
    assert StartsWith(k, "%") && EndsWith(k, "%") by {
      assert k[..1] == "%" && k[|k| - 1..] == "%";
    }
  }

  /** `$if(c, x, y)`, in any letter case, gives x's value when c's value is
      truthy and y's otherwise, when the splitter of the reading gives the
      three arguments back: any well-formed ones as intended, and as written
      those whose quoted text holds no quote. */
  lemma IfPicksBranch(e: Env, reading: Reading, name: string, c: Arg, x: Arg, y: Arg)
    requires Lower(name) == "if"
    requires QueueManager.AllGivenBack([c, x, y], reading.Intended?) && ArgText(y) != []
    ensures FuncSub(e, reading, name, Join(",", ArgTexts([c, x, y]))) ==
      Success(if QueueManager.Truthy(Val(e, QueueManager.Value(c))) then Val(e, QueueManager.Value(x))
              else Val(e, QueueManager.Value(y)))
  {
    var raw := Join(",", ArgTexts([c, x, y]));
    ThreeArgs(reading, c, x, y);
    IfOfParts(e, reading, name, raw);
  }

  /** Three arguments the splitter gives back, the last non-empty, split
      into their values. */
  lemma ThreeArgs(reading: Reading, c: Arg, x: Arg, y: Arg)
    requires QueueManager.AllGivenBack([c, x, y], reading.Intended?) && ArgText(y) != []
    ensures SplitIn(reading, Join(",", ArgTexts([c, x, y]))) ==
      [QueueManager.Value(c), QueueManager.Value(x), QueueManager.Value(y)]
  {
    var args := [c, x, y];
    QueueManager.SplitRoundTrip(args, reading.Intended?);
    assert args[|args| - 1] == y;
    QueueManager.ValuesPair(x, y, QueueManager.Value);
    assert args[1..] == [x, y];
    assert QueueManager.Values(args, QueueManager.Value) ==
      [QueueManager.Value(c)] + QueueManager.Values([x, y], QueueManager.Value);
  }

  lemma IfOfParts(e: Env, reading: Reading, name: string, raw: string)
    requires Lower(name) == "if" && |SplitIn(reading, raw)| == 3
    ensures var args := SplitIn(reading, raw);
      FuncSub(e, reading, name, raw) ==
        Success(if QueueManager.Truthy(Val(e, args[0])) then Val(e, args[1]) else Val(e, args[2]))
  {
  }

  // ---------------------------------------------------------------- cleanup

  /** `while out.startswith(sep): out = out[len(sep):].lstrip()` */
  function TrimLead(s: string, sep: string): (r: string)
    requires sep != []
    ensures !StartsWith(r, sep)
    decreases |s|
  {
    if StartsWith(s, sep) then TrimLead(LStrip(s[|sep|..], Whitespace), sep) else s
  }

  /** `while out.endswith(sep): out = out[:-len(sep)].rstrip()` */
  function TrimTail(s: string, sep: string): (r: string)
    requires sep != []
    ensures !EndsWith(r, sep)
    decreases |s|
  {
    if EndsWith(s, sep) then TrimTail(RStrip(s[..|s| - |sep|], Whitespace), sep) else s
  }

  const Seps: seq<string> := [" - ", "--", "- -"]

  predicate NonEmptySeps(seps: seq<string>) {
    forall i :: 0 <= i < |seps| ==> seps[i] != []
  }

  /** Both trimming loops for each separator in turn. */
  function TrimAll(s: string, seps: seq<string>): string
    requires NonEmptySeps(seps)
    decreases |seps|
  {
    if seps == [] then s else TrimAll(TrimTail(TrimLead(s, seps[0]), seps[0]), seps[1..])
  }

  /** The final cleanup: repeated dashes, runs of whitespace, `strip()`, then
      the separator loops. */
  function Cleanup(x: string): string {
    SepsAre();
    TrimAll(Strip(CollapseSpaces(CollapseDashes(x))), Seps)
  }

  /** The separator loops of the cleanup. */
  method TrimSeparators(s: string) returns (out: string)
    ensures out == TrimAll(s, Seps)
  {
    out := s;
    SepsAre();
    var i := 0;
    while i < |Seps|
      invariant 0 <= i <= |Seps|
      invariant TrimAll(out, Seps[i..]) == TrimAll(s, Seps)
    {
      var sep := Seps[i];
      ghost var before := out;
      while StartsWith(out, sep)
        invariant TrimLead(out, sep) == TrimLead(before, sep)
        decreases |out|
      {
        out := LStrip(out[|sep|..], Whitespace);
      }
      ghost var mid := out;
      while EndsWith(out, sep)
        invariant TrimTail(out, sep) == TrimTail(mid, sep)
        decreases |out|
      {
        out := RStrip(out[..|out| - |sep|], Whitespace);
      }
      assert Seps[i..][1..] == Seps[i + 1..];
      i := i + 1;
    }
  }

  /** The separators, one by one. */
  lemma SepsAre()
    ensures |Seps| == 3 && Seps[0] == " - " && Seps[1] == "--" && Seps[2] == "- -"
    ensures NonEmptySeps(Seps)
  {
  }

  /** The loops change nothing when no separator starts or ends the text. */
  lemma {:induction false} TrimAllNoSep(s: string, seps: seq<string>)
    requires NonEmptySeps(seps)
    requires forall i :: 0 <= i < |seps| ==> !StartsWith(s, seps[i]) && !EndsWith(s, seps[i])
    ensures TrimAll(s, seps) == s
    decreases |seps|
  {
    if seps != [] {
      assert !StartsWith(s, seps[0]) && !EndsWith(s, seps[0]);
      forall i | 0 <= i < |seps[1..]| ensures seps[1..][i] == seps[i + 1] { }
      TrimAllNoSep(s, seps[1..]);
    }
  }

  /** A text that does not contain sep neither starts nor ends with it. */
  lemma NotAtEnds(s: string, sep: string)
    requires !Contains(s, sep)
    ensures !StartsWith(s, sep) && !EndsWith(s, sep)
  {
    assert StartsWith(s, sep) ==> OccursAt(s, sep, 0);
    assert EndsWith(s, sep) ==> OccursAt(s, sep, |s| - |sep|);
  }

  /** A text with no whitespace at either end neither starts nor ends with ` - `. */
  lemma NotAtEndsSpaced(s: string)
    requires s != [] ==> !IsSpace(s[0]) && !IsSpace(s[|s| - 1])
    ensures !StartsWith(s, " - ") && !EndsWith(s, " - ")
  {
  }

  /** Text with no whitespace at either end and no `--` or `- -` has none of
      the separators at either end, so the loops leave it alone. */
  lemma TrimInert(s: string)
    requires s != [] ==> !IsSpace(s[0]) && !IsSpace(s[|s| - 1])
    requires !Contains(s, "--") && !Contains(s, "- -")
    ensures TrimAll(s, Seps) == s
  {
    SepsAre();
    NotAtEndsSpaced(s);
    NotAtEnds(s, "--");
    NotAtEnds(s, "- -");
    TrimAllNoSep(s, Seps);
  }

  /** After the dash and whitespace passes and `strip()` the separator loops
      never fire: the result has no two dashes with only whitespace between
      them, no two whitespace characters in a row and no whitespace at
      either end. */
  lemma CleanupShape(x: string)
    ensures Cleanup(x) == Strip(CollapseSpaces(CollapseDashes(x)))
    ensures var r := Cleanup(x);
      NoLoose(r) && NoDoubleSpace(r) && (r != [] ==> !IsSpace(r[0]) && !IsSpace(r[|r| - 1]))
      && !Contains(r, "--") && !Contains(r, "- -")
  {
    var r := Strip(CollapseSpaces(CollapseDashes(x)));
    CollapseThenStrip(x);
    NoLooseNoDoubleDash(r);
    TrimInert(r);
  }

  // ---------------------------------------------------------------- _apply_scheme

  /** `_apply_scheme(pattern, md, artist=..., date=..., filename=...)`, with
      at most `fuel` substitution passes.  Whatever the scheme, a result has
      no repeated dashes, no runs of whitespace and no whitespace or
      separator at either end. */
  function ApplySchemeSpec(e: Env, reading: Reading, pattern: string, fuel: nat): (r: Result<string, EvalError>)
    ensures r.Success? ==>
      NoLoose(r.value) && NoDoubleSpace(r.value)
      && (r.value != [] ==> !IsSpace(r.value[0]) && !IsSpace(r.value[|r.value| - 1]))
      && !Contains(r.value, "--") && !Contains(r.value, "- -")
  {
    match Evaluator.Fix(Pass(e, reading), None, TokenPhase(e, pattern), fuel)
    case Failure(err) => Failure(err)
    case Success(out) => CleanupShape(out); Success(Cleanup(out))
  }

  method ApplyScheme(e: Env, reading: Reading, pattern: string, fuel: nat) returns (r: Result<string, EvalError>)
    ensures r == ApplySchemeSpec(e, reading, pattern, fuel)
  {
    var t := NumberedPhase(pattern, FmtParts(e), AddParts(e));
    t := ReplaceTokens(Repl(e), t);
    var f := Evaluator.RunToFixedPoint(Pass(e, reading), t, fuel);
    if f.Failure? {
      return Failure(f.error);
    }
    var out := Strip(CollapseSpaces(CollapseDashes(f.value)));
    out := TrimSeparators(out);
    r := Success(out);
  }

  /** A scheme with neither `%` nor `$` only goes through the cleanup. */
  lemma ApplySchemePlain(e: Env, reading: Reading, text: string, fuel: nat)
    requires '%' !in text && '$' !in text && fuel >= 1
    ensures ApplySchemeSpec(e, reading, text, fuel) == Success(Strip(CollapseSpaces(CollapseDashes(text))))
  {
    TokenPhaseNoPercent(e, text);
    NoDollarUnchanged(text, Callback(e, reading));
    Evaluator.FixStable(Pass(e, reading), text, fuel);
    CleanupShape(text);
  }

  /** A single `%w%` that is no numbered list token, in otherwise plain text,
      comes out as its table value (or as itself when w is no token), then
      cleaned up. */
  lemma ApplySchemeOneToken(e: Env, reading: Reading, pre: string, w: string, post: string, fuel: nat)
    requires '%' !in pre && '%' !in w && '%' !in post && !NumberedBase(w) && EnvNoPercent(e)
    requires '$' !in pre + TokenValue(e, w) + post && fuel >= 1
    ensures ApplySchemeSpec(e, reading, pre + "%" + w + "%" + post, fuel) ==
      Success(Strip(CollapseSpaces(CollapseDashes(pre + TokenValue(e, w) + post))))
  {
    var t := pre + TokenValue(e, w) + post;
    TokenPhaseOneToken(e, pre, w, post);
    NoDollarUnchanged(t, Callback(e, reading));
    Evaluator.FixStable(Pass(e, reading), t, fuel);
    CleanupShape(t);
  }
}

=== FILE: artist_aliases.dfy ===
/** `extract_artist` of utils/artist_aliases.py: the real artist of the first
    alias (in dictionary order) that equals, ignoring case, one of the
    filename's space-separated pieces. */
module ArtistAliases {
  import opened Wrappers
  import opened PyStr
  import opened PyDict

  /** When no alias matches, the source returns a variable it never assigned. */
  datatype AliasError = UnboundLocalError

  /** `[token.lower() for token in filename.split(" ")]` */
  function LowerTokens(filename: string): seq<string> {
    var toks := Split(filename, " ");
    seq(|toks|, k requires 0 <= k < |toks| => Lower(toks[k]))
  }

  predicate AliasHit(alias: string, lowered: seq<string>) {
    Lower(alias) in lowered
  }

  /** The matching (alias, artist) pairs, in dictionary order. */
  function Matches(aliases: Dict<string>, lowered: seq<string>): (r: Dict<string>)
    ensures forall p :: p in r <==> p in aliases && AliasHit(p.0, lowered)
  {
    if aliases == [] then []
    else
      var rest := Matches(aliases[1..], lowered);
      assert forall p :: p in aliases <==> p == aliases[0] || p in aliases[1..];
      if AliasHit(aliases[0].0, lowered) then [aliases[0]] + rest else rest
  }

  /** What `extract_artist` returns: the first match's artist, or the error. */
  function ExtractArtistSpec(filename: string, aliases: Dict<string>): Result<string, AliasError> {
    var m := Matches(aliases, LowerTokens(filename));
    if m == [] then Failure(UnboundLocalError) else Success(m[0].1)
  }

  /** `extract_artist`, with its two loops: collecting the matches and the
      re-check that keeps the "exact" ones. */
  method ExtractArtist(filename: string, aliases: Dict<string>) returns (r: Result<string, AliasError>)
    ensures r == ExtractArtistSpec(filename, aliases)
  {
    var lowered := LowerTokens(filename);
    var matches: Dict<string> := [];
    var i := 0;
    while i < |aliases|
      invariant 0 <= i <= |aliases|
      invariant matches + Matches(aliases[i..], lowered) == Matches(aliases, lowered)
    {
      assert aliases[i..][1..] == aliases[i + 1..];
      if Lower(aliases[i].0) in lowered {
        matches := matches + [aliases[i]];
      }
      i := i + 1;
    }
    assert aliases[i..] == [];
    if matches != [] {
      var exact: Dict<string> := [];
      var j := 0;
      while j < |matches|
        invariant 0 <= j <= |matches|
        invariant exact == matches[..j]
      {
        assert matches[j] in Matches(aliases, lowered);
        if Lower(matches[j].0) in lowered {
          exact := exact + [matches[j]];
        }
        j := j + 1;
      }
      if exact != [] {
        r := Success(exact[0].1);
      } else {
        assert false;
      }
    } else {
      r := Failure(UnboundLocalError);
    }
  }

  /** The first alias that matches decides: the result is its artist, every
      earlier alias matches no piece, and no match at all is the error. */
  lemma ExtractArtistFirst(filename: string, aliases: Dict<string>)
    ensures var lowered := LowerTokens(filename);
      match ExtractArtistSpec(filename, aliases)
      case Success(a) => exists j :: 0 <= j < |aliases| && AliasHit(aliases[j].0, lowered) && aliases[j].1 == a
                           && forall j2 :: 0 <= j2 < j ==> !AliasHit(aliases[j2].0, lowered)
      case Failure(_) => forall j :: 0 <= j < |aliases| ==> !AliasHit(aliases[j].0, lowered)
  {
    MatchesFirst(aliases, LowerTokens(filename));
  }

  lemma {:induction false} MatchesFirst(aliases: Dict<string>, lowered: seq<string>)
    ensures var m := Matches(aliases, lowered);
      m != [] ==> exists j :: 0 <= j < |aliases| && AliasHit(aliases[j].0, lowered) && aliases[j] == m[0]
                    && forall j2 :: 0 <= j2 < j ==> !AliasHit(aliases[j2].0, lowered)
    ensures Matches(aliases, lowered) == [] ==> forall j :: 0 <= j < |aliases| ==> !AliasHit(aliases[j].0, lowered)
  {
    if aliases != [] {
      MatchesFirst(aliases[1..], lowered);
      if !AliasHit(aliases[0].0, lowered) && Matches(aliases, lowered) != [] {
        var j :| 0 <= j < |aliases[1..]| && AliasHit(aliases[1..][j].0, lowered) && aliases[1..][j] == Matches(aliases, lowered)[0]
                 && forall j2 :: 0 <= j2 < j ==> !AliasHit(aliases[1..][j2].0, lowered);
        assert aliases[j + 1] == aliases[1..][j];
        forall j2 | 0 <= j2 < j + 1 ensures !AliasHit(aliases[j2].0, lowered) {
          if j2 > 0 {
            assert aliases[j2] == aliases[1..][j2 - 1];
          }
        }
      } else if AliasHit(aliases[0].0, lowered) {
        assert aliases[0] == Matches(aliases, lowered)[0];
      } else {
        forall j | 0 <= j < |aliases| ensures !AliasHit(aliases[j].0, lowered) {
          if j > 0 {
            assert aliases[j] == aliases[1..][j - 1];
          }
        }
      }
    }
  }
}

=== FILE: cache_manager.dfy ===
/** The most-recently-used lists of utils/cache_manager.py: a JSON cache
    whose list entries (artists, cities, venues, …) keep the latest value at
    the head, without repeats, up to a maximum length. Writing the cache
    file is not modelled. */
module CacheManager {
  import opened Wrappers
  import opened PyStr
  import opened PyDict
  import opened Helpers

  /** The default `max_len` of `cache_add_value`. */
  const DefaultMaxLen := 50

  /** What the JSON cache holds under a key: a name list, a normalised
      name map, or anything else a hand-edited file may contain. */
  datatype CacheVal = ListVal(items: seq<string>) | NormVal(norm: Dict<string>) | OtherVal

  /** `s[:n]`, with Python's treatment of a negative bound. */
  function Take<T>(s: seq<T>, n: int): (r: seq<T>)
    ensures |r| == ClampIndex(n, |s|) && r == s[..|r|]
  {
    s[..ClampIndex(n, |s|)]
  }

  /** `s.remove(v)` for a `v` that occurs: the first occurrence goes. */
  function RemoveFirst(s: seq<string>, v: string): (r: seq<string>)
    ensures v in s ==> multiset(r) == multiset(s) - multiset{v}
    ensures v !in s ==> r == s
  {
    if s == [] then []
    else
      assert s == [s[0]] + s[1..];
      if s[0] == v then s[1..] else [s[0]] + RemoveFirst(s[1..], v)
  }

  /** Every element but `v`, in order. */
  function Without(s: seq<string>, v: string): (r: seq<string>)
    ensures v !in r && |r| <= |s|
  {
    if s == [] then []
    else if s[0] == v then Without(s[1..], v)
    else [s[0]] + Without(s[1..], v)
  }

  predicate NoDup(s: seq<string>) {
    forall i, j | 0 <= i < j < |s| :: s[i] != s[j]
  }

  /** The list `cache_add_value` stores after adding the stripped value `v`
      to `lst`. */
  function Pushed(lst: seq<string>, v: string, maxLen: int): (r: seq<string>)
    ensures maxLen >= 0 ==> |r| <= maxLen
    ensures maxLen >= 1 ==> r != [] && r[0] == v
  {
    Take([v] + RemoveFirst(lst, v), maxLen)
  }

  /** `_norm_map`: each raw name under its normalised key, a later name
      overwriting an earlier one with the same key. */
  function NormMap(raw: seq<string>): Dict<string> {
    PutAll(NormPairs(raw))
  }

  function NormPairs(raw: seq<string>): (r: seq<(string, string)>)
    ensures |r| == |raw| && forall j | 0 <= j < |raw| :: r[j] == (NormalizeKey(raw[j]), raw[j])
  {
    seq(|raw|, j requires 0 <= j < |raw| => (NormalizeKey(raw[j]), raw[j]))
  }

  /** The JSON cache, a dict updated in place by `cache_add_value`. */
  class Cache {
    var entries: Dict<CacheVal>

    constructor (init: Dict<CacheVal>)
      ensures entries == init
    {
      entries := init;
    }

    /** `cache_get_list`: what is stored under `key`, an empty list when
        nothing is. */
    function GetList(key: string): (r: CacheVal)
      reads this
      ensures HasKey(entries, key) ==> Get(entries, key) == Some(r)
      ensures !HasKey(entries, key) ==> r == ListVal([])
    {
      GetOr(entries, key, ListVal([]))
    }

    /** `cache_add_value`: a value blank after stripping changes nothing;
        otherwise the stripped value moves (or goes) to the head of the list
        under `key`, which is cut to `maxLen`. The entry must be a list (the
        code calls list methods on it). */
    method AddValue(key: string, value: string, maxLen: int)
      requires Strip(value) != [] ==> GetList(key).ListVal?
      modifies this
      ensures Strip(value) == [] ==> entries == old(entries)
      ensures Strip(value) != [] ==>
        entries == Put(old(entries), key, ListVal(Pushed(old(GetList(key)).items, Strip(value), maxLen)))
    {
      var v := Strip(value);
      if v == [] {
        return;
      }
      var lst := GetList(key).items;
      if v in lst {
        lst := RemoveFirst(lst, v);
      }
      lst := [v] + lst;
      entries := Put(entries, key, ListVal(Take(lst, maxLen)));
    }
  }

  // ---------------------------------------------------------------- properties of the pushed list

  /** Removing a value from a list without repeats removes all of it. */
  lemma {:induction false} RemoveFirstNoDup(s: seq<string>, v: string)
    requires NoDup(s)
    ensures RemoveFirst(s, v) == Without(s, v)
  {
    if s != [] {
      assert NoDup(s[1..]) by {
        forall i, j | 0 <= i < j < |s[1..]| ensures s[1..][i] != s[1..][j] {
          assert s[1..][i] == s[i + 1] && s[1..][j] == s[j + 1];
        }
      }
      RemoveFirstNoDup(s[1..], v);
      if s[0] == v {
        assert v !in s[1..] by {
          forall j | 0 <= j < |s[1..]| ensures s[1..][j] != v {
            assert s[1..][j] == s[j + 1];
          }
        }
        WithoutAbsent(s[1..], v);
      }
    }
  }

  lemma {:induction false} WithoutAbsent(s: seq<string>, v: string)
    requires v !in s
    ensures Without(s, v) == s
  {
    if s != [] {
      WithoutAbsent(s[1..], v);
    }
  }

  /** On a list without repeats, the new list is the value followed by the
      other entries in their old order, cut to the cap. */
  lemma PushedOrder(lst: seq<string>, v: string, maxLen: int)
    requires NoDup(lst) && maxLen >= 1
    ensures Pushed(lst, v, maxLen) == [v] + Take(Without(lst, v), maxLen - 1)
  {
    RemoveFirstNoDup(lst, v);
    var rest := Without(lst, v);
    assert ([v] + rest)[..ClampIndex(maxLen, |rest| + 1)] == [v] + rest[..ClampIndex(maxLen - 1, |rest|)];
  }

  /** Elements of `Without` come from the list, in order, and all but `v`. */
  lemma {:induction false} WithoutNoDup(s: seq<string>, v: string)
    requires NoDup(s)
    ensures NoDup(Without(s, v)) && forall x | x in Without(s, v) :: x in s
  {
    if s != [] {
      assert NoDup(s[1..]) by {
        forall i, j | 0 <= i < j < |s[1..]| ensures s[1..][i] != s[1..][j] {
          assert s[1..][i] == s[i + 1] && s[1..][j] == s[j + 1];
        }
      }
      WithoutNoDup(s[1..], v);
      var w := Without(s[1..], v);
      if s[0] != v {
        assert s[0] !in w by {
          forall x | x in w ensures x != s[0] {
            var j :| 0 <= j < |s[1..]| && s[1..][j] == x;
            assert s[1..][j] == s[j + 1];
          }
        }
        var r := [s[0]] + w;
        forall i, j | 0 <= i < j < |r| ensures r[i] != r[j] {
          if i == 0 {
            assert r[j] == w[j - 1];
          } else {
            assert r[i] == w[i - 1] && r[j] == w[j - 1];
          }
        }
      }
    }
  }

  /** The pushed value occurs exactly once, and the list keeps having no
      repeats. */
  lemma PushedOnce(lst: seq<string>, v: string, maxLen: int)
    requires NoDup(lst) && maxLen >= 1
    ensures NoDup(Pushed(lst, v, maxLen))
    ensures multiset(Pushed(lst, v, maxLen))[v] == 1
  {
    PushedOrder(lst, v, maxLen);
    WithoutNoDup(lst, v);
    var t := Take(Without(lst, v), maxLen - 1);
    assert v !in t;
    var r := [v] + t;
    forall i, j | 0 <= i < j < |r| ensures r[i] != r[j] {
      if i == 0 {
        assert r[j] == t[j - 1];
      } else {
        assert r[i] == t[i - 1] && r[j] == t[j - 1];
      }
    }
    assert multiset(t)[v] == 0;
  }

  /** Adding the same value twice is adding it once. */
  lemma PushedTwice(lst: seq<string>, v: string, maxLen: int)
    requires maxLen >= 1
    ensures Pushed(Pushed(lst, v, maxLen), v, maxLen) == Pushed(lst, v, maxLen)
  {
    var r := Pushed(lst, v, maxLen);
    assert r == [v] + r[1..];
    assert RemoveFirst(r, v) == r[1..];
    assert |r| <= maxLen;
  }

  // ---------------------------------------------------------------- the normalised map

  /** The keys of the map are exactly the normalised raw names, each once. */
  lemma NormMapKeys(raw: seq<string>)
    ensures KeysUnique(NormMap(raw))
    ensures forall k :: HasKey(NormMap(raw), k) <==> exists j :: 0 <= j < |raw| && NormalizeKey(raw[j]) == k
  {
    var es := NormPairs(raw);
    PutAllKeys(es);
    forall k | HasKey(NormMap(raw), k) ensures exists j :: 0 <= j < |raw| && NormalizeKey(raw[j]) == k {
      var j :| 0 <= j < |es| && es[j].0 == k;
      assert NormalizeKey(raw[j]) == k;
    }
    forall j | 0 <= j < |raw| ensures HasKey(NormMap(raw), NormalizeKey(raw[j])) {
      assert es[j].0 == NormalizeKey(raw[j]);
    }
  }

  /** Each key maps to a raw name whose normal form it is, and the last raw
      name with a given normal form is the one kept. */
  lemma NormMapValues(raw: seq<string>)
    ensures forall k, x :: Get(NormMap(raw), k) == Some(x) ==> x in raw && NormalizeKey(x) == k
    ensures forall j | 0 <= j < |raw| && (forall j2 | j < j2 < |raw| :: NormalizeKey(raw[j2]) != NormalizeKey(raw[j])) ::
      Get(NormMap(raw), NormalizeKey(raw[j])) == Some(raw[j])
  {
    var es := NormPairs(raw);
    PutAllEntries(es);
    forall k, x | Get(NormMap(raw), k) == Some(x) ensures x in raw && NormalizeKey(x) == k {
      GetEntry(NormMap(raw), k);
      assert (k, x) in es;
      var j :| 0 <= j < |es| && es[j] == (k, x);
      assert raw[j] == x;
    }
    forall j | 0 <= j < |raw| && (forall j2 | j < j2 < |raw| :: NormalizeKey(raw[j2]) != NormalizeKey(raw[j]))
      ensures Get(NormMap(raw), NormalizeKey(raw[j])) == Some(raw[j])
    {
      PutAllLast(es, j);
    }
  }
}

=== FILE: cache_utils.dfy ===
/** The second cache module, utils/cache_utils.py: the same JSON cache, but
    `cache_add_value` takes a single value or a list of values and puts all
    of them at the head of the list, and `cache_get_list` answers an empty
    list for anything that is not a list. Writing the file is not modelled. */
module CacheUtils {
  import opened Wrappers
  import opened PyStr
  import opened PyDict
  import opened CacheManager

  /** The `value` argument of `cache_add_value`: a list, or one value. */
  datatype AddArg = ListArg(items: seq<string>) | TextArg(text: string)

  /** `[str(v).strip() for v in value if str(v).strip()]`. */
  function CleanItems(items: seq<string>): (r: seq<string>)
    ensures |r| <= |items|
    ensures forall x | x in r :: x != [] && Strip(x) == x
    ensures r == [] <==> forall i | 0 <= i < |items| :: Strip(items[i]) == []
  {
    if items == [] then []
    else
      var x := Strip(items[0]);
      StripIdempotent(items[0]);
      var rest := CleanItems(items[1..]);
      assert forall i | 1 <= i < |items| :: items[i] == items[1..][i - 1];
      if x != [] then [x] + rest else rest
  }

  /** The values to add: stripped non-blank list items, or the one stripped
      value, which is kept even when blank. */
  function Cleaned(arg: AddArg): (r: seq<string>)
    ensures arg.TextArg? ==> r == [Strip(arg.text)]
  {
    match arg
    case ListArg(items) => CleanItems(items)
    case TextArg(t) => [Strip(t)]
  }

  /** `[v for v in existing if v not in cleaned]`. */
  function Absent(existing: seq<string>, cleaned: seq<string>): (r: seq<string>)
    ensures |r| <= |existing|
    ensures forall x | x in r :: x in existing && x !in cleaned
  {
    if existing == [] then []
    else
      var rest := Absent(existing[1..], cleaned);
      if existing[0] in cleaned then rest else [existing[0]] + rest
  }

  /** The list stored by `cache_add_value`: the cleaned values in their
      order, then the old entries not among them, cut to `maxLen`. */
  function Merged(existing: seq<string>, cleaned: seq<string>, maxLen: int): (r: seq<string>)
    ensures maxLen >= 0 ==> |r| <= maxLen
    ensures maxLen >= |cleaned| ==> |r| >= |cleaned| && r[..|cleaned|] == cleaned
    ensures forall i | |cleaned| <= i < |r| :: r[i] in existing && r[i] !in cleaned
  {
    var all := cleaned + Absent(existing, cleaned);
    assert forall i | |cleaned| <= i < |all| :: all[i] in Absent(existing, cleaned);
    Take(all, maxLen)
  }

  /** The JSON cache, a dict updated in place by `cache_add_value`. */
  class Cache {
    var entries: Dict<CacheVal>

    constructor (init: Dict<CacheVal>)
      ensures entries == init
    {
      entries := init;
    }

    /** `cache_get_list`: the list under `key`, or an empty list when the
        key is missing or holds something else. */
    function GetList(key: string): (r: seq<string>)
      reads this
      ensures Get(entries, key) == Some(ListVal(r)) || (r == [] && !(Get(entries, key).Some? && Get(entries, key).value.ListVal?))
    {
      var v := Get(entries, key);
      if v.Some? && v.value.ListVal? then v.value.items else []
    }

    /** `cache_add_value`: nothing happens when there is nothing to add (an
        all-blank list); otherwise the merged list replaces the entry. */
    method AddValue(key: string, value: AddArg, maxLen: int)
      modifies this
      ensures Cleaned(value) == [] ==> entries == old(entries)
      ensures Cleaned(value) != [] ==>
        entries == Put(old(entries), key, ListVal(Merged(old(GetList(key)), Cleaned(value), maxLen)))
    {
      var cleaned := Cleaned(value);
      if cleaned == [] {
        return;
      }
      var existing := GetList(key);
      existing := Absent(existing, cleaned);
      var newList := cleaned + existing;
      entries := Put(entries, key, ListVal(Take(newList, maxLen)));
    }
  }

  // ---------------------------------------------------------------- properties of the merged list

  /** A single value is never rejected: even a blank one heads the list. */
  lemma TextAtHead(existing: seq<string>, t: string, maxLen: int)
    requires maxLen >= 1
    ensures Cleaned(TextArg(t)) != []
    ensures Merged(existing, Cleaned(TextArg(t)), maxLen)[0] == Strip(t)
  {
    var c := Cleaned(TextArg(t));
    assert Merged(existing, c, maxLen)[..1] == c;
  }

  lemma {:induction false} AbsentNoDup(existing: seq<string>, cleaned: seq<string>)
    requires NoDup(existing)
    ensures NoDup(Absent(existing, cleaned))
  {
    if existing != [] {
      assert NoDup(existing[1..]) by {
        forall i, j | 0 <= i < j < |existing[1..]| ensures existing[1..][i] != existing[1..][j] {
          assert existing[1..][i] == existing[i + 1] && existing[1..][j] == existing[j + 1];
        }
      }
      AbsentNoDup(existing[1..], cleaned);
      var rest := Absent(existing[1..], cleaned);
      if existing[0] !in cleaned {
        assert existing[0] !in rest by {
          forall x | x in rest ensures x != existing[0] {
            var j :| 0 <= j < |existing[1..]| && existing[1..][j] == x;
            assert existing[1..][j] == existing[j + 1];
          }
        }
        var r := [existing[0]] + rest;
        forall i, j | 0 <= i < j < |r| ensures r[i] != r[j] {
          if i == 0 {
            assert r[j] == rest[j - 1];
          } else {
            assert r[i] == rest[i - 1] && r[j] == rest[j - 1];
          }
        }
      }
    }
  }

  /** When neither the old list nor the added values repeat, the new list
      has no repeats. */
  lemma MergedNoDup(existing: seq<string>, cleaned: seq<string>, maxLen: int)
    requires NoDup(existing) && NoDup(cleaned)
    ensures NoDup(Merged(existing, cleaned, maxLen))
  {
    AbsentNoDup(existing, cleaned);
    var a := Absent(existing, cleaned);
    var all := cleaned + a;
    forall i, j | 0 <= i < j < |all| ensures all[i] != all[j] {
      if j < |cleaned| {
      } else if i < |cleaned| {
        assert all[j] == a[j - |cleaned|];
        assert all[j] !in cleaned;
      } else {
        assert all[i] == a[i - |cleaned|] && all[j] == a[j - |cleaned|];
      }
    }
    var r := Merged(existing, cleaned, maxLen);
    assert r == all[..|r|];
  }

  lemma {:induction false} AbsentOfCleaned(cleaned: seq<string>, more: seq<string>)
    requires forall x | x in cleaned :: x in more
    ensures Absent(cleaned, more) == []
  {
    if cleaned != [] {
      assert forall x | x in cleaned[1..] :: x in cleaned;
      AbsentOfCleaned(cleaned[1..], more);
    }
  }

  lemma {:induction false} AbsentConcat(a: seq<string>, b: seq<string>, cleaned: seq<string>)
    ensures Absent(a + b, cleaned) == Absent(a, cleaned) + Absent(b, cleaned)
  {
    if a == [] {
      assert a + b == b;
    } else {
      assert (a + b)[1..] == a[1..] + b;
      AbsentConcat(a[1..], b, cleaned);
    }
  }

  /** Old entries are kept whole by a filter they all pass. */
  lemma {:induction false} AbsentNone(s: seq<string>, cleaned: seq<string>)
    requires forall x | x in s :: x !in cleaned
    ensures Absent(s, cleaned) == s
  {
    if s != [] {
      assert forall x | x in s[1..] :: x in s;
      AbsentNone(s[1..], cleaned);
    }
  }

  /** Adding the same values twice is adding them once, when they fit. */
  lemma MergedTwice(existing: seq<string>, cleaned: seq<string>, maxLen: int)
    requires |cleaned| <= maxLen
    ensures Merged(Merged(existing, cleaned, maxLen), cleaned, maxLen) == Merged(existing, cleaned, maxLen)
  {
    var a := Absent(existing, cleaned);
    var r := Merged(existing, cleaned, maxLen);
    var k := |r| - |cleaned|;
    assert r == cleaned + a[..k];
    AbsentConcat(cleaned, a[..k], cleaned);
    AbsentOfCleaned(cleaned, cleaned);
    assert forall x | x in a[..k] :: x in a;
    AbsentNone(a[..k], cleaned);
    assert Absent(r, cleaned) == a[..k];
  }

  /** The duplicate dropping covers the old entries only: a list argument
      that repeats a value keeps the repeat. */
  lemma RepeatedItemsKept(x: string)
    requires x != [] && Strip(x) == x
    ensures Merged([], Cleaned(ListArg([x, x])), DefaultMaxLen) == [x, x]
  {
    var items := [x, x];
    assert items[1..] == [x] && items[1..][1..] == [];
    assert CleanItems(items) == [x, x];
  }
}

=== FILE: dates.dfy ===
/** Calendar dates as `datetime.strptime` and `strftime("%Y-%m-%d")` see them,
    and the three filename date patterns shared by utils/helpers.py,
    utils/text_utils.py and VidForge.py (`extract_date`). */
module Dates {
  import opened Wrappers
  import opened PyStr

  datatype Date = Date(year: int, month: int, day: int)

  predicate IsLeap(y: int) {
    y % 4 == 0 && (y % 100 != 0 || y % 400 == 0)
  }

  function DaysInMonth(y: int, m: int): int
    requires 1 <= m <= 12
  {
    if m == 2 then (if IsLeap(y) then 29 else 28)
    else if m == 4 || m == 6 || m == 9 || m == 11 then 30
    else 31
  }

  /** A date `datetime.date` accepts (years 1 to 9999). */
  predicate ValidDate(d: Date) {
    1 <= d.year <= 9999 && 1 <= d.month <= 12 && 1 <= d.day <= DaysInMonth(d.year, d.month)
  }

  function MakeDate(y: int, m: int, d: int): (r: Option<Date>)
    ensures r.Some? <==> ValidDate(Date(y, m, d))
    ensures r.Some? ==> r.value == Date(y, m, d)
  {
    if ValidDate(Date(y, m, d)) then Some(Date(y, m, d)) else None
  }

  function Digit(c: char): nat
    requires IsDigit(c)
  {
    c as int - '0' as int
  }

  function Val2(g: string): nat
    requires |g| == 2 && AllDigits(g)
  {
    Digit(g[0]) * 10 + Digit(g[1])
  }

  function Val4(g: string): nat
    requires |g| == 4 && AllDigits(g)
  {
    Digit(g[0]) * 1000 + Digit(g[1]) * 100 + Digit(g[2]) * 10 + Digit(g[3])
  }

  // ---------------------------------------------------------------- strptime("%Y-%m-%d")

  /** `%m` followed by the literal `-`: the alternatives `1[0-2]`, `0[1-9]`, `[1-9]`
      in that order; the result is (month, width). */
  function MonthField(w: string): (r: Option<(nat, nat)>)
    ensures r.Some? ==> 1 <= r.value.0 <= 12 && 1 <= r.value.1 < |w| && w[r.value.1] == '-'
  {
    if |w| >= 3 && w[0] == '1' && '0' <= w[1] <= '2' && w[2] == '-' then Some((10 + Digit(w[1]), 2))
    else if |w| >= 3 && w[0] == '0' && '1' <= w[1] <= '9' && w[2] == '-' then Some((Digit(w[1]), 2))
    else if |w| >= 2 && '1' <= w[0] <= '9' && w[1] == '-' then Some((Digit(w[0]), 1))
    else None
  }

  /** `%d` at the end of the format: the first of `3[01]`, `[12]\d`, `0[1-9]`,
      `[1-9]`, ` [1-9]` that matches; the result is (day, width). */
  function DayField(v: string): (r: Option<(nat, nat)>)
    ensures r.Some? ==> 1 <= r.value.0 <= 31 && 1 <= r.value.1 <= |v|
  {
    if |v| >= 2 && v[0] == '3' && (v[1] == '0' || v[1] == '1') then Some((30 + Digit(v[1]), 2))
    else if |v| >= 2 && (v[0] == '1' || v[0] == '2') && IsDigit(v[1]) then Some((Digit(v[0]) * 10 + Digit(v[1]), 2))
    else if |v| >= 2 && v[0] == '0' && '1' <= v[1] <= '9' then Some((Digit(v[1]), 2))
    else if |v| >= 1 && '1' <= v[0] <= '9' then Some((Digit(v[0]), 1))
    else if |v| >= 2 && v[0] == ' ' && '1' <= v[1] <= '9' then Some((Digit(v[1]), 2))
    else None
  }

  /** `datetime.strptime(s, "%Y-%m-%d")`: `None` where Python raises ValueError
      (no match, unconverted data left over, or no such calendar day). */
  function ParseIso(s: string): (r: Option<Date>)
    ensures r.Some? ==> ValidDate(r.value)
  {
    if |s| < 5 || !AllDigits(s[..4]) || s[4] != '-' then None
    else
      match MonthField(s[5..])
      case None => None
      case Some((m, mw)) =>
        var v := s[5 + mw + 1..];
        match DayField(v)
        case None => None
        case Some((d, dw)) => if dw == |v| then MakeDate(Val4(s[..4]), m, d) else None
  }

  /** `f"{n:02d}"` for n below 100. */
  function Pad2(n: nat): (r: string)
    requires n < 100
    ensures |r| == 2 && AllDigits(r) && Val2(r) == n
  {
    [DigitChar(n / 10), DigitChar(n % 10)]
  }

  /** A year written with four digits. */
  function Pad4(n: nat): (r: string)
    requires n < 10000
    ensures |r| == 4 && AllDigits(r) && Val4(r) == n
  {
    var r := Pad2(n / 100) + Pad2(n % 100);
    assert Val4(r) == Val2(r[..2]) * 100 + Val2(r[2..]);
    r
  }

  /** `strftime("%Y-%m-%d")` */
  function FormatIso(d: Date): (r: string)
    requires ValidDate(d)
    ensures |r| == 10
  {
    Pad4(d.year) + "-" + Pad2(d.month) + "-" + Pad2(d.day)
  }

  /** Formatting a valid date and parsing it back gives the same date. */
  lemma ParseFormatIso(d: Date)
    requires ValidDate(d)
    ensures ParseIso(FormatIso(d)) == Some(d)
  {
    var s := FormatIso(d);
    var mm := Pad2(d.month);
    var dd := Pad2(d.day);
    assert s[..4] == Pad4(d.year);
    assert s[5..] == mm + "-" + dd;
    assert MonthField(s[5..]) == Some((d.month, 2));
    assert s[8..] == dd;
    assert DayField(dd) == Some((d.day, 2));
  }

  // ---------------------------------------------------------------- extract_date

  predicate IsDateSep(c: char) { c == '-' || c == '.' || c == '/' }

  /** The pattern `(\d{a})[-./](\d{b})[-./](\d{c})` matches at position i. */
  predicate ShapeAt(s: string, i: nat, a: nat, b: nat, c: nat) {
    i + a + b + c + 2 <= |s|
    && AllDigits(s[i..i + a]) && IsDateSep(s[i + a])
    && AllDigits(s[i + a + 1..i + a + 1 + b]) && IsDateSep(s[i + a + 1 + b])
    && AllDigits(s[i + a + b + 2..i + a + b + c + 2])
  }

  /** `re.search` for that pattern from position i: the leftmost match. */
  function FindShape(s: string, i: nat, a: nat, b: nat, c: nat): (r: Option<nat>)
    requires i <= |s|
    ensures r.Some? ==> i <= r.value && ShapeAt(s, r.value, a, b, c)
    ensures r.Some? ==> forall j :: i <= j < r.value ==> !ShapeAt(s, j, a, b, c)
    ensures r.None? ==> forall j :: i <= j ==> !ShapeAt(s, j, a, b, c)
    decreases |s| - i
  {
    if ShapeAt(s, i, a, b, c) then Some(i)
    else if i == |s| then None
    else FindShape(s, i + 1, a, b, c)
  }

  /** The three groups of a match at i, joined with `-` as `"-".join(m.groups())` does. */
  function Joined(s: string, i: nat, a: nat, b: nat, c: nat): string
    requires ShapeAt(s, i, a, b, c)
  {
    s[i..i + a] + "-" + s[i + a + 1..i + a + 1 + b] + "-" + s[i + a + b + 2..i + a + b + c + 2]
  }

  /** `strptime(g, "%m-%d-%Y")` on "MM-DD-YYYY" built from two-, two- and
      four-digit groups: the month and day fields accept 01-12 and 01-31 here. */
  function ParseMdY(g: string): (r: Option<Date>)
    requires |g| == 10 && AllDigits(g[..2]) && AllDigits(g[3..5]) && AllDigits(g[6..])
    ensures r.Some? ==> ValidDate(r.value)
  {
    var m := Val2(g[..2]);
    var d := Val2(g[3..5]);
    if 1 <= m <= 12 && 1 <= d <= 31 then MakeDate(Val4(g[6..]), m, d) else None
  }

  /** `strptime(g, "%y-%m-%d")` on "YY-MM-DD" from two-digit groups; years
      00-68 are 20xx and 69-99 are 19xx. */
  function ParseYmd2(g: string): (r: Option<Date>)
    requires |g| == 8 && AllDigits(g[..2]) && AllDigits(g[3..5]) && AllDigits(g[6..])
    ensures r.Some? ==> ValidDate(r.value)
  {
    var yy := Val2(g[..2]);
    var m := Val2(g[3..5]);
    var d := Val2(g[6..]);
    var y := if yy <= 68 then 2000 + yy else 1900 + yy;
    if 1 <= m <= 12 && 1 <= d <= 31 then MakeDate(y, m, d) else None
  }

  function TryIsoShape(s: string): Option<Date> {
    match FindShape(s, 0, 4, 2, 2)
    case None => None
    case Some(i) => ParseIso(Joined(s, i, 4, 2, 2))
  }

  function TryUsShape(s: string): Option<Date> {
    match FindShape(s, 0, 2, 2, 4)
    case None => None
    case Some(i) =>
      var g := Joined(s, i, 2, 2, 4);
      assert g[..2] == s[i..i + 2] && g[3..5] == s[i + 3..i + 5] && g[6..] == s[i + 6..i + 10];
      ParseMdY(g)
  }

  function TryShortShape(s: string): Option<Date> {
    match FindShape(s, 0, 2, 2, 2)
    case None => None
    case Some(i) =>
      var g := Joined(s, i, 2, 2, 2);
      assert g[..2] == s[i..i + 2] && g[3..5] == s[i + 3..i + 5] && g[6..] == s[i + 6..i + 8];
      ParseYmd2(g)
  }

  /** `extract_date`: the first pattern (YYYY-MM-DD, then MM-DD-YYYY, then
      YY-MM-DD) whose leftmost match is a real date, as "YYYY-MM-DD"; "" if
      none.  Whatever it returns is empty or a date `strptime("%Y-%m-%d")`
      accepts. */
  function ExtractDate(text: string): (r: string)
    ensures r == "" || (|r| == 10 && ParseIso(r).Some?)
  {
    match TryIsoShape(text)
    case Some(d) => ParseFormatIso(d); FormatIso(d)
    case None =>
      match TryUsShape(text)
      case Some(d) => ParseFormatIso(d); FormatIso(d)
      case None =>
        match TryShortShape(text)
        case Some(d) => ParseFormatIso(d); FormatIso(d)
        case None => ""
  }

  predicate NoDigits(s: string) { forall i :: 0 <= i < |s| ==> !IsDigit(s[i]) }

  lemma NoShapeInDigitFreePrefix(s: string, n: nat, a: nat, b: nat, c: nat)
    requires n <= |s| && NoDigits(s[..n]) && a >= 1
    ensures forall j :: 0 <= j < n ==> !ShapeAt(s, j, a, b, c)
  {
    forall j | 0 <= j < n
      ensures !ShapeAt(s, j, a, b, c)
    {
      assert s[..n][j] == s[j];
      if j + a <= |s| {
        assert s[j..j + a][0] == s[j];
      }
    }
  }

  /** A valid date written as YYYY-MM-DD after text without digits is found,
      whatever follows it. */
  lemma ExtractDateFindsIso(pre: string, d: Date, post: string)
    requires ValidDate(d) && NoDigits(pre)
    ensures ExtractDate(pre + FormatIso(d) + post) == FormatIso(d)
  {
    var s := pre + FormatIso(d) + post;
    var n := |pre|;
    assert s[..n] == pre;
    NoShapeInDigitFreePrefix(s, n, 4, 2, 2);
    assert s[n..n + 10] == FormatIso(d);
    assert s[n..n + 4] == Pad4(d.year);
    assert s[n + 5..n + 7] == Pad2(d.month);
    assert s[n + 8..n + 10] == Pad2(d.day);
    assert ShapeAt(s, n, 4, 2, 2);
    assert FindShape(s, 0, 4, 2, 2) == Some(n);
    assert Joined(s, n, 4, 2, 2) == FormatIso(d);
    ParseFormatIso(d);
  }

  /** In text of the shape pre + "MM-DD-YYYY" + post with digit-free pre and
      post, the four-digit-first pattern has no match. */
  lemma NoIsoShapeAroundUs(s: string, n: nat)
    requires n + 10 <= |s| && NoDigits(s[..n]) && NoDigits(s[n + 10..])
    requires s[n + 2] == '-' && s[n + 5] == '-'
    ensures forall j :: 0 <= j ==> !ShapeAt(s, j, 4, 2, 2)
  {
    NoShapeInDigitFreePrefix(s, n, 4, 2, 2);
    forall j | n <= j && j + 10 <= |s|
      ensures !ShapeAt(s, j, 4, 2, 2)
    {
      NoIsoShapeAt(s, n, j);
    }
  }

  lemma NoIsoShapeAt(s: string, n: nat, j: nat)
    requires n <= j && j + 10 <= |s| && NoDigits(s[n + 10..])
    requires s[n + 2] == '-' && s[n + 5] == '-'
    ensures !ShapeAt(s, j, 4, 2, 2)
  {
    var post := s[n + 10..];
    // four digits in a row occur only at n + 6, and no digits follow them
    if j <= n + 2 {
      assert s[j..j + 4][n + 2 - j] == '-';
    } else if j <= n + 5 {
      assert s[j..j + 4][n + 5 - j] == '-';
    } else if j == n + 6 {
      assert s[n + 11] == post[1];
      assert s[j + 5..j + 7][0] == s[n + 11];
    } else if j <= n + 10 {
      assert s[n + 10] == post[0];
      assert s[j..j + 4][n + 10 - j] == s[n + 10];
    } else {
      assert s[j] == post[j - n - 10];
      assert s[j..j + 4][0] == s[j];
    }
  }

  /** A valid date written MM-DD-YYYY with no other digits around it is read
      month first and rendered as YYYY-MM-DD. */
  lemma ExtractDateFindsUs(pre: string, d: Date, post: string)
    requires ValidDate(d) && NoDigits(pre) && NoDigits(post)
    ensures ExtractDate(pre + Pad2(d.month) + "-" + Pad2(d.day) + "-" + Pad4(d.year) + post) == FormatIso(d)
  {
    var g := Pad2(d.month) + "-" + Pad2(d.day) + "-" + Pad4(d.year);
    var s := pre + g + post;
    assert s == pre + Pad2(d.month) + "-" + Pad2(d.day) + "-" + Pad4(d.year) + post;
    var n := |pre|;
    UsLayout(pre, g, post);
    assert TryIsoShape(s) == None by {
      NoIsoShapeAroundUs(s, n);
    }
    assert FindShape(s, 0, 2, 2, 4) == Some(n) by {
      NoShapeInDigitFreePrefix(s, n, 2, 2, 4);
      assert ShapeAt(s, n, 2, 2, 4);
    }
    assert Joined(s, n, 2, 2, 4) == g;
    ParseMdYPadded(d);
  }

  /** "MM-DD-YYYY" written from a valid date reads back as that date. */
  lemma ParseMdYPadded(d: Date)
    requires ValidDate(d)
    ensures var g := Pad2(d.month) + "-" + Pad2(d.day) + "-" + Pad4(d.year);
      |g| == 10 && AllDigits(g[..2]) && AllDigits(g[3..5]) && AllDigits(g[6..]) && ParseMdY(g) == Some(d)
  {
    var g := Pad2(d.month) + "-" + Pad2(d.day) + "-" + Pad4(d.year);
    assert g[..2] == Pad2(d.month) && g[3..5] == Pad2(d.day) && g[6..] == Pad4(d.year);
  }

  /** Where the pieces of pre + "MM-DD-YYYY" + post sit. */
  lemma UsLayout(pre: string, g: string, post: string)
    requires |g| == 10
    ensures var s := pre + g + post; var n := |pre|;
      s[..n] == pre && s[n + 10..] == post && s[n..n + 10] == g &&
      s[n..n + 2] == g[..2] && s[n + 2] == g[2] && s[n + 3..n + 5] == g[3..5] && s[n + 5] == g[5] && s[n + 6..n + 10] == g[6..]
  {
  }
}

=== FILE: evaluator.dfy ===
/** The naming-scheme evaluator of utils/evaluator.py (`Evaluator`), of which
    gui/naming_editor.py holds an identical copy (`_Evaluator`): `%token%`
    placeholders filled from a metadata dict, then `$func(args)` calls
    rewritten until the text stops changing. */
module Evaluator {
  import opened Wrappers
  import opened PyStr
  import opened PyDict
  import opened FuncCall
  import Dates

  // ---------------------------------------------------------------- _split_args

  predicate IsQuote(c: char) { c == '"' || c == '\'' }

  /** The loop state of `_split_args`: finished parts, the current part, and
      whether (and with which character) a quotation is open. */
  datatype SplitState = SplitState(parts: seq<string>, current: string, inQuotes: bool, quoteChar: Option<char>)

  function Start(parts: seq<string>): SplitState {
    SplitState(parts, [], false, None)
  }

  /** A part is stripped, then loses its first and last character when both
      are quote characters (one quote alone becomes ""). */
  function Unquote(part: string): string {
    if part != [] && IsQuote(part[0]) && IsQuote(part[|part| - 1]) then
      (if |part| >= 2 then part[1..|part| - 1] else [])
    else part
  }

  function CloseSplitPart(current: string): string {
    Unquote(Strip(current))
  }

  /** One character of `_split_args`: an opening or the matching closing quote
      toggles the quotation and is dropped; the other quote character inside a
      quotation is kept; a comma outside quotes ends the part. */
  function SplitStep(st: SplitState, c: char): SplitState {
    if IsQuote(c) then
      if st.inQuotes then
        if Some(c) == st.quoteChar then st.(inQuotes := false, quoteChar := None)
        else st.(current := st.current + [c])
      else st.(inQuotes := true, quoteChar := Some(c))
    else if c == ',' && !st.inQuotes then
      st.(parts := st.parts + [CloseSplitPart(st.current)], current := [])
    else st.(current := st.current + [c])
  }

  /** The state after feeding `s`, character by character. */
  function SplitRun(st: SplitState, s: string): SplitState
    decreases |s|
  {
    if s == [] then st else SplitStep(SplitRun(st, s[..|s| - 1]), s[|s| - 1])
  }

  /** The pending part is kept only when it holds at least one raw character. */
  function SplitFinish(st: SplitState): seq<string> {
    if st.current != [] then st.parts + [CloseSplitPart(st.current)] else st.parts
  }

  function SplitArgsSpec(s: string): seq<string> {
    SplitFinish(SplitRun(Start([]), s))
  }

  /** `_split_args` */
  method SplitArgs(s: string) returns (parts: seq<string>)
    ensures parts == SplitArgsSpec(s)
  {
    parts := [];
    var current: string := [];
    var inQuotes := false;
    var quoteChar: Option<char> := None;
    var i := 0;
    while i < |s|
      invariant 0 <= i <= |s|
      invariant SplitState(parts, current, inQuotes, quoteChar) == SplitRun(Start([]), s[..i])
    {
      var c := s[i];
      assert s[..i + 1][..i] == s[..i];
      if c == '"' || c == '\'' {
        if inQuotes {
          if Some(c) == quoteChar {
            inQuotes := false;
            quoteChar := None;
          } else {
            current := current + [c];
          }
        } else {
          inQuotes := true;
          quoteChar := Some(c);
        }
      } else if c == ',' && !inQuotes {
        var part := Unquote(Strip(current));
        parts := parts + [part];
        current := [];
      } else {
        current := current + [c];
      }
      i := i + 1;
    }
    assert s[..i] == s;
    if current != [] {
      var part := Unquote(Strip(current));
      parts := parts + [part];
    }
  }

  /** Feeding two pieces one after the other is feeding their concatenation. */
  lemma {:induction false} SplitRunConcat(st: SplitState, a: string, b: string)
    ensures SplitRun(st, a + b) == SplitRun(SplitRun(st, a), b)
    decreases |b|
  {
    if b != [] {
      var b' := b[..|b| - 1];
      assert (a + b)[..|a + b| - 1] == a + b';
      SplitRunConcat(st, a, b');
    } else {
      assert a + b == a;
    }
  }

  predicate NoQuotes(s: string) {
    forall i :: 0 <= i < |s| ==> !IsQuote(s[i])
  }

  /** A quoted argument may hold commas but no quote of either kind. */
  predicate WellFormedArg(a: Arg) {
    match a
    case Bare(t) => NoQuotes(t) && ',' !in t
    case Quoted(q, t) => IsQuote(q) && NoQuotes(t)
  }

  /** The texts of the arguments, stripped. */
  function Stripped(args: seq<Arg>): (r: seq<string>)
    ensures |r| == |args|
  {
    if args == [] then [] else [Strip(args[0].text)] + Stripped(args[1..])
  }

  lemma {:induction false} StrippedSnoc(args: seq<Arg>, a: Arg)
    ensures Stripped(args + [a]) == Stripped(args) + [Strip(a.text)]
    decreases |args|
  {
    if args != [] {
      assert (args + [a])[1..] == args[1..] + [a];
      StrippedSnoc(args[1..], a);
    } else {
      assert [] + [a] == [a];
    }
  }

  /** Characters that neither quote nor (outside quotes) separate are collected. */
  lemma {:induction false} SplitRunPlain(st: SplitState, s: string)
    requires NoQuotes(s) && (st.inQuotes || ',' !in s)
    ensures SplitRun(st, s) == st.(current := st.current + s)
    decreases |s|
  {
    if s != [] {
      var s' := s[..|s| - 1];
      assert ',' in s' ==> ',' in s;
      SplitRunPlain(st, s');
      assert st.current + s' + [s[|s| - 1]] == st.current + s;
    }
  }

  lemma SplitRunOne(st: SplitState, c: char)
    ensures SplitRun(st, [c]) == SplitStep(st, c)
  {
    assert [c][..0] == [];
  }

  lemma SplitRunArg(parts: seq<string>, a: Arg)
    requires WellFormedArg(a)
    ensures SplitRun(Start(parts), ArgText(a)) == SplitState(parts, a.text, false, None)
  {
    match a
    case Bare(t) =>
      SplitRunPlain(Start(parts), t);
    case Quoted(q, t) =>
      SplitRunOne(Start(parts), q);
      var open := SplitState(parts, [], true, Some(q));
      SplitRunPlain(open, t);
      SplitRunConcat(Start(parts), [q], t);
      SplitRunConcat(Start(parts), [q] + t, [q]);
      SplitRunOne(open.(current := t), q);
  }

  /** A stripped text without quotes is left alone by `Unquote`. */
  lemma CloseBarePart(t: string)
    requires NoQuotes(t)
    ensures CloseSplitPart(t) == Strip(t)
  {
    var p := Strip(t);
    if p != [] {
      StripChars(t, 0);
      StripChars(t, |p| - 1);
    }
  }

  /** An argument and the comma after it make one finished part. */
  lemma SplitRunArgComma(parts: seq<string>, a: Arg)
    requires WellFormedArg(a)
    ensures SplitRun(Start(parts), ArgText(a) + ",") == Start(parts + [Strip(a.text)])
  {
    var st := SplitState(parts, a.text, false, None);
    SplitRunArg(parts, a);
    SplitRunConcat(Start(parts), ArgText(a), ",");
    SplitRunOne(st, ',');
    assert SplitStep(st, ',') == Start(parts + [CloseSplitPart(a.text)]);
    CloseBarePart(a.text);
  }

  lemma StrippedCons(args: seq<Arg>)
    requires |args| >= 2
    ensures [Strip(args[0].text)] + Stripped(args[1..][..|args| - 2]) == Stripped(args[..|args| - 1])
  {
    assert args[..|args| - 1][1..] == args[1..][..|args| - 2];
  }

  lemma StrippedConsAfter(parts: seq<string>, args: seq<Arg>)
    requires |args| >= 2
    ensures var rest := args[1..];
      rest[|rest| - 1] == args[|args| - 1] &&
      parts + [Strip(args[0].text)] + Stripped(rest[..|rest| - 1]) == parts + Stripped(args[..|args| - 1])
  {
    var x := Stripped(args[1..][..|args| - 2]);
    StrippedCons(args);
    assert parts + [Strip(args[0].text)] + x == parts + ([Strip(args[0].text)] + x);
  }

  lemma ArgTextsCons(args: seq<Arg>)
    requires |args| >= 2
    ensures Join(",", ArgTexts(args)) == ArgText(args[0]) + "," + Join(",", ArgTexts(args[1..]))
  {
  }

  lemma {:induction false} SplitRunArgs(parts: seq<string>, args: seq<Arg>)
    requires |args| >= 1 && forall i :: 0 <= i < |args| ==> WellFormedArg(args[i])
    ensures SplitRun(Start(parts), Join(",", ArgTexts(args)))
         == SplitState(parts + Stripped(args[..|args| - 1]), args[|args| - 1].text, false, None)
    decreases |args|
  {
    if |args| > 1 {
      var rest := args[1..];
      assert forall i :: 0 <= i < |rest| ==> WellFormedArg(rest[i]) by {
        forall i | 0 <= i < |rest| ensures WellFormedArg(rest[i]) {
          assert rest[i] == args[i + 1];
        }
      }
      SplitRunArgs(parts + [Strip(args[0].text)], rest);
      SplitRunArgsStep(parts, args);
    } else {
      SplitRunArg(parts, args[0]);
      assert args[..0] == [];
      assert ArgTexts(args) == [ArgText(args[0])];
    }
  }

  /** The step of `SplitRunArgs`: the first argument and its comma, then the rest. */
  lemma SplitRunArgsStep(parts: seq<string>, args: seq<Arg>)
    requires |args| >= 2 && WellFormedArg(args[0])
    requires var rest := args[1..];
      SplitRun(Start(parts + [Strip(args[0].text)]), Join(",", ArgTexts(rest)))
        == SplitState(parts + [Strip(args[0].text)] + Stripped(rest[..|rest| - 1]), rest[|rest| - 1].text, false, None)
    ensures SplitRun(Start(parts), Join(",", ArgTexts(args)))
         == SplitState(parts + Stripped(args[..|args| - 1]), args[|args| - 1].text, false, None)
  {
    var rest := args[1..];
    var s0 := Strip(args[0].text);
    var j := Join(",", ArgTexts(rest));
    var x := Stripped(rest[..|rest| - 1]);
    calc {
      SplitRun(Start(parts), Join(",", ArgTexts(args)));
    == { ArgTextsCons(args); }
      SplitRun(Start(parts), ArgText(args[0]) + "," + j);
    == { SplitRunArgCommaThen(parts, args[0], j); }
      SplitRun(Start(parts + [s0]), j);
    ==
      SplitState(parts + [s0] + x, rest[|rest| - 1].text, false, None);
    == { StrippedConsAfter(parts, args); }
      SplitState(parts + Stripped(args[..|args| - 1]), args[|args| - 1].text, false, None);
    }
  }

  /** After an argument and its comma, the rest is split from a fresh part. */
  lemma SplitRunArgCommaThen(parts: seq<string>, a: Arg, j: string)
    requires WellFormedArg(a)
    ensures SplitRun(Start(parts), ArgText(a) + "," + j) == SplitRun(Start(parts + [Strip(a.text)]), j)
  {
    SplitRunArgComma(parts, a);
    SplitRunConcat(Start(parts), ArgText(a) + ",", j);
  }

  /** Splitting the written form of well-formed arguments gives back their
      stripped texts: commas inside quotes do not split, and the quotes go.
      A last argument with no raw character at all is not a part. */
  lemma SplitArgsRoundTrip(args: seq<Arg>)
    requires |args| >= 1 && forall i :: 0 <= i < |args| ==> WellFormedArg(args[i])
    ensures SplitArgsSpec(Join(",", ArgTexts(args))) ==
      if args[|args| - 1].text != [] then Stripped(args) else Stripped(args[..|args| - 1])
  {
    var last := args[|args| - 1];
    var init := Stripped(args[..|args| - 1]);
    var st := SplitRun(Start([]), Join(",", ArgTexts(args)));
    assert st == SplitState(init, last.text, false, None) by {
      SplitRunArgs([], args);
      assert [] + init == init;
    }
    assert SplitArgsSpec(Join(",", ArgTexts(args))) == SplitFinish(st);
    if last.text != [] {
      assert SplitFinish(st) == init + [CloseSplitPart(last.text)];
      assert CloseSplitPart(last.text) == Strip(last.text) by {
        CloseBarePart(last.text);
      }
      StrippedLast(args);
    }
  }

  lemma StrippedLast(args: seq<Arg>)
    requires |args| >= 1
    ensures Stripped(args[..|args| - 1]) + [Strip(args[|args| - 1].text)] == Stripped(args)
  {
    StrippedSnoc(args[..|args| - 1], args[|args| - 1]);
    assert args[..|args| - 1] + [args[|args| - 1]] == args;
  }

  // ---------------------------------------------------------------- _eval_func

  /** What escapes `eval`: `int()` of a non-number raises ValueError, a
      `$pad` fill that is not one character raises TypeError; the missing
      bound on the fixed-point loop is modelled by running out of fuel. */
  datatype EvalError = ValueError | TypeError | OutOfFuel

  /** The evaluator's metadata together with what the source takes from its
      environment: the text `datetime.now()` prints and `str()` of a float. */
  datatype Context = Context(meta: Dict<string>, now: string, showFloat: real -> string)

  /** `resolve`: `%key%` reads the key (missing is ""), a bare key reads its
      value, anything else is the stripped argument itself. */
  function Resolve(meta: Dict<string>, arg: string): (r: string)
    ensures var a := Strip(arg);
      !(StartsWith(a, "%") && EndsWith(a, "%")) && !HasKey(meta, a) ==> r == a
    ensures var a := Strip(arg);
      !(StartsWith(a, "%") && EndsWith(a, "%")) && HasKey(meta, a) ==> Get(meta, a) == Some(r)
  {
    var a := Strip(arg);
    if StartsWith(a, "%") && EndsWith(a, "%") then GetOr(meta, Slice(a, 1, Some(-1)), "")
    else if HasKey(meta, a) then GetOr(meta, a, "")
    else a
  }

  /** `truth`: resolved to something other than "" and "0". */
  predicate Truth(meta: Dict<string>, arg: string) {
    var v := Resolve(meta, arg);
    v != [] && v != "0"
  }

  /** `num`: the resolved value as a number, 0 when `float()` refuses it. */
  function Num(meta: Dict<string>, arg: string): real {
    ParseFloat(Resolve(meta, arg)).GetOr(0.0)
  }

  /** `str()` of a bool. */
  function ShowBool(b: bool): (r: string)
    ensures r == "True" <==> b
  {
    if b then "True" else "False"
  }

  /** `$if2`: the first candidate that resolves to a non-empty value, else the
      resolved fallback. */
  function FirstResolved(meta: Dict<string>, cands: seq<string>, fallback: string): string
    decreases |cands|
  {
    if cands == [] then Resolve(meta, fallback)
    else
      var v := Resolve(meta, cands[0]);
      if v != [] then v else FirstResolved(meta, cands[1..], fallback)
  }

  /** `$year`, `$month`, `$day` of a resolved value: "" unless it is a
      `%Y-%m-%d` date. */
  function DatePart(func: string, val: string): string {
    match Dates.ParseIso(val)
    case None => ""
    case Some(d) =>
      if func == "year" then IntToStr(d.year)
      else if func == "month" then Pad2(d.month)
      else Pad2(d.day)
  }

  const Infinity: string := "\U{221E}"

  /** `_eval_func` on one match: the name group (compared in lower case) and
      the raw argument group.  A name with an arity it does not handle falls
      through to the matched text itself.  Only the `int()` conversions of
      `substr`, `left`, `right` and `pad` and a `pad` fill that is not one
      character make a call fail. */
  function EvalFunc(ctx: Context, name: string, argsRaw: string): (r: Result<string, EvalError>)
    ensures r == Failure(ValueError) ==>
      Lower(name) == "substr" || Lower(name) == "left" || Lower(name) == "right" || Lower(name) == "pad"
    ensures r == Failure(TypeError) ==> Lower(name) == "pad"
    ensures r != Failure(OutOfFuel)
  {
    var func := Lower(name);
    if func != "substr" && func != "left" && func != "right" && func != "pad" then
      FuncOfTotal(ctx, func, SplitArgsSpec(argsRaw), CallText(name, argsRaw));
      FuncOf(ctx, func, SplitArgsSpec(argsRaw), CallText(name, argsRaw))
    else if func != "pad" then
      FuncOfParsing(ctx, func, SplitArgsSpec(argsRaw), CallText(name, argsRaw));
      FuncOf(ctx, func, SplitArgsSpec(argsRaw), CallText(name, argsRaw))
    else FuncOf(ctx, func, SplitArgsSpec(argsRaw), CallText(name, argsRaw))
  }


  /** The dispatch of `_eval_func` on the lower-cased name and the split
      arguments; `verbatim` is the matched text. */
  function FuncOf(ctx: Context, func: string, args: seq<string>, verbatim: string): Result<string, EvalError> {
    var n := |args|;
    var meta := ctx.meta;
    if func == "upper" && n == 1 then Success(Upper(Resolve(meta, args[0])))
    else if func == "lower" && n == 1 then Success(Lower(Resolve(meta, args[0])))
    else if func == "title" && n == 1 then Success(Title(Resolve(meta, args[0])))
    else if func == "len" && n == 1 then Success(NatToStr(|Resolve(meta, args[0])|))
    else if func == "substr" && 2 <= n <= 3 then SubstrOf(Resolve(meta, args[0]), args[1..])
    else if func == "left" && n == 2 then LeftOf(Resolve(meta, args[0]), args[1])
    else if func == "right" && n == 2 then RightOf(Resolve(meta, args[0]), args[1])
    else if func == "replace" && n == 3 then Success(Replace(Resolve(meta, args[0]), args[1], args[2]))
    else if func == "pad" && n >= 2 then
      PadOf(Resolve(meta, args[0]), args[1], if n == 3 then args[2] else " ")
    else Success(HelperOf(ctx, func, args, verbatim))
  }

  /** The rest of the chain: the date/time, math, comparison, logic and
      conditional helpers, none of which raises, and the matched text for
      anything else. */
  function HelperOf(ctx: Context, func: string, args: seq<string>, verbatim: string): string {
    var n := |args|;
    var meta := ctx.meta;
    if func == "datetime" && n == 0 then ctx.now
    else if (func == "year" || func == "month" || func == "day") && n == 1 then
      DatePart(func, Resolve(meta, args[0]))
    else if func == "add" && n == 2 then ctx.showFloat(Num(meta, args[0]) + Num(meta, args[1]))
    else if func == "sub" && n == 2 then ctx.showFloat(Num(meta, args[0]) - Num(meta, args[1]))
    else if func == "mul" && n == 2 then ctx.showFloat(Num(meta, args[0]) * Num(meta, args[1]))
    else if func == "div" && n == 2 then
      var denom := Num(meta, args[1]);
      if denom == 0.0 then Infinity else ctx.showFloat(Num(meta, args[0]) / denom)
    else if func == "eq" && n == 2 then ShowBool(Resolve(meta, args[0]) == Resolve(meta, args[1]))
    else if func == "lt" && n == 2 then ShowBool(Num(meta, args[0]) < Num(meta, args[1]))
    else if func == "gt" && n == 2 then ShowBool(Num(meta, args[0]) > Num(meta, args[1]))
    else if func == "and" then ShowBool(forall i | 0 <= i < n :: Truth(meta, args[i]))
    else if func == "or" then ShowBool(exists i | 0 <= i < n :: Truth(meta, args[i]))
    else if func == "not" && n == 1 then ShowBool(!Truth(meta, args[0]))
    else if func == "if" && n == 3 then
      if Truth(meta, args[0]) then Resolve(meta, args[1]) else Resolve(meta, args[2])
    else if func == "if2" && n >= 2 then FirstResolved(meta, args[..n - 1], args[n - 1])
    else verbatim
  }

  /** `text[int(start):int(stop)]`, or to the end without a stop; a bound
      that is not an integer raises ValueError. */
  function SubstrOf(txt: string, bounds: seq<string>): Result<string, EvalError>
    requires 1 <= |bounds| <= 2
  {
    match ParseInt(bounds[0])
    case None => Failure(ValueError)
    case Some(start) =>
      if |bounds| == 2 then
        match ParseInt(bounds[1])
        case None => Failure(ValueError)
        case Some(stop) => Success(Slice(txt, start, Some(stop)))
      else Success(Slice(txt, start, None))
  }

  /** `text[:int(k)]` */
  function LeftOf(txt: string, k: string): Result<string, EvalError> {
    match ParseInt(k)
    case None => Failure(ValueError)
    case Some(n) => Success(Slice(txt, 0, Some(n)))
  }

  /** `text[-int(k):]` */
  function RightOf(txt: string, k: string): Result<string, EvalError> {
    match ParseInt(k)
    case None => Failure(ValueError)
    case Some(n) => Success(Slice(txt, -n, None))
  }

  /** `text.ljust(int(width), fill)`: a width that is not an integer raises
      ValueError, a fill that is not one character TypeError. */
  function PadOf(txt: string, width: string, fill: string): Result<string, EvalError> {
    match ParseInt(width)
    case None => Failure(ValueError)
    case Some(w) => if |fill| != 1 then Failure(TypeError) else Success(LJust(txt, w, fill[0]))
  }

  /** The callback handed to `FUNC_RE.sub`. */
  function Callback(ctx: Context): (string, string) -> Result<string, EvalError> {
    (name, argsRaw) => EvalFunc(ctx, name, argsRaw)
  }

  // ---------------------------------------------------------------- eval: placeholders

  /** `[f.strip() for f in v.split(",") if f.strip()]` */
  function Entries(v: string): seq<string> {
    NonBlank(Split(v, ","))
  }

  function NonBlank(pieces: seq<string>): (r: seq<string>)
    ensures forall i :: 0 <= i < |r| ==> r[i] != []
  {
    if pieces == [] then []
    else if Strip(pieces[0]) != [] then [Strip(pieces[0])] + NonBlank(pieces[1..])
    else NonBlank(pieces[1..])
  }

  /** `_list_token`: the whole list space-joined when there is no index, the
      entry at a valid index, "" otherwise. */
  function ListToken(all: seq<string>, idx: Option<int>): (r: string)
    ensures idx.Some? && 0 <= idx.value < |all| ==> r == all[idx.value]
    ensures idx.Some? && !(0 <= idx.value < |all|) ==> r == ""
  {
    match idx
    case None => Join(" ", all)
    case Some(i) => if 0 <= i < |all| then all[i] else ""
  }

  /** What `%<tag>(\d+)%` finds at a position: nothing, or the number and
      the end of the match. */
  datatype NumberedAt = NoNumber | Numbered(index: nat, end: nat)

  /** A match of `%<tag>(\d+)%` at i: the number and the end of the match. */
  function IndexedAt(t: string, i: nat, tag: string): (r: NumberedAt)
    ensures r.Numbered? ==> i < r.end <= |t|
  {
    var open := "%" + tag;
    if i + |open| <= |t| && t[i..i + |open|] == open then
      var j := i + |open|;
      var n := RunLen(t, j, IsDigit);
      if n >= 1 && j + n < |t| && t[j + n] == '%' then
        assert AllDigits(t[j..j + n]);
        Numbered(DigitsValue(t[j..j + n]), j + n + 1)
      else NoNumber
    else NoNumber
  }

  /** `re.sub(r"%<tag>(\d+)%", lambda m: _list_token(.., all, int(m.group(1)) - 1), t[i:])` */
  function IndexedSub(t: string, i: nat, tag: string, all: seq<string>): string
    decreases |t| - i
  {
    if i >= |t| then []
    else match IndexedAt(t, i, tag)
      case Numbered(k, e) => ListToken(all, Some(k - 1)) + IndexedSub(t, e, tag, all)
      case NoNumber => [t[i]] + IndexedSub(t, i + 1, tag, all)
  }

  /** The three list passes of one field (`format` or `additional`):
      numbered entries, then `%<field>N%`, then `%<field>%`. */
  function ListPasses(t: string, field: string, entries: seq<string>): string {
    NamedPasses(IndexedSub(t, 0, field + "N", entries), field, entries)
  }

  predicate ListField(k: string) { k == "format" || k == "additional" }

  /** The loop over `meta.items()`: every other key's `%key%` replaced by its
      value, in dictionary order. */
  function MetaReplace(t: string, es: Dict<string>): string
    decreases |es|
  {
    if es == [] then t
    else MetaReplace(if ListField(es[0].0) then t else Replace(t, "%" + es[0].0 + "%", es[0].1), es[1..])
  }

  method ReplaceMeta(meta: Dict<string>, text: string) returns (res: string)
    ensures res == MetaReplace(text, meta)
  {
    res := text;
    var i := 0;
    while i < |meta|
      invariant 0 <= i <= |meta|
      invariant MetaReplace(res, meta[i..]) == MetaReplace(text, meta)
    {
      var (k, v) := meta[i];
      assert meta[i..][1..] == meta[i + 1..];
      if k != "format" && k != "additional" {
        res := Replace(res, "%" + k + "%", v);
      }
      i := i + 1;
    }
  }

  /** Everything `eval` does before the function calls. */
  function TokenPhase(meta: Dict<string>, text: string): string {
    var fmts := Entries(GetOr(meta, "format", ""));
    var adds := Entries(GetOr(meta, "additional", ""));
    MetaReplace(ListPasses(ListPasses(text, "format", fmts), "additional", adds), meta)
  }

  // ---------------------------------------------------------------- what one placeholder becomes

  /** `w` is a numbered name of the list `tag`, as `formatN3` is for `formatN`. */
  predicate IndexedName(w: string, tag: string) {
    |w| > |tag| && w[..|tag|] == tag && AllDigits(w[|tag|..])
  }

  function IndexOf(w: string, tag: string): nat
    requires IndexedName(w, tag)
  {
    DigitsValue(w[|tag|..])
  }

  /** What `%w%` becomes in the passes of one list field, if they touch it. */
  function FieldValue(w: string, field: string, entries: seq<string>): Option<string> {
    if IndexedName(w, field + "N") then Some(ListToken(entries, Some(IndexOf(w, field + "N") - 1)))
    else if w == field + "N" then Some(Join(", ", entries))
    else if w == field then Some(if entries != [] then entries[0] else "")
    else None
  }

  /** The value of the first pair for key w that the meta loop does not skip. */
  function MetaValue(es: Dict<string>, w: string): Option<string>
    decreases |es|
  {
    if es == [] then None
    else if es[0].0 == w && !ListField(w) then Some(es[0].1)
    else MetaValue(es[1..], w)
  }

  /** What a single placeholder `%w%` becomes when no key or value of the
      metadata holds a `%`: a numbered, joined or first format entry, the
      same for additional, the value of the key w, or itself. */
  function Placeholder(meta: Dict<string>, w: string): string {
    var fmts := Entries(GetOr(meta, "format", ""));
    var adds := Entries(GetOr(meta, "additional", ""));
    match FieldValue(w, "format", fmts)
    case Some(v) => v
    case None =>
      match FieldValue(w, "additional", adds)
      case Some(v) => v
      case None => MetaValue(meta, w).GetOr("%" + w + "%")
  }

  predicate NoPercent(xs: seq<string>) {
    forall i :: 0 <= i < |xs| ==> '%' !in xs[i]
  }

  predicate MetaNoPercent(meta: Dict<string>) {
    forall i :: 0 <= i < |meta| ==> '%' !in meta[i].0 && '%' !in meta[i].1
  }

  lemma IndexedAtNeedsPercent(t: string, p: nat, tag: string)
    requires p < |t| && t[p] != '%'
    ensures IndexedAt(t, p, tag).NoNumber?
  {
    var open := "%" + tag;
    if p + |open| <= |t| {
      assert t[p..p + |open|][0] != open[0];
    }
  }

  lemma {:induction false} IndexedSubSkip(t: string, i: nat, j: nat, tag: string, all: seq<string>)
    requires i <= j <= |t| && forall p :: i <= p < j ==> IndexedAt(t, p, tag).NoNumber?
    ensures IndexedSub(t, i, tag, all) == t[i..j] + IndexedSub(t, j, tag, all)
    decreases j - i
  {
    if i < j {
      var rest := IndexedSub(t, j, tag, all);
      IndexedSubKeep(t, i, tag, all);
      IndexedSubSkip(t, i + 1, j, tag, all);
      assert [t[i]] + (t[i + 1..j] + rest) == [t[i]] + t[i + 1..j] + rest;
      assert t[i..j] == [t[i]] + t[i + 1..j];
    }
  }

  lemma IndexedSubKeep(t: string, i: nat, tag: string, all: seq<string>)
    requires i < |t| && IndexedAt(t, i, tag).NoNumber?
    ensures IndexedSub(t, i, tag, all) == [t[i]] + IndexedSub(t, i + 1, tag, all)
  {
  }

  lemma IndexedSubNoPercent(t: string, i: nat, tag: string, all: seq<string>)
    requires i <= |t| && forall p :: i <= p < |t| ==> t[p] != '%'
    ensures IndexedSub(t, i, tag, all) == t[i..]
  {
    forall p | i <= p < |t|
      ensures IndexedAt(t, p, tag).NoNumber?
    {
      IndexedAtNeedsPercent(t, p, tag);
    }
    IndexedSubSkip(t, i, |t|, tag, all);
  }

  /** At the first `%` of `%w%`, the numbered pattern matches exactly when w
      is a numbered name, and then the match ends after the second `%`. */
  lemma IndexedAtOpen(pre: string, w: string, post: string, tag: string)
    requires '%' !in pre && '%' !in w && '%' !in post && '%' !in tag
    ensures IndexedAt(pre + "%" + w + "%" + post, |pre|, tag) ==
      if IndexedName(w, tag) then Numbered(IndexOf(w, tag), |pre| + |w| + 2) else NoNumber
  {
    var t := pre + "%" + w + "%" + post;
    var p := |pre|;
    assert t[p] == '%' && t[p + 1 + |w|] == '%';
    assert t[p + 1..p + 1 + |w|] == w;
    if IndexedName(w, tag) {
      IndexedAtHit(t, p, tag, w);
    } else {
      IndexedAtMiss(t, p, tag, w);
    }
  }

  lemma IndexedAtHit(t: string, p: nat, tag: string, w: string)
    requires p + |w| + 2 <= |t| && t[p] == '%' && t[p + 1..p + 1 + |w|] == w && t[p + 1 + |w|] == '%'
    requires IndexedName(w, tag)
    ensures IndexedAt(t, p, tag) == Numbered(IndexOf(w, tag), p + |w| + 2)
  {
    var open := "%" + tag;
    var j := p + |open|;
    var q := p + 1 + |w|;
    forall k | 0 <= k < |w| ensures t[p + 1 + k] == w[k] {
      assert t[p + 1..p + 1 + |w|][k] == w[k];
    }
    assert t[p..j] == open by {
      forall k | 0 <= k < |open| ensures t[p + k] == open[k] {
        if k > 0 {
          assert t[p + k] == w[k - 1] == tag[k - 1];
        }
      }
    }
    forall m | j <= m < q ensures IsDigit(t[m]) {
      assert t[m] == w[|tag|..][m - j];
    }
    RunLenExact(t, j, IsDigit, q - j);
    assert t[j..q] == w[|tag|..];
  }

  /** A tag without `%` that opens `%w%` is a prefix of w. */
  lemma OpenPrefix(t: string, p: nat, tag: string, w: string)
    requires p + |w| + 2 <= |t| && t[p + 1..p + 1 + |w|] == w && t[p + 1 + |w|] == '%'
    requires '%' !in tag && p + 1 + |tag| <= |t| && t[p + 1..p + 1 + |tag|] == tag
    ensures |tag| <= |w| && w[..|tag|] == tag
  {
    if |tag| > |w| {
      assert false;
    }
    forall k | 0 <= k < |tag| ensures w[k] == tag[k] {
      assert t[p + 1..p + 1 + |w|][k] == w[k];
      assert t[p + 1..p + 1 + |tag|][k] == tag[k];
    }
  }

  lemma IndexedAtMiss(t: string, p: nat, tag: string, w: string)
    requires p + |w| + 2 <= |t| && t[p] == '%' && t[p + 1..p + 1 + |w|] == w && t[p + 1 + |w|] == '%'
    requires '%' !in w && '%' !in tag && !IndexedName(w, tag)
    ensures IndexedAt(t, p, tag).NoNumber?
  {
    var open := "%" + tag;
    var j := p + |open|;
    if j <= |t| && t[p..j] == open {
      assert t[p + 1..j] == open[1..] == tag;
      OpenPrefix(t, p, tag, w);
      var n := RunLen(t, j, IsDigit);
      var rest := w[|tag|..];
      if rest == [] {
        assert !IsDigit(t[j]);
      } else {
        assert !AllDigits(rest);
        var i :| 0 <= i < |rest| && !IsDigit(rest[i]);
        assert t[p + 1..p + 1 + |w|][|tag| + i] == rest[i];
        assert j + n <= j + i;
        assert t[j + n] == t[p + 1..p + 1 + |w|][|tag| + n] != '%';
      }
    }
  }

  /** At the second `%` of `%w%` nothing matches: no `%` follows. */
  lemma IndexedAtClose(pre: string, w: string, post: string, tag: string)
    requires '%' !in pre && '%' !in w && '%' !in post
    ensures IndexedAt(pre + "%" + w + "%" + post, |pre| + |w| + 1, tag).NoNumber?
  {
    var t := pre + "%" + w + "%" + post;
    var q := |pre| + |w| + 1;
    var open := "%" + tag;
    var j := q + |open|;
    if j <= |t| && t[q..j] == open {
      var n := RunLen(t, j, IsDigit);
      if j + n < |t| {
        assert t[j + n] == post[j + n - q - 1] != '%';
      }
    }
  }

  /** The numbered pass on text whose only `%`s surround one word w. */
  lemma IndexedSubDelimited(pre: string, w: string, post: string, tag: string, all: seq<string>)
    requires '%' !in pre && '%' !in w && '%' !in post && '%' !in tag
    ensures IndexedSub(pre + "%" + w + "%" + post, 0, tag, all) ==
      if IndexedName(w, tag) then pre + ListToken(all, Some(IndexOf(w, tag) - 1)) + post
      else pre + "%" + w + "%" + post
  {
    if IndexedName(w, tag) {
      IndexedSubHit(pre, w, post, tag, all);
    } else {
      IndexedSubMiss(pre, w, post, tag, all);
    }
  }

  lemma IndexedSubHit(pre: string, w: string, post: string, tag: string, all: seq<string>)
    requires '%' !in pre && '%' !in w && '%' !in post && '%' !in tag && IndexedName(w, tag)
    ensures IndexedSub(pre + "%" + w + "%" + post, 0, tag, all) == pre + ListToken(all, Some(IndexOf(w, tag) - 1)) + post
  {
    var t := pre + "%" + w + "%" + post;
    var p := |pre|;
    var e := p + |w| + 2;
    IndexedAtOpen(pre, w, post, tag);
    assert t[..p] == pre && t[e..] == post;
    IndexedSubOneMatch(t, p, e, tag, all, IndexOf(w, tag));
  }

  /** A single match, with no `%` before or after it. */
  lemma IndexedSubOneMatch(t: string, p: nat, e: nat, tag: string, all: seq<string>, k: nat)
    requires p < e <= |t| && IndexedAt(t, p, tag) == Numbered(k, e)
    requires '%' !in t[..p] && '%' !in t[e..]
    ensures IndexedSub(t, 0, tag, all) == t[..p] + ListToken(all, Some(k - 1)) + t[e..]
  {
    assert IndexedSub(t, 0, tag, all) == t[..p] + IndexedSub(t, p, tag, all) by {
      forall r | 0 <= r < p
        ensures IndexedAt(t, r, tag).NoNumber?
      {
        assert t[r] == t[..p][r];
        IndexedAtNeedsPercent(t, r, tag);
      }
      IndexedSubSkip(t, 0, p, tag, all);
      assert t[0..p] == t[..p];
    }
    assert IndexedSub(t, e, tag, all) == t[e..] by {
      forall q | e <= q < |t| ensures t[q] != '%' {
        assert t[q] == t[e..][q - e];
      }
      IndexedSubNoPercent(t, e, tag, all);
    }
    assert IndexedSub(t, p, tag, all) == ListToken(all, Some(k - 1)) + IndexedSub(t, e, tag, all) by {
      IndexedSubAtMatch(t, p, tag, all, k, e);
    }
  }

  lemma IndexedSubMiss(pre: string, w: string, post: string, tag: string, all: seq<string>)
    requires '%' !in pre && '%' !in w && '%' !in post && '%' !in tag && !IndexedName(w, tag)
    ensures IndexedSub(pre + "%" + w + "%" + post, 0, tag, all) == pre + "%" + w + "%" + post
  {
    var t := pre + "%" + w + "%" + post;
    IndexedSubPrefix(pre, w, post, tag, all);
    IndexedSubUnmatched(pre, w, post, tag, all);
    assert pre + t[|pre|..] == t;
  }

  /** Nothing matches before the first `%`. */
  lemma IndexedSubPrefix(pre: string, w: string, post: string, tag: string, all: seq<string>)
    requires '%' !in pre
    ensures var t := pre + "%" + w + "%" + post;
      IndexedSub(t, 0, tag, all) == pre + IndexedSub(t, |pre|, tag, all)
  {
    var t := pre + "%" + w + "%" + post;
    forall r | 0 <= r < |pre|
      ensures IndexedAt(t, r, tag).NoNumber?
    {
      assert t[r] == pre[r];
      IndexedAtNeedsPercent(t, r, tag);
    }
    IndexedSubSkip(t, 0, |pre|, tag, all);
    assert t[0..|pre|] == pre;
  }

  lemma IndexedSubAtMatch(t: string, i: nat, tag: string, all: seq<string>, k: nat, e: nat)
    requires i < |t| && IndexedAt(t, i, tag) == Numbered(k, e)
    ensures IndexedSub(t, i, tag, all) == ListToken(all, Some(k - 1)) + IndexedSub(t, e, tag, all)
  {
    var rest := IndexedSub(t, e, tag, all);
    var head := ListToken(all, Some(k - 1));
    assert IndexedSub(t, i, tag, all) == head + rest;
  }

  /** When w is not a numbered name, nothing matches from the first `%` on. */
  lemma IndexedSubUnmatched(pre: string, w: string, post: string, tag: string, all: seq<string>)
    requires '%' !in pre && '%' !in w && '%' !in post && '%' !in tag && !IndexedName(w, tag)
    ensures var t := pre + "%" + w + "%" + post;
      IndexedSub(t, |pre|, tag, all) == t[|pre|..]
  {
    var t := pre + "%" + w + "%" + post;
    var p := |pre|;
    var q := p + |w| + 1;
    IndexedAtOpen(pre, w, post, tag);
    IndexedAtClose(pre, w, post, tag);
    forall r | p < r < |t| && r != q
      ensures IndexedAt(t, r, tag).NoNumber?
    {
      if r < q {
        assert t[r] == w[r - p - 1];
      } else {
        assert t[r] == post[r - q - 1];
      }
      IndexedAtNeedsPercent(t, r, tag);
    }
    IndexedSubSkip(t, p, |t|, tag, all);
    assert t[p..|t|] == t[p..];
  }

  /** On text without `%`, the placeholder passes change nothing. */
  lemma ListPassesNoPercent(t: string, field: string, entries: seq<string>)
    requires '%' !in t
    ensures ListPasses(t, field, entries) == t
  {
    IndexedSubNoPercent(t, 0, field + "N", entries);
    assert t[0..] == t;
    NamedPassesNoPercent(t, field, entries);
  }

  lemma {:induction false} MetaReplaceNoPercent(t: string, es: Dict<string>)
    requires '%' !in t
    ensures MetaReplace(t, es) == t
    decreases |es|
  {
    if es != [] {
      if !ListField(es[0].0) {
        NotContainsChar(t, "%" + es[0].0 + "%", '%');
        ReplaceAbsent(t, "%" + es[0].0 + "%", es[0].1);
      }
      MetaReplaceNoPercent(t, es[1..]);
    }
  }

  /** One list field's passes on text whose only `%`s surround one word. */
  lemma ListPassesDelimited(pre: string, w: string, post: string, field: string, entries: seq<string>)
    requires '%' !in pre && '%' !in w && '%' !in post && '%' !in field && NoPercent(entries)
    ensures ListPasses(pre + "%" + w + "%" + post, field, entries) ==
      if FieldValue(w, field, entries).Some? then pre + FieldValue(w, field, entries).value + post
      else pre + "%" + w + "%" + post
  {
    var t := pre + "%" + w + "%" + post;
    var tagN := field + "N";
    var r1 := IndexedSub(t, 0, tagN, entries);
    assert ListPasses(t, field, entries) == NamedPasses(r1, field, entries);
    if IndexedName(w, tagN) {
      var v := ListToken(entries, Some(IndexOf(w, tagN) - 1));
      assert r1 == pre + v + post by {
        IndexedSubDelimited(pre, w, post, tagN, entries);
      }
      assert '%' !in v;
      NamedPassesNoPercent(pre + v + post, field, entries);
    } else {
      assert r1 == t by {
        IndexedSubDelimited(pre, w, post, tagN, entries);
      }
      NamedPassesDelimited(pre, w, post, field, entries);
    }
  }

  /** The two `str.replace` passes of a list field, after the numbered one. */
  function NamedPasses(r1: string, field: string, entries: seq<string>): string {
    var r2 := Replace(r1, "%" + field + "N%", Join(", ", entries));
    Replace(r2, "%" + field + "%", if entries != [] then entries[0] else "")
  }

  lemma NamedPassesNoPercent(r: string, field: string, entries: seq<string>)
    requires '%' !in r
    ensures NamedPasses(r, field, entries) == r
  {
    NotContainsChar(r, "%" + field + "N%", '%');
    ReplaceAbsent(r, "%" + field + "N%", Join(", ", entries));
    NotContainsChar(r, "%" + field + "%", '%');
    ReplaceAbsent(r, "%" + field + "%", if entries != [] then entries[0] else "");
  }

  lemma NamedPassesDelimited(pre: string, w: string, post: string, field: string, entries: seq<string>)
    requires '%' !in pre && '%' !in w && '%' !in post && '%' !in field && NoPercent(entries)
    ensures NamedPasses(pre + "%" + w + "%" + post, field, entries) ==
      if w == field + "N" then pre + Join(", ", entries) + post
      else if w == field then pre + (if entries != [] then entries[0] else "") + post
      else pre + "%" + w + "%" + post
  {
    var t := pre + "%" + w + "%" + post;
    var tagN := field + "N";
    var first := if entries != [] then entries[0] else "";
    var joined := Join(", ", entries);
    assert "%" + field + "N%" == ['%'] + tagN + ['%'];
    assert "%" + field + "%" == ['%'] + field + ['%'];
    assert t == pre + ['%'] + w + ['%'] + post;
    ReplaceDelimited(pre, w, post, '%', tagN, joined);
    if w == tagN {
      JoinCharFree(", ", entries, '%');
      NamedPassesSecondAbsent(pre + joined + post, field, first);
    } else {
      ReplaceDelimited(pre, w, post, '%', field, first);
    }
  }

  lemma NamedPassesSecondAbsent(r: string, field: string, first: string)
    requires '%' !in r
    ensures Replace(r, "%" + field + "%", first) == r
  {
    NotContainsChar(r, "%" + field + "%", '%');
    ReplaceAbsent(r, "%" + field + "%", first);
  }

  /** The meta loop on text whose only `%`s surround one word. */
  lemma {:induction false} MetaReplaceDelimited(pre: string, w: string, post: string, es: Dict<string>)
    requires '%' !in pre && '%' !in w && '%' !in post && MetaNoPercent(es)
    ensures MetaReplace(pre + "%" + w + "%" + post, es) ==
      if MetaValue(es, w).Some? then pre + MetaValue(es, w).value + post else pre + "%" + w + "%" + post
    decreases |es|
  {
    var t := pre + "%" + w + "%" + post;
    if es != [] {
      var (k, v) := es[0];
      assert MetaNoPercent(es[1..]) by {
        forall i | 0 <= i < |es[1..]| ensures '%' !in es[1..][i].0 && '%' !in es[1..][i].1 {
          assert es[1..][i] == es[i + 1];
        }
      }
      if ListField(k) {
        MetaReplaceDelimited(pre, w, post, es[1..]);
      } else {
        assert "%" + k + "%" == ['%'] + k + ['%'];
        assert t == pre + ['%'] + w + ['%'] + post;
        ReplaceDelimited(pre, w, post, '%', k, v);
        if k == w {
          MetaReplaceNoPercent(pre + v + post, es[1..]);
        } else {
          MetaReplaceDelimited(pre, w, post, es[1..]);
        }
      }
    }
  }

  lemma {:induction false} NonBlankNoPercent(pieces: seq<string>)
    requires NoPercent(pieces)
    ensures NoPercent(NonBlank(pieces))
    decreases |pieces|
  {
    if pieces != [] {
      assert NoPercent(pieces[1..]) by {
        forall i | 0 <= i < |pieces[1..]| ensures '%' !in pieces[1..][i] {
          assert pieces[1..][i] == pieces[i + 1];
        }
      }
      NonBlankNoPercent(pieces[1..]);
      StripCharFree(pieces[0], '%');
    }
  }

  /** The entries of a metadata field hold no `%` when no value does. */
  lemma EntriesNoPercent(meta: Dict<string>, k: string)
    requires MetaNoPercent(meta)
    ensures NoPercent(Entries(GetOr(meta, k, "")))
  {
    var v := GetOr(meta, k, "");
    GetEntry(meta, k);
    if Get(meta, k).Some? {
      var i :| 0 <= i < |meta| && meta[i] == (k, v);
    }
    assert '%' !in v;
    SplitCharFree(v, ",", '%');
    NonBlankNoPercent(Split(v, ","));
  }

  /** The placeholder phase of `eval` on text whose only `%`s surround one
      word w puts `Placeholder(meta, w)` in its place. */
  lemma TokenPhaseDelimited(meta: Dict<string>, pre: string, w: string, post: string)
    requires '%' !in pre && '%' !in w && '%' !in post && MetaNoPercent(meta)
    ensures TokenPhase(meta, pre + "%" + w + "%" + post) == pre + Placeholder(meta, w) + post
  {
    var fmts := Entries(GetOr(meta, "format", ""));
    var adds := Entries(GetOr(meta, "additional", ""));
    EntriesNoPercent(meta, "format");
    EntriesNoPercent(meta, "additional");
    if FieldValue(w, "format", fmts).Some? {
      PhaseFormatHit(meta, pre, w, post, fmts, adds);
    } else if FieldValue(w, "additional", adds).Some? {
      PhaseAdditionalHit(meta, pre, w, post, fmts, adds);
    } else {
      PhaseOtherKey(meta, pre, w, post, fmts, adds);
    }
  }

  lemma PhaseFormatHit(meta: Dict<string>, pre: string, w: string, post: string, fmts: seq<string>, adds: seq<string>)
    requires '%' !in pre && '%' !in w && '%' !in post && NoPercent(fmts)
    requires FieldValue(w, "format", fmts).Some?
    ensures MetaReplace(ListPasses(ListPasses(pre + "%" + w + "%" + post, "format", fmts), "additional", adds), meta)
      == pre + FieldValue(w, "format", fmts).value + post
  {
    var v := FieldValue(w, "format", fmts).value;
    ListPassesDelimited(pre, w, post, "format", fmts);
    FieldValueNoPercent(w, "format", fmts);
    assert '%' !in pre + v + post;
    ListPassesNoPercent(pre + v + post, "additional", adds);
    MetaReplaceNoPercent(pre + v + post, meta);
  }

  lemma PhaseAdditionalHit(meta: Dict<string>, pre: string, w: string, post: string, fmts: seq<string>, adds: seq<string>)
    requires '%' !in pre && '%' !in w && '%' !in post && NoPercent(fmts) && NoPercent(adds)
    requires FieldValue(w, "format", fmts).None? && FieldValue(w, "additional", adds).Some?
    ensures MetaReplace(ListPasses(ListPasses(pre + "%" + w + "%" + post, "format", fmts), "additional", adds), meta)
      == pre + FieldValue(w, "additional", adds).value + post
  {
    var v := FieldValue(w, "additional", adds).value;
    ListPassesDelimited(pre, w, post, "format", fmts);
    ListPassesDelimited(pre, w, post, "additional", adds);
    FieldValueNoPercent(w, "additional", adds);
    assert '%' !in pre + v + post;
    MetaReplaceNoPercent(pre + v + post, meta);
  }

  lemma PhaseOtherKey(meta: Dict<string>, pre: string, w: string, post: string, fmts: seq<string>, adds: seq<string>)
    requires '%' !in pre && '%' !in w && '%' !in post && NoPercent(fmts) && NoPercent(adds) && MetaNoPercent(meta)
    requires FieldValue(w, "format", fmts).None? && FieldValue(w, "additional", adds).None?
    ensures MetaReplace(ListPasses(ListPasses(pre + "%" + w + "%" + post, "format", fmts), "additional", adds), meta)
      == pre + MetaValue(meta, w).GetOr("%" + w + "%") + post
  {
    var t := pre + "%" + w + "%" + post;
    var r := ListPasses(ListPasses(t, "format", fmts), "additional", adds);
    assert r == t by {
      BothListPassesMiss(pre, w, post, fmts, adds);
    }
    assert MetaReplace(t, meta) == pre + MetaValue(meta, w).GetOr("%" + w + "%") + post by {
      MetaReplaceGetOr(pre, w, post, meta);
    }
  }

  lemma MetaReplaceGetOr(pre: string, w: string, post: string, meta: Dict<string>)
    requires '%' !in pre && '%' !in w && '%' !in post && MetaNoPercent(meta)
    ensures MetaReplace(pre + "%" + w + "%" + post, meta) == pre + MetaValue(meta, w).GetOr("%" + w + "%") + post
  {
    MetaReplaceDelimited(pre, w, post, meta);
    assert pre + "%" + w + "%" + post == pre + ("%" + w + "%") + post;
  }

  lemma BothListPassesMiss(pre: string, w: string, post: string, fmts: seq<string>, adds: seq<string>)
    requires '%' !in pre && '%' !in w && '%' !in post && NoPercent(fmts) && NoPercent(adds)
    requires FieldValue(w, "format", fmts).None? && FieldValue(w, "additional", adds).None?
    ensures var t := pre + "%" + w + "%" + post;
      ListPasses(ListPasses(t, "format", fmts), "additional", adds) == t
  {
    ListPassesDelimited(pre, w, post, "format", fmts);
    ListPassesDelimited(pre, w, post, "additional", adds);
  }

  /** What the list passes put in place of a placeholder holds no `%`. */
  lemma FieldValueNoPercent(w: string, field: string, entries: seq<string>)
    requires NoPercent(entries)
    ensures FieldValue(w, field, entries).Some? ==> '%' !in FieldValue(w, field, entries).value
  {
    JoinCharFree(", ", entries, '%');
  }

  // ---------------------------------------------------------------- eval: the fixed point

  /** One `FUNC_RE.sub(self._eval_func, res)` pass. */
  function Pass(ctx: Context): string -> Result<string, EvalError> {
    t => SubCalls(t, 0, Callback(ctx))
  }

  /** `while prev != res: prev = res; res = <pass>(res)`, with at most `fuel`
      passes. */
  function Fix(pass: string -> Result<string, EvalError>, prev: Option<string>, res: string, fuel: nat): Result<string, EvalError>
    decreases fuel
  {
    if prev == Some(res) then Success(res)
    else if fuel == 0 then Failure(OutOfFuel)
    else
      match pass(res)
      case Failure(e) => Failure(e)
      case Success(next) => Fix(pass, Some(res), next, fuel - 1)
  }

  function EvalSpec(ctx: Context, text: string, fuel: nat): Result<string, EvalError> {
    Fix(Pass(ctx), None, TokenPhase(ctx.meta, text), fuel)
  }

  /** The placeholder part of `eval`: the two list fields, then the other keys. */
  method FillPlaceholders(meta: Dict<string>, text: string) returns (res: string)
    ensures res == TokenPhase(meta, text)
  {
    var fmts := Entries(GetOr(meta, "format", ""));
    var adds := Entries(GetOr(meta, "additional", ""));
    res := ListPasses(text, "format", fmts);
    res := ListPasses(res, "additional", adds);
    res := ReplaceMeta(meta, res);
  }

  /** The substitution loop of `eval`: what it returns is left unchanged by
      one more pass. */
  method RunToFixedPoint(pass: string -> Result<string, EvalError>, start: string, fuel: nat) returns (r: Result<string, EvalError>)
    ensures r == Fix(pass, None, start, fuel)
    ensures r.Success? ==> pass(r.value) == Success(r.value)
  {
    var res := start;
    var prev: Option<string> := None;
    var left := fuel;
    while prev != Some(res)
      invariant Fix(pass, prev, res, left) == Fix(pass, None, start, fuel)
      invariant prev.Some? ==> pass(prev.value) == Success(res)
      decreases left
    {
      if left == 0 {
        return Failure(OutOfFuel);
      }
      var step := pass(res);
      if step.Failure? {
        return Failure(step.error);
      }
      prev := Some(res);
      res := step.value;
      left := left - 1;
    }
    r := Success(res);
  }

  /** `eval` */
  method Eval(ctx: Context, text: string, fuel: nat) returns (r: Result<string, EvalError>)
    ensures r == EvalSpec(ctx, text, fuel)
    ensures r.Success? ==> SubCalls(r.value, 0, Callback(ctx)) == Success(r.value)
  {
    var res := FillPlaceholders(ctx.meta, text);
    r := RunToFixedPoint(Pass(ctx), res, fuel);
  }

  // ---------------------------------------------------------------- properties of eval

  /** Once a pass leaves the text unchanged, the loop ends with that text. */
  lemma FixStable(pass: string -> Result<string, EvalError>, s: string, fuel: nat)
    requires fuel >= 1 && pass(s) == Success(s)
    ensures Fix(pass, None, s, fuel) == Success(s)
  {
    assert Fix(pass, Some(s), s, fuel - 1) == Success(s);
  }

  /** A first pass whose output the next pass leaves alone: the loop ends with
      that output, whether or not the first pass changed anything. */
  lemma FixTwoPasses(pass: string -> Result<string, EvalError>, s: string, s2: string, fuel: nat)
    requires fuel >= 2 && pass(s) == Success(s2) && pass(s2) == Success(s2)
    ensures Fix(pass, None, s, fuel) == Success(s2)
  {
    assert Fix(pass, Some(s2), s2, fuel - 2) == Success(s2);
    assert Fix(pass, Some(s), s2, fuel - 1) == Success(s2);
  }

  /** Text with neither `%` nor `$` comes out of `eval` as it went in. */
  lemma EvalPlainText(ctx: Context, text: string, fuel: nat)
    requires '%' !in text && '$' !in text && fuel >= 1
    ensures EvalSpec(ctx, text, fuel) == Success(text)
  {
    var fmts := Entries(GetOr(ctx.meta, "format", ""));
    var adds := Entries(GetOr(ctx.meta, "additional", ""));
    ListPassesNoPercent(text, "format", fmts);
    ListPassesNoPercent(text, "additional", adds);
    MetaReplaceNoPercent(text, ctx.meta);
    assert TokenPhase(ctx.meta, text) == text;
    NoDollarUnchanged(text, Callback(ctx));
    FixStable(Pass(ctx), text, fuel);
  }

  /** A single placeholder in otherwise plain text: `eval` puts
      `Placeholder(meta, w)` in its place and leaves the rest. */
  lemma EvalPlaceholder(ctx: Context, pre: string, w: string, post: string, fuel: nat)
    requires '%' !in pre && '%' !in w && '%' !in post && MetaNoPercent(ctx.meta)
    requires '$' !in pre + Placeholder(ctx.meta, w) + post && fuel >= 1
    ensures EvalSpec(ctx, pre + "%" + w + "%" + post, fuel) == Success(pre + Placeholder(ctx.meta, w) + post)
  {
    var r := pre + Placeholder(ctx.meta, w) + post;
    TokenPhaseDelimited(ctx.meta, pre, w, post);
    NoDollarUnchanged(r, Callback(ctx));
    FixStable(Pass(ctx), r, fuel);
  }

  lemma NameNoPercent(name: string)
    requires IsName(name)
    ensures '%' !in name
  {
    forall k | 0 <= k < |name| ensures name[k] != '%' {
      assert IsWord(name[k]);
    }
  }

  /** A single call in otherwise plain text: `eval` replaces it by what
      `_eval_func` makes of it, or fails as that does; a second pass finds
      nothing more to do when the value has no `$`. */
  lemma EvalOneCall(ctx: Context, pre: string, name: string, args: string, post: string, fuel: nat)
    requires '%' !in pre && '%' !in args && '%' !in post && '$' !in pre && '$' !in post
    requires IsName(name) && ')' !in args && fuel >= 2
    requires EvalFunc(ctx, name, args).Success? ==> '$' !in EvalFunc(ctx, name, args).value
    ensures EvalSpec(ctx, pre + CallText(name, args) + post, fuel) ==
      match EvalFunc(ctx, name, args)
      case Success(v) => Success(pre + v + post)
      case Failure(e) => Failure(e)
  {
    var t := pre + CallText(name, args) + post;
    NameNoPercent(name);
    assert '%' !in t;
    var fmts := Entries(GetOr(ctx.meta, "format", ""));
    var adds := Entries(GetOr(ctx.meta, "additional", ""));
    ListPassesNoPercent(t, "format", fmts);
    ListPassesNoPercent(t, "additional", adds);
    MetaReplaceNoPercent(t, ctx.meta);
    assert TokenPhase(ctx.meta, t) == t;
    SubOneCall(pre, name, args, post, Callback(ctx));
    assert Callback(ctx)(name, args) == EvalFunc(ctx, name, args);
    match EvalFunc(ctx, name, args)
    case Success(v) =>
      NoDollarUnchanged(pre + v + post, Callback(ctx));
      FixTwoPasses(Pass(ctx), t, pre + v + post, fuel);
    case Failure(e) =>
      assert Pass(ctx)(t) == Failure(e);
  }

  /** The function names and argument counts `_eval_func` handles. */
  predicate Handled(func: string, n: nat) {
    ((func == "upper" || func == "lower" || func == "title" || func == "len") && n == 1)
    || (func == "substr" && 2 <= n <= 3)
    || ((func == "left" || func == "right") && n == 2)
    || (func == "replace" && n == 3)
    || (func == "pad" && n >= 2)
    || (func == "datetime" && n == 0)
    || ((func == "year" || func == "month" || func == "day") && n == 1)
    || ((func == "add" || func == "sub" || func == "mul" || func == "div") && n == 2)
    || ((func == "eq" || func == "lt" || func == "gt") && n == 2)
    || func == "and" || func == "or"
    || (func == "not" && n == 1)
    || (func == "if" && n == 3)
    || (func == "if2" && n >= 2)
  }

  /** An unknown function, or a known one with an argument count it does not
      take, is left in the text exactly as written. */
  lemma UnknownCallVerbatim(ctx: Context, name: string, argsRaw: string)
    requires !Handled(Lower(name), |SplitArgsSpec(argsRaw)|)
    ensures EvalFunc(ctx, name, argsRaw) == Success(CallText(name, argsRaw))
  {
  }

  lemma FuncOfTotal(ctx: Context, func: string, args: seq<string>, verbatim: string)
    requires func != "substr" && func != "left" && func != "right" && func != "pad"
    ensures FuncOf(ctx, func, args, verbatim).Success?
  {
  }

  lemma FuncOfParsing(ctx: Context, func: string, args: seq<string>, verbatim: string)
    requires func == "substr" || func == "left" || func == "right"
    ensures FuncOf(ctx, func, args, verbatim).Success? || FuncOf(ctx, func, args, verbatim) == Failure(ValueError)
  {
  }

  /** `resolve` strips its argument first, so surrounding whitespace does not
      matter. */
  lemma ResolveStrips(meta: Dict<string>, arg: string)
    ensures Resolve(meta, Strip(arg)) == Resolve(meta, arg)
  {
    StripIdempotent(arg);
  }

  /** `%key%` reads the key, and a missing key reads as "". */
  lemma ResolveKeyRef(meta: Dict<string>, k: string)
    ensures Resolve(meta, "%" + k + "%") == GetOr(meta, k, "")
  {
    var a := "%" + k + "%";
    assert a[0] == '%' && a[|a| - 1] == '%';
    StripSetNoop(a, Whitespace);
    assert Slice(a, 1, Some(-1)) == k;
  }

  /** Two and three well-formed arguments split back into their stripped
      texts. */
  lemma SplitTwoArgs(a: Arg, b: Arg)
    requires WellFormedArg(a) && WellFormedArg(b) && b.text != []
    ensures SplitArgsSpec(Join(",", ArgTexts([a, b]))) == [Strip(a.text), Strip(b.text)]
  {
    var args := [a, b];
    SplitArgsRoundTrip(args);
    assert Stripped([b]) == [Strip(b.text)];
    assert Stripped(args) == [Strip(a.text)] + Stripped([b]) by { assert args[1..] == [b]; }
  }

  lemma SplitThreeArgs(c: Arg, x: Arg, y: Arg)
    requires WellFormedArg(c) && WellFormedArg(x) && WellFormedArg(y) && y.text != []
    ensures SplitArgsSpec(Join(",", ArgTexts([c, x, y]))) == [Strip(c.text), Strip(x.text), Strip(y.text)]
  {
    var args := [c, x, y];
    assert args[|args| - 1] == y;
    assert forall i :: 0 <= i < |args| ==> WellFormedArg(args[i]);
    SplitArgsRoundTrip(args);
    assert Stripped(args) == [Strip(c.text), Strip(x.text), Strip(y.text)] by {
      assert [y][1..] == [];
      assert Stripped([y]) == [Strip(y.text)];
      assert [x, y][1..] == [y];
      assert Stripped([x, y]) == [Strip(x.text)] + Stripped([y]);
      assert args[1..] == [x, y];
      assert Stripped(args) == [Strip(c.text)] + Stripped([x, y]);
    }
  }

  /** `$if(c, x, y)`, in any letter case and written with well-formed
      arguments, picks x's value when c is truthy and y's otherwise. */
  lemma IfPicksBranch(ctx: Context, name: string, c: Arg, x: Arg, y: Arg)
    requires Lower(name) == "if"
    requires WellFormedArg(c) && WellFormedArg(x) && WellFormedArg(y) && y.text != []
    ensures EvalFunc(ctx, name, Join(",", ArgTexts([c, x, y]))) ==
      Success(if Truth(ctx.meta, c.text) then Resolve(ctx.meta, x.text) else Resolve(ctx.meta, y.text))
  {
    var raw := Join(",", ArgTexts([c, x, y]));
    var args := SplitArgsSpec(raw);
    assert args == [Strip(c.text), Strip(x.text), Strip(y.text)] by {
      SplitThreeArgs(c, x, y);
    }
    assert EvalFunc(ctx, name, raw) ==
      Success(if Truth(ctx.meta, args[0]) then Resolve(ctx.meta, args[1]) else Resolve(ctx.meta, args[2])) by {
      IfOfParts(ctx, name, raw);
    }
    ResolveStrips(ctx.meta, c.text);
    ResolveStrips(ctx.meta, x.text);
    ResolveStrips(ctx.meta, y.text);
  }

  lemma IfOfParts(ctx: Context, name: string, raw: string)
    requires Lower(name) == "if" && |SplitArgsSpec(raw)| == 3
    ensures var args := SplitArgsSpec(raw);
      EvalFunc(ctx, name, raw) ==
        Success(if Truth(ctx.meta, args[0]) then Resolve(ctx.meta, args[1]) else Resolve(ctx.meta, args[2]))
  {
  }

  /** `$div(a, b)`, in any letter case, with a divisor that reads as 0 gives
      the infinity sign rather than failing. */
  lemma DivByZero(ctx: Context, name: string, a: Arg, b: Arg)
    requires Lower(name) == "div"
    requires WellFormedArg(a) && WellFormedArg(b) && b.text != [] && Num(ctx.meta, b.text) == 0.0
    ensures EvalFunc(ctx, name, Join(",", ArgTexts([a, b]))) == Success(Infinity)
  {
    var raw := Join(",", ArgTexts([a, b]));
    var args := SplitArgsSpec(raw);
    assert |args| == 2 && args[1] == Strip(b.text) by {
      SplitTwoArgs(a, b);
    }
    assert Num(ctx.meta, args[1]) == 0.0 by {
      ResolveStrips(ctx.meta, b.text);
    }
    DivZeroDenominator(ctx, name, raw);
  }

  lemma DivZeroDenominator(ctx: Context, name: string, raw: string)
    requires Lower(name) == "div" && |SplitArgsSpec(raw)| == 2 && Num(ctx.meta, SplitArgsSpec(raw)[1]) == 0.0
    ensures EvalFunc(ctx, name, raw) == Success(Infinity)
  {
  }

  /** `$if2`: when the candidates before i all have empty values, the first
      candidate with a non-empty value decides, and with none at all the
      fallback's value is the result. */
  lemma {:induction false} FirstResolvedFirst(meta: Dict<string>, cands: seq<string>, fallback: string, i: nat)
    requires i <= |cands| && forall j :: 0 <= j < i ==> Resolve(meta, cands[j]) == []
    ensures i < |cands| && Resolve(meta, cands[i]) != [] ==> FirstResolved(meta, cands, fallback) == Resolve(meta, cands[i])
    ensures i == |cands| ==> FirstResolved(meta, cands, fallback) == Resolve(meta, fallback)
    decreases i
  {
    if i > 0 {
      var tail := cands[1..];
      assert Resolve(meta, cands[0]) == [];
      forall j | 0 <= j < i - 1 ensures Resolve(meta, tail[j]) == [] {
        assert tail[j] == cands[j + 1];
      }
      FirstResolvedFirst(meta, tail, fallback, i - 1);
      if i < |cands| {
        assert tail[i - 1] == cands[i];
      }
    }
  }

  /** `$year`, `$month` and `$day` of a date written as `%Y-%m-%d` give its
      parts (the year unpadded, month and day in two digits). */
  lemma DatePartOfDate(d: Dates.Date)
    requires Dates.ValidDate(d)
    ensures DatePart("year", Dates.FormatIso(d)) == IntToStr(d.year)
    ensures DatePart("month", Dates.FormatIso(d)) == Pad2(d.month)
    ensures DatePart("day", Dates.FormatIso(d)) == Pad2(d.day)
  {
    Dates.ParseFormatIso(d);
  }

  /** A value `strptime` refuses gives "" for all three. */
  lemma DatePartNotDate(func: string, val: string)
    requires Dates.ParseIso(val).None?
    ensures DatePart(func, val) == ""
  {
  }
}

=== FILE: func_call.dfy ===
/** The function-call pattern `\$(\w+)\(([^)]*)\)` shared by utils/evaluator.py,
    gui/naming_editor.py and utils/queue_manager.py, and `re.sub` with a
    callback over it: leftmost, non-overlapping matches, text between matches
    kept as it is. */
module FuncCall {
  import opened Wrappers
  import opened PyStr

  /** A match: the name group, the argument group and the end of the match. */
  datatype Call = Call(name: string, args: string, end: nat)

  predicate IsName(name: string) {
    name != [] && forall k :: 0 <= k < |name| ==> IsWord(name[k])
  }

  /** An argument as a writer of a scheme puts it in the argument group:
      bare text, or text in a pair of quotes. */
  datatype Arg = Bare(text: string) | Quoted(q: char, text: string)

  function ArgText(a: Arg): string {
    match a
    case Bare(t) => t
    case Quoted(q, t) => [q] + t + [q]
  }

  function ArgTexts(args: seq<Arg>): (r: seq<string>)
    ensures |r| == |args|
  {
    if args == [] then [] else [ArgText(args[0])] + ArgTexts(args[1..])
  }

  /** The text of a call. */
  function CallText(name: string, args: string): string {
    "$" + name + "(" + args + ")"
  }

  /** The pattern matched at i.  The name is the whole word run after `$`
      (a shorter run would be followed by a word character, not `(`), and
      the arguments run to the first `)`. */
  function CallAt(t: string, i: nat): (r: Option<Call>)
    ensures r.Some? ==> IsName(r.value.name) && ')' !in r.value.args
    ensures r.Some? ==> r.value.end <= |t| && i + |CallText(r.value.name, r.value.args)| == r.value.end
  {
    if i < |t| && t[i] == '$' then
      var n := RunLen(t, i + 1, IsWord);
      if n >= 1 && i + 1 + n < |t| && t[i + 1 + n] == '(' then
        match FindChar(t, ')', i + 2 + n)
        case Some(c) =>
          var name := t[i + 1..i + 1 + n];
          var args := t[i + 2 + n..c];
          Some(Call(name, args, c + 1))
        case None => None
      else None
    else None
  }

  /** What the pattern finds is the text of a call. */
  lemma CallAtText(t: string, i: nat)
    ensures CallAt(t, i).Some? ==> t[i..CallAt(t, i).value.end] == CallText(CallAt(t, i).value.name, CallAt(t, i).value.args)
  {
    if CallAt(t, i).Some? {
      var n := RunLen(t, i + 1, IsWord);
      var c := FindChar(t, ')', i + 2 + n).value;
      CallTextBetween(t, i, n, c);
    }
  }

  lemma CallTextBetween(t: string, i: nat, n: nat, c: nat)
    requires i + 2 + n <= c < |t| && t[i] == '$' && t[i + 1 + n] == '(' && t[c] == ')'
    ensures t[i..c + 1] == CallText(t[i + 1..i + 1 + n], t[i + 2 + n..c])
  {
    var ct := CallText(t[i + 1..i + 1 + n], t[i + 2 + n..c]);
    assert |ct| == c + 1 - i;
    forall k | 0 <= k < |ct| ensures t[i..c + 1][k] == ct[k] {
      if k == 0 {
      } else if k <= n {
        assert ct[k] == t[i + 1..i + 1 + n][k - 1];
      } else if k == n + 1 {
      } else if k < |ct| - 1 {
        assert ct[k] == t[i + 2 + n..c][k - n - 2];
      }
    }
  }

  /** Whenever the text at i is a call, the pattern finds exactly that call. */
  lemma CallAtExact(t: string, i: nat, name: string, args: string)
    requires IsName(name) && ')' !in args
    requires i + |CallText(name, args)| <= |t| && t[i..i + |CallText(name, args)|] == CallText(name, args)
    ensures CallAt(t, i) == Some(Call(name, args, i + |CallText(name, args)|))
  {
    CallTextChars(t, i, name, args);
    CallAtParts(t, i, name, args);
  }

  lemma CallTextChars(t: string, i: nat, name: string, args: string)
    requires i + |CallText(name, args)| <= |t| && t[i..i + |CallText(name, args)|] == CallText(name, args)
    ensures i + 3 + |name| + |args| <= |t|
    ensures t[i] == '$' && t[i + 1 + |name|] == '(' && t[i + 2 + |name| + |args|] == ')'
    ensures t[i + 1..i + 1 + |name|] == name && t[i + 2 + |name|..i + 2 + |name| + |args|] == args
  {
    var ct := CallText(name, args);
    var n := |name|;
    assert forall k :: 0 <= k < |ct| ==> t[i + k] == ct[k];
    assert ct[0] == '$' && ct[1 + n] == '(' && ct[2 + n + |args|] == ')';
    assert t[i + 1..i + 1 + n] == name by {
      forall k | 0 <= k < n ensures t[i + 1 + k] == name[k] {
        assert ct[1 + k] == name[k];
      }
    }
    assert t[i + 2 + n..i + 2 + n + |args|] == args by {
      forall k | 0 <= k < |args| ensures t[i + 2 + n + k] == args[k] {
        assert ct[2 + n + k] == args[k];
      }
    }
  }

  lemma CallAtParts(t: string, i: nat, name: string, args: string)
    requires IsName(name) && ')' !in args
    requires i + 3 + |name| + |args| <= |t|
    requires t[i] == '$' && t[i + 1 + |name|] == '(' && t[i + 2 + |name| + |args|] == ')'
    requires t[i + 1..i + 1 + |name|] == name && t[i + 2 + |name|..i + 2 + |name| + |args|] == args
    ensures CallAt(t, i) == Some(Call(name, args, i + |CallText(name, args)|))
  {
    NameRun(t, i + 1, name);
    ArgsToClose(t, i + 2 + |name|, args);
  }

  /** The name group is the whole word run. */
  lemma NameRun(t: string, j: nat, name: string)
    requires IsName(name) && j + |name| < |t| && t[j..j + |name|] == name && !IsWord(t[j + |name|])
    ensures RunLen(t, j, IsWord) == |name|
  {
    forall k | j <= k < j + |name|
      ensures IsWord(t[k])
    {
      assert t[k] == t[j..j + |name|][k - j];
    }
    RunLenExact(t, j, IsWord, |name|);
  }

  /** The argument group runs to the first `)`. */
  lemma ArgsToClose(t: string, j: nat, args: string)
    requires ')' !in args && j + |args| < |t| && t[j..j + |args|] == args && t[j + |args|] == ')'
    ensures FindChar(t, ')', j) == Some(j + |args|)
  {
    forall k | j <= k < j + |args|
      ensures t[k] != ')'
    {
      assert t[k] == t[j..j + |args|][k - j];
    }
    FindCharAt(t, ')', j, j + |args|);
  }

  /** `FUNC_RE.search(t, i)`: the leftmost call starting at or after i. */
  function FindCall(t: string, i: nat): (r: Option<(nat, Call)>)
    ensures r.Some? ==> i <= r.value.0 && CallAt(t, r.value.0) == Some(r.value.1)
    ensures r.Some? ==> forall j :: i <= j < r.value.0 ==> CallAt(t, j).None?
    ensures r.None? ==> forall j :: i <= j ==> CallAt(t, j).None?
    decreases |t| + 1 - i
  {
    if i >= |t| then None
    else match CallAt(t, i)
      case Some(c) => Some((i, c))
      case None => FindCall(t, i + 1)
  }

  /** `FUNC_RE.sub(f, t[i:])`, where a replacement may fail; the first failure
      is the result. */
  function SubCalls<E>(t: string, i: nat, f: (string, string) -> Result<string, E>): Result<string, E>
    decreases |t| + 1 - i
  {
    if i > |t| then Success([])
    else match FindCall(t, i)
      case None => Success(t[i..])
      case Some((s, c)) =>
        match f(c.name, c.args)
        case Failure(e) => Failure(e)
        case Success(v) =>
          match SubCalls(t, c.end, f)
          case Failure(e) => Failure(e)
          case Success(rest) => Success(t[i..s] + v + rest)
  }

  /** Text without `$` holds no call, so the substitution leaves it unchanged. */
  lemma NoDollarNoCall(t: string, i: nat)
    requires i <= |t| && '$' !in t[i..]
    ensures FindCall(t, i).None?
  {
    forall j | i <= j
      ensures CallAt(t, j).None?
    {
      if j < |t| {
        assert t[j] == t[i..][j - i];
      }
    }
  }

  lemma NoDollarUnchanged<E>(t: string, f: (string, string) -> Result<string, E>)
    requires '$' !in t
    ensures SubCalls(t, 0, f) == Success(t)
  {
    NoDollarNoCall(t, 0);
  }

  /** A call surrounded by `$`-free text is replaced by its callback's value
      and nothing else changes. */
  lemma SubOneCall<E>(pre: string, name: string, args: string, post: string, f: (string, string) -> Result<string, E>)
    requires '$' !in pre && '$' !in post && IsName(name) && ')' !in args
    ensures SubCalls(pre + CallText(name, args) + post, 0, f) ==
      if f(name, args).Success? then Success(pre + f(name, args).value + post) else f(name, args)
  {
    var ct := CallText(name, args);
    var t := pre + ct + post;
    assert t[|pre|..|pre| + |ct|] == ct;
    CallAtExact(t, |pre|, name, args);
    forall j | 0 <= j < |pre|
      ensures CallAt(t, j).None?
    {
      assert t[j] == pre[j];
    }
    assert FindCall(t, 0) == Some((|pre|, Call(name, args, |pre| + |ct|))) by {
      FindCallFirst(t, 0, |pre|);
    }
    assert t[|pre| + |ct|..] == post;
    NoDollarNoCall(t, |pre| + |ct|);
    assert t[0..|pre|] == pre;
  }

  /** The leftmost call is the first position where the pattern matches. */
  lemma FindCallFirst(t: string, i: nat, s: nat)
    requires i <= s && CallAt(t, s).Some? && forall j :: i <= j < s ==> CallAt(t, j).None?
    ensures FindCall(t, i) == Some((s, CallAt(t, s).value))
  {
    var r := FindCall(t, i);
    assert r.Some?;
    assert r.value.0 == s;
  }
}

=== FILE: helpers.dfy ===
/** Filename-parsing helpers of utils/helpers.py: name normalisation, token
    splitting, state lookup, the venue matcher, the resolution finder and the
    `CITY_STATE_RE` search.  The same `normalize_name`, `split_tokens` and
    `find_state` also appear in utils/text_utils.py and VidForge.py. */
module Helpers {
  import opened Wrappers
  import opened PyStr
  import opened PyDict

  /** `STATE_ABBR` in constants.py. */
  const StateAbbr: set<string> := {
    "AL", "AK", "AZ", "AR", "CA", "CO", "CT", "DE", "FL", "GA", "HI", "ID", "IL", "IN", "IA",
    "KS", "KY", "LA", "ME", "MD", "MA", "MI", "MN", "MS", "MO", "MT", "NE", "NV", "NH", "NJ",
    "NM", "NY", "NC", "ND", "OH", "OK", "OR", "PA", "RI", "SC", "SD", "TN", "TX", "UT", "VT",
    "VA", "WA", "WV", "WI", "WY"}

  /** `STATE_SET`: the abbreviations in lower case. */
  const StateSet: set<string> := set s | s in StateAbbr :: Lower(s)

  // ---------------------------------------------------------------- normalize_name

  function KeepWordChars(s: string): (r: string)
    ensures forall i :: 0 <= i < |r| ==> IsWord(r[i])
    ensures |r| <= |s|
  {
    if s == [] then []
    else (if IsWord(s[0]) then [s[0]] else []) + KeepWordChars(s[1..])
  }

  /** `normalize_name`: the lower-cased string with every non-word character removed. */
  function NormalizeKey(s: string): (r: string)
    ensures |r| <= |s|
  {
    KeepWordChars(Lower(s))
  }

  lemma {:induction false} KeepWordCharsConcat(a: string, b: string)
    ensures KeepWordChars(a + b) == KeepWordChars(a) + KeepWordChars(b)
    decreases |a|
  {
    if a != [] {
      assert (a + b)[1..] == a[1..] + b;
      KeepWordCharsConcat(a[1..], b);
    } else {
      assert a + b == b;
    }
  }

  lemma LowerConcat(a: string, b: string)
    ensures Lower(a + b) == Lower(a) + Lower(b)
  {
  }

  /** Normalising a concatenation normalises the pieces. */
  lemma NormalizeConcat(a: string, b: string)
    ensures NormalizeKey(a + b) == NormalizeKey(a) + NormalizeKey(b)
  {
    LowerConcat(a, b);
    KeepWordCharsConcat(Lower(a), Lower(b));
  }

  lemma {:induction false} KeepWordCharsLowerCommute(s: string)
    ensures KeepWordChars(Lower(s)) == Lower(KeepWordChars(s))
    decreases |s|
  {
    if s != [] {
      assert Lower(s) == [LowerChar(s[0])] + Lower(s[1..]);
      KeepWordCharsLowerCommute(s[1..]);
      LowerConcat(if IsWord(s[0]) then [s[0]] else [], KeepWordChars(s[1..]));
    }
  }

  lemma {:induction false} KeepWordCharsOfWords(s: string)
    requires forall i :: 0 <= i < |s| ==> IsWord(s[i])
    ensures KeepWordChars(s) == s
    decreases |s|
  {
    if s != [] {
      KeepWordCharsOfWords(s[1..]);
    }
  }

  lemma {:induction false} LowerOfLower(s: string)
    ensures Lower(Lower(s)) == Lower(s)
  {
  }

  /** A normalised key is made of lower-case word characters only. */
  lemma NormalizeKeyChars(s: string)
    ensures forall i :: 0 <= i < |NormalizeKey(s)| ==> IsWord(NormalizeKey(s)[i]) && !IsUpper(NormalizeKey(s)[i])
  {
    var r := NormalizeKey(s);
    KeepWordCharsLowerCommute(s);
    assert r == Lower(KeepWordChars(s));
  }

  /** `normalize_name` is idempotent: keys in the name dictionaries are fixed points. */
  lemma NormalizeIdempotent(s: string)
    ensures NormalizeKey(NormalizeKey(s)) == NormalizeKey(s)
  {
    var r := NormalizeKey(s);
    NormalizeKeyChars(s);
    assert Lower(r) == r by {
      forall i | 0 <= i < |r| ensures Lower(r)[i] == r[i] { }
    }
    KeepWordCharsOfWords(r);
  }

  /** Title-casing does not change a normalised key. */
  lemma NormalizeOfTitle(s: string)
    ensures NormalizeKey(Title(s)) == NormalizeKey(s)
  {
    LowerOfTitle(s);
  }

  /** `{normalize_name(k): v for k, v in d.items()}`: a key keeps the position
      of its first source entry and the value of its last. */
  function NormalizeKeys<V>(d: Dict<V>): (r: Dict<V>)
    ensures KeysUnique(r)
    ensures forall k :: HasKey(r, k) <==> exists i :: 0 <= i < |d| && NormalizeKey(d[i].0) == k
  {
    if d == [] then []
    else
      var init := d[..|d| - 1];
      var r := Put(NormalizeKeys(init), NormalizeKey(d[|d| - 1].0), d[|d| - 1].1);
      PutKeys(NormalizeKeys(init), NormalizeKey(d[|d| - 1].0), d[|d| - 1].1);
      assert forall i :: 0 <= i < |init| ==> init[i] == d[i];
      r
  }

  /** The normalised key i stands for is not produced again by a later entry. */
  predicate LastWith<V>(d: Dict<V>, i: nat)
    requires i < |d|
  {
    forall j | i < j < |d| :: NormalizeKey(d[j].0) != NormalizeKey(d[i].0)
  }

  /** Each normalised key holds the value of the last source entry with that
      normal form, and every such last entry's value is found under its key. */
  lemma NormalizeKeysValues<V>(d: Dict<V>)
    ensures forall k, v :: Get(NormalizeKeys(d), k) == Some(v) ==>
      exists i :: 0 <= i < |d| && NormalizeKey(d[i].0) == k && d[i].1 == v && LastWith(d, i)
    ensures forall i | 0 <= i < |d| && LastWith(d, i) :: Get(NormalizeKeys(d), NormalizeKey(d[i].0)) == Some(d[i].1)
  {
    forall k, v | Get(NormalizeKeys(d), k) == Some(v)
      ensures exists i :: 0 <= i < |d| && NormalizeKey(d[i].0) == k && d[i].1 == v && LastWith(d, i)
    {
      NormalizeKeysFrom(d, k, v);
    }
    forall i | 0 <= i < |d| && LastWith(d, i)
      ensures Get(NormalizeKeys(d), NormalizeKey(d[i].0)) == Some(d[i].1)
    {
      NormalizeKeysLast(d, i);
    }
  }

  /** A value found under a normalised key is that of the last entry with it. */
  lemma {:induction false} NormalizeKeysFrom<V>(d: Dict<V>, k: string, v: V)
    requires Get(NormalizeKeys(d), k) == Some(v)
    ensures exists i :: 0 <= i < |d| && NormalizeKey(d[i].0) == k && d[i].1 == v && LastWith(d, i)
  {
    var n := |d| - 1;
    var init := d[..n];
    assert NormalizeKeys(d) == Put(NormalizeKeys(init), NormalizeKey(d[n].0), d[n].1);
    if k == NormalizeKey(d[n].0) {
      assert NormalizeKey(d[n].0) == k && d[n].1 == v && LastWith(d, n);
    } else {
      NormalizeKeysFrom(init, k, v);
      var i :| 0 <= i < |init| && NormalizeKey(init[i].0) == k && init[i].1 == v && LastWith(init, i);
      LastWithSnoc(d, i);
    }
  }

  /** The last entry with a normal form is found under it. */
  lemma {:induction false} NormalizeKeysLast<V>(d: Dict<V>, i: nat)
    requires i < |d| && LastWith(d, i)
    ensures Get(NormalizeKeys(d), NormalizeKey(d[i].0)) == Some(d[i].1)
  {
    var n := |d| - 1;
    var init := d[..n];
    var key := NormalizeKey(d[i].0);
    NormalizeKeysSnoc(d);
    if i < n {
      assert init[i] == d[i];
      assert NormalizeKey(d[n].0) != key;
      LastWithInit(d, i);
      NormalizeKeysLast(init, i);
      assert Get(NormalizeKeys(init), key) == Some(d[i].1);
    }
  }

  /** `normalize_keys` of a dictionary is that of all but its last entry, with the last one assigned. */
  lemma NormalizeKeysSnoc<V>(d: Dict<V>)
    requires d != []
    ensures NormalizeKeys(d) == Put(NormalizeKeys(d[..|d| - 1]), NormalizeKey(d[|d| - 1].0), d[|d| - 1].1)
  {
  }

  lemma LastWithSnoc<V>(d: Dict<V>, i: nat)
    requires i < |d| - 1 && LastWith(d[..|d| - 1], i)
    requires NormalizeKey(d[|d| - 1].0) != NormalizeKey(d[i].0)
    ensures LastWith(d, i)
  {
    var init := d[..|d| - 1];
    forall j | i < j < |d| ensures NormalizeKey(d[j].0) != NormalizeKey(d[i].0) {
      if j < |d| - 1 {
        assert init[j] == d[j] && init[i] == d[i];
      }
    }
  }

  lemma LastWithInit<V>(d: Dict<V>, i: nat)
    requires i < |d| - 1 && LastWith(d, i)
    ensures LastWith(d[..|d| - 1], i)
  {
    var init := d[..|d| - 1];
    forall j | i < j < |init| ensures NormalizeKey(init[j].0) != NormalizeKey(init[i].0) {
      assert init[j] == d[j] && init[i] == d[i];
    }
  }

  // ---------------------------------------------------------------- split_tokens

  /** Characters `TOKEN_SPLIT_RE = [^\w']+` does not split on. */
  predicate IsTokenChar(c: char) { IsWord(c) || c == '\'' }

  function Tokens(s: string): (r: seq<string>)
    ensures forall k :: 0 <= k < |r| ==> r[k] != []
    ensures forall k :: 0 <= k < |r| ==> forall i :: 0 <= i < |r[k]| ==> IsTokenChar(r[k][i])
    decreases |s|
  {
    if s == [] then []
    else if !IsTokenChar(s[0]) then Tokens(s[1..])
    else
      var n := RunLen(s, 0, IsTokenChar);
      [s[..n]] + Tokens(s[n..])
  }

  /** `split_tokens`: the non-empty pieces of the lower-cased text between runs
      of characters other than word characters and apostrophes. */
  function SplitTokens(txt: string): seq<string> {
    Tokens(Lower(txt))
  }

  function Concat(ss: seq<string>): string {
    if ss == [] then [] else ss[0] + Concat(ss[1..])
  }

  function KeepTokenChars(s: string): string {
    if s == [] then []
    else (if IsTokenChar(s[0]) then [s[0]] else []) + KeepTokenChars(s[1..])
  }

  lemma {:induction false} KeepTokenCharsConcat(a: string, b: string)
    ensures KeepTokenChars(a + b) == KeepTokenChars(a) + KeepTokenChars(b)
    decreases |a|
  {
    if a != [] {
      assert (a + b)[1..] == a[1..] + b;
      KeepTokenCharsConcat(a[1..], b);
    } else {
      assert a + b == b;
    }
  }

  lemma {:induction false} KeepTokenCharsAll(s: string)
    requires forall i :: 0 <= i < |s| ==> IsTokenChar(s[i])
    ensures KeepTokenChars(s) == s
    decreases |s|
  {
    if s != [] {
      KeepTokenCharsAll(s[1..]);
    }
  }

  /** Read in order, the tokens are exactly the token characters of the text:
      splitting drops separators and nothing else. */
  lemma {:induction false} TokensKeepTokenChars(s: string)
    ensures Concat(Tokens(s)) == KeepTokenChars(s)
    decreases |s|
  {
    if s != [] {
      if !IsTokenChar(s[0]) {
        TokensKeepTokenChars(s[1..]);
      } else {
        var n := RunLen(s, 0, IsTokenChar);
        TokensKeepTokenChars(s[n..]);
        assert s == s[..n] + s[n..];
        KeepTokenCharsConcat(s[..n], s[n..]);
        KeepTokenCharsAll(s[..n]);
      }
    }
  }

  /** Every token is lower case. */
  lemma {:induction false} TokensOfLower(s: string)
    requires forall i :: 0 <= i < |s| ==> !IsUpper(s[i])
    ensures forall k :: 0 <= k < |Tokens(s)| ==> forall i :: 0 <= i < |Tokens(s)[k]| ==> !IsUpper(Tokens(s)[k][i])
    decreases |s|
  {
    if s != [] {
      if !IsTokenChar(s[0]) {
        TokensOfLower(s[1..]);
      } else {
        var n := RunLen(s, 0, IsTokenChar);
        TokensOfLower(s[n..]);
      }
    }
  }

  /** `split_tokens` yields non-empty lower-case tokens whose concatenation is
      the text's lower-cased word characters and apostrophes. */
  lemma SplitTokensSpec(txt: string)
    ensures var t := SplitTokens(txt);
      Concat(t) == KeepTokenChars(Lower(txt))
      && forall k :: 0 <= k < |t| ==> t[k] != [] && forall i :: 0 <= i < |t[k]| ==> IsTokenChar(t[k][i]) && !IsUpper(t[k][i])
  {
    TokensKeepTokenChars(Lower(txt));
    TokensOfLower(Lower(txt));
  }

  // ---------------------------------------------------------------- find_state

  /** `find_state`: the first token that is a state abbreviation, with its
      position and its upper-case form. */
  function FindState(toks: seq<string>, from: nat): (r: Option<(nat, string)>)
    requires from <= |toks|
    ensures r.Some? ==> from <= r.value.0 < |toks| && toks[r.value.0] in StateSet && r.value.1 == Upper(toks[r.value.0])
    ensures r.Some? ==> forall j :: from <= j < r.value.0 ==> toks[j] !in StateSet
    ensures r.None? ==> forall j :: from <= j < |toks| ==> toks[j] !in StateSet
    decreases |toks| - from
  {
    if from == |toks| then None
    else if toks[from] in StateSet then Some((from, Upper(toks[from])))
    else FindState(toks, from + 1)
  }

  // ---------------------------------------------------------------- os.path.splitext

  function LastIndexOf(s: string, c: char): (r: Option<nat>)
    ensures r.Some? ==> r.value < |s| && s[r.value] == c && forall k :: r.value < k < |s| ==> s[k] != c
    ensures r.None? ==> forall k :: 0 <= k < |s| ==> s[k] != c
  {
    if s == [] then None
    else if s[|s| - 1] == c then Some(|s| - 1)
    else LastIndexOf(s[..|s| - 1], c)
  }

  /** Where the last `/`-separated component of p starts. */
  function ComponentStart(p: string): (s: nat)
    ensures s <= |p| && (s > 0 ==> p[s - 1] == '/')
    ensures forall m :: s <= m < |p| ==> p[m] != '/'
  {
    match LastIndexOf(p, '/')
    case None => 0
    case Some(i) => i + 1
  }

  /** `os.path.splitext(p)[0]` on a POSIX path: the extension starts at the
      last dot of the last `/`-separated component, unless only dots precede
      it in that component. */
  function SplitExtRoot(p: string): (r: string)
    ensures |r| <= |p| && r == p[..|r|]
    ensures r == p || (p[|r|] == '.' && forall k :: |r| < k < |p| ==> p[k] != '.' && p[k] != '/')
    ensures r != p ==> exists k :: ComponentStart(p) <= k < |r| && p[k] != '.'
    ensures (exists k, d :: ComponentStart(p) <= k < d < |p| && p[k] != '.' && p[d] == '.') ==> r != p
  {
    var start := ComponentStart(p);
    match LastIndexOf(p, '.')
    case None => p
    case Some(dot) =>
      if dot < start then p
      else if forall k | start <= k < dot :: p[k] == '.' then p
      else p[..dot]
  }

  /** `os.path.splitext` of `stem.ext`, where ext holds no dot or slash and
      the last component of stem holds a character other than a dot, cuts
      off `.ext`. */
  lemma SplitExtOfName(stem: string, ext: string)
    requires forall m :: 0 <= m < |ext| ==> ext[m] != '.' && ext[m] != '/'
    requires exists k :: 0 <= k < |stem| && stem[k] != '.' && stem[k] != '/' && (forall m :: k < m < |stem| ==> stem[m] != '/')
    ensures SplitExtRoot(stem + "." + ext) == stem
  {
    var p := stem + "." + ext;
    var k :| 0 <= k < |stem| && stem[k] != '.' && stem[k] != '/' && (forall m :: k < m < |stem| ==> stem[m] != '/');
    forall m | k <= m < |p| ensures p[m] != '/' {
      if m < |stem| {
        assert p[m] == stem[m];
      } else if m > |stem| {
        assert p[m] == ext[m - |stem| - 1];
      }
    }
    forall m | |stem| < m < |p| ensures p[m] != '.' {
      assert p[m] == ext[m - |stem| - 1];
    }
    assert p[k] == stem[k] && p[|stem|] == '.';
    assert ComponentStart(p) <= k;
    var r := SplitExtRoot(p);
    assert |r| == |stem|;
    assert r == p[..|stem|] == stem;
  }

  // ---------------------------------------------------------------- re.split(r"[.\s_\-]+", s)

  predicate IsWindowSep(c: char) { c == '.' || IsSpace(c) || c == '_' || c == '-' }

  /** `re.split(r"[.\s_\-]+", s)`: pieces between maximal separator runs,
      keeping the empty pieces at either end. */
  function SepSplit(s: string): (r: seq<string>)
    ensures |r| >= 1
    ensures forall k :: 0 <= k < |r| ==> forall i :: 0 <= i < |r[k]| ==> !IsWindowSep(r[k][i])
    decreases |s|
  {
    var n := RunLen(s, 0, c => !IsWindowSep(c));
    if n == |s| then [s]
    else
      var m := RunLen(s, n, IsWindowSep);
      [s[..n]] + SepSplit(s[n + m..])
  }

  // ---------------------------------------------------------------- window search

  /** Normalised text of the window of w pieces starting at i. */
  function WindowKey(toks: seq<string>, w: nat, i: nat): string
    requires i + w <= |toks|
  {
    NormalizeKey(Join(" ", toks[i..i + w]))
  }

  /** Whether a window is accepted: helpers.py wants a non-empty value
      (`in_dict`); text_utils.py and VidForge.py want the key to be present. */
  predicate Accepts(venues: Dict<string>, key: string, needValue: bool) {
    if needValue then GetOr(venues, key, "") != "" else HasKey(venues, key)
  }

  predicate WindowHit(toks: seq<string>, venues: Dict<string>, needValue: bool, w: nat, i: nat) {
    1 <= w && i + w <= |toks| && Accepts(venues, WindowKey(toks, w, i), needValue)
  }

  /** Window (w2, i2) is visited before (w, i): wider first, then left to right. */
  predicate Before(w2: nat, i2: nat, w: nat, i: nat) {
    w2 > w || (w2 == w && i2 < i)
  }

  /** The nested loops `for w in range(4, 0, -1): for i in range(len(toks) - w + 1)`
      resumed at (w, i): the first window accepted. */
  function WindowFrom(toks: seq<string>, venues: Dict<string>, needValue: bool, w: nat, i: nat): (r: Option<(nat, nat)>)
    decreases w, |toks| + 1 - i
  {
    if w == 0 then None
    else if i + w <= |toks| then
      (if WindowHit(toks, venues, needValue, w, i) then Some((w, i)) else WindowFrom(toks, venues, needValue, w, i + 1))
    else WindowFrom(toks, venues, needValue, w - 1, 0)
  }

  /** The window search returns an accepted window, and every window visited
      before it (from the starting point on) is rejected. */
  lemma {:induction false} WindowFromFirst(toks: seq<string>, venues: Dict<string>, needValue: bool, w: nat, i: nat)
    ensures var r := WindowFrom(toks, venues, needValue, w, i);
      (r.Some? ==> WindowHit(toks, venues, needValue, r.value.0, r.value.1) && r.value.0 <= w
                   && (r.value.0 == w ==> i <= r.value.1))
      && (forall w2: nat, i2: nat :: !Before(w2, i2, w, i)
            && (r.None? || Before(w2, i2, r.value.0, r.value.1))
            ==> !WindowHit(toks, venues, needValue, w2, i2))
    decreases w, |toks| + 1 - i
  {
    if w == 0 {
    } else if i + w <= |toks| {
      if !WindowHit(toks, venues, needValue, w, i) {
        WindowFromFirst(toks, venues, needValue, w, i + 1);
      }
    } else {
      WindowFromFirst(toks, venues, needValue, w - 1, 0);
    }
  }

  /** The value of the first accepted window of up to four pieces, if any. */
  function WindowMatch(toks: seq<string>, venues: Dict<string>, needValue: bool): Option<string> {
    match WindowFrom(toks, venues, needValue, 4, 0)
    case None => None
    case Some((w, i)) =>
      if i + w <= |toks| then Some(GetOr(venues, WindowKey(toks, w, i), "")) else None
  }

  // ---------------------------------------------------------------- substring fallback

  /** Position of the first dictionary key that occurs in `norm`
      (`for k, v in venues.items(): if k in norm`). */
  function FirstKeyIn<V>(d: Dict<V>, norm: string, from: nat): (r: Option<nat>)
    requires from <= |d|
    ensures r.Some? ==> from <= r.value < |d| && Contains(norm, d[r.value].0)
    ensures r.Some? ==> forall j :: from <= j < r.value ==> !Contains(norm, d[j].0)
    ensures r.None? ==> forall j :: from <= j < |d| ==> !Contains(norm, d[j].0)
    decreases |d| - from
  {
    if from == |d| then None
    else if Contains(norm, d[from].0) then Some(from)
    else FirstKeyIn(d, norm, from + 1)
  }

  // ---------------------------------------------------------------- extract_venue

  /** `[p.strip() for p in base.split(" - ")]` */
  function DashParts(base: string): (r: seq<string>)
    ensures |r| >= 1
  {
    var ps := Split(base, " - ");
    seq(|ps|, k requires 0 <= k < |ps| => Strip(ps[k]))
  }

  /** `extract_venue` of utils/helpers.py: the third " - " slot, then the
      window search, then the first key contained in the normalised name. */
  function ExtractVenue(base: string, venues: Dict<string>): (r: string)
    ensures r == "" || IsValue(venues, r)
  {
    var parts := DashParts(base);
    var dash := if |parts| >= 3 then GetOr(venues, NormalizeKey(parts[2]), "") else "";
    assert dash == "" || IsValue(venues, dash) by {
      if |parts| >= 3 {
        GetOrIsValue(venues, NormalizeKey(parts[2]), "");
      }
    }
    WindowMatchIsValue(SepSplit(base), venues, true);
    if dash != "" then dash
    else match WindowMatch(SepSplit(base), venues, true)
      case Some(v) => v
      case None =>
        match FirstKeyIn(venues, NormalizeKey(base), 0)
        case Some(k) => assert IsValue(venues, venues[k].1); venues[k].1
        case None => ""
  }

  /** v is stored in d under some key. */
  predicate IsValue(d: Dict<string>, v: string) {
    exists j :: 0 <= j < |d| && d[j].1 == v
  }

  lemma GetIsValue(d: Dict<string>, k: string)
    requires Get(d, k).Some?
    ensures exists j :: 0 <= j < |d| && d[j].1 == Get(d, k).value
  {
    if d[0].0 != k {
      GetIsValue(d[1..], k);
      var j :| 0 <= j < |d[1..]| && d[1..][j].1 == Get(d[1..], k).value;
      assert d[j + 1].1 == Get(d, k).value;
    }
  }

  /** A lookup with a default gives a stored value or the default. */
  lemma GetOrIsValue(d: Dict<string>, k: string, default: string)
    ensures GetOr(d, k, default) == default || IsValue(d, GetOr(d, k, default))
  {
    if Get(d, k).Some? {
      GetIsValue(d, k);
    }
  }

  /** The window search gives a stored value, or "" for a window whose key
      is not stored. */
  lemma WindowMatchIsValue(toks: seq<string>, venues: Dict<string>, needValue: bool)
    ensures var m := WindowMatch(toks, venues, needValue);
      m.Some? ==> m.value == "" || IsValue(venues, m.value)
  {
    match WindowFrom(toks, venues, needValue, 4, 0)
    case None =>
    case Some((w, i)) =>
      if i + w <= |toks| {
        GetOrIsValue(venues, WindowKey(toks, w, i), "");
      }
  }

  /** A recognised third dash slot decides the venue of `extract_venue` in
      utils/helpers.py, before the window search. */
  lemma ExtractVenueResult(base: string, venues: Dict<string>)
    ensures var parts := DashParts(base);
      |parts| >= 3 && GetOr(venues, NormalizeKey(parts[2]), "") != ""
      ==> ExtractVenue(base, venues) == GetOr(venues, NormalizeKey(parts[2]), "")
  {
  }

  // ---------------------------------------------------------------- infer_resolution

  /** The alternatives of `RES_RE`, in order. */
  const Resolutions: seq<string> := ["2160", "1440", "1080", "720", "480", "360", "240"]

  /** The first alternative of `RES_RE` that matches at position i. */
  function ResolutionAt(t: string, i: nat, k: nat): (r: Option<string>)
    requires k <= |Resolutions|
    ensures r.Some? ==> r.value in Resolutions && OccursAt(t, r.value, i)
    ensures r.None? ==> forall j :: k <= j < |Resolutions| ==> !OccursAt(t, Resolutions[j], i)
    decreases |Resolutions| - k
  {
    if k == |Resolutions| then None
    else if OccursAt(t, Resolutions[k], i) then Some(Resolutions[k])
    else ResolutionAt(t, i, k + 1)
  }

  /** `RES_RE.search(text)` from position i: the leftmost match's digits. */
  function ResolutionFrom(t: string, i: nat): (r: Option<string>)
    ensures r.Some? ==> r.value in Resolutions
    decreases |t| + 1 - i
  {
    if i > |t| then None
    else match ResolutionAt(t, i, 0)
      case Some(d) => Some(d)
      case None => ResolutionFrom(t, i + 1)
  }

  /** `infer_resolution`: "<digits>p" for the leftmost resolution number, else "". */
  function InferResolution(text: string): string {
    match ResolutionFrom(text, 0)
    case Some(d) => d + "p"
    case None => ""
  }

  /** A resolution number is found after text without digits, whatever follows. */
  lemma InferResolutionFinds(pre: string, k: nat, post: string)
    requires k < |Resolutions| && forall i :: 0 <= i < |pre| ==> !IsDigit(pre[i])
    ensures InferResolution(pre + Resolutions[k] + post) == Resolutions[k] + "p"
  {
    var t := pre + Resolutions[k] + post;
    assert t[..|pre|] == pre;
    ResolutionSkipsPrefix(t, pre, 0);
    assert t[|pre|..|pre| + |Resolutions[k]|] == Resolutions[k];
    ResolutionAtExact(t, |pre|, k);
  }

  /** No two alternatives share their first two characters. */
  lemma ResolutionsDiffer(j: nat, k: nat)
    requires j < k < |Resolutions|
    ensures Resolutions[j][0] != Resolutions[k][0] || Resolutions[j][1] != Resolutions[k][1]
  {
  }

  lemma ResolutionAtExact(t: string, p: nat, k: nat)
    requires k < |Resolutions| && OccursAt(t, Resolutions[k], p)
    ensures ResolutionAt(t, p, 0) == Some(Resolutions[k])
  {
    var rk := Resolutions[k];
    assert t[p..p + |rk|][0] == t[p] && t[p..p + |rk|][1] == t[p + 1];
    forall j | 0 <= j < k
      ensures !OccursAt(t, Resolutions[j], p)
    {
      var rj := Resolutions[j];
      ResolutionsDiffer(j, k);
      if p + |rj| <= |t| {
        assert t[p..p + |rj|][0] == t[p] && t[p..p + |rj|][1] == t[p + 1];
      }
    }
    ResolutionAtPicks(t, p, 0, k);
  }

  lemma {:induction false} ResolutionAtPicks(t: string, i: nat, from: nat, k: nat)
    requires from <= k < |Resolutions| && OccursAt(t, Resolutions[k], i)
    requires forall j :: from <= j < k ==> !OccursAt(t, Resolutions[j], i)
    ensures ResolutionAt(t, i, from) == Some(Resolutions[k])
    decreases k - from
  {
    if from < k {
      ResolutionAtPicks(t, i, from + 1, k);
    }
  }

  lemma {:induction false} ResolutionSkipsPrefix(t: string, pre: string, i: nat)
    requires i <= |pre| <= |t| && t[..|pre|] == pre && forall j :: 0 <= j < |pre| ==> !IsDigit(pre[j])
    ensures ResolutionFrom(t, i) == ResolutionFrom(t, |pre|)
    decreases |pre| - i
  {
    if i < |pre| {
      forall j | 0 <= j < |Resolutions|
        ensures !OccursAt(t, Resolutions[j], i)
      {
        assert t[i] == pre[i];
        if i + |Resolutions[j]| <= |t| {
          assert t[i..i + |Resolutions[j]|][0] == t[i];
        }
      }
      ResolutionSkipsPrefix(t, pre, i + 1);
    }
  }

  // ---------------------------------------------------------------- CITY_STATE_RE

  predicate IsCityChar(c: char) { IsAlpha(c) || c == ' ' }
  predicate IsCitySep(c: char) { c == ',' || c == '.' || IsSpace(c) }

  /** `(?P<city>[A-Za-z ]+)[,.\s]+(?P<st>[A-Za-z]{2})(?!\w)` matches at s with a
      city group of length L.  The separator run is taken whole: a shorter one
      would leave a separator where the first state letter must stand. */
  predicate CityStateAt(t: string, s: nat, L: nat) {
    1 <= L && s + L <= |t|
    && (forall k :: s <= k < s + L ==> IsCityChar(t[k]))
    && var q := s + L + RunLen(t, s + L, IsCitySep);
       q > s + L && q + 2 <= |t| && IsAlpha(t[q]) && IsAlpha(t[q + 1]) && (q + 2 == |t| || !IsWord(t[q + 2]))
  }

  lemma CityTooLong(t: string, s: nat, m: nat)
    requires s <= |t| && m == RunLen(t, s, IsCityChar)
    ensures forall L2: nat :: m < L2 ==> !CityStateAt(t, s, L2)
  {
    forall L2: nat | m < L2
      ensures !CityStateAt(t, s, L2)
    {
      if s + L2 <= |t| {
        assert s <= s + m < s + L2 && !IsCityChar(t[s + m]);
      }
    }
  }

  /** The greedy city group backs off one character at a time from length L. */
  function CityLenFrom(t: string, s: nat, L: nat): (r: Option<nat>)
    ensures r.Some? ==> r.value <= L && CityStateAt(t, s, r.value)
    ensures r.Some? ==> forall L2: nat :: r.value < L2 <= L ==> !CityStateAt(t, s, L2)
    ensures r.None? ==> forall L2: nat :: L2 <= L ==> !CityStateAt(t, s, L2)
    decreases L
  {
    if L == 0 then None
    else if CityStateAt(t, s, L) then Some(L)
    else CityLenFrom(t, s, L - 1)
  }

  /** `CITY_STATE_RE.search(t)` from s: the leftmost start, and there the longest city. */
  function CityStateFrom(t: string, s: nat): (r: Option<(nat, nat)>)
    ensures r.Some? ==> s <= r.value.0 && CityStateAt(t, r.value.0, r.value.1)
    ensures r.Some? ==> forall s2: nat, L2: nat :: s <= s2 < r.value.0 ==> !CityStateAt(t, s2, L2)
    ensures r.Some? ==> forall L2: nat :: r.value.1 < L2 ==> !CityStateAt(t, r.value.0, L2)
    ensures r.None? ==> forall s2: nat, L2: nat :: s <= s2 ==> !CityStateAt(t, s2, L2)
    decreases |t| + 1 - s
  {
    if s >= |t| then None
    else
      var m := RunLen(t, s, IsCityChar);
      CityTooLong(t, s, m);
      match CityLenFrom(t, s, m)
      case Some(L) => Some((s, L))
      case None =>
        var r := CityStateFrom(t, s + 1);
        if r.Some? then
          NoCityStateBefore(t, s, r.value.0);
          r
        else r
  }

  lemma NoCityStateBefore(t: string, s: nat, e: nat)
    requires forall L2: nat :: !CityStateAt(t, s, L2)
    requires forall s2: nat, L2: nat :: s + 1 <= s2 < e ==> !CityStateAt(t, s2, L2)
    ensures forall s2: nat, L2: nat :: s <= s2 < e ==> !CityStateAt(t, s2, L2)
  {
  }

  /** The `city` and `st` groups of the search, if it matches. */
  function CityStateSearch(t: string): (r: Option<(string, string)>)
    ensures r.Some? ==> |r.value.1| == 2 && IsAlpha(r.value.1[0]) && IsAlpha(r.value.1[1])
    ensures r.Some? ==> r.value.0 != [] && forall i :: 0 <= i < |r.value.0| ==> IsCityChar(r.value.0[i])
  {
    match CityStateFrom(t, 0)
    case None => None
    case Some((s, L)) =>
      var q := s + L + RunLen(t, s + L, IsCitySep);
      CityStateGroups(t, s, L);
      Some((t[s..s + L], t[q..q + 2]))
  }

  /** The groups of a match: a city of city characters and two letters. */
  lemma CityStateGroups(t: string, s: nat, L: nat)
    requires CityStateAt(t, s, L)
    ensures var q := s + L + RunLen(t, s + L, IsCitySep);
      q + 2 <= |t| && IsAlpha(t[q..q + 2][0]) && IsAlpha(t[q..q + 2][1])
    ensures var city := t[s..s + L];
      city != [] && forall i :: 0 <= i < |city| ==> IsCityChar(city[i])
  {
  }
}

=== FILE: naming_renderer.dfy ===
/** `render_scheme` of utils/naming_renderer.py: a single left-to-right pass
    of the pattern `%(\w+)%|\$year\(([^)]+)\)` over a scheme, each match
    replaced by a value computed from the metadata. */
module NamingRenderer {
  import opened Wrappers
  import opened PyStr
  import opened PyDict
  import opened ReSub
  import opened Readings
  import Dates

  /** A match of the alternation: a placeholder with its word, or a year
      call with its argument. */
  datatype Token = Placeholder(word: string) | YearCall(arg: string)

  /** `%(\w+)%` at i: the word and the length of the match. */
  function PlaceholderAt(t: string, i: nat): (r: Option<(string, nat)>)
    ensures r.Some? ==> r.value.1 == |r.value.0| + 2 && i + r.value.1 <= |t|
  {
    if i < |t| && t[i] == '%' then
      var n := RunLen(t, i + 1, IsWord);
      if n >= 1 && i + 1 + n < |t| && t[i + 1 + n] == '%' then Some((t[i + 1..i + 1 + n], n + 2))
      else None
    else None
  }

  /** `\$year\(([^)]+)\)` at i: the argument runs to the first `)` and is
      not empty. */
  function YearCallAt(t: string, i: nat): (r: Option<(string, nat)>)
    ensures r.Some? ==> r.value.0 != [] && r.value.1 == |r.value.0| + 7 && i + r.value.1 <= |t|
  {
    if i + 6 <= |t| && t[i] == '$' && t[i + 1] == 'y' && t[i + 2] == 'e' && t[i + 3] == 'a'
       && t[i + 4] == 'r' && t[i + 5] == '(' then
      match FindChar(t, ')', i + 6)
      case Some(c) => if c > i + 6 then Some((t[i + 6..c], c + 1 - i)) else None
      case None => None
    else None
  }

  /** The alternation at i, first branch first. */
  function TokenAt(t: string, i: nat): (r: Option<(Token, nat)>)
    ensures r.Some? ==> i + r.value.1 <= |t| && r.value.1 >= 3
  {
    match PlaceholderAt(t, i)
    case Some((w, n)) => Some((Placeholder(w), n))
    case None =>
      match YearCallAt(t, i)
      case Some((a, n)) => Some((YearCall(a), n))
      case None => None
  }

  /** The year of a `%Y-%m-%d` date, else the first four characters. */
  function YearText(dateStr: string): (r: string)
    ensures Dates.ParseIso(dateStr).None? ==> r == Slice(dateStr, 0, Some(4))
  {
    match Dates.ParseIso(dateStr)
    case Some(d) => IntToStr(d.year)
    case None => Slice(dateStr, 0, Some(4))
  }

  /** How the date of a year call is chosen: as the code does (`year_arg or
      meta.get("date")`, where the argument is never empty), or as its
      comment says (the argument names the metadata field, `date` by
      default, unless it is itself the date). */
  function DateStr(meta: Dict<string>, arg: string, reading: Reading): string {
    match reading
    case AsWritten => if arg != [] then arg else GetOr(meta, "date", "")
    case Intended => GetOr(meta, arg, arg)
  }

  /** The callback `_sub`. */
  function Value(meta: Dict<string>, tok: Token, reading: Reading): string {
    match tok
    case Placeholder(w) => GetOr(meta, w, "<" + w + ">")
    case YearCall(a) => YearText(DateStr(meta, a, reading))
  }

  function Matcher(meta: Dict<string>, reading: Reading): (string, nat) -> Option<Hit> {
    (t: string, i: nat) =>
      match TokenAt(t, i)
      case Some((tok, n)) => Some(Hit(Value(meta, tok, reading), n))
      case None => None
  }

  function Render(scheme: string, meta: Dict<string>, reading: Reading): string {
    SubAll(scheme, Matcher(meta, reading))
  }

  /** `render_scheme` as the code is written: text without `%` and `$` is
      returned as it is. */
  function RenderSchemeAsWritten(scheme: string, meta: Dict<string>): (r: string)
    ensures Plain(scheme) ==> r == scheme
  {
    RenderPlain(scheme, meta, AsWritten);
    Render(scheme, meta, AsWritten)
  }

  /** `render_scheme` with `$year(field)` reading the field's date: text
      without `%` and `$` is returned as it is, and a scheme without year
      calls renders as the code renders it. */
  function RenderScheme(scheme: string, meta: Dict<string>): (r: string)
    ensures Plain(scheme) ==> r == scheme
    ensures '$' !in scheme ==> r == RenderSchemeAsWritten(scheme, meta)
  {
    RenderPlain(scheme, meta, Intended);
    ReadingsAgree(scheme, meta);
    Render(scheme, meta, Intended)
  }

  predicate IsWordRun(w: string) {
    w != [] && forall k :: 0 <= k < |w| ==> IsWord(w[k])
  }

  predicate Plain(s: string) {
    '%' !in s && '$' !in s
  }

  /** Neither branch matches at a character other than `%` or `$`. */
  lemma NoTokenAt(t: string, i: nat, meta: Dict<string>, reading: Reading)
    requires i < |t| && t[i] != '%' && t[i] != '$'
    ensures Matcher(meta, reading)(t, i).None?
  {
  }

  /** Text without `%` and `$` is rendered as it is. */
  lemma RenderPlain(t: string, meta: Dict<string>, reading: Reading)
    ensures Plain(t) ==> Render(t, meta, reading) == t
  {
    if Plain(t) {
      forall p | 0 <= p < |t| ensures Matcher(meta, reading)(t, p).None? {
        NoTokenAt(t, p, meta, reading);
      }
      SubNone(t, 0, Matcher(meta, reading));
    }
  }

  /** Without a `$` no year call is read, so both readings render alike. */
  lemma ReadingsAgree(t: string, meta: Dict<string>)
    ensures '$' !in t ==> Render(t, meta, AsWritten) == Render(t, meta, Intended)
  {
    if '$' !in t {
      forall p | 0 <= p < |t| ensures Matcher(meta, AsWritten)(t, p) == Matcher(meta, Intended)(t, p) {
        assert t[p] != '$';
      }
      SubAgree(t, 0, Matcher(meta, AsWritten), Matcher(meta, Intended));
    }
  }


  lemma PlaceholderFound(t: string, p: nat, w: string)
    requires IsWordRun(w) && p + |w| + 2 <= |t| && t[p..p + |w| + 2] == "%" + w + "%"
    ensures TokenAt(t, p) == Some((Placeholder(w), |w| + 2))
  {
    var c := "%" + w + "%";
    assert forall k :: 0 <= k < |c| ==> t[p + k] == c[k];
    forall k | p + 1 <= k < p + 1 + |w| ensures IsWord(t[k]) {
      assert t[k] == c[k - p] == w[k - p - 1];
    }
    assert t[p + 1 + |w|] == c[1 + |w|] == '%';
    RunLenExact(t, p + 1, IsWord, |w|);
    assert t[p + 1..p + 1 + |w|] == w by {
      forall k | 0 <= k < |w| ensures t[p + 1 + k] == w[k] {
        assert c[1 + k] == w[k];
      }
    }
  }

  /** The scan around one match in otherwise plain text. */
  lemma RenderAround(pre: string, c: string, post: string, meta: Dict<string>, reading: Reading, v: string)
    requires Plain(pre) && Plain(post) && c != []
    requires Matcher(meta, reading)(pre + c + post, |pre|) == Some(Hit(v, |c|))
    ensures Render(pre + c + post, meta, reading) == pre + v + post
  {
    var t := pre + c + post;
    var m := Matcher(meta, reading);
    var p := |pre|;
    var e := p + |c|;
    forall q | 0 <= q < p ensures m(t, q).None? {
      assert t[q] == pre[q];
      NoTokenAt(t, q, meta, reading);
    }
    forall q | e <= q < |t| ensures m(t, q).None? {
      assert t[q] == post[q - e];
      NoTokenAt(t, q, meta, reading);
    }
    SubOne(t, p, m);
    assert t[..p] == pre && t[e..] == post;
  }

  /** A placeholder becomes its field's value, or `<word>` for a missing
      field; the value is not scanned again, whatever it holds. */
  lemma RenderOnePlaceholder(pre: string, w: string, post: string, meta: Dict<string>, reading: Reading)
    requires Plain(pre) && Plain(post) && IsWordRun(w)
    ensures Render(pre + "%" + w + "%" + post, meta, reading) == pre + GetOr(meta, w, "<" + w + ">") + post
  {
    var c := "%" + w + "%";
    var t := pre + c + post;
    assert t == pre + "%" + w + "%" + post;
    assert t[|pre|..|pre| + |c|] == c;
    PlaceholderFound(t, |pre|, w);
    var v := GetOr(meta, w, "<" + w + ">");
    assert Matcher(meta, reading)(t, |pre|) == Some(Hit(v, |c|));
    RenderAround(pre, c, post, meta, reading, v);
  }

  /** The text of a year call. */
  function YearCallText(arg: string): string {
    "$year(" + arg + ")"
  }

  lemma YearCallFound(t: string, p: nat, arg: string)
    requires arg != [] && ')' !in arg
    requires p + |arg| + 7 <= |t| && t[p..p + |arg| + 7] == YearCallText(arg)
    ensures TokenAt(t, p) == Some((YearCall(arg), |arg| + 7))
  {
    var c := YearCallText(arg);
    assert forall k :: 0 <= k < |c| ==> t[p + k] == c[k];
    forall k | p + 6 <= k < p + 6 + |arg| ensures t[k] != ')' {
      assert t[k] == c[k - p] == arg[k - p - 6];
    }
    assert t[p + 6 + |arg|] == c[6 + |arg|] == ')';
    FindCharAt(t, ')', p + 6, p + 6 + |arg|);
    assert t[p + 6..p + 6 + |arg|] == arg by {
      forall k | 0 <= k < |arg| ensures t[p + 6 + k] == arg[k] {
        assert c[6 + k] == arg[k];
      }
    }
    assert t[p] == '$' && t[p + 1] == 'y' && t[p + 2] == 'e' && t[p + 3] == 'a' && t[p + 4] == 'r' && t[p + 5] == '(' by {
      var h := "$year(";
      forall k | 0 <= k < 6 ensures t[p + k] == h[k] {
        assert c[k] == h[k];
      }
    }
    assert PlaceholderAt(t, p).None?;
    assert YearCallAt(t, p) == Some((arg, |arg| + 7));
  }

  /** A year call becomes the year of its date, or the date's first four
      characters when it is not a `%Y-%m-%d` date. */
  lemma RenderOneYearCall(pre: string, arg: string, post: string, meta: Dict<string>, reading: Reading)
    requires Plain(pre) && Plain(post) && arg != [] && ')' !in arg
    ensures Render(pre + YearCallText(arg) + post, meta, reading) == pre + YearText(DateStr(meta, arg, reading)) + post
  {
    var c := YearCallText(arg);
    var t := pre + c + post;
    assert t[|pre|..|pre| + |c|] == c;
    YearCallFound(t, |pre|, arg);
    var v := YearText(DateStr(meta, arg, reading));
    assert Matcher(meta, reading)(t, |pre|) == Some(Hit(v, |c|));
    RenderAround(pre, c, post, meta, reading, v);
  }

  /** As written, `$year(date)` renders as "date" even when the metadata
      holds a date under "date"; read as intended it is that date's year. */
  lemma YearOfDateField(meta: Dict<string>, d: Dates.Date)
    requires Dates.ValidDate(d) && Get(meta, "date") == Some(Dates.FormatIso(d))
    ensures RenderSchemeAsWritten("$year(date)", meta) == "date"
    ensures RenderScheme("$year(date)", meta) == IntToStr(d.year)
  {
    var arg := "date";
    AloneCall(arg, meta, AsWritten);
    AloneCall(arg, meta, Intended);
    assert DateStr(meta, arg, AsWritten) == arg;
    assert DateStr(meta, arg, Intended) == Dates.FormatIso(d);
    Dates.ParseFormatIso(d);
    ShortNotDate(arg);
  }

  /** A call alone in the scheme. */
  lemma AloneCall(arg: string, meta: Dict<string>, reading: Reading)
    requires arg == "date"
    ensures Render("$year(date)", meta, reading) == YearText(DateStr(meta, arg, reading))
  {
    assert "$year(date)" == [] + YearCallText(arg) + [];
    RenderOneYearCall([], arg, [], meta, reading);
  }

  /** Four characters are no date, and are their own first four. */
  lemma ShortNotDate(s: string)
    requires |s| == 4
    ensures YearText(s) == s
  {
    assert Dates.ParseIso(s).None?;
    assert s[0..4] == s;
  }

  /** Read as intended, a year call whose argument is no field is the year
      of the argument itself, as the code does. */
  lemma IntendedKeepsLiteral(meta: Dict<string>, arg: string)
    requires !HasKey(meta, arg) && arg != []
    ensures DateStr(meta, arg, Intended) == DateStr(meta, arg, AsWritten)
  {
  }
}

=== FILE: naming_scheme_helpers.dfy ===
/** The naming-scheme helpers of the naming editor (gui/naming_scheme_helpers.py):
    the folder a folder pattern is rooted in, the tree's "(Root)" label, and
    the preview substitution of `$year(key)` calls and `%key%` placeholders
    with sample metadata. */
module NamingSchemeHelpers {
  import opened Wrappers
  import opened PyStr
  import opened PyDict
  import opened ReSub
  import opened ReplaceLoop
  import Dates

  // ---------------------------------------------------------------- _clean_root

  /** The label the folder tree shows for the library root. */
  const RootLabel: string := "(Root)"
  const RootPrefix: string := "(Root)/"

  /** `_clean_root`: the root label, or nothing, is the root itself ("");
      otherwise one leading "(Root)/" is dropped and the rest kept. */
  function CleanRoot(path: string): (r: string)
    ensures path == RootLabel || path == [] ==> r == []
    ensures path != RootLabel && path != [] ==>
      if StartsWith(path, RootPrefix) then path == RootPrefix + r else r == path
  {
    if path == RootLabel || path == [] then []
    else if StartsWith(path, RootPrefix) then path[|RootPrefix|..]
    else path
  }

  /** A folder shown under the root label comes back as itself. */
  lemma CleanRootLabelled(folder: string)
    ensures CleanRoot(RootPrefix + folder) == folder
  {
    var p := RootPrefix + folder;
    assert |p| == 7 + |folder|;
    assert p[..7] == RootPrefix;
  }

  // ---------------------------------------------------------------- _extract_root

  /** `s.replace("\\", "/")`, character by character. */
  function Slashed(s: string): (r: string)
    ensures |r| == |s| && '\\' !in r
    ensures forall i :: 0 <= i < |s| ==> r[i] == (if s[i] == '\\' then '/' else s[i])
  {
    seq(|s|, i requires 0 <= i < |s| => if s[i] == '\\' then '/' else s[i])
  }

  /** Replacing the one-character string "\\" maps each character on its own. */
  lemma {:induction false} ReplaceBackslash(s: string)
    ensures Replace(s, "\\", "/") == Slashed(s)
    decreases |s|
  {
    if s != [] {
      ReplaceBackslash(s[1..]);
      var c := if s[0] == '\\' then '/' else s[0];
      assert s[..1] == "\\" <==> s[0] == '\\';
      assert Replace(s, "\\", "/") == [c] + Slashed(s[1..]);
      assert Slashed(s) == [c] + Slashed(s[1..]);
    }
  }

  /** Where the first placeholder (`%`) or call (`$`) of the pattern begins,
      or its length when it has neither. */
  function Cut(norm: string): (c: nat)
    ensures c <= |norm| && '%' !in norm[..c] && '$' !in norm[..c]
    ensures c < |norm| ==> norm[c] == '%' || norm[c] == '$'
  {
    assert norm[0..] == norm;
    match (FindChar(norm, '%', 0), FindChar(norm, '$', 0))
    case (None, None) => |norm|
    case (Some(p), None) => p
    case (None, Some(q)) => q
    case (Some(p), Some(q)) =>
      if p < q then
        assert norm[..p] == norm[0..q][..p];
        p
      else
        assert norm[..q] == norm[0..p][..q];
        q
  }

  /** `_extract_root`: the folder part of a pattern before its first
      placeholder or call, with back-slashes made forward and trailing
      slashes dropped; None when that leaves nothing. */
  function ExtractRoot(pattern: string): (r: Option<string>)
    ensures pattern == [] ==> r.None?
    ensures r.Some? ==> var root := r.value;
      root != [] && StartsWith(Slashed(pattern), root)
      && '%' !in root && '$' !in root && '\\' !in root && root[|root| - 1] != '/'
  {
    if pattern == [] then None
    else
      var norm := Replace(pattern, "\\", "/");
      ReplaceBackslash(pattern);
      var root := RStrip(norm[..Cut(norm)], {'/'});
      assert norm[..|root|] == root;
      if root == [] then None else Some(root)
  }


  /** Trailing slashes after the root folder are dropped, and the pattern
      is cut at its first placeholder or call. */
  lemma ExtractRootOfPattern(root: string, slashes: nat, rest: string)
    requires root != [] && root[|root| - 1] != '/'
    requires '%' !in root && '$' !in root && '\\' !in root
    requires rest == [] || rest[0] == '%' || rest[0] == '$'
    ensures ExtractRoot(root + Repeat('/', slashes) + rest) == Some(root)
  {
    var pattern := root + Repeat('/', slashes) + rest;
    var norm := Replace(pattern, "\\", "/");
    ReplaceBackslash(pattern);
    var head := root + Repeat('/', slashes);
    var c := |head|;
    assert norm[..c] == head by {
      forall k | 0 <= k < c ensures norm[k] == head[k] {
        assert pattern[k] == head[k];
      }
    }
    assert Cut(norm) == c by {
      assert '%' !in head && '$' !in head;
      if c < |norm| {
        assert norm[c] == pattern[c] == rest[0];
      }
      CutAt(norm, c);
    }
    assert TrailLen(head, {'/'}) == slashes by {
      TrailSlashes(root, slashes);
    }
    assert head[..|root|] == root;
  }

  /** The cut is the first `%` or `$`. */
  lemma CutAt(norm: string, c: nat)
    requires c <= |norm| && '%' !in norm[..c] && '$' !in norm[..c]
    requires c < |norm| ==> norm[c] == '%' || norm[c] == '$'
    ensures Cut(norm) == c
  {
  }

  lemma {:induction false} TrailSlashes(root: string, n: nat)
    requires root != [] && root[|root| - 1] != '/'
    ensures TrailLen(root + Repeat('/', n), {'/'}) == n
    decreases n
  {
    var s := root + Repeat('/', n);
    if n > 0 {
      assert s[..|s| - 1] == root + Repeat('/', n - 1);
      TrailSlashes(root, n - 1);
    } else {
      assert s == root;
    }
  }

  /** A pattern that starts with a placeholder or a call, after any slashes,
      has no root folder. */
  lemma ExtractRootNone(slashes: nat, rest: string)
    requires rest == [] || rest[0] == '%' || rest[0] == '$'
    requires slashes > 0 || rest != []
    ensures ExtractRoot(Repeat('/', slashes) + rest).None?
  {
    var pattern := Repeat('/', slashes) + rest;
    var norm := Replace(pattern, "\\", "/");
    ReplaceBackslash(pattern);
    assert norm[..slashes] == Repeat('/', slashes) by {
      forall k | 0 <= k < slashes ensures norm[k] == '/' {
        assert pattern[k] == '/';
      }
    }
    if slashes < |norm| {
      assert norm[slashes] == rest[0];
    }
    CutAt(norm, slashes);
    var head := norm[..slashes];
    assert TrailLen(head, {'/'}) == slashes by {
      AllSlashes(head);
    }
  }

  lemma {:induction false} AllSlashes(s: string)
    requires forall k :: 0 <= k < |s| ==> s[k] == '/'
    ensures TrailLen(s, {'/'}) == |s|
    decreases |s|
  {
    if s != [] {
      AllSlashes(s[..|s| - 1]);
    }
  }

  // ---------------------------------------------------------------- handle_special_tokens

  /** `datetime.strptime(meta.get(key, ""), "%Y-%m-%d").year` as text, or ""
      where that raises. */
  function YearOfKey(meta: Dict<string>, key: string): string {
    match Dates.ParseIso(GetOr(meta, key, ""))
    case Some(d) => IntToStr(d.year)
    case None => ""
  }

  /** `\$year\((\w+)\)` at i: the key group and the length of the match. */
  function YearCallAt(t: string, i: nat): (r: Option<(string, nat)>)
    ensures r.Some? ==> r.value.1 == 7 + |r.value.0| && i + r.value.1 <= |t|
  {
    if i + 6 <= |t| && t[i] == '$' && t[i + 1] == 'y' && t[i + 2] == 'e' && t[i + 3] == 'a'
       && t[i + 4] == 'r' && t[i + 5] == '(' then
      var n := RunLen(t, i + 6, IsWord);
      if n >= 1 && i + 6 + n < |t| && t[i + 6 + n] == ')' then Some((t[i + 6..i + 6 + n], 7 + n))
      else None
    else None
  }

  /** The callback: the call is replaced by the year of its key. */
  function YearMatch(meta: Dict<string>): (string, nat) -> Option<Hit> {
    (t: string, i: nat) =>
      match YearCallAt(t, i)
      case Some((key, n)) => Some(Hit(YearOfKey(meta, key), n))
      case None => None
  }

  /** `re.sub(r"\$year\((\w+)\)", repl_year, template)` */
  function YearPass(template: string, meta: Dict<string>): string {
    SubAll(template, YearMatch(meta))
  }

  /** The pairs `(f"%{key}%", value)` in the metadata's order. */
  function Wrapped(meta: Dict<string>): (w: Dict<string>)
    ensures |w| == |meta|
  {
    seq(|meta|, i requires 0 <= i < |meta| => ("%" + meta[i].0 + "%", meta[i].1))
  }

  /** What `handle_special_tokens` returns. */
  function SpecialTokens(template: string, meta: Dict<string>): string {
    ReplaceEach(YearPass(template, meta), Wrapped(meta))
  }

  /** `handle_special_tokens`: the year calls, then each `%key%` replaced by
      its value in the metadata's order. */
  method HandleSpecialTokens(template: string, meta: Dict<string>) returns (r: string)
    ensures r == SpecialTokens(template, meta)
  {
    r := YearPass(template, meta);
    var i := 0;
    while i < |meta|
      invariant 0 <= i <= |meta|
      invariant ReplaceEach(r, Wrapped(meta)[i..]) == SpecialTokens(template, meta)
    {
      var (key, value) := meta[i];
      assert Wrapped(meta)[i..][0] == ("%" + key + "%", value);
      assert Wrapped(meta)[i..][1..] == Wrapped(meta)[i + 1..];
      r := Replace(r, "%" + key + "%", value);
      i := i + 1;
    }
  }

  predicate IsKey(key: string) {
    key != [] && forall k :: 0 <= k < |key| ==> IsWord(key[k])
  }

  /** The text of a year call. */
  function YearCall(key: string): string {
    "$year(" + key + ")"
  }

  lemma YearCallFound(t: string, p: nat, key: string)
    requires IsKey(key) && p + 7 + |key| <= |t| && t[p..p + 7 + |key|] == YearCall(key)
    ensures YearCallAt(t, p) == Some((key, 7 + |key|))
  {
    var c := YearCall(key);
    assert forall k :: 0 <= k < |c| ==> t[p + k] == c[k];
    forall k | p + 6 <= k < p + 6 + |key| ensures IsWord(t[k]) {
      assert t[k] == c[k - p] == key[k - p - 6];
    }
    assert t[p + 6 + |key|] == c[6 + |key|] == ')';
    RunLenExact(t, p + 6, IsWord, |key|);
    assert t[p + 6..p + 6 + |key|] == key by {
      forall k | 0 <= k < |key| ensures t[p + 6 + k] == key[k] {
        assert c[6 + k] == key[k];
      }
    }
  }

  /** Text without `$` holds no year call. */
  lemma YearPassNoDollar(t: string, meta: Dict<string>)
    requires '$' !in t
    ensures YearPass(t, meta) == t
  {
    forall p | 0 <= p < |t| ensures YearMatch(meta)(t, p).None? {
      assert t[p] != '$';
    }
    SubNone(t, 0, YearMatch(meta));
  }

  /** A year call among `$`-free text becomes the year of its key's value,
      or "" when that value is not a `%Y-%m-%d` date. */
  lemma YearCallReplaced(pre: string, key: string, post: string, meta: Dict<string>)
    requires '$' !in pre && '$' !in post && IsKey(key)
    ensures YearPass(pre + YearCall(key) + post, meta) == pre + YearOfKey(meta, key) + post
  {
    var c := YearCall(key);
    var t := pre + c + post;
    var m := YearMatch(meta);
    var p := |pre|;
    var e := p + |c|;
    assert t[p..e] == c;
    YearCallFound(t, p, key);
    assert m(t, p) == Some(Hit(YearOfKey(meta, key), |c|));
    forall q | 0 <= q < p ensures m(t, q).None? {
      assert t[q] == pre[q];
    }
    forall q | e <= q < |t| ensures m(t, q).None? {
      assert t[q] == post[q - e];
    }
    SubOne(t, p, m);
    assert t[..p] == pre && t[e..] == post;
  }

  /** `%a%` and `%b%` are the same key only when a and b are. */
  lemma {:induction false} WrappedGet(meta: Dict<string>, key: string)
    ensures Get(Wrapped(meta), "%" + key + "%") == Get(meta, key)
    decreases |meta|
  {
    if meta != [] {
      var k := meta[0].0;
      assert ("%" + k + "%" == "%" + key + "%") <==> k == key by {
        if "%" + k + "%" == "%" + key + "%" {
          assert k == ("%" + k + "%")[1..|k| + 1];
        }
      }
      assert Wrapped(meta)[1..] == Wrapped(meta[1..]);
      WrappedGet(meta[1..], key);
    }
  }

  predicate NoPercentMeta(meta: Dict<string>) {
    forall i :: 0 <= i < |meta| ==> '%' !in meta[i].0 && '%' !in meta[i].1
  }

  lemma WrappedDelimited(meta: Dict<string>)
    requires NoPercentMeta(meta)
    ensures DelimitedKeys(Wrapped(meta)) && ValuesNoPercent(Wrapped(meta))
  {
    forall i | 0 <= i < |meta|
      ensures '%' !in Wrapped(meta)[i].0[1..|Wrapped(meta)[i].0| - 1]
    {
      assert Wrapped(meta)[i].0[1..|meta[i].0| + 1] == meta[i].0;
    }
  }

  /** The preview of a scheme with a single `%key%`: the key's sample value,
      or the placeholder left as it is for an unknown key. */
  lemma SpecialTokensOnePlaceholder(pre: string, key: string, post: string, meta: Dict<string>)
    requires '$' !in pre && '$' !in key && '$' !in post
    requires '%' !in pre && '%' !in key && '%' !in post
    requires NoPercentMeta(meta)
    ensures SpecialTokens(pre + "%" + key + "%" + post, meta) ==
      pre + GetOr(meta, key, "%" + key + "%") + post
  {
    var t := pre + "%" + key + "%" + post;
    DelimitedFree(pre, key, post, '$');
    YearPassNoDollar(t, meta);
    WrappedDelimited(meta);
    ReplaceEachDelimited(pre, key, post, Wrapped(meta));
    WrappedGet(meta, key);
  }

  lemma DelimitedFree(pre: string, key: string, post: string, c: char)
    requires c !in pre && c !in key && c !in post && c != '%'
    ensures c !in pre + "%" + key + "%" + post
  {
  }
}

=== FILE: py_dict.dfy ===
/** Python dictionaries as insertion-ordered sequences of (key, value) pairs.
    Iteration order matters to the core (the first matching venue, artist or
    template folder wins), so a Dafny `map` would lose information. */
module PyDict {
  import opened Wrappers

  type Dict<V> = seq<(string, V)>

  predicate HasKey<V>(d: Dict<V>, k: string) {
    exists i | 0 <= i < |d| :: d[i].0 == k
  }

  /** Every key occurs once, as in any Python dict. */
  predicate KeysUnique<V>(d: Dict<V>) {
    forall i, j | 0 <= i < j < |d| :: d[i].0 != d[j].0
  }

  /** `d.get(k)`: the value stored under `k`, if any. */
  function Get<V>(d: Dict<V>, k: string): (r: Option<V>)
    ensures r.Some? <==> HasKey(d, k)
  {
    if d == [] then None
    else if d[0].0 == k then Some(d[0].1)
    else
      var r := Get(d[1..], k);
      assert HasKey(d[1..], k) ==> HasKey(d, k) by {
        if HasKey(d[1..], k) {
          var i :| 0 <= i < |d[1..]| && d[1..][i].0 == k;
          assert d[i + 1].0 == k;
        }
      }
      r
  }

  /** `d.get(k, default)` */
  function GetOr<V>(d: Dict<V>, k: string, default: V): V {
    Get(d, k).GetOr(default)
  }

  /** What `Get` finds is a stored pair. */
  lemma {:induction false} GetEntry<V>(d: Dict<V>, k: string)
    ensures Get(d, k).Some? ==> (k, Get(d, k).value) in d
  {
    if d != [] && d[0].0 != k {
      GetEntry(d[1..], k);
    }
  }

  /** In a dict with unique keys, `Get` finds the value stored at any position. */
  lemma {:induction false} GetAt<V>(d: Dict<V>, i: nat)
    requires KeysUnique(d) && i < |d|
    ensures Get(d, d[i].0) == Some(d[i].1)
  {
    if i > 0 {
      assert d[0].0 != d[i].0;
      assert d[1..][i - 1] == d[i];
      GetAt(d[1..], i - 1);
    }
  }

  /** `d[k] = v`: overwrites in place when `k` is present, appends otherwise. */
  function Put<V>(d: Dict<V>, k: string, v: V): (r: Dict<V>)
    ensures Get(r, k) == Some(v)
    ensures forall k' | k' != k :: Get(r, k') == Get(d, k')
  {
    if d == [] then [(k, v)]
    else if d[0].0 == k then [(k, v)] + d[1..]
    else [d[0]] + Put(d[1..], k, v)
  }

  /** Assignment adds exactly its key and keeps the keys distinct. */
  lemma {:induction false} PutKeys<V>(d: Dict<V>, k: string, v: V)
    ensures forall k' :: HasKey(Put(d, k, v), k') <==> k' == k || HasKey(d, k')
    ensures KeysUnique(d) ==> KeysUnique(Put(d, k, v))
  {
    var r := Put(d, k, v);
    forall k' ensures HasKey(r, k') <==> k' == k || HasKey(d, k') {
      assert Get(r, k').Some? <==> HasKey(r, k');
      assert Get(d, k').Some? <==> HasKey(d, k');
    }
    if d != [] && d[0].0 != k {
      PutKeys(d[1..], k, v);
      if KeysUnique(d) {
        assert KeysUnique(d[1..]) by {
          forall i, j | 0 <= i < j < |d[1..]| ensures d[1..][i].0 != d[1..][j].0 {
            assert d[1..][i] == d[i + 1] && d[1..][j] == d[j + 1];
          }
        }
        assert !HasKey(d[1..], d[0].0) by {
          forall i | 0 <= i < |d[1..]| ensures d[1..][i].0 != d[0].0 {
            assert d[1..][i] == d[i + 1];
          }
        }
        assert !HasKey(r[1..], d[0].0);
        forall i, j | 0 <= i < j < |r| ensures r[i].0 != r[j].0 {
          if i == 0 {
            assert r[j] == r[1..][j - 1];
          }
        }
      }
    } else if d != [] && KeysUnique(d) {
      forall i, j | 0 <= i < j < |r| ensures r[i].0 != r[j].0 {
        assert r[j] == d[j];
        if i > 0 {
          assert r[i] == d[i];
        }
      }
    }
  }

  /** `for k, v in es: d[k] = v`, starting from an empty dict. */
  function PutAll<V>(es: seq<(string, V)>): Dict<V> {
    if es == [] then [] else Put(PutAll(es[..|es| - 1]), es[|es| - 1].0, es[|es| - 1].1)
  }

  /** The keys are those assigned, each once. */
  lemma {:induction false} PutAllKeys<V>(es: seq<(string, V)>)
    ensures KeysUnique(PutAll(es))
    ensures forall k :: HasKey(PutAll(es), k) <==> exists j :: 0 <= j < |es| && es[j].0 == k
  {
    if es != [] {
      var init := es[..|es| - 1];
      var e := es[|es| - 1];
      PutAllKeys(init);
      PutKeys(PutAll(init), e.0, e.1);
      forall k ensures HasKey(PutAll(es), k) <==> exists j :: 0 <= j < |es| && es[j].0 == k {
        if exists j :: 0 <= j < |init| && init[j].0 == k {
          var j :| 0 <= j < |init| && init[j].0 == k;
          assert es[j] == init[j];
        }
        if exists j :: 0 <= j < |es| && es[j].0 == k {
          var j :| 0 <= j < |es| && es[j].0 == k;
          if j < |init| {
            assert init[j] == es[j];
          }
        }
      }
    }
  }

  /** Every stored pair is one of the assignments. */
  lemma {:induction false} PutAllEntries<V>(es: seq<(string, V)>)
    ensures forall e :: e in PutAll(es) ==> e in es
  {
    if es != [] {
      var init := es[..|es| - 1];
      var e := es[|es| - 1];
      PutAllEntries(init);
      PutEntries(PutAll(init), e.0, e.1);
    }
  }

  /** A key is bound to the value of its last assignment. */
  lemma {:induction false} PutAllLast<V>(es: seq<(string, V)>, j: nat)
    requires j < |es| && forall j2 :: j < j2 < |es| ==> es[j2].0 != es[j].0
    ensures Get(PutAll(es), es[j].0) == Some(es[j].1)
  {
    if j < |es| - 1 {
      PutAllLast(es[..|es| - 1], j);
    }
  }

  /** Every pair after `d[k] = v` is the new pair or a pair of `d`. */
  lemma {:induction false} PutEntries<V>(d: Dict<V>, k: string, v: V)
    ensures forall e :: e in Put(d, k, v) ==> e == (k, v) || e in d
  {
    if d != [] && d[0].0 != k {
      PutEntries(d[1..], k, v);
      assert Put(d, k, v) == [d[0]] + Put(d[1..], k, v);
    } else if d != [] {
      assert Put(d, k, v) == [(k, v)] + d[1..];
    }
  }
}

=== FILE: py_str.dfy ===
/** ASCII models of the Python `str` built-ins and number conversions that the
    naming and filename code relies on.  Character classes follow Python's `re`
    module restricted to ASCII: `\w` is letters, digits and `_`; `\s` is the
    set that `str.isspace()` accepts below 0x80. */
module PyStr {
  import opened Wrappers

  const Whitespace: set<char> :=
    {' ', '\t', '\n', '\U{0B}', '\U{0C}', '\r', '\U{1C}', '\U{1D}', '\U{1E}', '\U{1F}'}

  predicate IsDigit(c: char) { '0' <= c <= '9' }
  predicate IsUpper(c: char) { 'A' <= c <= 'Z' }
  predicate IsLower(c: char) { 'a' <= c <= 'z' }
  predicate IsAlpha(c: char) { IsUpper(c) || IsLower(c) }
  predicate IsAlnum(c: char) { IsAlpha(c) || IsDigit(c) }
  /** The regular-expression class `\w`. */
  predicate IsWord(c: char) { IsAlnum(c) || c == '_' }
  /** The regular-expression class `\s`, also what `str.strip()` removes. */
  predicate IsSpace(c: char) { c in Whitespace }

  predicate AllDigits(s: string) { forall i :: 0 <= i < |s| ==> IsDigit(s[i]) }

  // ---------------------------------------------------------------- case

  function LowerChar(c: char): char {
    if IsUpper(c) then (c as int + 32) as char else c
  }

  function UpperChar(c: char): char {
    if IsLower(c) then (c as int - 32) as char else c
  }

  /** `str.lower()` */
  function Lower(s: string): (r: string)
    ensures |r| == |s|
    ensures forall i :: 0 <= i < |s| ==> r[i] == LowerChar(s[i])
  {
    seq(|s|, i requires 0 <= i < |s| => LowerChar(s[i]))
  }

  /** `str.upper()` */
  function Upper(s: string): (r: string)
    ensures |r| == |s|
    ensures forall i :: 0 <= i < |s| ==> r[i] == UpperChar(s[i])
  {
    seq(|s|, i requires 0 <= i < |s| => UpperChar(s[i]))
  }

  /** `str.title()` from a position whose predecessor is (or is not) a cased letter. */
  function TitleFrom(s: string, afterCased: bool): (r: string)
    ensures |r| == |s|
  {
    if s == [] then []
    else [if afterCased then LowerChar(s[0]) else UpperChar(s[0])] + TitleFrom(s[1..], IsAlpha(s[0]))
  }

  /** `str.title()`: a letter is upper-cased when it follows a non-letter, lower-cased otherwise. */
  function Title(s: string): (r: string)
    ensures |r| == |s|
  {
    TitleFrom(s, false)
  }

  lemma {:induction false} LowerOfTitleFrom(s: string, b: bool)
    ensures Lower(TitleFrom(s, b)) == Lower(s)
    decreases |s|
  {
    if s != [] {
      LowerOfTitleFrom(s[1..], IsAlpha(s[0]));
      var t := TitleFrom(s, b);
      assert t == [t[0]] + TitleFrom(s[1..], IsAlpha(s[0]));
      forall i | 0 <= i < |s|
        ensures Lower(t)[i] == Lower(s)[i]
      {
        if i > 0 {
          assert t[i] == TitleFrom(s[1..], IsAlpha(s[0]))[i - 1];
          assert Lower(TitleFrom(s[1..], IsAlpha(s[0])))[i - 1] == Lower(s[1..])[i - 1];
        }
      }
    }
  }

  /** Title-casing never changes a string's lower-case form. */
  lemma LowerOfTitle(s: string)
    ensures Lower(Title(s)) == Lower(s)
  {
    LowerOfTitleFrom(s, false);
  }

  /** Upper-casing never changes a string's lower-case form. */
  lemma LowerOfUpper(s: string)
    ensures Lower(Upper(s)) == Lower(s)
  {
  }

  // ---------------------------------------------------------------- runs and strip

  /** Length of the longest prefix of `s[i..]` whose characters satisfy `p`. */
  function RunLen(s: string, i: nat, p: char -> bool): (n: nat)
    requires i <= |s|
    ensures i + n <= |s|
    ensures forall k :: i <= k < i + n ==> p(s[k])
    ensures i + n < |s| ==> !p(s[i + n])
    decreases |s| - i
  {
    if i < |s| && p(s[i]) then 1 + RunLen(s, i + 1, p) else 0
  }

  /** A run whose end is known has exactly that length. */
  lemma {:induction false} RunLenExact(s: string, i: nat, p: char -> bool, n: nat)
    requires i + n <= |s| && (forall k :: i <= k < i + n ==> p(s[k])) && (i + n == |s| || !p(s[i + n]))
    ensures RunLen(s, i, p) == n
    decreases n
  {
    if n > 0 {
      assert p(s[i]);
      RunLenExact(s, i + 1, p, n - 1);
    }
  }

  /** How many leading characters of s are in cs. */
  function LeadLen(s: string, cs: set<char>): (n: nat)
    ensures n <= |s| && forall i :: 0 <= i < n ==> s[i] in cs
    ensures n < |s| ==> s[n] !in cs
    decreases |s|
  {
    if s != [] && s[0] in cs then 1 + LeadLen(s[1..], cs) else 0
  }

  /** How many trailing characters of s are in cs. */
  function TrailLen(s: string, cs: set<char>): (n: nat)
    ensures n <= |s| && forall i :: |s| - n <= i < |s| ==> s[i] in cs
    ensures n < |s| ==> s[|s| - n - 1] !in cs
    decreases |s|
  {
    if s != [] && s[|s| - 1] in cs then 1 + TrailLen(s[..|s| - 1], cs) else 0
  }

  /** `str.lstrip(chars)` */
  function LStrip(s: string, cs: set<char>): (r: string)
    ensures r != [] ==> r[0] !in cs
  {
    s[LeadLen(s, cs)..]
  }

  /** `str.rstrip(chars)` */
  function RStrip(s: string, cs: set<char>): (r: string)
    ensures r != [] ==> r[|r| - 1] !in cs
  {
    s[..|s| - TrailLen(s, cs)]
  }

  /** `str.strip(chars)` */
  function StripSet(s: string, cs: set<char>): string {
    RStrip(LStrip(s, cs), cs)
  }

  /** `str.strip()` */
  function Strip(s: string): string {
    StripSet(s, Whitespace)
  }

  lemma StripSetEnds(s: string, cs: set<char>)
    ensures var r := StripSet(s, cs); r != [] ==> r[0] !in cs && r[|r| - 1] !in cs
  {
    var l := LStrip(s, cs);
    var r := RStrip(l, cs);
    if r != [] {
      assert r[0] == l[0];
    }
  }

  /** Stripping keeps a slice of the string, so it adds no character. */
  lemma StripChars(s: string, i: nat)
    requires i < |Strip(s)|
    ensures Strip(s)[i] in s
  {
    var a := LeadLen(s, Whitespace);
    var l := s[a..];
    assert Strip(s)[i] == l[i] == s[a + i];
  }

  lemma StripCharFree(s: string, c: char)
    requires c !in s
    ensures c !in Strip(s)
  {
    forall k | 0 <= k < |Strip(s)|
      ensures Strip(s)[k] != c
    {
      StripChars(s, k);
    }
  }

  /** Stripping twice is stripping once. */
  lemma StripIdempotent(s: string)
    ensures Strip(Strip(s)) == Strip(s)
  {
    StripSetEnds(s, Whitespace);
    StripSetNoop(Strip(s), Whitespace);
  }

  /** A string with no stripped character at either end is its own strip. */
  lemma StripSetNoop(s: string, cs: set<char>)
    requires s == [] || (s[0] !in cs && s[|s| - 1] !in cs)
    ensures StripSet(s, cs) == s
  {
  }

  // ---------------------------------------------------------------- search

  predicate StartsWith(s: string, p: string) { |p| <= |s| && s[..|p|] == p }
  predicate EndsWith(s: string, p: string) { |p| <= |s| && s[|s| - |p|..] == p }

  predicate OccursAt(s: string, p: string, i: int) {
    0 <= i && i + |p| <= |s| && s[i..i + |p|] == p
  }

  /** Python's `p in s` for strings. */
  predicate Contains(s: string, p: string) {
    exists i | 0 <= i <= |s| - |p| :: OccursAt(s, p, i)
  }

  lemma ContainsShift(s: string, p: string)
    requires s != [] && Contains(s[1..], p)
    ensures Contains(s, p)
  {
    var i :| 0 <= i <= |s[1..]| - |p| && OccursAt(s[1..], p, i);
    assert s[i + 1..i + 1 + |p|] == s[1..][i..i + |p|];
    assert OccursAt(s, p, i + 1);
  }

  lemma ContainsPrefix(s: string, p: string)
    requires StartsWith(s, p)
    ensures Contains(s, p)
  {
    assert OccursAt(s, p, 0);
  }

  lemma ContainsInPart(a: string, b: string, c: string, p: string)
    requires Contains(b, p)
    ensures Contains(a + b + c, p)
  {
    var i :| 0 <= i <= |b| - |p| && OccursAt(b, p, i);
    assert (a + b + c)[|a| + i..|a| + i + |p|] == b[i..i + |p|];
    assert OccursAt(a + b + c, p, |a| + i);
  }

  /** A character outside `s` cannot be part of an occurrence in `s`. */
  lemma NotContainsChar(s: string, p: string, c: char)
    requires c in p && c !in s
    ensures !Contains(s, p)
  {
    forall i | 0 <= i <= |s| - |p|
      ensures !OccursAt(s, p, i)
    {
      var k :| 0 <= k < |p| && p[k] == c;
      assert i + k < |s| && s[i + k] != c;
    }
  }

  /** First index of character `c` at or after `i`. */
  function FindChar(s: string, c: char, i: nat): (r: Option<nat>)
    requires i <= |s|
    ensures r.Some? ==> i <= r.value < |s| && s[r.value] == c && c !in s[i..r.value]
    ensures r.None? ==> c !in s[i..]
    decreases |s| - i
  {
    if i == |s| then None
    else if s[i] == c then Some(i)
    else
      var r := FindChar(s, c, i + 1);
      assert s[i..] == [s[i]] + s[i + 1..];
      r
  }

  /** The first occurrence of `c` from i is found. */
  lemma {:induction false} FindCharAt(s: string, c: char, i: nat, j: nat)
    requires i <= j < |s| && s[j] == c && forall k :: i <= k < j ==> s[k] != c
    ensures FindChar(s, c, i) == Some(j)
    decreases j - i
  {
    if i < j {
      FindCharAt(s, c, i + 1, j);
    }
  }

  // ---------------------------------------------------------------- replace, split, join

  /** `str.replace(pat, rep)`: leftmost non-overlapping occurrences; an empty
      pattern inserts `rep` before every character and at the end. */
  function Replace(s: string, pat: string, rep: string): string
    decreases |s|
  {
    if pat == [] then
      (if s == [] then rep else rep + [s[0]] + Replace(s[1..], pat, rep))
    else if |s| < |pat| then s
    else if s[..|pat|] == pat then rep + Replace(s[|pat|..], pat, rep)
    else [s[0]] + Replace(s[1..], pat, rep)
  }

  /** Replacing a pattern that does not occur changes nothing. */
  lemma {:induction false} ReplaceAbsent(s: string, pat: string, rep: string)
    requires pat != [] && !Contains(s, pat)
    ensures Replace(s, pat, rep) == s
    decreases |s|
  {
    if |s| >= |pat| {
      assert !OccursAt(s, pat, 0);
      if Contains(s[1..], pat) {
        ContainsShift(s, pat);
      }
      ReplaceAbsent(s[1..], pat, rep);
      assert s == [s[0]] + s[1..];
    }
  }

  /** Text in which the delimiter d occurs only once has no occurrence of a
      pattern that begins and ends with d. */
  lemma OneDelimiterNoPattern(w: string, post: string, d: char, pat: string)
    requires d !in w && d !in post && |pat| >= 2 && pat[0] == d && pat[|pat| - 1] == d
    ensures !Contains(w + [d] + post, pat)
  {
    var rest := w + [d] + post;
    forall q | 0 <= q <= |rest| - |pat|
      ensures !OccursAt(rest, pat, q)
    {
      if q < |w| {
        assert rest[q] == w[q] != d;
        assert rest[q..q + |pat|][0] != pat[0];
      } else if q > |w| {
        assert rest[q] == post[q - |w| - 1] != d;
        assert rest[q..q + |pat|][0] != pat[0];
      } else {
        var e := q + |pat| - 1;
        assert rest[e] == post[e - |w| - 1] != d;
        assert rest[q..q + |pat|][|pat| - 1] != pat[|pat| - 1];
      }
    }
  }

  /** A first character that cannot start the pattern is kept as it is. */
  lemma ReplaceSkipFirst(s: string, pat: string, v: string)
    requires s != [] && pat != [] && s[0] != pat[0]
    ensures Replace(s, pat, v) == [s[0]] + Replace(s[1..], pat, v)
  {
    if |s| >= |pat| {
      assert s[..|pat|][0] != pat[0];
    } else {
      assert [s[0]] + s[1..] == s;
    }
  }

  /** Where the delimiter d occurs only around one word w, replacing `d x d`
      rewrites exactly that occurrence, and only when x is w. */
  lemma {:induction false} ReplaceDelimited(pre: string, w: string, post: string, d: char, x: string, v: string)
    requires d !in pre && d !in w && d !in post && d !in x
    ensures Replace(pre + [d] + w + [d] + post, [d] + x + [d], v) ==
      if x == w then pre + v + post else pre + [d] + w + [d] + post
    decreases |pre|
  {
    if pre != [] {
      var pat := [d] + x + [d];
      var s := pre + [d] + w + [d] + post;
      var s1 := pre[1..] + [d] + w + [d] + post;
      assert s == [pre[0]] + s1 by {
        assert pre == [pre[0]] + pre[1..];
      }
      assert s[0] == pre[0] != d == pat[0];
      assert s[1..] == s1;
      ReplaceDelimited(pre[1..], w, post, d, x, v);
      ReplaceSkipFirst(s, pat, v);
      if x == w {
        assert [pre[0]] + (pre[1..] + v + post) == pre + v + post by {
          assert pre == [pre[0]] + pre[1..];
        }
      }
    } else {
      assert pre + [d] + w + [d] + post == [d] + w + [d] + post;
      ReplaceDelimitedHere(w, post, d, x, v);
    }
  }

  lemma ReplaceDelimitedHere(w: string, post: string, d: char, x: string, v: string)
    requires d !in w && d !in post && d !in x
    ensures Replace([d] + w + [d] + post, [d] + x + [d], v) == if x == w then v + post else [d] + w + [d] + post
  {
    var pat := [d] + x + [d];
    var s := [d] + w + [d] + post;
    if x == w {
      assert s[..|pat|] == pat;
      assert s[|pat|..] == post;
      NotContainsChar(post, pat, d);
      ReplaceAbsent(post, pat, v);
    } else {
      if |s| >= |pat| {
        var k := if |x| < |w| then |x| + 1
                 else if |x| > |w| then |w| + 1
                 else var j :| 0 <= j < |x| && x[j] != w[j]; j + 1;
        assert s[k] != pat[k];
        assert s[..|pat|][k] != pat[k];
      }
      var rest := w + [d] + post;
      assert s[1..] == rest;
      OneDelimiterNoPattern(w, post, d, pat);
      ReplaceAbsent(rest, pat, v);
    }
  }

  /** `sep.join(parts)` */
  function Join(sep: string, parts: seq<string>): string {
    if parts == [] then []
    else if |parts| == 1 then parts[0]
    else parts[0] + sep + Join(sep, parts[1..])
  }

  /** Joining pieces that lack a character, with a separator that lacks it,
      gives a string that lacks it. */
  lemma {:induction false} JoinCharFree(sep: string, parts: seq<string>, c: char)
    requires c !in sep && forall i :: 0 <= i < |parts| ==> c !in parts[i]
    ensures c !in Join(sep, parts)
    decreases |parts|
  {
    if |parts| > 1 {
      JoinCharFree(sep, parts[1..], c);
    }
  }

  /** `s.split(sep)` for a non-empty separator. */
  function Split(s: string, sep: string): (r: seq<string>)
    requires sep != []
    ensures |r| >= 1
    decreases |s|
  {
    if |s| < |sep| then [s]
    else if s[..|sep|] == sep then [[]] + Split(s[|sep|..], sep)
    else
      var rest := Split(s[1..], sep);
      [[s[0]] + rest[0]] + rest[1..]
  }

  /** The pieces of a split hold no character the string lacks. */
  lemma {:induction false} SplitCharFree(s: string, sep: string, c: char)
    requires sep != [] && c !in s
    ensures forall i :: 0 <= i < |Split(s, sep)| ==> c !in Split(s, sep)[i]
    decreases |s|
  {
    if |s| >= |sep| {
      if s[..|sep|] == sep {
        assert c !in s[|sep|..];
        SplitCharFree(s[|sep|..], sep, c);
      } else {
        assert c !in s[1..];
        SplitCharFree(s[1..], sep, c);
      }
    }
  }

  /** Splitting a string without the separator yields the string itself. */
  lemma {:induction false} SplitAbsent(s: string, sep: string)
    requires sep != [] && !Contains(s, sep)
    ensures Split(s, sep) == [s]
    decreases |s|
  {
    if |s| >= |sep| {
      assert !OccursAt(s, sep, 0);
      if Contains(s[1..], sep) {
        ContainsShift(s, sep);
      }
      SplitAbsent(s[1..], sep);
      assert s == [s[0]] + s[1..];
    }
  }

  /** `s.split()` with no argument: the maximal runs of non-whitespace. */
  function SplitWs(s: string): (r: seq<string>)
    ensures forall k :: 0 <= k < |r| ==> r[k] != []
    decreases |s|
  {
    if s == [] then []
    else if IsSpace(s[0]) then SplitWs(s[1..])
    else
      var n := RunLen(s, 0, c => !IsSpace(c));
      [s[..n]] + SplitWs(s[n..])
  }

  // ---------------------------------------------------------------- slicing and padding

  /** Python's treatment of a slice bound: negative counts from the end, then clamped. */
  function ClampIndex(i: int, n: nat): (r: nat)
    ensures r <= n
  {
    var j := if i < 0 then i + n else i;
    if j < 0 then 0 else if j > n then n else j
  }

  /** `s[start:stop]`, with `None` for an omitted stop. */
  function Slice(s: string, start: int, stop: Option<int>): (r: string)
    ensures |r| <= |s|
  {
    var a := ClampIndex(start, |s|);
    var b := if stop.None? then |s| else ClampIndex(stop.value, |s|);
    if a < b then s[a..b] else []
  }

  function Repeat(c: char, n: nat): (r: string)
    ensures |r| == n && forall i :: 0 <= i < n ==> r[i] == c
  {
    seq(n, _ => c)
  }

  /** `s.ljust(width, fill)` */
  function LJust(s: string, width: int, fill: char): (r: string)
    ensures |r| == if width <= |s| then |s| else width
    ensures r[..|s|] == s
  {
    if width <= |s| then s else s + Repeat(fill, width - |s|)
  }

  /** `s.zfill(width)`: zeros go after a leading sign. */
  function ZFill(s: string, width: int): (r: string)
    ensures |r| == if width <= |s| then |s| else width
  {
    if width <= |s| then s
    else if s != [] && (s[0] == '+' || s[0] == '-') then [s[0]] + Repeat('0', width - |s|) + s[1..]
    else Repeat('0', width - |s|) + s
  }

  // ---------------------------------------------------------------- numbers

  function DigitChar(d: nat): (c: char)
    requires d < 10
    ensures IsDigit(c)
  {
    ('0' as int + d) as char
  }

  function DigitsValue(s: string): nat
    requires AllDigits(s)
  {
    if s == [] then 0 else DigitsValue(s[..|s| - 1]) * 10 + (s[|s| - 1] as int - '0' as int)
  }

  /** `str(n)` for a natural number. */
  function NatToStr(n: nat): (r: string)
    ensures r != [] && AllDigits(r)
  {
    if n < 10 then [DigitChar(n)] else NatToStr(n / 10) + [DigitChar(n % 10)]
  }

  lemma {:induction false} NatToStrValue(n: nat)
    ensures DigitsValue(NatToStr(n)) == n
  {
    if n >= 10 {
      NatToStrValue(n / 10);
      var r := NatToStr(n);
      assert r[..|r| - 1] == NatToStr(n / 10);
    }
  }

  /** `str(i)` for an integer. */
  function IntToStr(i: int): string {
    if i < 0 then "-" + NatToStr(-i) else NatToStr(i)
  }

  /** `f"{n:02d}"` */
  function Pad2(n: nat): string {
    if n < 10 then "0" + NatToStr(n) else NatToStr(n)
  }

  /** Python's digit part: ASCII digits, with single underscores allowed
      between two of them. */
  predicate DigitPart(s: string) {
    s != [] && IsDigit(s[0]) && IsDigit(s[|s| - 1]) && DigitsOrUnderscores(s)
    && (forall i :: 0 < i < |s| && s[i] == '_' ==> s[i - 1] != '_')
  }

  predicate DigitsOrUnderscores(s: string) {
    forall i :: 0 <= i < |s| ==> IsDigit(s[i]) || s[i] == '_'
  }

  /** The text without its underscores. */
  function NoUnderscores(s: string): (r: string)
    ensures |r| <= |s|
    ensures DigitsOrUnderscores(s) ==> AllDigits(r)
  {
    if s == [] then []
    else
      var r := (if s[0] == '_' then [] else [s[0]]) + NoUnderscores(s[1..]);
      assert DigitsOrUnderscores(s) ==> DigitsOrUnderscores(s[1..]) && AllDigits(r) by {
        if DigitsOrUnderscores(s) {
          assert forall i :: 0 <= i < |s[1..]| ==> s[1..][i] == s[i + 1];
        }
      }
      r
  }

  /** The number a digit part stands for. */
  function DigitPartValue(s: string): nat
    requires DigitsOrUnderscores(s)
  {
    DigitsValue(NoUnderscores(s))
  }

  /** An optional sign and a digit part: `int()` after the strip, and the
      exponent of `float()`. */
  function ParseSigned(t: string): Option<int> {
    if t != [] && (t[0] == '+' || t[0] == '-') then
      (if DigitPart(t[1..]) then (var v: int := DigitPartValue(t[1..]); Some(if t[0] == '-' then -v else v))
       else None)
    else if DigitPart(t) then Some(DigitPartValue(t))
    else None
  }

  /** `int(s)`: optional surrounding whitespace, an optional sign, ASCII
      digits with single underscores between them. */
  function ParseInt(s: string): Option<int> {
    ParseSigned(Strip(s))
  }

  function Pow10(n: nat): (r: nat)
    ensures r >= 1
  {
    if n == 0 then 1 else 10 * Pow10(n - 1)
  }

  /** An unsigned decimal: digit parts before and after an optional point,
      at least one of them. */
  function ParseUnsignedDecimal(u: string): Option<real> {
    match FindChar(u, '.', 0)
    case None => if DigitPart(u) then Some(DigitPartValue(u) as real) else None
    case Some(i) =>
      var a := u[..i];
      var b := u[i + 1..];
      if (a == [] || DigitPart(a)) && (b == [] || DigitPart(b)) && (a != [] || b != []) then
        Some(DigitPartValue(a) as real + DigitPartValue(b) as real / Pow10(|NoUnderscores(b)|) as real)
      else None
  }

  predicate IsExpMark(c: char) { c == 'e' || c == 'E' }

  predicate NotExpMark(c: char) { !IsExpMark(c) }

  /** `m * 10 ** x`, exactly. */
  function Scale(m: real, x: int): real {
    if x >= 0 then m * Pow10(x) as real else m / Pow10(-x) as real
  }

  /** A decimal, then optionally `e` or `E` and a signed digit part. */
  function ParseUnsignedFloat(u: string): Option<real> {
    var i := RunLen(u, 0, NotExpMark);
    if i == |u| then ParseUnsignedDecimal(u)
    else
      match (ParseUnsignedDecimal(u[..i]), ParseSigned(u[i + 1..]))
      case (Some(m), Some(x)) => Some(Scale(m, x))
      case _ => None
  }

  /** `float(s)` on decimal and scientific notation (`inf`, `infinity` and
      `nan` have no real value and are refused). */
  function ParseFloat(s: string): Option<real> {
    var t := Strip(s);
    if t != [] && (t[0] == '+' || t[0] == '-') then
      (match ParseUnsignedFloat(t[1..])
       case None => None
       case Some(v) => Some(if t[0] == '-' then -v else v))
    else ParseUnsignedFloat(t)
  }

  // ---------------------------------------------------------------- properties of the number parsers

  /** Digits alone are a digit part that stands for their value. */
  lemma {:induction false} AllDigitsPart(d: string)
    requires AllDigits(d)
    ensures NoUnderscores(d) == d
    ensures d != [] ==> DigitPart(d) && DigitPartValue(d) == DigitsValue(d)
  {
    if d != [] {
      AllDigitsPart(d[1..]);
      assert d == [d[0]] + d[1..];
    }
  }

  lemma {:induction false} NoUnderscoresConcat(a: string, b: string)
    ensures NoUnderscores(a + b) == NoUnderscores(a) + NoUnderscores(b)
  {
    if a == [] {
      assert a + b == b;
    } else {
      var h := if a[0] == '_' then [] else [a[0]];
      assert (a + b)[0] == a[0] && (a + b)[1..] == a[1..] + b;
      assert NoUnderscores(a + b) == h + NoUnderscores(a[1..] + b);
      NoUnderscoresConcat(a[1..], b);
      assert NoUnderscores(a) == h + NoUnderscores(a[1..]);
    }
  }

  /** A number's text has no whitespace to strip. */
  lemma {:induction false} DigitsUnstripped(t: string)
    requires t != [] && IsDigit(t[|t| - 1]) && (IsDigit(t[0]) || t[0] == '-' || t[0] == '+')
    ensures Strip(t) == t
  {
    assert !IsSpace(t[0]) && !IsSpace(t[|t| - 1]);
    StripSetNoop(t, Whitespace);
  }

  /** `int(str(i)) == i`. */
  lemma {:induction false} ParseIntOfStr(i: int)
    ensures ParseInt(IntToStr(i)) == Some(i)
  {
    var n: nat := if i < 0 then -i else i;
    var d := NatToStr(n);
    AllDigitsPart(d);
    NatToStrValue(n);
    var t := IntToStr(i);
    DigitsUnstripped(t);
    if i < 0 {
      assert t[1..] == d;
    }
  }

  /** `int()` of a digit part, with nothing around it. */
  lemma {:induction false} ParseIntDigitPart(t: string)
    requires DigitPart(t)
    ensures ParseInt(t) == Some(DigitPartValue(t) as int)
  {
    DigitsUnstripped(t);
  }

  /** Two digit parts joined by an underscore make a digit part of the
      digits of both. */
  lemma {:induction false} JoinedDigitParts(a: string, b: string)
    requires DigitPart(a) && DigitPart(b)
    ensures DigitPart(a + "_" + b)
    ensures NoUnderscores(a + "_" + b) == NoUnderscores(a) + NoUnderscores(b)
  {
    var s := a + "_" + b;
    assert s[0] == a[0] && s[|s| - 1] == b[|b| - 1];
    forall k | 0 <= k < |s| ensures IsDigit(s[k]) || s[k] == '_' {
      if k < |a| {
        assert s[k] == a[k];
      } else if k > |a| {
        assert s[k] == b[k - |a| - 1];
      }
    }
    forall k | 0 < k < |s| ensures s[k] == '_' ==> s[k - 1] != '_' {
      if k < |a| {
        assert s[k] == a[k] && s[k - 1] == a[k - 1];
      } else if k == |a| + 1 {
        assert s[k] == b[0];
      } else if k > |a| + 1 {
        assert s[k] == b[k - |a| - 1] && s[k - 1] == b[k - |a| - 2];
      }
    }
    UnderscoreDropped(a, b);
  }

  lemma {:induction false} UnderscoreDropped(a: string, b: string)
    ensures NoUnderscores(a + "_" + b) == NoUnderscores(a) + NoUnderscores(b)
  {
    assert a + "_" + b == a + ("_" + b);
    NoUnderscoresConcat(a, "_" + b);
    NoUnderscoresConcat("_", b);
    assert NoUnderscores("_") == [] by {
      assert "_"[1..] == [];
    }
  }

  /** An underscore between two runs of digits does not change what `int()`
      reads. */
  lemma {:induction false} ParseIntUnderscore(a: string, b: string)
    requires a != [] && b != [] && AllDigits(a) && AllDigits(b)
    ensures ParseInt(a + "_" + b) == ParseInt(a + b) == Some(DigitsValue(a + b) as int)
  {
    AllDigitsPart(a);
    AllDigitsPart(b);
    JoinedDigitParts(a, b);
    assert AllDigits(a + b);
    AllDigitsPart(a + b);
    ParseIntDigitPart(a + "_" + b);
    ParseIntDigitPart(a + b);
  }

  /** Plain digits, as a decimal and as an exponent. */
  lemma {:induction false} DigitsAsNumber(t: string)
    requires t != [] && AllDigits(t)
    ensures ParseUnsignedDecimal(t) == Some(DigitsValue(t) as real)
    ensures ParseSigned(t) == Some(DigitsValue(t) as int)
  {
    AllDigitsPart(t);
    assert forall k :: 0 <= k < |t| ==> t[k] != '.';
  }

  /** The mantissa of digits, `e` and digits ends at the `e`. */
  lemma {:induction false} MantissaEnd(m: string, x: string)
    requires AllDigits(m)
    ensures RunLen(m + "e" + x, 0, NotExpMark) == |m|
    ensures (m + "e" + x)[..|m|] == m && (m + "e" + x)[|m| + 1..] == x
  {
    var u := m + "e" + x;
    assert u[|m|] == 'e';
    assert forall k :: 0 <= k < |m| ==> u[k] == m[k];
    RunLenExact(u, 0, NotExpMark, |m|);
  }

  /** Unsigned scientific notation on plain digits. */
  lemma {:induction false} UnsignedScientific(m: string, x: string)
    requires m != [] && x != [] && AllDigits(m) && AllDigits(x)
    ensures ParseUnsignedFloat(m + "e" + x) == Some(Scale(DigitsValue(m) as real, DigitsValue(x)))
  {
    MantissaEnd(m, x);
    DigitsAsNumber(m);
    DigitsAsNumber(x);
  }

  /** Digits, `e` and digits read as the mantissa scaled by the power of ten
      the exponent names. */
  lemma {:induction false} ParseFloatScientific(m: string, x: string)
    requires m != [] && x != [] && AllDigits(m) && AllDigits(x)
    ensures ParseFloat(m + "e" + x) == Some(Scale(DigitsValue(m) as real, DigitsValue(x)))
  {
    var u := m + "e" + x;
    UnsignedScientific(m, x);
    assert u[0] == m[0] && u[|u| - 1] == x[|x| - 1];
    UnsignedNumber(u);
  }

  /** `float()` of plain digits is their value. */
  lemma {:induction false} ParseFloatDigits(d: string)
    requires d != [] && AllDigits(d)
    ensures ParseFloat(d) == Some(DigitsValue(d) as real)
  {
    RunLenExact(d, 0, NotExpMark, |d|);
    DigitsAsNumber(d);
    UnsignedNumber(d);
  }

  /** Text that starts and ends with a digit is read by `float()` as it
      stands. */
  lemma {:induction false} UnsignedNumber(t: string)
    requires t != [] && IsDigit(t[0]) && IsDigit(t[|t| - 1])
    ensures ParseFloat(t) == ParseUnsignedFloat(t)
  {
    DigitsUnstripped(t);
  }


  /** Python's `<` on strings: code-point lexicographic order. */
  predicate LexLess(a: string, b: string)
    decreases |a|
  {
    if a == [] then b != []
    else if b == [] then false
    else if a[0] != b[0] then a[0] < b[0]
    else LexLess(a[1..], b[1..])
  }

  /** `<` on strings is a strict total order: never both ways, and one way
      for any two different strings. */
  lemma {:induction false} LexLessAsymmetric(a: string, b: string)
    ensures !(LexLess(a, b) && LexLess(b, a))
    decreases |a|
  {
    if a != [] && b != [] && a[0] == b[0] {
      LexLessAsymmetric(a[1..], b[1..]);
    }
  }

  lemma {:induction false} LexLessTotal(a: string, b: string)
    ensures a == b || LexLess(a, b) || LexLess(b, a)
    decreases |a|
  {
    if a != [] && b != [] && a[0] == b[0] {
      LexLessTotal(a[1..], b[1..]);
      if a[1..] == b[1..] {
        assert a == [a[0]] + a[1..] && b == [b[0]] + b[1..];
      }
    }
  }

  lemma {:induction false} LexLessIrreflexive(a: string)
    ensures !LexLess(a, a)
    decreases |a|
  {
    if a != [] {
      LexLessIrreflexive(a[1..]);
    }
  }

  lemma {:induction false} LexLessTransitive(a: string, b: string, c: string)
    requires LexLess(a, b) && LexLess(b, c)
    ensures LexLess(a, c)
    decreases |a|
  {
    if a != [] && a[0] == b[0] && b[0] == c[0] {
      LexLessTransitive(a[1..], b[1..], c[1..]);
    }
  }
}

=== FILE: queue_helpers.dfy ===
/** `SchemeEvaluator` and `_folder_template_from_scheme` of
    utils/queue_helpers.py: the simpler evaluator of folder and file names
    used by the queue tree.  Six literal `%tokens%`, `$year(date)`, and a
    tidy pass that drops empty brackets, doubled whitespace and doubled
    dashes and trims spaces and dashes from both ends. */
module QueueHelpers {
  import opened Wrappers
  import opened PyStr
  import opened PyDict
  import opened ReSub
  import opened Tidy
  import opened ReplaceLoop
  import ApplyScheme
  import Dates

  /** The evaluator holds the metadata it was built with (`meta or {}`);
      nothing changes it afterwards. */
  datatype SchemeEvaluator = SchemeEvaluator(meta: Dict<string>)

  function NewEvaluator(meta: Option<Dict<string>>): (ev: SchemeEvaluator)
    ensures meta.Some? ==> ev.meta == meta.value
    ensures meta.None? ==> ev.meta == []
  {
    SchemeEvaluator(meta.GetOr([]))
  }

  /** `meta.get(key, "").strip()` */
  function Field(meta: Dict<string>, key: string): string {
    Strip(GetOr(meta, key, ""))
  }

  // ---------------------------------------------------------------- _build_date

  /** `_build_date`: the stripped year, month and day as `Y-MM-DD`, `Y-MM`
      or `Y`, depending on which are present. */
  function BuildDate(meta: Dict<string>): (r: string)
    ensures var y := Field(meta, "year"); var m := Field(meta, "month"); var d := Field(meta, "day");
      StartsWith(r, y) && (r == [] <==> y == []) &&
      (y != [] && m != [] && d != [] ==> r == y + "-" + ZFill(m, 2) + "-" + ZFill(d, 2)) &&
      (y != [] && m != [] && d == [] ==> r == y + "-" + ZFill(m, 2)) &&
      (y == [] || m == [] ==> r == y)
  {
    var y := Field(meta, "year");
    var m := Field(meta, "month");
    var d := Field(meta, "day");
    if y != [] && m != [] && d != [] then
      assert (y + "-" + ZFill(m, 2) + "-" + ZFill(d, 2))[..|y|] == y;
      y + "-" + ZFill(m, 2) + "-" + ZFill(d, 2)
    else if y != [] && m != [] then
      assert (y + "-" + ZFill(m, 2))[..|y|] == y;
      y + "-" + ZFill(m, 2)
    else y
  }

  /** Whitespace-free fields give the same date token as `_apply_scheme`'s
      `date_tok` in utils/queue_manager.py. */
  lemma BuildDateAsDateTok(meta: Dict<string>)
    requires Field(meta, "year") == GetOr(meta, "year", "")
    requires Field(meta, "month") == GetOr(meta, "month", "")
    requires Field(meta, "day") == GetOr(meta, "day", "")
    ensures BuildDate(meta) == ApplyScheme.DateTok(meta)
  {
  }

  /** Digits are not whitespace, so stripping leaves them. */
  lemma StripDigits(s: string)
    requires AllDigits(s)
    ensures Strip(s) == s
  {
    if s != [] {
      assert IsDigit(s[0]) && IsDigit(s[|s| - 1]);
      StripSetNoop(s, Whitespace);
    }
  }

  /** A valid date stored as a four-digit year and unpadded month and day
      comes out as its `%Y-%m-%d` text, which `strptime` reads back. */
  lemma BuildDateIso(meta: Dict<string>, d: Dates.Date)
    requires Dates.ValidDate(d)
    requires Get(meta, "year") == Some(Dates.Pad4(d.year))
    requires Get(meta, "month") == Some(NatToStr(d.month))
    requires Get(meta, "day") == Some(NatToStr(d.day))
    ensures BuildDate(meta) == Dates.FormatIso(d)
    ensures Dates.ParseIso(BuildDate(meta)) == Some(d)
  {
    StripDigits(Dates.Pad4(d.year));
    NatToStrValue(d.month);
    NatToStrValue(d.day);
    StripDigits(NatToStr(d.month));
    StripDigits(NatToStr(d.day));
    ApplyScheme.DateTextIso(d);
  }

  // ---------------------------------------------------------------- the token table

  /** `_TOKEN_KEYS`, the order in which `replacements` lists its tokens. */
  const TokenKeys: seq<string> := ["artist", "venue", "date", "city", "format", "additional"]

  function Wrap(key: string): string {
    "%" + key + "%"
  }

  /** The value of `%key%`: the built date for `date`, the stripped field
      otherwise. */
  function TokenValue(meta: Dict<string>, key: string): string {
    if key == "date" then BuildDate(meta) else Field(meta, key)
  }

  /** `replacements`, in its insertion order. */
  function Table(meta: Dict<string>): (d: Dict<string>)
    ensures |d| == |TokenKeys|
  {
    seq(|TokenKeys|, i requires 0 <= i < |TokenKeys| => (Wrap(TokenKeys[i]), TokenValue(meta, TokenKeys[i])))
  }

  lemma KeysLetters()
    ensures forall i :: 0 <= i < |TokenKeys| ==> '%' !in TokenKeys[i]
  {
    forall i | 0 <= i < |TokenKeys| ensures '%' !in TokenKeys[i] {
      var w := TokenKeys[i];
      assert forall k :: 0 <= k < |w| ==> IsLower(w[k]);
    }
  }

  lemma TableKeys(meta: Dict<string>)
    ensures DelimitedKeys(Table(meta))
  {
    var d := Table(meta);
    KeysLetters();
    forall i | 0 <= i < |d| ensures '%' !in d[i].0[1..|d[i].0| - 1] {
      assert d[i].0[1..|d[i].0| - 1] == TokenKeys[i];
    }
  }

  // ---------------------------------------------------------------- $year(date)

  /** `year`, in any case, at j. */
  predicate YearWordAt(t: string, j: nat) {
    j + 4 <= |t| && LowerChar(t[j]) == 'y' && LowerChar(t[j + 1]) == 'e'
    && LowerChar(t[j + 2]) == 'a' && LowerChar(t[j + 3]) == 'r'
  }

  /** `date`, in any case, at j. */
  predicate DateWordAt(t: string, j: nat) {
    j + 4 <= |t| && LowerChar(t[j]) == 'd' && LowerChar(t[j + 1]) == 'a'
    && LowerChar(t[j + 2]) == 't' && LowerChar(t[j + 3]) == 'e'
  }

  /** `\$year\(\s*date\s*\)` with `re.I` at i: the length of the match. */
  function YearDateAt(t: string, i: nat): (r: Option<nat>)
    ensures r.Some? ==> r.value >= 11 && i + r.value <= |t|
  {
    if i + 6 <= |t| && t[i] == '$' && YearWordAt(t, i + 1) && t[i + 5] == '(' then
      var n1 := RunLen(t, i + 6, IsSpace);
      if DateWordAt(t, i + 6 + n1) then
        var n2 := RunLen(t, i + 10 + n1, IsSpace);
        if i + 10 + n1 + n2 < |t| && t[i + 10 + n1 + n2] == ')' then Some(11 + n1 + n2) else None
      else None
    else None
  }

  /** `repl_year`: every match becomes the stripped year. */
  function YearMatch(year: string): (string, nat) -> Option<Hit> {
    (t: string, i: nat) =>
      match YearDateAt(t, i)
      case Some(n) => Some(Hit(year, n))
      case None => None
  }

  /** The literal token loop, then the `$year(date)` substitution. */
  function Substituted(meta: Dict<string>, template: string): string {
    SubAll(ReplaceEach(template, Table(meta)), YearMatch(Field(meta, "year")))
  }

  // ---------------------------------------------------------------- the tidy pass

  /** `\[\s*]` at i, replaced by nothing. */
  function EmptyBracketAt(t: string, i: nat): Option<Hit> {
    if i < |t| && t[i] == '[' then
      var n := RunLen(t, i + 1, IsSpace);
      if i + 1 + n < |t| && t[i + 1 + n] == ']' then Some(Hit([], n + 2)) else None
    else None
  }

  function DropEmptyBrackets(t: string): string {
    SubAll(t, EmptyBracketAt)
  }

  const Seps: set<char> := {' ', '-'}

  /** Brackets, whitespace runs, dash runs, then `strip(" -")`. */
  function TidyUp(s: string): string {
    StripSet(CollapseDashes(CollapseSpaces(DropEmptyBrackets(s))), Seps)
  }

  /** What `evaluate` returns. */
  function EvaluateSpec(meta: Dict<string>, template: string): (r: string)
    ensures template == [] ==> r == []
    ensures r != [] ==> r[0] !in Seps && r[|r| - 1] !in Seps
    ensures NoLoose(r) && !Contains(r, "--") && !Contains(r, "- -") && NoDoubleSpace(r)
  {
    if template == [] then []
    else
      var s := Substituted(meta, template);
      TidyShape(s);
      TidyUp(s)
  }

  /** The tidy pass leaves no dash followed, across whitespace only, by
      another dash, no two whitespace characters in a row, and neither a
      space nor a dash at either end. */
  lemma TidyShape(s: string)
    ensures var r := TidyUp(s);
      NoLoose(r) && !Contains(r, "--") && !Contains(r, "- -") && NoDoubleSpace(r)
      && (r != [] ==> r[0] !in Seps && r[|r| - 1] !in Seps)
  {
    var sp := CollapseSpaces(DropEmptyBrackets(s));
    var c := CollapseDashes(sp);
    DashesClean(sp, 0);
    SpacesCollapsed(DropEmptyBrackets(s), 0);
    SingleSpacedOf(sp);
    DashesKeepSingle(sp, 0);
    var a, b := StripSetSlice(c, Seps);
    NoLooseSlice(c, a, b);
    NoDoubleSpaceSlice(c, a, b);
    StripSetEnds(c, Seps);
    NoLooseNoDoubleDash(TidyUp(s));
  }

  /** `SchemeEvaluator.evaluate`. */
  method Evaluate(ev: SchemeEvaluator, template: string) returns (out: string)
    ensures out == EvaluateSpec(ev.meta, template)
  {
    if template == [] {
      return "";
    }
    out := ReplaceTokens(Table(ev.meta), template);
    out := SubAll(out, YearMatch(Field(ev.meta, "year")));
    out := DropEmptyBrackets(out);
    out := CollapseSpaces(out);
    out := CollapseDashes(out);
    out := StripSet(out, Seps);
  }

  // ---------------------------------------------------------------- what the passes do

  /** The text of a year call: `$`, `year` in some case, `(`, whitespace,
      `date` in some case, whitespace, `)`. */
  function YearCallText(y: string, s1: string, d: string, s2: string): string {
    "$" + y + "(" + s1 + d + s2 + ")"
  }

  predicate AllSpace(s: string) {
    forall k :: 0 <= k < |s| ==> IsSpace(s[k])
  }

  predicate IsYearCall(y: string, s1: string, d: string, s2: string) {
    |y| == 4 && YearWordAt(y, 0) && |d| == 4 && DateWordAt(d, 0) && AllSpace(s1) && AllSpace(s2)
  }

  lemma YearCallMatches(t: string, p: nat, y: string, s1: string, d: string, s2: string)
    requires IsYearCall(y, s1, d, s2)
    requires var c := YearCallText(y, s1, d, s2); p + |c| <= |t| && t[p..p + |c|] == c
    ensures YearDateAt(t, p) == Some(|YearCallText(y, s1, d, s2)|)
  {
    CallFacts(t, p, y, s1, d, s2);
    YearDateAtParts(t, p, |s1|, |s2|);
  }

  lemma CallFacts(t: string, p: nat, y: string, s1: string, d: string, s2: string)
    requires IsYearCall(y, s1, d, s2)
    requires var c := YearCallText(y, s1, d, s2); p + |c| <= |t| && t[p..p + |c|] == c
    ensures |YearCallText(y, s1, d, s2)| == 11 + |s1| + |s2|
    ensures var n1, n2 := |s1|, |s2|;
      p + 11 + n1 + n2 <= |t| && t[p] == '$' && YearWordAt(t, p + 1) && t[p + 5] == '('
      && RunLen(t, p + 6, IsSpace) == n1 && DateWordAt(t, p + 6 + n1)
      && RunLen(t, p + 10 + n1, IsSpace) == n2 && t[p + 10 + n1 + n2] == ')'
  {
    CallSegments(t, p, y, s1, d, s2);
    SegmentsMatch(t, p, y, s1, d, s2);
  }

  /** The pieces of a year call in the text. */
  lemma CallSegments(t: string, p: nat, y: string, s1: string, d: string, s2: string)
    requires |y| == 4 && |d| == 4
    requires var c := YearCallText(y, s1, d, s2); p + |c| <= |t| && t[p..p + |c|] == c
    ensures var j := p + 6 + |s1|; var k := j + 4 + |s2|;
      k < |t| && t[p] == '$' && t[p + 1..p + 5] == y && t[p + 5] == '(' && t[p + 6..j] == s1
      && t[j..j + 4] == d && t[j + 4..k] == s2 && t[k] == ')'
  {
    var a1: string := "$";
    var a2 := a1 + y;
    var a3 := a2 + "(";
    var a4 := a3 + s1;
    var a5 := a4 + d;
    var a6 := a5 + s2;
    assert YearCallText(y, s1, d, s2) == a6 + ")";
    assert |a1| == 1 && |a2| == 5 && |a3| == 6;
    var j := p + 6 + |s1|;
    var k := j + 4 + |s2|;
    assert |a4| == j - p && |a5| == j + 4 - p && |a6| == k - p;
    SplitAt(t, p, a6, ")");
    assert t[k] == ')' by {
      assert t[k..k + 1] == ")";
    }
    SplitAt(t, p, a5, s2);
    SplitAt(t, p, a4, d);
    SplitAt(t, p, a3, s1);
    SplitAt(t, p, a2, "(");
    assert t[p + 5] == '(' by {
      assert t[p + 5..p + 6] == "(";
    }
    SplitAt(t, p, a1, y);
    assert t[p] == '$' by {
      assert t[p..p + 1] == "$";
    }
  }

  lemma SegmentsMatch(t: string, p: nat, y: string, s1: string, d: string, s2: string)
    requires IsYearCall(y, s1, d, s2)
    requires var j := p + 6 + |s1|; var k := j + 4 + |s2|;
      k < |t| && t[p] == '$' && t[p + 1..p + 5] == y && t[p + 5] == '(' && t[p + 6..j] == s1
      && t[j..j + 4] == d && t[j + 4..k] == s2 && t[k] == ')'
    ensures YearWordAt(t, p + 1) && DateWordAt(t, p + 6 + |s1|)
    ensures RunLen(t, p + 6, IsSpace) == |s1| && RunLen(t, p + 10 + |s1|, IsSpace) == |s2|
  {
    var j := p + 6 + |s1|;
    WordSlice(t, p + 1, y);
    WordSlice(t, j, d);
    SpaceSlice(t, p + 6, s1);
    SpaceSlice(t, j + 4, s2);
  }

  /** The pattern from its parts. */
  lemma YearDateAtParts(t: string, p: nat, n1: nat, n2: nat)
    requires p + 11 + n1 + n2 <= |t| && t[p] == '$' && YearWordAt(t, p + 1) && t[p + 5] == '('
    requires RunLen(t, p + 6, IsSpace) == n1 && DateWordAt(t, p + 6 + n1)
    requires RunLen(t, p + 10 + n1, IsSpace) == n2 && t[p + 10 + n1 + n2] == ')'
    ensures YearDateAt(t, p) == Some(11 + n1 + n2)
  {
  }

  /** A slice of the text that is a concatenation splits with it. */
  lemma SplitAt(t: string, p: nat, a: string, b: string)
    requires p + |a| + |b| <= |t| && t[p..p + |a| + |b|] == a + b
    ensures t[p..p + |a|] == a && t[p + |a|..p + |a| + |b|] == b
  {
    assert t[p..p + |a|] == (a + b)[..|a|];
    assert t[p + |a|..p + |a| + |b|] == (a + b)[|a|..];
  }

  lemma WordSlice(t: string, j: nat, w: string)
    requires |w| == 4 && j + 4 <= |t| && t[j..j + 4] == w
    ensures YearWordAt(w, 0) ==> YearWordAt(t, j)
    ensures DateWordAt(w, 0) ==> DateWordAt(t, j) && !IsSpace(t[j])
  {
    assert t[j] == w[0] && t[j + 1] == w[1] && t[j + 2] == w[2] && t[j + 3] == w[3];
  }

  /** A whitespace slice followed by something else is the whole run. */
  lemma SpaceSlice(t: string, j: nat, s: string)
    requires AllSpace(s) && j + |s| < |t| && t[j..j + |s|] == s && !IsSpace(t[j + |s|])
    ensures RunLen(t, j, IsSpace) == |s|
  {
    forall q | j <= q < j + |s| ensures IsSpace(t[q]) {
      assert t[q] == s[q - j];
    }
    RunLenExact(t, j, IsSpace, |s|);
  }

  /** A year call among `$`-free text becomes the given year. */
  lemma YearCallReplaced(pre: string, y: string, s1: string, d: string, s2: string, post: string, year: string)
    requires IsYearCall(y, s1, d, s2) && '$' !in pre && '$' !in post
    ensures SubAll(pre + YearCallText(y, s1, d, s2) + post, YearMatch(year)) == pre + year + post
  {
    var c := YearCallText(y, s1, d, s2);
    var t := pre + c + post;
    var m := YearMatch(year);
    var p := |pre|;
    var e := p + |c|;
    assert t[p..e] == c;
    YearCallMatches(t, p, y, s1, d, s2);
    forall q | 0 <= q < p ensures m(t, q).None? {
      assert t[q] == pre[q];
    }
    forall q | e <= q < |t| ensures m(t, q).None? {
      assert t[q] == post[q - e];
    }
    SubOne(t, p, m);
    assert t[..p] == pre && t[e..] == post;
  }

  lemma CallNoPercent(y: string, s1: string, d: string, s2: string)
    requires IsYearCall(y, s1, d, s2)
    ensures '%' !in YearCallText(y, s1, d, s2)
  {
    assert '%' !in y by {
      forall q | 0 <= q < 4 ensures y[q] != '%' {
        assert LowerChar(y[q]) != '%';
      }
    }
    assert '%' !in d by {
      forall q | 0 <= q < 4 ensures d[q] != '%' {
        assert LowerChar(d[q]) != '%';
      }
    }
    assert '%' !in s1 && '%' !in s2;
  }

  /** `$year(date)`, in any case and with any whitespace inside the
      parentheses, becomes the stripped year of the metadata. */
  lemma YearCallIsYear(meta: Dict<string>, pre: string, y: string, s1: string, d: string, s2: string, post: string)
    requires IsYearCall(y, s1, d, s2)
    requires '%' !in pre && '%' !in post && '$' !in pre && '$' !in post
    ensures Substituted(meta, pre + YearCallText(y, s1, d, s2) + post) == pre + Field(meta, "year") + post
  {
    var t := pre + YearCallText(y, s1, d, s2) + post;
    CallNoPercent(y, s1, d, s2);
    TableKeys(meta);
    ReplaceEachNoPercent(t, Table(meta));
    YearCallReplaced(pre, y, s1, d, s2, post, Field(meta, "year"));
  }

  /** An empty pair of brackets, with only whitespace inside, among
      bracket-free text is dropped. */
  lemma EmptyBracketsDropped(pre: string, ws: string, post: string)
    requires '[' !in pre && '[' !in post && AllSpace(ws)
    ensures DropEmptyBrackets(pre + "[" + ws + "]" + post) == pre + post
  {
    var c := BracketText(ws);
    var t := pre + c + post;
    assert t == pre + "[" + ws + "]" + post;
    assert t[|pre|..|pre| + |c|] == c;
    BracketFound(t, |pre|, ws);
    BracketsAround(pre, c, post);
  }

  function BracketText(ws: string): string {
    "[" + ws + "]"
  }

  lemma BracketFound(t: string, p: nat, ws: string)
    requires AllSpace(ws)
    requires p + |ws| + 2 <= |t| && t[p..p + |ws| + 2] == BracketText(ws)
    ensures EmptyBracketAt(t, p) == Some(Hit([], |ws| + 2))
  {
    var a1: string := "[";
    var a2 := a1 + ws;
    assert BracketText(ws) == a2 + "]";
    var e := p + |ws| + 2;
    SplitAt(t, p, a2, "]");
    SplitAt(t, p, a1, ws);
    assert t[p] == '[' by {
      assert t[p..p + 1] == "[";
    }
    assert t[e - 1] == ']' by {
      assert t[e - 1..e] == "]";
    }
    SpaceSlice(t, p + 1, ws);
  }

  /** The scan around one match in otherwise bracket-free text. */
  lemma BracketsAround(pre: string, c: string, post: string)
    requires '[' !in pre && '[' !in post && c != []
    requires EmptyBracketAt(pre + c + post, |pre|) == Some(Hit([], |c|))
    ensures DropEmptyBrackets(pre + c + post) == pre + post
  {
    var t := pre + c + post;
    var p := |pre|;
    var e := p + |c|;
    forall q | 0 <= q < p ensures EmptyBracketAt(t, q).None? {
      assert t[q] == pre[q];
    }
    forall q | e <= q < |t| ensures EmptyBracketAt(t, q).None? {
      assert t[q] == post[q - e];
    }
    SubOne(t, p, EmptyBracketAt);
    assert t[..p] == pre && t[e..] == post;
  }

  /** No value of a table holds a `%` or a `$`. */
  predicate PlainValues(d: Dict<string>) {
    forall i :: 0 <= i < |d| ==> '%' !in d[i].1 && '$' !in d[i].1
  }

  /** A single `%token%` in `$`-free text becomes its table value (a
      stripped field, or the built date), and an unknown `%word%` stays. */
  lemma SubstitutedOneToken(meta: Dict<string>, pre: string, w: string, post: string)
    requires '%' !in pre && '%' !in w && '%' !in post
    requires '$' !in pre && '$' !in w && '$' !in post
    requires PlainValues(Table(meta))
    ensures Substituted(meta, pre + "%" + w + "%" + post) == pre + GetOr(Table(meta), "%" + w + "%", "%" + w + "%") + post
  {
    TableKeys(meta);
    OneTokenThenYear(pre, w, post, Table(meta), Field(meta, "year"));
  }

  lemma OneTokenThenYear(pre: string, w: string, post: string, d: Dict<string>, year: string)
    requires '%' !in pre && '%' !in w && '%' !in post
    requires '$' !in pre && '$' !in w && '$' !in post
    requires DelimitedKeys(d) && PlainValues(d)
    ensures SubAll(ReplaceEach(pre + "%" + w + "%" + post, d), YearMatch(year)) == pre + GetOr(d, "%" + w + "%", "%" + w + "%") + post
  {
    var r := pre + GetOr(d, "%" + w + "%", "%" + w + "%") + post;
    OneTokenReplaced(pre, w, post, d);
    NoYearCall(r, year);
  }

  /** The loop of `evaluate` over a table of plain values. */
  lemma OneTokenReplaced(pre: string, w: string, post: string, d: Dict<string>)
    requires '%' !in pre && '%' !in w && '%' !in post
    requires '$' !in pre && '$' !in w && '$' !in post
    requires DelimitedKeys(d) && PlainValues(d)
    ensures ReplaceEach(pre + "%" + w + "%" + post, d) == pre + GetOr(d, "%" + w + "%", "%" + w + "%") + post
    ensures '$' !in pre + GetOr(d, "%" + w + "%", "%" + w + "%") + post
  {
    var key := "%" + w + "%";
    assert ValuesNoPercent(d);
    ReplaceEachDelimited(pre, w, post, d);
    LookupPlain(d, key);
    assert '$' !in pre + GetOr(d, key, key) + post;
  }

  /** A lookup in a table of plain values, with a `$`-free default, is `$`-free. */
  lemma LookupPlain(d: Dict<string>, key: string)
    requires PlainValues(d) && '$' !in key
    ensures '$' !in GetOr(d, key, key)
  {
    GetEntry(d, key);
    if Get(d, key).Some? {
      var i :| 0 <= i < |d| && d[i] == (key, Get(d, key).value);
    }
  }

  lemma NoYearCall(r: string, year: string)
    requires '$' !in r
    ensures SubAll(r, YearMatch(year)) == r
  {
    var m := YearMatch(year);
    forall q | 0 <= q < |r| ensures m(r, q).None? {
      assert r[q] != '$';
    }
    SubNone(r, 0, m);
  }

  /** Text without `%` and `$` is left alone by the substitutions. */
  lemma SubstitutedPlain(meta: Dict<string>, t: string)
    requires '%' !in t && '$' !in t
    ensures Substituted(meta, t) == t
  {
    TableKeys(meta);
    ReplaceEachNoPercent(t, Table(meta));
    var m := YearMatch(Field(meta, "year"));
    forall q | 0 <= q < |t| ensures m(t, q).None? {
      assert t[q] != '$';
    }
    SubNone(t, 0, m);
  }

  /** One pass of the bracket pattern does not see a pair that only the
      removal of an inner pair makes empty: `[[]]` evaluates to `[]`. */
  lemma NestedBracketsLeft(meta: Dict<string>)
    ensures EvaluateSpec(meta, "[[]]") == "[]"
  {
    var t := "[[]]";
    assert EvaluateSpec(meta, t) == TidyUp(Substituted(meta, t));
    assert Substituted(meta, t) == t by {
      SubstitutedPlain(meta, t);
    }
    InnerPair();
    Untouched("[]");
  }

  lemma InnerPair()
    ensures DropEmptyBrackets("[[]]") == "[]"
  {
    var t := "[[]]";
    assert RunLen(t, 1, IsSpace) == 0 && RunLen(t, 2, IsSpace) == 0;
    assert EmptyBracketAt(t, 0).None?;
    assert EmptyBracketAt(t, 1) == Some(Hit([], 2));
    assert EmptyBracketAt(t, 3).None?;
    assert Sub(t, 3, EmptyBracketAt) == "]";
    assert Sub(t, 1, EmptyBracketAt) == "]";
  }

  /** Text made of brackets only is left as it is by the tidy passes after
      the bracket pass. */
  lemma Untouched(s: string)
    requires forall q :: 0 <= q < |s| ==> s[q] == '[' || s[q] == ']'
    ensures StripSet(CollapseDashes(CollapseSpaces(s)), Seps) == s
  {
    assert forall q :: 0 <= q < |s| ==> !IsSpace(s[q]) && s[q] != '-';
    forall q | 0 <= q < |s| ensures SpacesAt(s, q).None? {
      assert RunLen(s, q, IsSpace) == 0;
    }
    SubNone(s, 0, SpacesAt);
    forall q | 0 <= q < |s| ensures DashesAt(s, q).None? {
      assert RunLen(s, q, IsSpace) == 0;
      assert !DashNext(s, q);
    }
    SubNone(s, 0, DashesAt);
    StripSetNoop(s, Seps);
  }

  // ---------------------------------------------------------------- _folder_template_from_scheme

  /** The naming scheme as it comes from the configuration: a dict, a JSON
      string, or anything else. */
  datatype NamingScheme = SchemeDict(entries: Dict<string>) | SchemeText(text: string) | SchemeOther

  const DefaultFolder: string := "%artist%/$year(date)"

  /** `_folder_template_from_scheme`.  `loads` is `json.loads` followed by
      the `.get` it needs: None where either raises (malformed JSON, or
      JSON that is not an object). */
  function FolderTemplate(scheme: NamingScheme, loads: string -> Option<Dict<string>>): (r: string)
    ensures scheme.SchemeDict? ==> r == GetOr(scheme.entries, "folder", DefaultFolder)
    ensures scheme.SchemeText? && loads(scheme.text).None? ==> r == DefaultFolder
    ensures scheme.SchemeOther? ==> r == DefaultFolder
  {
    match scheme
    case SchemeDict(d) => GetOr(d, "folder", DefaultFolder)
    case SchemeText(s) =>
      (match loads(s)
       case Some(d) => GetOr(d, "folder", DefaultFolder)
       case None => DefaultFolder)
    case SchemeOther => DefaultFolder
  }

  /** A JSON string is read as the dict it encodes. */
  lemma FolderTemplateJson(s: string, loads: string -> Option<Dict<string>>)
    requires loads(s).Some?
    ensures FolderTemplate(SchemeText(s), loads) == FolderTemplate(SchemeDict(loads(s).value), loads)
  {
  }

  /** The template is the scheme's "folder" entry where there is one, and
      the default otherwise. */
  lemma FolderTemplateSource(scheme: NamingScheme, loads: string -> Option<Dict<string>>)
    ensures var r := FolderTemplate(scheme, loads);
      r == DefaultFolder ||
      (scheme.SchemeDict? && Get(scheme.entries, "folder") == Some(r)) ||
      (scheme.SchemeText? && loads(scheme.text).Some? && Get(loads(scheme.text).value, "folder") == Some(r))
  {
  }
}

=== FILE: queue_manager.dfy ===
/** The small helpers of utils/queue_manager.py: `_split_args`, the quote-aware
    comma splitter of the `$func(...)` arguments; `_truthy`; and
    `resolve_output_base`. */
module QueueManager {
  import opened Wrappers
  import opened PyStr
  import opened FuncCall

  // ---------------------------------------------------------------- _split_args

  const Quotes: set<char> := {'\'', '"'}

  predicate IsQuote(c: char) { c in Quotes }

  /** The loop state: finished parts, the characters of the current part
      (quote characters included), whether a quotation is open, and the
      character that would close it (never reset once set). */
  datatype QuoteState = QuoteState(parts: seq<string>, cur: string, quoted: bool, qch: Option<char>)

  function Start(parts: seq<string>): QuoteState {
    QuoteState(parts, [], false, None)
  }

  /** `"".join(cur).strip().strip("'\"")` */
  function ClosePart(cur: string): string {
    StripSet(Strip(cur), Quotes)
  }

  /** One character.  A quote character is always kept in the part; it closes
      an open quotation of its own kind and otherwise opens one.  With `fixed`
      false this is the loop as written, where a quote character of the other
      kind inside a quotation re-opens it with itself as the closing
      character; with `fixed` true it is literal there.  A comma outside a
      quotation ends the part. */
  function Step(st: QuoteState, c: char, fixed: bool): QuoteState {
    if IsQuote(c) then
      var toggled :=
        if st.quoted && st.qch == Some(c) then st.(quoted := false)
        else if st.quoted && fixed then st
        else st.(quoted := true, qch := Some(c));
      toggled.(cur := st.cur + [c])
    else if c == ',' && !st.quoted then
      st.(parts := st.parts + [ClosePart(st.cur)], cur := [])
    else st.(cur := st.cur + [c])
  }

  function Run(st: QuoteState, s: string, fixed: bool): QuoteState
    decreases |s|
  {
    if s == [] then st else Step(Run(st, s[..|s| - 1], fixed), s[|s| - 1], fixed)
  }

  /** The last part is kept when it holds any character at all. */
  function Finish(st: QuoteState): seq<string> {
    if st.cur != [] then st.parts + [ClosePart(st.cur)] else st.parts
  }

  /** `_split_args` as written. */
  function SplitArgsAsWritten(raw: string): seq<string> {
    Finish(Run(Start([]), raw, false))
  }

  /** `_split_args` with the other quote character literal inside a quotation. */
  function SplitArgsSpec(raw: string): seq<string> {
    Finish(Run(Start([]), raw, true))
  }

  /** `_split_args`: the loop as written when `fixed` is false, with the
      quotation handling corrected when it is true. */
  method SplitArgs(raw: string, fixed: bool) returns (parts: seq<string>)
    ensures !fixed ==> parts == SplitArgsAsWritten(raw)
    ensures fixed ==> parts == SplitArgsSpec(raw)
  {
    parts := [];
    var cur: string := [];
    var quoted := false;
    var qch: Option<char> := None;
    var i := 0;
    while i < |raw|
      invariant 0 <= i <= |raw|
      invariant QuoteState(parts, cur, quoted, qch) == Run(Start([]), raw[..i], fixed)
    {
      var ch := raw[i];
      assert raw[..i + 1][..i] == raw[..i];
      if ch == '\'' || ch == '"' {
        if quoted && Some(ch) == qch {
          quoted := false;
        } else if !quoted || !fixed {
          quoted, qch := true, Some(ch);
        }
        cur := cur + [ch];
      } else if ch == ',' && !quoted {
        parts := parts + [ClosePart(cur)];
        cur := [];
      } else {
        cur := cur + [ch];
      }
      i := i + 1;
    }
    assert raw[..i] == raw;
    if cur != [] {
      parts := parts + [ClosePart(cur)];
    }
  }

  lemma RunSnoc(st: QuoteState, s: string, c: char, fixed: bool)
    ensures Run(st, s + [c], fixed) == Step(Run(st, s, fixed), c, fixed)
  {
    assert (s + [c])[..|s|] == s;
  }

  lemma {:induction false} RunConcat(st: QuoteState, a: string, b: string, fixed: bool)
    ensures Run(st, a + b, fixed) == Run(Run(st, a, fixed), b, fixed)
    decreases |b|
  {
    if b != [] {
      var b' := b[..|b| - 1];
      assert (a + b)[..|a + b| - 1] == a + b';
      RunConcat(st, a, b', fixed);
    } else {
      assert a + b == a;
    }
  }

  predicate NoQuotes(s: string) {
    forall i :: 0 <= i < |s| ==> !IsQuote(s[i])
  }

  /** In `_split_args` a quoted argument may hold commas and quotes of the
      other kind. */
  predicate WellFormedArg(a: Arg) {
    match a
    case Bare(t) => NoQuotes(t) && ',' !in t
    case Quoted(q, t) => IsQuote(q) && q !in t
  }

  predicate AllWellFormed(args: seq<Arg>) {
    forall i :: 0 <= i < |args| ==> WellFormedArg(args[i])
  }

  /** What the splitter makes of an argument. */
  function Value(a: Arg): string {
    ClosePart(ArgText(a))
  }

  /** `f` of each argument; the splitter's values are `Values(args, Value)`. */
  function Values(args: seq<Arg>, f: Arg -> string): (r: seq<string>)
    ensures |r| == |args|
  {
    if args == [] then [] else [f(args[0])] + Values(args[1..], f)
  }

  /** The arguments a loop gives back: the corrected loop any well-formed
      one, the loop as written only those whose quoted text holds no quote
      of either kind. */
  predicate GivenBack(a: Arg, fixed: bool) {
    WellFormedArg(a) && (fixed || a.Bare? || NoQuotes(a.text))
  }

  predicate AllGivenBack(args: seq<Arg>, fixed: bool) {
    forall i :: 0 <= i < |args| ==> GivenBack(args[i], fixed)
  }

  /** Characters that neither quote nor (outside a quotation) separate are
      collected, by either loop. */
  lemma {:induction false} RunPlain(st: QuoteState, s: string, fixed: bool)
    requires NoQuotes(s) && (st.quoted || ',' !in s)
    ensures Run(st, s, fixed) == st.(cur := st.cur + s)
    decreases |s|
  {
    if s != [] {
      var s' := s[..|s| - 1];
      assert ',' in s' ==> ',' in s;
      RunPlain(st, s', fixed);
      assert st.cur + s' + [s[|s| - 1]] == st.cur + s;
    }
  }

  /** Inside a quotation opened by q, the corrected loop collects everything
      but q. */
  lemma {:induction false} RunInQuote(st: QuoteState, s: string)
    requires st.quoted && st.qch.Some? && st.qch.value !in s
    ensures Run(st, s, true) == st.(cur := st.cur + s)
    decreases |s|
  {
    if s != [] {
      var s' := s[..|s| - 1];
      assert st.qch.value !in s';
      RunInQuote(st, s');
      assert st.cur + s' + [s[|s| - 1]] == st.cur + s;
    }
  }

  lemma RunOne(st: QuoteState, c: char, fixed: bool)
    ensures Run(st, [c], fixed) == Step(st, c, fixed)
  {
    assert [c][..0] == [];
  }

  /** From outside a quotation, one argument leaves its text as the current
      part and no quotation open. */
  lemma RunArg(st: QuoteState, a: Arg, fixed: bool)
    requires GivenBack(a, fixed) && !st.quoted && st.cur == []
    ensures var r := Run(st, ArgText(a), fixed);
      r.parts == st.parts && r.cur == ArgText(a) && !r.quoted
  {
    match a
    case Bare(t) =>
      RunPlain(st, t, fixed);
    case Quoted(q, t) =>
      RunOne(st, q, fixed);
      assert st.cur + [q] == [q];
      var open := st.(quoted := true, qch := Some(q), cur := [q]);
      if fixed {
        RunInQuote(open, t);
      } else {
        RunQuotedPlain(open, t, false);
      }
      RunConcat(st, [q], t, fixed);
      RunConcat(st, [q] + t, [q], fixed);
      RunOne(open.(cur := [q] + t), q, fixed);
  }

  /** An argument and the comma after it make one finished part. */
  lemma RunArgComma(st: QuoteState, a: Arg, fixed: bool)
    requires GivenBack(a, fixed) && !st.quoted && st.cur == []
    ensures var r := Run(st, ArgText(a) + ",", fixed);
      r.parts == st.parts + [Value(a)] && r.cur == [] && !r.quoted
  {
    RunArg(st, a, fixed);
    RunConcat(st, ArgText(a), ",", fixed);
    RunOne(Run(st, ArgText(a), fixed), ',', fixed);
  }

  lemma ArgTextsCons(args: seq<Arg>)
    requires |args| >= 2
    ensures Join(",", ArgTexts(args)) == ArgText(args[0]) + "," + Join(",", ArgTexts(args[1..]))
  {
  }

  lemma ValuesCons(args: seq<Arg>, f: Arg -> string)
    requires |args| >= 2
    ensures [f(args[0])] + Values(args[1..][..|args| - 2], f) == Values(args[..|args| - 1], f)
  {
    assert args[..|args| - 1][1..] == args[1..][..|args| - 2];
  }

  /** The state after the written form of one or more arguments. */
  predicate ArgsRun(st: QuoteState, args: seq<Arg>, fixed: bool)
    requires |args| >= 1
  {
    var r := Run(st, Join(",", ArgTexts(args)), fixed);
    r.parts == st.parts + Values(args[..|args| - 1], Value) && r.cur == ArgText(args[|args| - 1]) && !r.quoted
  }

  lemma {:induction false} RunArgs(st: QuoteState, args: seq<Arg>, fixed: bool)
    requires |args| >= 1 && AllGivenBack(args, fixed) && !st.quoted && st.cur == []
    ensures ArgsRun(st, args, fixed)
    decreases |args|
  {
    if |args| > 1 {
      var rest := args[1..];
      assert AllGivenBack(rest, fixed) by {
        forall i | 0 <= i < |rest| ensures GivenBack(rest[i], fixed) {
          assert rest[i] == args[i + 1];
        }
      }
      var mid := Run(st, ArgText(args[0]) + ",", fixed);
      RunArgComma(st, args[0], fixed);
      RunArgs(mid, rest, fixed);
      RunArgsStep(st, args, mid, fixed);
    } else {
      RunArg(st, args[0], fixed);
      assert args[..0] == [];
      assert ArgTexts(args) == [ArgText(args[0])];
    }
  }

  lemma RunArgsStep(st: QuoteState, args: seq<Arg>, mid: QuoteState, fixed: bool)
    requires |args| >= 2
    requires mid == Run(st, ArgText(args[0]) + ",", fixed)
    requires mid.parts == st.parts + [Value(args[0])]
    requires ArgsRun(mid, args[1..], fixed)
    ensures ArgsRun(st, args, fixed)
  {
    var rest := args[1..];
    var j := Join(",", ArgTexts(rest));
    var r := Run(st, Join(",", ArgTexts(args)), fixed);
    assert r == Run(mid, j, fixed) by {
      ArgTextsCons(args);
      RunConcat(st, ArgText(args[0]) + ",", j, fixed);
    }
    assert r.parts == st.parts + Values(args[..|args| - 1], Value) by {
      ValuesConsAfter(st.parts, args, Value);
    }
    assert rest[|rest| - 1] == args[|args| - 1];
  }

  lemma ValuesConsAfter(parts: seq<string>, args: seq<Arg>, f: Arg -> string)
    requires |args| >= 2
    ensures parts + [f(args[0])] + Values(args[1..][..|args| - 2], f) == parts + Values(args[..|args| - 1], f)
  {
    var x := Values(args[1..][..|args| - 2], f);
    ValuesCons(args, f);
    assert parts + [f(args[0])] + x == parts + ([f(args[0])] + x);
  }

  lemma {:induction false} ValuesAppend(args: seq<Arg>, a: Arg, f: Arg -> string)
    ensures Values(args + [a], f) == Values(args, f) + [f(a)]
    decreases |args|
  {
    if args != [] {
      assert (args + [a])[1..] == args[1..] + [a];
      ValuesAppend(args[1..], a, f);
    } else {
      assert [] + [a] == [a];
    }
  }

  lemma ValuesSnoc(args: seq<Arg>, f: Arg -> string)
    requires |args| >= 1
    ensures Values(args[..|args| - 1], f) + [f(args[|args| - 1])] == Values(args, f)
  {
    ValuesAppend(args[..|args| - 1], args[|args| - 1], f);
    assert args[..|args| - 1] + [args[|args| - 1]] == args;
  }

  /** What splitting the written form of the arguments gives back: each
      argument stripped and without its quotes, the last one only when it
      has any character at all. */
  function GivenValues(args: seq<Arg>): seq<string>
    requires |args| >= 1
  {
    if ArgText(args[|args| - 1]) != [] then Values(args, Value) else Values(args[..|args| - 1], Value)
  }

  /** Either loop on the written form of arguments it gives back. */
  lemma SplitRoundTrip(args: seq<Arg>, fixed: bool)
    requires |args| >= 1 && AllGivenBack(args, fixed)
    ensures Finish(Run(Start([]), Join(",", ArgTexts(args)), fixed)) == GivenValues(args)
  {
    RunArgs(Start([]), args, fixed);
    assert [] + Values(args[..|args| - 1], Value) == Values(args[..|args| - 1], Value);
    if ArgText(args[|args| - 1]) != [] {
      ValuesSnoc(args, Value);
    }
  }

  /** Splitting the written form of well-formed arguments gives each
      argument back, stripped and without its quotes: a comma inside a
      quotation does not split.  The corrected loop does so whatever quote
      of the other kind a quotation holds; the loop as written does so when
      no quoted argument holds a quote at all (`SplitArgsMixedQuotes` shows
      what it does otherwise).  A last argument with no character at all is
      not a part. */
  lemma SplitArgsRoundTrip(args: seq<Arg>)
    requires |args| >= 1 && AllWellFormed(args)
    ensures SplitArgsSpec(Join(",", ArgTexts(args))) == GivenValues(args)
    ensures AllGivenBack(args, false) ==> SplitArgsAsWritten(Join(",", ArgTexts(args))) == GivenValues(args)
  {
    assert AllGivenBack(args, true);
    SplitRoundTrip(args, true);
    if AllGivenBack(args, false) {
      SplitRoundTrip(args, false);
    }
  }

  /** A bare argument's value is its stripped text. */
  lemma BareValue(t: string)
    requires NoQuotes(t)
    ensures ClosePart(t) == Strip(t)
  {
    var p := Strip(t);
    if p != [] {
      StripChars(t, 0);
      StripChars(t, |p| - 1);
    }
  }

  /** Quote-free characters inside an open quotation are collected, by the
      loop as written and by the corrected one alike. */
  lemma {:induction false} RunQuotedPlain(st: QuoteState, s: string, fixed: bool)
    requires NoQuotes(s) && st.quoted
    ensures Run(st, s, fixed) == st.(cur := st.cur + s)
    decreases |s|
  {
    if s != [] {
      var s' := s[..|s| - 1];
      RunQuotedPlain(st, s', fixed);
      assert st.cur + s' + [s[|s| - 1]] == st.cur + s;
    }
  }

  /** Text of the form `q a o b q , c`, with two different quote characters
      q and o and quote-free a, b and c: a quoted argument holding the other
      quote, then a bare one.  The loop as written takes o as the closing
      character of the quotation, so the closing q re-opens it instead and
      the comma does not split: the whole text is one part.  (The smallest
      case is `'a"b',c`.) */
  lemma SplitArgsMixedQuotes(q: char, a: string, o: char, b: string, c: string)
    requires IsQuote(q) && IsQuote(o) && q != o && NoQuotes(a) && NoQuotes(b) && NoQuotes(c) && c != []
    ensures var s := [q] + a + [o] + b + [q] + [','] + c;
      SplitArgsAsWritten(s) == [ClosePart(s)]
  {
    var s := [q] + a + [o] + b + [q] + [','] + c;
    MixedRun(q, a, o, b, c);
    assert Run(Start([]), s, false).cur == s != [];
  }

  /** The loop as written on that text ends inside a quotation closed by q. */
  lemma MixedRun(q: char, a: string, o: char, b: string, c: string)
    requires IsQuote(q) && IsQuote(o) && q != o && NoQuotes(a) && NoQuotes(b) && NoQuotes(c)
    ensures var s := [q] + a + [o] + b + [q] + [','] + c;
      Run(Start([]), s, false) == QuoteState([], s, true, Some(q))
  {
    var p6 := [q] + a + [o] + b + [q] + [','];
    MixedThroughComma(q, a, o, b);
    QuotedThenPlain(Start([]), p6, c, QuoteState([], p6, true, Some(q)));
  }

  /** ... the `o` takes over as the closing character ... */
  lemma MixedOpen(q: char, a: string, o: char)
    requires IsQuote(q) && IsQuote(o) && q != o && NoQuotes(a)
    ensures var p := [q] + a + [o];
      Run(Start([]), p, false) == QuoteState([], p, true, Some(o))
  {
    var s0 := Start([]);
    RunOne(s0, q, false);
    QuotedThenPlain(s0, [q], a, QuoteState([], [q], true, Some(q)));
    RunSnoc(s0, [q] + a, o, false);
  }

  /** ... so the closing q re-opens the quotation and the comma is kept. */
  lemma MixedThroughComma(q: char, a: string, o: char, b: string)
    requires IsQuote(q) && IsQuote(o) && q != o && NoQuotes(a) && NoQuotes(b)
    ensures var p := [q] + a + [o] + b + [q] + [','];
      Run(Start([]), p, false) == QuoteState([], p, true, Some(q))
  {
    var s0 := Start([]);
    var p3 := [q] + a + [o];
    MixedOpen(q, a, o);
    QuotedThenPlain(s0, p3, b, QuoteState([], p3, true, Some(o)));
    RunSnoc(s0, p3 + b, q, false);
    RunSnoc(s0, p3 + b + [q], ',', false);
  }

  lemma QuotedThenPlain(s0: QuoteState, p: string, piece: string, st: QuoteState)
    requires Run(s0, p, false) == st && st.quoted && NoQuotes(piece)
    ensures Run(s0, p + piece, false) == st.(cur := st.cur + piece)
  {
    RunQuotedPlain(st, piece, false);
    RunConcat(s0, p, piece, false);
  }

  /** The same text split with the other quote literal inside a quotation:
      the two arguments come back. */
  lemma SplitArgsMixedQuotesFixed(q: char, a: string, o: char, b: string, c: string)
    requires IsQuote(q) && IsQuote(o) && q != o && NoQuotes(a) && NoQuotes(b) && NoQuotes(c) && c != [] && ',' !in c
    ensures var s := [q] + a + [o] + b + [q] + [','] + c;
      SplitArgsSpec(s) == [ClosePart([q] + (a + [o] + b) + [q]), Strip(c)]
  {
    var x, y := Quoted(q, a + [o] + b), Bare(c);
    assert q !in a + [o] + b by {
      assert forall k :: 0 <= k < |a + [o] + b| ==> (a + [o] + b)[k] in a || (a + [o] + b)[k] == o || (a + [o] + b)[k] in b;
    }
    assert Join(",", ArgTexts([x, y])) == [q] + a + [o] + b + [q] + [','] + c by {
      ArgTextsPair(x, y);
    }
    SplitArgsRoundTrip([x, y]);
    ValuesPair(x, y, Value);
    BareValue(c);
  }

  lemma ArgTextsPair(a: Arg, b: Arg)
    ensures Join(",", ArgTexts([a, b])) == ArgText(a) + "," + ArgText(b)
  {
    assert [a, b][1..] == [b];
  }

  lemma ValuesPair(a: Arg, b: Arg, f: Arg -> string)
    ensures Values([a, b], f) == [f(a), f(b)]
  {
    assert [a, b][1..] == [b];
  }

  // ---------------------------------------------------------------- _truthy

  /** `_truthy`: non-empty and not one of the false words, in any case.  Any
      text longer than the longest false word is truthy. */
  predicate Truthy(s: string)
    ensures Truthy(s) ==> s != []
    ensures |s| > 5 ==> Truthy(s)
  {
    s != [] && Lower(s) !in {"0", "false", "off", "no", "null"}
  }

  /** Case never changes truth. */
  lemma TruthyIgnoresCase(s: string)
    ensures Truthy(Upper(s)) == Truthy(s) && Truthy(Lower(s)) == Truthy(s) && Truthy(Title(s)) == Truthy(s)
  {
    LowerOfUpper(s);
    LowerOfTitle(s);
    assert Lower(Lower(s)) == Lower(s);
  }

  // ---------------------------------------------------------------- resolve_output_base

  const RootSentinel: string := "(Root)"

  /** `resolve_output_base`: no directory, "" or the `(Root)` sentinel (with
      any surrounding whitespace) means the fallback root; anything else,
      whitespace-only text included, is kept as it is. */
  function ResolveOutputBase(outputDir: Option<string>, fallbackRoot: string): (r: string)
    ensures r == fallbackRoot || (outputDir.Some? && r == outputDir.value)
    ensures outputDir.Some? && outputDir.value != [] && Strip(outputDir.value) != RootSentinel ==> r == outputDir.value
  {
    if outputDir.None? || outputDir.value == [] || Strip(outputDir.value) == RootSentinel then fallbackRoot
    else outputDir.value
  }

  /** Resolving a resolved base changes nothing. */
  lemma ResolveOutputBaseIdempotent(outputDir: Option<string>, fallbackRoot: string)
    ensures var r := ResolveOutputBase(outputDir, fallbackRoot);
      ResolveOutputBase(Some(r), fallbackRoot) == r
  {
  }
}

=== FILE: re_sub.dfy ===
/** `re.sub(pattern, repl, s)` for a pattern that never matches the empty
    string: the scan tries the pattern at each position from the left; a
    match is replaced and the scan resumes after it, otherwise the
    character is kept and the scan moves on by one. */
module ReSub {
  import opened Wrappers

  type Pos = n: nat | n >= 1 witness 1

  /** A match: its replacement and its (non-zero) length. */
  datatype Hit = Hit(rep: string, len: Pos)

  function Sub(t: string, i: nat, m: (string, nat) -> Option<Hit>): string
    decreases if i < |t| then |t| - i else 0
  {
    if i >= |t| then []
    else match m(t, i)
      case Some(h) => h.rep + Sub(t, i + h.len, m)
      case None => [t[i]] + Sub(t, i + 1, m)
  }

  /** `re.sub` over the whole string. */
  function SubAll(t: string, m: (string, nat) -> Option<Hit>): string {
    Sub(t, 0, m)
  }

  /** Positions where nothing matches are copied. */
  lemma {:induction false} SubSkip(t: string, i: nat, j: nat, m: (string, nat) -> Option<Hit>)
    requires i <= j <= |t|
    requires forall p :: i <= p < j ==> m(t, p).None?
    ensures Sub(t, i, m) == t[i..j] + Sub(t, j, m)
    decreases j - i
  {
    if i < j {
      var rest := Sub(t, j, m);
      SubKeep(t, i, m);
      SubSkip(t, i + 1, j, m);
      Assoc([t[i]], t[i + 1..j], rest);
      assert [t[i]] + t[i + 1..j] == t[i..j];
    }
  }

  /** Match functions that agree at every position from i on give the same
      result. */
  lemma {:induction false} SubAgree(t: string, i: nat, m1: (string, nat) -> Option<Hit>, m2: (string, nat) -> Option<Hit>)
    requires forall p :: i <= p < |t| ==> m1(t, p) == m2(t, p)
    ensures Sub(t, i, m1) == Sub(t, i, m2)
    decreases if i < |t| then |t| - i else 0
  {
    if i < |t| {
      match m1(t, i)
      case Some(h) => SubAgree(t, i + h.len, m1, m2);
      case None => SubAgree(t, i + 1, m1, m2);
    }
  }

  lemma Assoc<T>(a: seq<T>, b: seq<T>, c: seq<T>)
    ensures a + (b + c) == a + b + c
  {
  }

  /** A position where nothing matches is copied. */
  lemma SubKeep(t: string, i: nat, m: (string, nat) -> Option<Hit>)
    requires i < |t| && m(t, i).None?
    ensures Sub(t, i, m) == [t[i]] + Sub(t, i + 1, m)
  {
  }

  /** A match is replaced and the scan resumes after it. */
  lemma SubHit(t: string, i: nat, m: (string, nat) -> Option<Hit>)
    requires i < |t| && m(t, i).Some?
    ensures Sub(t, i, m) == m(t, i).value.rep + Sub(t, i + m(t, i).value.len, m)
  {
  }

  /** A match of known replacement ending at e: the scan resumes at e. */
  lemma SubHitAt(t: string, i: nat, m: (string, nat) -> Option<Hit>, rep: string, e: nat)
    requires i < |t| && i < e && m(t, i) == Some(Hit(rep, e - i))
    ensures Sub(t, i, m) == rep + Sub(t, e, m)
  {
    SubHit(t, i, m);
  }

  /** Where nothing matches any more, the rest is copied. */
  lemma SubNone(t: string, i: nat, m: (string, nat) -> Option<Hit>)
    requires i <= |t|
    requires forall p :: i <= p < |t| ==> m(t, p).None?
    ensures Sub(t, i, m) == t[i..]
  {
    SubSkip(t, i, |t|, m);
  }

  /** One match with nothing matching before it and nothing after it. */
  lemma SubOne(t: string, p: nat, m: (string, nat) -> Option<Hit>)
    requires p < |t| && m(t, p).Some? && p + m(t, p).value.len <= |t|
    requires forall q :: 0 <= q < p ==> m(t, q).None?
    requires forall q :: p + m(t, p).value.len <= q < |t| ==> m(t, q).None?
    ensures SubAll(t, m) == t[..p] + m(t, p).value.rep + t[p + m(t, p).value.len..]
  {
    var e := p + m(t, p).value.len;
    SubSkip(t, 0, p, m);
    SubNone(t, e, m);
    assert t[0..p] == t[..p];
  }
}

=== FILE: readings.dfy ===
/** Two readings of code in which a defect was found: the code as it is
    written, and the behaviour its comments, names or neighbouring code
    evidently intend.  A model with a known defect takes the reading as a
    parameter, so that both are stated and compared. */
module Readings {
  datatype Reading = AsWritten | Intended
}

=== FILE: replace_loop.dfy ===
/** `for tok, val in table.items(): text = text.replace(tok, val)`, the
    literal token loop of utils/queue_manager.py, utils/queue_helpers.py and
    gui/naming_scheme_helpers.py, and what it does to a text whose only `%`s
    surround one word. */
module ReplaceLoop {
  import opened PyStr
  import opened PyDict

  /** `for tok, val in repl.items(): pattern = pattern.replace(tok, val)` */
  function ReplaceEach(t: string, d: Dict<string>): string
    decreases |d|
  {
    if d == [] then t else ReplaceEach(Replace(t, d[0].0, d[0].1), d[1..])
  }

  method ReplaceTokens(d: Dict<string>, t: string) returns (r: string)
    ensures r == ReplaceEach(t, d)
  {
    r := t;
    var i := 0;
    while i < |d|
      invariant 0 <= i <= |d|
      invariant ReplaceEach(r, d[i..]) == ReplaceEach(t, d)
    {
      assert d[i..][1..] == d[i + 1..];
      r := Replace(r, d[i].0, d[i].1);
      i := i + 1;
    }
  }

  /** Every key is a word between two `%`s. */
  predicate DelimitedKeys(d: Dict<string>) {
    forall i :: 0 <= i < |d| ==> |d[i].0| >= 2 && d[i].0[0] == '%' && d[i].0[|d[i].0| - 1] == '%'
                                 && '%' !in d[i].0[1..|d[i].0| - 1]
  }

  predicate ValuesNoPercent(d: Dict<string>) {
    forall i :: 0 <= i < |d| ==> '%' !in d[i].1
  }

  lemma DelimitedTail(d: Dict<string>)
    requires d != [] && DelimitedKeys(d) && ValuesNoPercent(d)
    ensures DelimitedKeys(d[1..]) && ValuesNoPercent(d[1..])
  {
    forall i | 0 <= i < |d[1..]| ensures d[1..][i] == d[i + 1] { }
  }

  /** Text without `%` contains no key, so the loop leaves it alone. */
  lemma {:induction false} ReplaceEachNoPercent(t: string, d: Dict<string>)
    requires '%' !in t && DelimitedKeys(d)
    ensures ReplaceEach(t, d) == t
    decreases |d|
  {
    if d != [] {
      NotContainsChar(t, d[0].0, '%');
      ReplaceAbsent(t, d[0].0, d[0].1);
      assert DelimitedKeys(d[1..]) by {
        forall i | 0 <= i < |d[1..]| ensures d[1..][i] == d[i + 1] { }
      }
      ReplaceEachNoPercent(t, d[1..]);
    }
  }

  lemma InnerWord(k: string, w: string)
    ensures k == "%" + w + "%" ==> k[1..|k| - 1] == w
  {
  }

  /** A delimited key is `%` around its inner word. */
  lemma KeyShape(k: string)
    requires |k| >= 2 && k[0] == '%' && k[|k| - 1] == '%'
    ensures k == "%" + k[1..|k| - 1] + "%"
  {
  }

  /** Where `%` occurs only around one word w, the loop puts the value of
      the first key `%w%` in its place, or changes nothing. */
  lemma {:induction false} ReplaceEachDelimited(pre: string, w: string, post: string, d: Dict<string>)
    requires '%' !in pre && '%' !in w && '%' !in post && DelimitedKeys(d) && ValuesNoPercent(d)
    ensures ReplaceEach(pre + "%" + w + "%" + post, d) ==
      match Get(d, "%" + w + "%")
      case Some(v) => pre + v + post
      case None => pre + "%" + w + "%" + post
    decreases |d|
  {
    var t := pre + "%" + w + "%" + post;
    if d != [] {
      var (k, v) := d[0];
      var x := k[1..|k| - 1];
      assert '%' !in x;
      KeyShape(k);
      assert t == pre + ['%'] + w + ['%'] + post;
      ReplaceDelimited(pre, w, post, '%', x, v);
      DelimitedTail(d);
      if x == w {
        assert k == "%" + w + "%";
        assert '%' !in pre + v + post;
        ReplaceEachNoPercent(pre + v + post, d[1..]);
      } else {
        InnerWord(k, w);
        ReplaceEachDelimited(pre, w, post, d[1..]);
      }
    }
  }

  lemma InnerNoPercent(k: string)
    requires |k| >= 2 && forall c :: 1 <= c < |k| - 1 ==> k[c] != '%'
    ensures '%' !in k[1..|k| - 1]
  {
    var x := k[1..|k| - 1];
    forall c | 0 <= c < |x| ensures x[c] != '%' {
      assert x[c] == k[c + 1];
    }
  }
}

=== FILE: template_manager.dfy ===
/** Photoshop-template choice of utils/template_manager.py: the template
    tree is scanned into a map from first-level folder to its sorted `.psd`
    names, and a poster's template is chosen by an explicit name, at random,
    or by the artist's normalised name with a generic fallback. The
    directory walk, the file-existence test and the random choice are
    parameters. */
module TemplateManager {
  import opened Wrappers
  import opened PyStr
  import opened PyDict

  // ---------------------------------------------------------------- _normalize

  /** `_normalize`: the lower-cased string with every non-alphanumeric
      character dropped. */
  function Normalize(s: string): (r: string)
    ensures |r| <= |s|
    ensures forall i | 0 <= i < |r| :: IsAlnum(r[i]) && !IsUpper(r[i])
  {
    if s == [] then []
    else
      var c := LowerChar(s[0]);
      var rest := Normalize(s[1..]);
      if IsAlnum(c) then [c] + rest else rest
  }

  /** A string already in normal form is its own normal form. */
  lemma {:induction false} NormalizeFixed(t: string)
    requires forall i | 0 <= i < |t| :: IsAlnum(t[i]) && !IsUpper(t[i])
    ensures Normalize(t) == t
  {
    if t != [] {
      NormalizeFixed(t[1..]);
      assert t == [t[0]] + t[1..];
    }
  }

  lemma NormalizeIdempotent(s: string)
    ensures Normalize(Normalize(s)) == Normalize(s)
  {
    NormalizeFixed(Normalize(s));
  }

  /** Case does not matter to the normal form. */
  lemma {:induction false} NormalizeIgnoresCase(s: string)
    ensures Normalize(Upper(s)) == Normalize(s)
  {
    if s != [] {
      assert Upper(s)[1..] == Upper(s[1..]);
      NormalizeIgnoresCase(s[1..]);
    }
  }

  // ---------------------------------------------------------------- sorted

  /** Python's `<=` on strings holds between any earlier and later name. */
  predicate SortedNames(s: seq<string>) {
    forall i, j | 0 <= i < j < |s| :: !LexLess(s[j], s[i])
  }

  /** `x` put before the first name not below it. */
  function Insert(x: string, s: seq<string>): (r: seq<string>)
    requires SortedNames(s)
    ensures SortedNames(r) && multiset(r) == multiset(s) + multiset{x}
  {
    if s == [] then [x]
    else if !LexLess(s[0], x) then
      SortedFront(x, s);
      [x] + s
    else
      assert s == [s[0]] + s[1..];
      var rest := Insert(x, s[1..]);
      SortedAfter(s, x, rest);
      [s[0]] + rest
  }

  /** A name not above the first of a sorted list may go before it. */
  lemma SortedFront(x: string, s: seq<string>)
    requires SortedNames(s) && s != [] && !LexLess(s[0], x)
    ensures SortedNames([x] + s)
  {
    forall j | 0 <= j < |s| ensures !LexLess(s[j], x) {
      if j > 0 && LexLess(s[j], x) {
        LexLessTotal(s[0], s[j]);
        if LexLess(s[0], s[j]) {
          LexLessTransitive(s[0], s[j], x);
        }
      }
    }
    var r := [x] + s;
    forall i, j | 0 <= i < j < |r| ensures !LexLess(r[j], r[i]) {
      assert r[j] == s[j - 1];
      if i > 0 {
        assert r[i] == s[i - 1];
      }
    }
  }

  /** The head of a sorted list stays first when a larger name is inserted
      into its tail. */
  lemma SortedAfter(s: seq<string>, x: string, rest: seq<string>)
    requires SortedNames(s) && s != [] && LexLess(s[0], x)
    requires SortedNames(rest) && multiset(rest) == multiset(s[1..]) + multiset{x}
    ensures SortedNames([s[0]] + rest)
  {
    forall j | 0 <= j < |rest| ensures !LexLess(rest[j], s[0]) {
      var y := rest[j];
      assert y in multiset(rest);
      if y == x {
        LexLessAsymmetric(s[0], x);
      } else {
        assert y in multiset(s[1..]);
        var k :| 0 <= k < |s[1..]| && s[1..][k] == y;
        assert s[k + 1] == y;
      }
    }
    var r := [s[0]] + rest;
    forall i, j | 0 <= i < j < |r| ensures !LexLess(r[j], r[i]) {
      assert r[j] == rest[j - 1];
      if i > 0 {
        assert r[i] == rest[i - 1];
      }
    }
  }

  /** `sorted(names)`: the same names in ascending order. */
  function SortNames(s: seq<string>): (r: seq<string>)
    ensures SortedNames(r) && multiset(r) == multiset(s)
  {
    if s == [] then []
    else
      assert s == [s[0]] + s[1..];
      Insert(s[0], SortNames(s[1..]))
  }

  // ---------------------------------------------------------------- scan_templates

  /** One step of `os.walk`: a directory, as its path relative to the
      templates root, and the names of the files in it. */
  datatype WalkEntry = WalkEntry(rel: string, files: seq<string>)

  /** `f.lower().endswith(".psd")` */
  predicate IsPsd(f: string) {
    EndsWith(Lower(f), ".psd")
  }

  /** The `.psd` names, in listing order. */
  function PsdFiles(files: seq<string>): (r: seq<string>)
    ensures forall x :: x in r <==> x in files && IsPsd(x)
  {
    if files == [] then []
    else
      assert files == [files[0]] + files[1..];
      var rest := PsdFiles(files[1..]);
      if IsPsd(files[0]) then [files[0]] + rest else rest
  }

  /** A first-level folder: not the root itself, and one path part. */
  predicate FirstLevel(rel: string) {
    rel != "." && |Split(rel, "/")| == 1
  }

  /** The map after one directory of the walk. */
  function Step(tpl: Dict<seq<string>>, e: WalkEntry): Dict<seq<string>> {
    if !FirstLevel(e.rel) then tpl
    else
      var psds := SortNames(PsdFiles(e.files));
      if psds != [] then Put(tpl, e.rel, psds) else tpl
  }

  /** The map after the directories of `walk`, in order. */
  function Scan(walk: seq<WalkEntry>): Dict<seq<string>> {
    if walk == [] then [] else Step(Scan(walk[..|walk| - 1]), walk[|walk| - 1])
  }

  /** `scan_templates` over the directories of the walk. */
  method ScanTemplates(walk: seq<WalkEntry>) returns (tpl: Dict<seq<string>>)
    ensures tpl == Scan(walk)
  {
    tpl := [];
    var i := 0;
    while i < |walk|
      invariant 0 <= i <= |walk|
      invariant tpl == Scan(walk[..i])
    {
      var e := walk[i];
      assert walk[..i + 1][..i] == walk[..i];
      if e.rel != "." && |Split(e.rel, "/")| == 1 {
        var psds := SortNames(PsdFiles(e.files));
        if psds != [] {
          tpl := Put(tpl, e.rel, psds);
        }
      }
      i := i + 1;
    }
    assert walk[..i] == walk;
  }

  /** Splitting on `/` gives one part exactly when there is no `/`. */
  lemma {:induction false} SplitSlash(s: string)
    ensures '/' !in s ==> Split(s, "/") == [s]
    ensures '/' in s ==> |Split(s, "/")| >= 2
    decreases |s|
  {
    if |s| >= 1 {
      if s[..1] == "/" {
        assert s[0] == '/';
      } else {
        assert s[0] != '/';
        SplitSlash(s[1..]);
        if '/' in s {
          assert '/' in s[1..];
        } else {
          assert s == [s[0]] + s[1..];
        }
      }
    }
  }

  lemma FirstLevelNoSlash(rel: string)
    ensures FirstLevel(rel) <==> rel != "." && '/' !in rel
  {
    SplitSlash(rel);
  }

  /** Every key is a first-level folder of the walk, mapped to the sorted
      `.psd` names of that folder, never to an empty list. */
  lemma {:induction false} ScanEntries(walk: seq<WalkEntry>)
    ensures forall k, v | Get(Scan(walk), k) == Some(v) ::
      FirstLevel(k) && '/' !in k && v != [] &&
      exists j | 0 <= j < |walk| :: walk[j].rel == k && v == SortNames(PsdFiles(walk[j].files))
    decreases |walk|
  {
    if walk != [] {
      var init := walk[..|walk| - 1];
      var e := walk[|walk| - 1];
      ScanEntries(init);
      forall k, v | Get(Scan(walk), k) == Some(v)
        ensures FirstLevel(k) && '/' !in k && v != [] &&
          exists j | 0 <= j < |walk| :: walk[j].rel == k && v == SortNames(PsdFiles(walk[j].files))
      {
        FirstLevelNoSlash(k);
        if FirstLevel(e.rel) && SortNames(PsdFiles(e.files)) != [] && k == e.rel {
          assert v == SortNames(PsdFiles(e.files));
        } else {
          assert Get(Scan(init), k) == Some(v);
          var j :| 0 <= j < |init| && init[j].rel == k && v == SortNames(PsdFiles(init[j].files));
          assert walk[j] == init[j];
        }
      }
    }
  }

  /** A first-level folder holding a `.psd` is in the map with its sorted
      `.psd` names, when the walk lists it only once after that. */
  lemma {:induction false} ScanFinds(walk: seq<WalkEntry>, j: nat)
    requires j < |walk| && FirstLevel(walk[j].rel) && PsdFiles(walk[j].files) != []
    requires forall j2 | j < j2 < |walk| :: walk[j2].rel != walk[j].rel
    ensures Get(Scan(walk), walk[j].rel) == Some(SortNames(PsdFiles(walk[j].files)))
    decreases |walk|
  {
    var init := walk[..|walk| - 1];
    var psds := SortNames(PsdFiles(walk[j].files));
    assert psds != [] by {
      var x := PsdFiles(walk[j].files)[0];
      assert x in multiset(psds);
    }
    if j < |walk| - 1 {
      assert init[j] == walk[j];
      ScanFinds(init, j);
    }
  }

  /** No list in the map is empty. */
  lemma {:induction false} ScanNonEmpty(walk: seq<WalkEntry>)
    ensures NonEmptyLists(Scan(walk))
    decreases |walk|
  {
    if walk != [] {
      var init := walk[..|walk| - 1];
      var e := walk[|walk| - 1];
      ScanNonEmpty(init);
      var psds := SortNames(PsdFiles(e.files));
      if FirstLevel(e.rel) && psds != [] {
        PutEntries(Scan(init), e.rel, psds);
        var r := Scan(walk);
        forall i | 0 <= i < |r| ensures r[i].1 != [] {
          assert r[i] in r;
        }
      }
    }
  }

  predicate NonEmptyLists(tpl: Dict<seq<string>>) {
    forall i | 0 <= i < |tpl| :: tpl[i].1 != []
  }

  // ---------------------------------------------------------------- choose_psd

  const DefaultSel := "Default"
  const RandomSel := "Random"
  const BackSel := "\U{2190} Back"
  const GenericKey := "Generic"

  /** Indexing the first PSD of a matched folder whose list is empty. */
  datatype PsdError = IndexError

  /** `os.path.join(a, b)` on POSIX paths. */
  function PathJoin(a: string, b: string): (r: string)
    ensures StartsWith(b, "/") ==> r == b
    ensures !StartsWith(b, "/") ==> EndsWith(r, b)
  {
    if StartsWith(b, "/") then b
    else if a == [] || EndsWith(a, "/") then a + b
    else a + "/" + b
  }

  function Join3(root: string, folder: string, name: string): string {
    PathJoin(PathJoin(root, folder), name)
  }

  /** `x or y` for an optional string. */
  function OrElse(x: Option<string>, y: string): (r: string)
    ensures r == y || (x.Some? && r == x.value != [])
  {
    if x.Some? && x.value != [] then x.value else y
  }

  /** `k in tpl_map and tpl_map[k]` */
  predicate HasPsds(tpl: Dict<seq<string>>, k: string) {
    Get(tpl, k).Some? && Get(tpl, k).value != []
  }

  /** `random.choice(names)`, the random draw being the index `pick`. */
  function Pick(names: seq<string>, pick: nat): (r: string)
    requires names != []
    ensures r in names
  {
    names[pick % |names|]
  }

  /** The first folder from `i` on, other than the generic one, whose
      normalised name is `norm`. */
  function MatchFolder(tpl: Dict<seq<string>>, generic: string, norm: string, i: nat): (r: Option<nat>)
    requires i <= |tpl|
    ensures r.Some? ==> i <= r.value < |tpl| && tpl[r.value].0 != generic && Normalize(tpl[r.value].0) == norm
    ensures forall k | i <= k < |tpl| && (r.None? || k < r.value) :: tpl[k].0 == generic || Normalize(tpl[k].0) != norm
    decreases |tpl| - i
  {
    if i == |tpl| then None
    else if tpl[i].0 != generic && Normalize(tpl[i].0) == norm then Some(i)
    else MatchFolder(tpl, generic, norm, i + 1)
  }

  /** `choose_psd`: the absolute path of the template to use, `None` to
      skip, or the error raised on an empty matched folder.  Only the
      default choice can raise, and only on an empty folder list; an
      explicit name is only used when that file exists. */
  function ChoosePsd(artist: string, sel: string, folder: Option<string>, tpl: Dict<seq<string>>,
                     root: string, generic: string, isFile: string -> bool, pick: nat): (r: Result<Option<string>, PsdError>)
    ensures r.Failure? ==> (sel == DefaultSel || sel == BackSel) && exists j :: 0 <= j < |tpl| && tpl[j].1 == []
    ensures r.Success? && r.value.Some? && !Special(sel) ==> isFile(r.value.value)
  {
    if sel != DefaultSel && sel != RandomSel && sel != BackSel then
      var candidate := Join3(root, OrElse(folder, artist), sel);
      Success(if isFile(candidate) then Some(candidate) else None)
    else if sel == RandomSel then
      var f := OrElse(folder, generic);
      if HasPsds(tpl, f) then Success(Some(Join3(root, f, Pick(Get(tpl, f).value, pick))))
      else if HasPsds(tpl, generic) then Success(Some(Join3(root, generic, Pick(Get(tpl, generic).value, pick))))
      else Success(None)
    else
      match MatchFolder(tpl, generic, Normalize(artist), 0)
      case Some(j) =>
        if tpl[j].1 == [] then Failure(IndexError)
        else Success(Some(Join3(root, tpl[j].0, tpl[j].1[0])))
      case None =>
        if HasPsds(tpl, generic) then Success(Some(Join3(root, generic, Get(tpl, generic).value[0])))
        else Success(None)
  }

  predicate Special(sel: string) {
    sel == DefaultSel || sel == RandomSel || sel == BackSel
  }

  /** An explicit name is used in the chosen (or the artist's) folder if,
      and only if, that file exists. */
  lemma ChooseExplicit(artist: string, sel: string, folder: Option<string>, tpl: Dict<seq<string>>,
                       root: string, generic: string, isFile: string -> bool, pick: nat)
    requires !Special(sel)
    ensures var candidate := Join3(root, OrElse(folder, artist), sel);
      ChoosePsd(artist, sel, folder, tpl, root, generic, isFile, pick) ==
        (if isFile(candidate) then Success(Some(candidate)) else Success(None))
  {
  }

  /** A random choice never fails; it is a template of the chosen folder
      when that folder has any, else of the generic one, and there is none
      only when both are empty. */
  lemma ChooseRandom(artist: string, folder: Option<string>, tpl: Dict<seq<string>>,
                     root: string, generic: string, isFile: string -> bool, pick: nat)
    ensures var r := ChoosePsd(artist, RandomSel, folder, tpl, root, generic, isFile, pick);
      var f := OrElse(folder, generic);
      r.Success? &&
      (r.value.None? <==> !HasPsds(tpl, f) && !HasPsds(tpl, generic)) &&
      var g := if HasPsds(tpl, f) then f else generic;
      (r.value.Some? ==> exists x | x in Get(tpl, g).value :: r.value.value == Join3(root, g, x))
  {
    var r := ChoosePsd(artist, RandomSel, folder, tpl, root, generic, isFile, pick);
    var f := OrElse(folder, generic);
    if HasPsds(tpl, f) {
      var x := Pick(Get(tpl, f).value, pick);
      assert r.value.value == Join3(root, f, x);
    } else if HasPsds(tpl, generic) {
      var x := Pick(Get(tpl, generic).value, pick);
      assert r.value.value == Join3(root, generic, x);
    }
  }

  /** By default the first PSD of the first non-generic folder whose
      normalised name is the artist's is used, else the generic folder's
      first PSD, else none. */
  lemma ChooseDefault(artist: string, sel: string, folder: Option<string>, tpl: Dict<seq<string>>,
                      root: string, generic: string, isFile: string -> bool, pick: nat, j: nat)
    requires sel == DefaultSel || sel == BackSel
    requires j < |tpl| && tpl[j].0 != generic && Normalize(tpl[j].0) == Normalize(artist) && tpl[j].1 != []
    requires forall k | 0 <= k < j :: tpl[k].0 == generic || Normalize(tpl[k].0) != Normalize(artist)
    ensures ChoosePsd(artist, sel, folder, tpl, root, generic, isFile, pick) == Success(Some(Join3(root, tpl[j].0, tpl[j].1[0])))
  {
    var m := MatchFolder(tpl, generic, Normalize(artist), 0);
    assert m == Some(j);
  }

  lemma ChooseGeneric(artist: string, sel: string, folder: Option<string>, tpl: Dict<seq<string>>,
                      root: string, generic: string, isFile: string -> bool, pick: nat)
    requires sel == DefaultSel || sel == BackSel
    requires forall k | 0 <= k < |tpl| :: tpl[k].0 == generic || Normalize(tpl[k].0) != Normalize(artist)
    ensures ChoosePsd(artist, sel, folder, tpl, root, generic, isFile, pick) ==
      if HasPsds(tpl, generic) then Success(Some(Join3(root, generic, Get(tpl, generic).value[0]))) else Success(None)
  {
    var m := MatchFolder(tpl, generic, Normalize(artist), 0);
    assert m.None?;
  }

  /** The only error is an empty matched folder, so a map without empty
      lists never makes the choice raise. */
  lemma NonEmptyNeverFails(tpl: Dict<seq<string>>, artist: string, sel: string, folder: Option<string>,
                           root: string, generic: string, isFile: string -> bool, pick: nat)
    requires NonEmptyLists(tpl)
    ensures ChoosePsd(artist, sel, folder, tpl, root, generic, isFile, pick).Success?
  {
    if Special(sel) && sel != RandomSel {
      var m := MatchFolder(tpl, generic, Normalize(artist), 0);
      if m.Some? {
        assert tpl[m.value].1 != [];
      }
    }
  }

  /** On a map made by `scan_templates` the choice never raises. */
  lemma ScannedNeverFails(walk: seq<WalkEntry>, artist: string, sel: string, folder: Option<string>,
                          root: string, generic: string, isFile: string -> bool, pick: nat)
    ensures ChoosePsd(artist, sel, folder, Scan(walk), root, generic, isFile, pick).Success?
  {
    var tpl := Scan(walk);
    ScanNonEmpty(walk);
    NonEmptyNeverFails(tpl, artist, sel, folder, root, generic, isFile, pick);
  }

  /** A matched folder with an empty list raises. */
  lemma EmptyMatchFails(artist: string, tpl: Dict<seq<string>>, root: string, isFile: string -> bool, pick: nat)
    requires artist != GenericKey && tpl == [(artist, [])]
    ensures ChoosePsd(artist, DefaultSel, None, tpl, root, GenericKey, isFile, pick) == Failure(IndexError)
  {
    assert MatchFolder(tpl, GenericKey, Normalize(artist), 0) == Some(0);
  }
}

=== FILE: text_utils.dfy ===
/** Filename inference of utils/text_utils.py: venue, city, format and
    additional-tag matching and `infer_from_name`, which fills the six
    metadata fields of a file from its name and the name dictionaries. */
module TextUtils {
  import opened Wrappers
  import opened PyStr
  import opened PyDict
  import opened Dates
  import opened Helpers

  /** The memo table `_normalize_cache` behind `normalize_name`. */
  class NormalizeCache {
    var entries: map<string, string>

    /** Every cached key maps to its normalised form. */
    ghost predicate Valid()
      reads this
    {
      forall s | s in entries :: entries[s] == NormalizeKey(s)
    }

    constructor ()
      ensures Valid() && entries == map[]
    {
      entries := map[];
    }

    /** `normalize_name`: answers from the table when it can, else computes
        and records the answer; either way the table maps `s` to the result. */
    method NormalizeName(s: string) returns (r: string)
      requires Valid()
      modifies this
      ensures Valid()
      ensures r == NormalizeKey(s)
      ensures entries == old(entries)[s := r]
    {
      if s in entries {
        r := entries[s];
        return;
      }
      r := KeepWordChars(Lower(s));
      entries := entries[s := r];
    }
  }

  // ---------------------------------------------------------------- match_venue

  /** `match_venue`: the exact normalised name, then the first key contained
      in it, then the four- to one-piece window search. */
  function MatchVenue(base: string, venues: Dict<string>): (r: string)
    ensures r == "" || IsValue(venues, r)
  {
    var norm := NormalizeKey(base);
    if HasKey(venues, norm) then GetOrIsValue(venues, norm, ""); GetOr(venues, norm, "")
    else match FirstKeyIn(venues, norm, 0)
      case Some(k) => assert IsValue(venues, venues[k].1); venues[k].1
      case None => WindowMatchIsValue(SepSplit(base), venues, false); WindowMatch(SepSplit(base), venues, false).GetOr("")
  }

  /** An exact key decides the venue, and otherwise the first key (in
      dictionary order) found inside the name. */
  lemma MatchVenueResult(base: string, venues: Dict<string>)
    ensures HasKey(venues, NormalizeKey(base)) ==> MatchVenue(base, venues) == Get(venues, NormalizeKey(base)).value
    ensures !HasKey(venues, NormalizeKey(base)) && FirstKeyIn(venues, NormalizeKey(base), 0).Some?
      ==> MatchVenue(base, venues) == venues[FirstKeyIn(venues, NormalizeKey(base), 0).value].1
  {
  }

  // ---------------------------------------------------------------- match_city

  /** `match_city`: the exact normalised name, then the city and state that
      `CITY_STATE_RE` finds, looked up as "City, ST" and then as "City ST". */
  function MatchCity(base: string, cities: Dict<string>): (r: string)
    ensures r == "" || IsValue(cities, r)
  {
    var norm := NormalizeKey(base);
    if HasKey(cities, norm) then GetOrIsValue(cities, norm, ""); GetOr(cities, norm, "")
    else match CityStateSearch(base)
      case None => ""
      case Some((c, st)) =>
        var city := Title(c);
        var abbr := Upper(st);
        var withComma := NormalizeKey(city + ", " + abbr);
        if HasKey(cities, withComma) then GetOrIsValue(cities, withComma, ""); GetOr(cities, withComma, "")
        else
          var noComma := NormalizeKey(city + " " + abbr);
          GetOrIsValue(cities, noComma, "");
          if HasKey(cities, noComma) then GetOr(cities, noComma, "") else ""
  }

  /** Both fallback spellings normalise to the city's key followed by the
      state's key, so the "City ST" lookup can never succeed after the
      "City, ST" lookup failed. */
  lemma CityFallbackKeys(c: string, st: string)
    ensures NormalizeKey(Title(c) + ", " + Upper(st)) == NormalizeKey(c) + NormalizeKey(st)
    ensures NormalizeKey(Title(c) + " " + Upper(st)) == NormalizeKey(c) + NormalizeKey(st)
  {
    NormalizeConcat(Title(c) + ", ", Upper(st));
    NormalizeConcat(Title(c), ", ");
    NormalizeConcat(Title(c) + " ", Upper(st));
    NormalizeConcat(Title(c), " ");
    NormalizeOfTitle(c);
    LowerOfUpper(st);
    assert Lower(", ") == ", ";
    assert Lower(" ") == " ";
    assert KeepWordChars(", ") == [];
    assert KeepWordChars(" ") == [];
  }

  /** When there is no exact match, `match_city` is decided by the regex
      city's and state's normalised keys alone. */
  lemma MatchCityFallback(base: string, cities: Dict<string>)
    requires !HasKey(cities, NormalizeKey(base)) && CityStateSearch(base).Some?
    ensures var (c, st) := CityStateSearch(base).value;
      MatchCity(base, cities) == GetOr(cities, NormalizeKey(c) + NormalizeKey(st), "")
  {
    var (c, st) := CityStateSearch(base).value;
    CityFallbackKeys(c, st);
  }

  // ---------------------------------------------------------------- match_format_and_additional

  /** `FORMAT_LIST` and `ADDITIONAL_LIST` in constants.py. */
  const FormatList: seq<string> := ["2160p", "1080p", "720p", "480p", "LQ", "4k", "WEBRIP", "STREAMRIP", "BLU-RAY", "DVD"]
  const AdditionalList: seq<string> := ["FLAC16", "FLAC24", "SBD", "AUD", "MTX", "DAT", "FM"]

  const FormatSet: set<string> := set f | f in FormatList :: Lower(f)

  /** `^\d{3,4}p$` */
  predicate IsResToken(t: string) {
    (|t| == 4 || |t| == 5) && AllDigits(t[..|t| - 1]) && t[|t| - 1] == 'p'
  }

  predicate IsFormatToken(t: string) {
    IsResToken(Lower(t)) || Lower(t) in FormatSet
  }

  /** The first additional tag (in `ADDITIONAL_LIST` order, from index k) whose
      lower-case form occurs in the lower-cased token. */
  function AdditionalFrom(t: string, k: nat): (r: Option<string>)
    requires k <= |AdditionalList|
    ensures r.Some? ==> exists j :: k <= j < |AdditionalList| && AdditionalList[j] == r.value
    decreases |AdditionalList| - k
  {
    if k == |AdditionalList| then None
    else if Contains(Lower(t), Lower(AdditionalList[k])) then Some(AdditionalList[k])
    else AdditionalFrom(t, k + 1)
  }

  /** The distinct format tokens in order of first appearance. */
  function FormatsOf(tokens: seq<string>): seq<string> {
    if tokens == [] then []
    else
      var acc := FormatsOf(tokens[..|tokens| - 1]);
      var t := tokens[|tokens| - 1];
      if IsFormatToken(t) && t !in acc then acc + [t] else acc
  }

  /** The distinct additional tags contributed by non-format tokens, in order. */
  function AdditionalsOf(tokens: seq<string>): seq<string> {
    if tokens == [] then []
    else
      var acc := AdditionalsOf(tokens[..|tokens| - 1]);
      var t := tokens[|tokens| - 1];
      if IsFormatToken(t) then acc
      else match AdditionalFrom(t, 0)
        case Some(a) => if a !in acc then acc + [a] else acc
        case None => acc
  }

  /** `match_format_and_additional` */
  method MatchFormatAndAdditional(tokens: seq<string>) returns (formats: string, additional: string)
    ensures formats == Join(", ", FormatsOf(tokens))
    ensures additional == Join(", ", AdditionalsOf(tokens))
  {
    var formatCandidates: seq<string> := [];
    var additionalCandidates: seq<string> := [];
    var i := 0;
    while i < |tokens|
      invariant 0 <= i <= |tokens|
      invariant formatCandidates == FormatsOf(tokens[..i])
      invariant additionalCandidates == AdditionalsOf(tokens[..i])
    {
      var t := tokens[i];
      Extend(tokens, i);
      var tLower := Lower(t);
      if IsResToken(tLower) || tLower in FormatSet {
        if t !in formatCandidates {
          formatCandidates := formatCandidates + [t];
        }
      } else {
        var tag := FirstAdditional(t);
        if tag.Some? && tag.value !in additionalCandidates {
          additionalCandidates := additionalCandidates + [tag.value];
        }
      }
      i := i + 1;
    }
    assert tokens[..i] == tokens;
    formats := Join(", ", formatCandidates);
    additional := Join(", ", additionalCandidates);
  }

  /** The inner scan of `match_format_and_additional`: the first tag of
      `AdditionalList` found in `t`, case-insensitively. */
  method FirstAdditional(t: string) returns (tag: Option<string>)
    ensures tag == AdditionalFrom(t, 0)
  {
    var tLower := Lower(t);
    var k := 0;
    while k < |AdditionalList|
      invariant 0 <= k <= |AdditionalList|
      invariant AdditionalFrom(t, k) == AdditionalFrom(t, 0)
    {
      if Contains(tLower, Lower(AdditionalList[k])) {
        return Some(AdditionalList[k]);
      }
      k := k + 1;
    }
    return None;
  }

  /** One more token: the lists grow as `FormatsOf` and `AdditionalsOf` say. */
  lemma Extend(tokens: seq<string>, i: nat)
    requires i < |tokens|
    ensures var t := tokens[i]; var f := FormatsOf(tokens[..i]); var a := AdditionalsOf(tokens[..i]);
      FormatsOf(tokens[..i + 1]) == (if IsFormatToken(t) && t !in f then f + [t] else f) &&
      AdditionalsOf(tokens[..i + 1]) ==
        (if IsFormatToken(t) then a
         else match AdditionalFrom(t, 0)
           case Some(x) => if x !in a then a + [x] else a
           case None => a)
  {
    assert tokens[..i + 1][..i] == tokens[..i];
  }

  predicate NoDuplicates(xs: seq<string>) {
    forall i, j :: 0 <= i < j < |xs| ==> xs[i] != xs[j]
  }

  /** The format list holds each format token of the name exactly once and nothing else. */
  lemma {:induction false} FormatsOfSpec(tokens: seq<string>)
    ensures var f := FormatsOf(tokens);
      NoDuplicates(f)
      && (forall x :: x in f ==> x in tokens && IsFormatToken(x))
      && (forall t :: t in tokens && IsFormatToken(t) ==> t in f)
  {
    if tokens != [] {
      var init := tokens[..|tokens| - 1];
      FormatsOfSpec(init);
      assert tokens == init + [tokens[|tokens| - 1]];
    }
  }

  /** Each additional tag is listed once. */
  lemma {:induction false} AdditionalsOfDistinct(tokens: seq<string>)
    ensures NoDuplicates(AdditionalsOf(tokens))
  {
    if tokens != [] {
      AdditionalsOfDistinct(tokens[..|tokens| - 1]);
    }
  }

  /** Every listed tag is in `ADDITIONAL_LIST` and is the tag of some
      non-format token of the name. */
  lemma {:induction false} AdditionalsOfSound(tokens: seq<string>)
    ensures forall x :: x in AdditionalsOf(tokens) ==>
      x in AdditionalList && exists t :: t in tokens && !IsFormatToken(t) && AdditionalFrom(t, 0) == Some(x)
  {
    if tokens != [] {
      var init := tokens[..|tokens| - 1];
      var t := tokens[|tokens| - 1];
      AdditionalsOfSound(init);
      forall x | x in AdditionalsOf(tokens)
        ensures x in AdditionalList && exists u :: u in tokens && !IsFormatToken(u) && AdditionalFrom(u, 0) == Some(x)
      {
        if x in AdditionalsOf(init) {
          var u :| u in init && !IsFormatToken(u) && AdditionalFrom(u, 0) == Some(x);
          assert u in tokens;
        } else {
          assert t in tokens && AdditionalFrom(t, 0) == Some(x);
        }
      }
    }
  }

  /** The tag of every non-format token that has one is listed; format
      tokens are never searched for tags. */
  lemma {:induction false} AdditionalsOfComplete(tokens: seq<string>)
    ensures forall t :: t in tokens && !IsFormatToken(t) && AdditionalFrom(t, 0).Some?
                   ==> AdditionalFrom(t, 0).value in AdditionalsOf(tokens)
  {
    if tokens != [] {
      var init := tokens[..|tokens| - 1];
      AdditionalsOfComplete(init);
      assert tokens == init + [tokens[|tokens| - 1]];
    }
  }

  // ---------------------------------------------------------------- infer_from_name

  /** The dictionary `infer_from_name` returns: always exactly these six keys. */
  datatype Info = Info(artist: string, date: string, venue: string, city: string, format: string, additional: string)

  /** The tokens the artist fallback must not reuse: those of the recognised
      date, venue and city, and the format and additional entries. */
  function Excluded(date: string, venue: string, city: string, formatStr: string, additionalStr: string): set<string> {
    TokenSet(date) + TokenSet(venue) + TokenSet(city) + TagSet(formatStr) + TagSet(additionalStr)
  }

  /** `split_tokens(s)` as a set. */
  function TokenSet(s: string): (r: set<string>)
    ensures s == "" ==> r == {}
  {
    assert SplitTokens("") == [];
    set t | t in SplitTokens(s)
  }

  /** The lower-cased non-empty entries of a ", "-joined list. */
  function TagSet(s: string): set<string> {
    set t | t in Split(s, ", ") && t != "" :: Lower(t)
  }

  /** `[t for t in tokens if t.lower() not in exclude_tokens]` */
  function KeepNotExcluded(tokens: seq<string>, ex: set<string>): (r: seq<string>)
    ensures forall t :: t in r ==> t in tokens && Lower(t) !in ex
  {
    if tokens == [] then []
    else (if Lower(tokens[0]) !in ex then [tokens[0]] else []) + KeepNotExcluded(tokens[1..], ex)
  }

  /** The value of the first key contained in `norm`, or "". */
  function FirstContainedValue(d: Dict<string>, norm: string): string {
    match FirstKeyIn(d, norm, 0)
    case Some(i) => d[i].1
    case None => ""
  }

  /** The loop `for k, v in d.items(): if k in norm: found = v; break`. */
  method FirstContained(d: Dict<string>, norm: string) returns (found: string)
    ensures found == FirstContainedValue(d, norm)
  {
    found := "";
    var i := 0;
    while i < |d|
      invariant 0 <= i <= |d|
      invariant FirstKeyIn(d, norm, 0) == FirstKeyIn(d, norm, i)
    {
      if Contains(norm, d[i].0) {
        found := d[i].1;
        return;
      }
      i := i + 1;
    }
  }

  /** The artist step: the artist dictionary, then (when that gave nothing and
      aliases exist) the alias dictionary, then the leftover tokens title-cased. */
  function ArtistOf(norm: string, artistsNorm: Dict<string>, aliasesNorm: Dict<string>, tokens: seq<string>, ex: set<string>): string {
    var fromArtists := FirstContainedValue(artistsNorm, norm);
    var found := if fromArtists == "" && aliasesNorm != [] then FirstContainedValue(aliasesNorm, norm) else fromArtists;
    if found == "" then Title(Join(" ", KeepNotExcluded(tokens, ex))) else found
  }

  /** A well-formed `split_tokens` piece: non-empty, lower case, made of word
      characters and apostrophes. */
  predicate IsToken(t: string) {
    t != [] && forall i :: 0 <= i < |t| ==> IsTokenChar(t[i]) && !IsUpper(t[i])
  }

  /** Joining tokens with single spaces and splitting again gives them back. */
  lemma {:induction false} TokensOfJoin(ks: seq<string>)
    requires forall k :: 0 <= k < |ks| ==> IsToken(ks[k])
    ensures Tokens(Join(" ", ks)) == ks
    ensures forall i :: 0 <= i < |Join(" ", ks)| ==> !IsUpper(Join(" ", ks)[i])
  {
    if ks != [] {
      var s := Join(" ", ks);
      var n := RunLen(s, 0, IsTokenChar);
      if |ks| == 1 {
        assert s == ks[0] && IsTokenChar(s[0]);
        assert n == |ks[0]|;
        assert s[..n] == ks[0] && s[n..] == [];
      } else {
        var rest := Join(" ", ks[1..]);
        TokensOfJoin(ks[1..]);
        assert s == ks[0] + " " + rest;
        assert s[|ks[0]|] == ' ';
        assert n == |ks[0]|;
        assert s[n..] == " " + rest;
        assert s[n..][1..] == rest;
        assert s[..n] == ks[0];
      }
    }
  }

  /** When neither dictionary names the artist, the fallback artist name splits
      back into exactly the name's tokens that are not excluded, so it holds
      none of the date, venue, city, format or additional tokens. */
  lemma ArtistFallbackTokens(norm: string, artistsNorm: Dict<string>, aliasesNorm: Dict<string>, tokens: seq<string>, ex: set<string>)
    requires forall k :: 0 <= k < |tokens| ==> IsToken(tokens[k])
    requires FirstContainedValue(artistsNorm, norm) == ""
    requires aliasesNorm == [] || FirstContainedValue(aliasesNorm, norm) == ""
    ensures var a := ArtistOf(norm, artistsNorm, aliasesNorm, tokens, ex);
      SplitTokens(a) == KeepNotExcluded(tokens, ex)
      && forall t :: t in SplitTokens(a) ==> t in tokens && t !in ex
  {
    var ks := KeepNotExcluded(tokens, ex);
    assert forall k :: 0 <= k < |ks| ==> IsToken(ks[k]) by {
      forall k | 0 <= k < |ks| ensures IsToken(ks[k]) {
        assert ks[k] in tokens;
      }
    }
    var j := Join(" ", ks);
    TokensOfJoin(ks);
    LowerOfTitle(j);
    assert Lower(j) == j;
    forall t | t in ks ensures Lower(t) == t {
      var k :| 0 <= k < |ks| && ks[k] == t;
      assert IsToken(ks[k]);
    }
  }

  /** The tokens of a file name are well formed. */
  lemma SplitTokensAreTokens(txt: string)
    ensures forall k :: 0 <= k < |SplitTokens(txt)| ==> IsToken(SplitTokens(txt)[k])
  {
    SplitTokensSpec(txt);
  }

  /** What `infer_from_name` computes, field by field. */
  function InferSpec(fname: string, artists: Dict<string>, cities: Dict<string>, venues: Dict<string>, aliases: Dict<string>): Info {
    var base := SplitExtRoot(fname);
    var date := ExtractDate(base);
    var venue := MatchVenue(base, venues);
    var city := MatchCity(base, cities);
    var tokens := SplitTokens(base);
    var formatStr := Join(", ", FormatsOf(tokens));
    var additionalStr := Join(", ", AdditionalsOf(tokens));
    var ex := Excluded(date, venue, city, formatStr, additionalStr);
    var artist := ArtistOf(NormalizeKey(base), NormalizeKeys(artists), NormalizeKeys(aliases), tokens, ex);
    Info(artist, date, venue, city, formatStr, additionalStr)
  }

  /** The tokens `infer_from_name` keeps out of a guessed artist name: those
      of each field found, and the format and additional tags. */
  method ExcludedTokens(date: string, venue: string, city: string, formatStr: string, additionalStr: string)
    returns (exclude: set<string>)
    ensures exclude == Excluded(date, venue, city, formatStr, additionalStr)
  {
    exclude := {};
    if date != "" {
      exclude := exclude + TokenSet(date);
    }
    assert exclude == TokenSet(date);
    if venue != "" {
      exclude := exclude + TokenSet(venue);
    }
    assert exclude == TokenSet(date) + TokenSet(venue);
    if city != "" {
      exclude := exclude + TokenSet(city);
    }
    assert exclude == TokenSet(date) + TokenSet(venue) + TokenSet(city);
    exclude := exclude + TagSet(formatStr);
    exclude := exclude + TagSet(additionalStr);
  }

  /** The artist: a known artist, then a known alias, contained in the
      normalised name, else the title-cased tokens left over. */
  method FindArtist(baseNorm: string, artistsNorm: Dict<string>, aliasesNorm: Dict<string>, tokens: seq<string>, exclude: set<string>)
    returns (found: string)
    ensures found == ArtistOf(baseNorm, artistsNorm, aliasesNorm, tokens, exclude)
  {
    found := FirstContained(artistsNorm, baseNorm);
    if found == "" && aliasesNorm != [] {
      found := FirstContained(aliasesNorm, baseNorm);
    }
    if found == "" {
      var candidates := KeepNotExcluded(tokens, exclude);
      found := Title(Join(" ", candidates));
    }
  }

  /** `infer_from_name`: fills the info dictionary step by step.  An absent
      alias dictionary is passed as the empty one. */
  method InferFromName(fname: string, artists: Dict<string>, cities: Dict<string>, venues: Dict<string>, aliases: Dict<string>)
    returns (info: Info)
    ensures info == InferSpec(fname, artists, cities, venues, aliases)
  {
    var artistsNorm := NormalizeKeys(artists);
    var aliasesNorm := NormalizeKeys(aliases);
    var base := SplitExtRoot(fname);
    var baseNorm := NormalizeKey(base);
    info := Info("", "", "", "", "", "");

    var date := ExtractDate(base);
    info := info.(date := date);
    var venue := MatchVenue(base, venues);
    if venue != "" {
      info := info.(venue := venue);
    }
    var city := MatchCity(base, cities);
    if city != "" {
      info := info.(city := city);
    }
    var tokens := SplitTokens(base);
    var formatStr, additionalStr := MatchFormatAndAdditional(tokens);
    info := info.(format := formatStr);
    info := info.(additional := additionalStr);

    var exclude := ExcludedTokens(date, venue, city, formatStr, additionalStr);
    var found := FindArtist(baseNorm, artistsNorm, aliasesNorm, tokens, exclude);
    info := info.(artist := found);
    assert info == Info(found, date, venue, city, formatStr, additionalStr);
  }
}

=== FILE: tidy.dfy ===
/** The separator clean-up shared by utils/queue_manager.py and
    utils/queue_helpers.py: `re.sub(r"(?:\s*-\s*){2,}", " - ", s)` collapses a
    run of two or more dashes, with any whitespace around them, into one
    " - "; `re.sub(r"\s{2,}", " ", s)` collapses whitespace runs. */
module Tidy {
  import opened Wrappers
  import opened PyStr
  import opened ReSub

  // ---------------------------------------------------------------- dashes

  /** From p, past optional whitespace, comes a dash: the group `\s*-`
      matches at p. */
  predicate DashNext(t: string, p: nat) {
    p <= |t| && p + RunLen(t, p, IsSpace) < |t| && t[p + RunLen(t, p, IsSpace)] == '-'
  }

  /** The end of one group `\s*-\s*` at p, whitespace taken greedily. */
  function GroupEnd(t: string, p: nat): (e: nat)
    requires DashNext(t, p)
    ensures p < e <= |t|
  {
    var k := p + RunLen(t, p, IsSpace);
    k + 1 + RunLen(t, k + 1, IsSpace)
  }

  /** How many groups `(?:\s*-\s*)` follow one another from p, and where they end. */
  datatype Groups = Groups(count: nat, end: nat)

  function DashGroups(t: string, p: nat): (r: Groups)
    requires p <= |t|
    ensures p <= r.end <= |t|
    ensures r.count == 0 <==> !DashNext(t, p)
    ensures r.count == 0 ==> r.end == p
    ensures r.count > 0 ==> r.end > p
    ensures !DashNext(t, r.end)
    decreases |t| - p
  {
    if DashNext(t, p) then
      var g := DashGroups(t, GroupEnd(t, p));
      Groups(g.count + 1, g.end)
    else Groups(0, p)
  }

  /** The groups end before a character that is no whitespace: the last
      `\s*` is greedy. */
  lemma {:induction false} GroupsEndNoSpace(t: string, p: nat)
    requires p <= |t| && DashGroups(t, p).count > 0
    ensures DashGroups(t, p).end < |t| ==> !IsSpace(t[DashGroups(t, p).end])
    decreases |t| - p
  {
    var g := GroupEnd(t, p);
    if DashGroups(t, g).count > 0 {
      GroupsEndNoSpace(t, g);
    } else {
      var k := p + RunLen(t, p, IsSpace);
      assert g == k + 1 + RunLen(t, k + 1, IsSpace);
    }
  }

  /** `(?:\s*-\s*){2,}` at i, replaced by " - ". */
  function DashesAt(t: string, i: nat): Option<Hit> {
    if i < |t| then
      var g := DashGroups(t, i);
      if g.count >= 2 then Some(Hit(" - ", g.end - i)) else None
    else None
  }

  function CollapseDashes(t: string): string {
    SubAll(t, DashesAt)
  }

  // ---------------------------------------------------------------- whitespace

  /** `\s{2,}` at i, replaced by one space. */
  function SpacesAt(t: string, i: nat): Option<Hit> {
    if i < |t| && RunLen(t, i, IsSpace) >= 2 then Some(Hit(" ", RunLen(t, i, IsSpace))) else None
  }

  function CollapseSpaces(t: string): string {
    SubAll(t, SpacesAt)
  }

  // ---------------------------------------------------------------- shapes

  /** No dash is followed, across whitespace only, by another dash. */
  predicate NoLoose(s: string) {
    forall p :: 0 <= p < |s| && s[p] == '-' ==> !DashNext(s, p + 1)
  }

  /** No two whitespace characters stand next to each other. */
  predicate NoDoubleSpace(s: string) {
    forall p :: 0 <= p < |s| - 1 && IsSpace(s[p]) ==> !IsSpace(s[p + 1])
  }

  // ---------------------------------------------------------------- small facts

  /** A character put in front shifts every whitespace run by one. */
  lemma RunLenCons(c: char, s: string, p: nat)
    requires p <= |s|
    ensures RunLen([c] + s, p + 1, IsSpace) == RunLen(s, p, IsSpace)
  {
    var n := RunLen(s, p, IsSpace);
    var t := [c] + s;
    forall k | p + 1 <= k < p + 1 + n ensures IsSpace(t[k]) {
      assert t[k] == s[k - 1];
    }
    if p + n < |s| {
      assert t[p + 1 + n] == s[p + n];
    }
    RunLenExact(t, p + 1, IsSpace, n);
  }

  lemma DashNextCons(c: char, s: string, p: nat)
    requires p <= |s|
    ensures DashNext([c] + s, p + 1) == DashNext(s, p)
  {
    RunLenCons(c, s, p);
    var n := RunLen(s, p, IsSpace);
    if p + n < |s| {
      assert ([c] + s)[p + 1 + n] == s[p + n];
    }
  }

  /** Whether a dash comes next at the front of `[c] + s`. */
  lemma DashNextHead(c: char, s: string)
    ensures DashNext([c] + s, 0) == (c == '-' || (IsSpace(c) && DashNext(s, 0)))
  {
    var t := [c] + s;
    if IsSpace(c) {
      assert RunLen(t, 0, IsSpace) == 1 + RunLen(t, 1, IsSpace);
      DashNextCons(c, s, 0);
    } else {
      assert RunLen(t, 0, IsSpace) == 0;
    }
  }

  /** Skipping whitespace does not change whether a dash comes next. */
  lemma DashNextSkip(t: string, i: nat, j: nat)
    requires i <= j <= |t| && forall k :: i <= k < j ==> IsSpace(t[k])
    ensures DashNext(t, i) == DashNext(t, j)
  {
    var n := RunLen(t, j, IsSpace);
    RunLenExact(t, i, IsSpace, j - i + n);
  }

  lemma NoLooseCons(c: char, s: string)
    requires NoLoose(s) && (c == '-' ==> !DashNext(s, 0))
    ensures NoLoose([c] + s)
  {
    var t := [c] + s;
    forall p | 0 <= p < |t| && t[p] == '-' ensures !DashNext(t, p + 1) {
      DashNextCons(c, s, p);
      if p > 0 {
        assert t[p] == s[p - 1];
      }
    }
  }

  lemma NoDoubleSpaceCons(c: char, s: string)
    requires NoDoubleSpace(s) && (IsSpace(c) && s != [] ==> !IsSpace(s[0]))
    ensures NoDoubleSpace([c] + s)
  {
    var t := [c] + s;
    forall p | 0 <= p < |t| - 1 && IsSpace(t[p]) ensures !IsSpace(t[p + 1]) {
      assert t[p + 1] == s[p];
      if p > 0 {
        assert t[p] == s[p - 1];
      }
    }
  }

  /** " - " in front of text that starts with no dash leaves no loose dash. */
  lemma SeparatorCons(rest: string)
    requires NoLoose(rest) && !DashNext(rest, 0)
    ensures NoLoose(" - " + rest)
  {
    var a := [' '] + rest;
    NoLooseCons(' ', rest);
    DashNextHead(' ', rest);
    NoLooseCons('-', a);
    NoLooseCons(' ', ['-'] + a);
    assert " - " + rest == [' '] + (['-'] + a);
  }

  // ---------------------------------------------------------------- the two passes

  /** After the dash pass from i no dash is followed, across whitespace, by
      another; and the result starts with a dash (after whitespace) only
      where the input did. */
  predicate DashesOk(t: string, i: nat)
    requires i <= |t|
  {
    var r := Sub(t, i, DashesAt);
    NoLoose(r) && (DashNext(r, 0) ==> DashNext(t, i))
  }

  lemma {:induction false} DashesClean(t: string, i: nat)
    requires i <= |t|
    ensures DashesOk(t, i)
    decreases |t| - i
  {
    if i < |t| {
      if DashesAt(t, i).Some? {
        DashesClean(t, DashGroups(t, i).end);
        DashesHitStep(t, i);
      } else {
        DashesClean(t, i + 1);
        DashesKeepStep(t, i);
      }
    }
  }

  lemma DashesHitStep(t: string, i: nat)
    requires i < |t| && DashesAt(t, i).Some? && DashesOk(t, DashGroups(t, i).end)
    ensures DashesOk(t, i)
  {
    var rest := Sub(t, DashGroups(t, i).end, DashesAt);
    SubHit(t, i, DashesAt);
    SeparatorCons(rest);
  }

  lemma DashesKeepStep(t: string, i: nat)
    requires i < |t| && DashesAt(t, i).None? && DashesOk(t, i + 1)
    ensures DashesOk(t, i)
  {
    var rest := Sub(t, i + 1, DashesAt);
    SubKeep(t, i, DashesAt);
    if t[i] == '-' {
      LoneDash(t, i);
    }
    NoLooseCons(t[i], rest);
    DashNextHead(t[i], rest);
    if IsSpace(t[i]) {
      DashNextSkip(t, i, i + 1);
    }
  }

  /** A dash the dash pass keeps has no second dash after it. */
  lemma LoneDash(t: string, i: nat)
    requires i < |t| && t[i] == '-' && DashesAt(t, i).None?
    ensures DashNext(t, i) && !DashNext(t, i + 1)
  {
    assert RunLen(t, i, IsSpace) == 0;
    var e1 := GroupEnd(t, i);
    assert DashGroups(t, e1).count == 0;
    DashNextSkip(t, i + 1, e1);
  }

  /** After the whitespace pass from i: no two whitespace characters in a
      row, and the result starts with whitespace only where the input did. */
  predicate SpacesSingle(t: string, i: nat)
    requires i <= |t|
  {
    var r := Sub(t, i, SpacesAt);
    NoDoubleSpace(r) && (r != [] ==> i < |t| && (IsSpace(r[0]) ==> IsSpace(t[i])))
  }

  lemma {:induction false} SpacesCollapsed(t: string, i: nat)
    requires i <= |t|
    ensures SpacesSingle(t, i)
    decreases |t| - i, 1
  {
    if i < |t| {
      if SpacesAt(t, i).Some? {
        SpacesCollapsedHit(t, i);
      } else {
        SpacesCollapsedKeep(t, i);
      }
    }
  }

  lemma {:induction false} SpacesCollapsedHit(t: string, i: nat)
    requires i < |t| && SpacesAt(t, i).Some?
    ensures SpacesSingle(t, i)
    decreases |t| - i, 0
  {
    var e := i + RunLen(t, i, IsSpace);
    SpacesCollapsed(t, e);
    SpacesSub(t, i);
    NoDoubleSpaceCons(' ', Sub(t, e, SpacesAt));
  }

  lemma {:induction false} SpacesCollapsedKeep(t: string, i: nat)
    requires i < |t| && SpacesAt(t, i).None?
    ensures SpacesSingle(t, i)
    decreases |t| - i, 0
  {
    SpacesCollapsed(t, i + 1);
    var rest := Sub(t, i + 1, SpacesAt);
    SubKeep(t, i, SpacesAt);
    if IsSpace(t[i]) && rest != [] && IsSpace(rest[0]) {
      assert false;
    }
    NoDoubleSpaceCons(t[i], rest);
  }

  /** A whitespace run is replaced by one space. */
  lemma SpacesSub(t: string, i: nat)
    requires i < |t| && SpacesAt(t, i).Some?
    ensures Sub(t, i, SpacesAt) == [' '] + Sub(t, i + RunLen(t, i, IsSpace), SpacesAt)
  {
    SubHitAt(t, i, SpacesAt, " ", i + RunLen(t, i, IsSpace));
  }

  /** After the whitespace pass from i over text with no loose dash: still
      no loose dash, and the result starts with a dash only where the input
      did. */
  predicate SpacesOk(t: string, i: nat)
    requires i <= |t|
  {
    var r := Sub(t, i, SpacesAt);
    NoLoose(r) && (DashNext(r, 0) ==> DashNext(t, i))
  }

  lemma {:induction false} SpacesClean(t: string, i: nat)
    requires i <= |t| && NoLoose(t)
    ensures SpacesOk(t, i)
    decreases |t| - i
  {
    if i < |t| {
      if SpacesAt(t, i).Some? {
        SpacesClean(t, i + RunLen(t, i, IsSpace));
        SpacesHitStep(t, i);
      } else {
        SpacesClean(t, i + 1);
        SpacesKeepStep(t, i);
      }
    }
  }

  lemma SpacesHitStep(t: string, i: nat)
    requires i < |t| && SpacesAt(t, i).Some? && SpacesOk(t, i + RunLen(t, i, IsSpace))
    ensures SpacesOk(t, i)
  {
    var e := i + RunLen(t, i, IsSpace);
    SpacesSub(t, i);
    DashNextSkip(t, i, e);
    SpaceConsOk(Sub(t, e, SpacesAt), DashNext(t, i));
  }

  /** A space in front of text with no loose dash leaves none, and the
      result starts with a dash only where the text does. */
  lemma SpaceConsOk(rest: string, next: bool)
    requires NoLoose(rest) && (DashNext(rest, 0) ==> next)
    ensures NoLoose([' '] + rest) && (DashNext([' '] + rest, 0) ==> next)
  {
    NoLooseCons(' ', rest);
    DashNextHead(' ', rest);
  }

  lemma SpacesKeepStep(t: string, i: nat)
    requires i < |t| && NoLoose(t) && SpacesAt(t, i).None? && SpacesOk(t, i + 1)
    ensures SpacesOk(t, i)
  {
    var rest := Sub(t, i + 1, SpacesAt);
    SubKeep(t, i, SpacesAt);
    NoLooseCons(t[i], rest);
    DashNextHead(t[i], rest);
    if IsSpace(t[i]) {
      DashNextSkip(t, i, i + 1);
    } else if t[i] == '-' {
      assert RunLen(t, i, IsSpace) == 0;
    }
  }

  /** The dash pass keeps whitespace single: a match never starts right
      after whitespace (it would have started there), and it ends before a
      character that is no whitespace (its last `\s*` is greedy).  The
      result starts with whitespace only where the input does, or where a
      match replaced by " - " starts. */
  predicate DashesSpaced(t: string, i: nat)
    requires i <= |t|
  {
    var r := Sub(t, i, DashesAt);
    NoDoubleSpace(r) && (r != [] && IsSpace(r[0]) ==> i < |t| && (IsSpace(t[i]) || DashesAt(t, i).Some?))
  }

  /** Two whitespace characters in a row at p. */
  predicate DoubleAt(s: string, p: nat) {
    p + 1 < |s| && IsSpace(s[p]) && IsSpace(s[p + 1])
  }

  /** `NoDoubleSpace`, stated one position at a time. */
  predicate SingleSpaced(s: string) {
    forall p :: 0 <= p < |s| ==> !DoubleAt(s, p)
  }

  lemma SingleSpacedOf(s: string)
    requires NoDoubleSpace(s)
    ensures SingleSpaced(s)
  {
    forall p | 0 <= p < |s| ensures !DoubleAt(s, p) {
      if p + 1 < |s| && IsSpace(s[p]) {
        assert !IsSpace(s[p + 1]);
      }
    }
  }

  lemma {:induction false} DashesKeepSingle(t: string, i: nat)
    requires i <= |t| && SingleSpaced(t)
    ensures DashesSpaced(t, i)
    decreases |t| - i, 1
  {
    if i < |t| {
      if DashesAt(t, i).Some? {
        DashesSingleHit(t, i);
      } else {
        DashesSingleKeep(t, i);
      }
    }
  }

  lemma {:induction false} DashesSingleHit(t: string, i: nat)
    requires i < |t| && SingleSpaced(t) && DashesAt(t, i).Some?
    ensures DashesSpaced(t, i)
    decreases |t| - i, 0
  {
    DashesKeepSingle(t, DashGroups(t, i).end);
    DashesSpacedHit(t, i);
  }

  lemma {:induction false} DashesSingleKeep(t: string, i: nat)
    requires i < |t| && SingleSpaced(t) && DashesAt(t, i).None?
    ensures DashesSpaced(t, i)
    decreases |t| - i, 0
  {
    DashesKeepSingle(t, i + 1);
    assert !DoubleAt(t, i);
    DashesSpacedKeep(t, i);
  }

  /** A run of dash groups is replaced by " - " and the scan goes on after it. */
  lemma DashesSub(t: string, i: nat)
    requires i < |t| && DashesAt(t, i).Some?
    ensures Sub(t, i, DashesAt) == " - " + Sub(t, DashGroups(t, i).end, DashesAt)
  {
    var e := DashGroups(t, i).end;
    SubHitAt(t, i, DashesAt, " - ", e);
  }

  lemma DashesSpacedHit(t: string, i: nat)
    requires i < |t| && DashesAt(t, i).Some? && DashesSpaced(t, DashGroups(t, i).end)
    ensures DashesSpaced(t, i)
  {
    var e := DashGroups(t, i).end;
    var rest := Sub(t, e, DashesAt);
    DashesSub(t, i);
    assert DashesAt(t, e).None? by {
      if e < |t| {
        assert !DashNext(t, e);
        assert DashGroups(t, e).count == 0;
      }
    }
    GroupsEndNoSpace(t, i);
    assert rest != [] ==> !IsSpace(rest[0]);
    SeparatorSpaced(rest);
  }

  /** " - " in front of text that starts with no whitespace keeps whitespace
      single. */
  lemma SeparatorSpaced(rest: string)
    requires NoDoubleSpace(rest) && (rest != [] ==> !IsSpace(rest[0]))
    ensures NoDoubleSpace(" - " + rest)
  {
    var a := [' '] + rest;
    NoDoubleSpaceCons(' ', rest);
    NoDoubleSpaceCons('-', a);
    NoDoubleSpaceCons(' ', ['-'] + a);
    assert " - " + rest == [' '] + (['-'] + a);
  }

  lemma DashesSpacedKeep(t: string, i: nat)
    requires i < |t| && DashesAt(t, i).None? && DashesSpaced(t, i + 1)
    requires IsSpace(t[i]) && i + 1 < |t| ==> !IsSpace(t[i + 1])
    ensures DashesSpaced(t, i)
  {
    var rest := Sub(t, i + 1, DashesAt);
    SubKeep(t, i, DashesAt);
    if IsSpace(t[i]) && rest != [] && IsSpace(rest[0]) {
      SpaceSameGroups(t, i);
      assert false;
    }
    NoDoubleSpaceCons(t[i], rest);
  }

  /** Whitespace in front does not change how many dash groups follow. */
  lemma SpaceSameGroups(t: string, i: nat)
    requires i < |t| && IsSpace(t[i])
    ensures DashGroups(t, i).count == DashGroups(t, i + 1).count
  {
    DashNextSkip(t, i, i + 1);
    if DashNext(t, i) {
      assert RunLen(t, i, IsSpace) == 1 + RunLen(t, i + 1, IsSpace);
      assert GroupEnd(t, i) == GroupEnd(t, i + 1);
    }
  }

  // ---------------------------------------------------------------- slices

  lemma NoLooseSlice(s: string, a: nat, b: nat)
    requires a <= b <= |s| && NoLoose(s)
    ensures NoLoose(s[a..b])
  {
    var u := s[a..b];
    forall p | 0 <= p < |u| && u[p] == '-' ensures !DashNext(u, p + 1) {
      assert u[p] == s[a + p];
      DashNextSliced(s, a, b, p + 1);
    }
  }

  /** A dash that comes next in a slice comes next in the whole string. */
  lemma DashNextSliced(s: string, a: nat, b: nat, q: nat)
    requires a <= b <= |s| && q <= b - a
    ensures DashNext(s[a..b], q) ==> DashNext(s, a + q)
  {
    var u := s[a..b];
    var n := RunLen(u, q, IsSpace);
    if q + n < |u| && u[q + n] == '-' {
      forall k | a + q <= k < a + q + n ensures IsSpace(s[k]) {
        assert s[k] == u[k - a];
      }
      assert s[a + q + n] == u[q + n];
      RunLenExact(s, a + q, IsSpace, n);
    }
  }

  lemma NoDoubleSpaceSlice(s: string, a: nat, b: nat)
    requires a <= b <= |s| && NoDoubleSpace(s)
    ensures NoDoubleSpace(s[a..b])
  {
    var u := s[a..b];
    forall p | 0 <= p < |u| - 1 && IsSpace(u[p]) ensures !IsSpace(u[p + 1]) {
      assert u[p] == s[a + p] && u[p + 1] == s[a + p + 1];
    }
  }

  /** `str.strip(chars)` keeps a slice. */
  lemma StripSetSlice(s: string, cs: set<char>) returns (a: nat, b: nat)
    ensures a <= b <= |s| && StripSet(s, cs) == s[a..b]
  {
    a := LeadLen(s, cs);
    var l := s[a..];
    b := a + |l| - TrailLen(l, cs);
    assert l[..|l| - TrailLen(l, cs)] == s[a..b];
  }

  // ---------------------------------------------------------------- results

  /** Two dashes with nothing or only whitespace between them are "loose":
      text without loose dashes holds neither "--" nor "- -". */
  lemma NoLooseNoDoubleDash(s: string)
    requires NoLoose(s)
    ensures !Contains(s, "--") && !Contains(s, "- -")
  {
    forall i | 0 <= i <= |s| - 2 ensures !OccursAt(s, "--", i) {
      assert OccursAt(s, "--", i) ==> s[i] == '-' && s[i + 1] == '-' by {
        if OccursAt(s, "--", i) {
          assert s[i..i + 2][0] == s[i] && s[i..i + 2][1] == s[i + 1];
        }
      }
      DashHere(s, i + 1);
    }
    forall i | 0 <= i <= |s| - 3 ensures !OccursAt(s, "- -", i) {
      assert OccursAt(s, "- -", i) ==> s[i] == '-' && s[i + 1] == ' ' && s[i + 2] == '-' by {
        if OccursAt(s, "- -", i) {
          assert s[i..i + 3][0] == s[i] && s[i..i + 3][1] == s[i + 1] && s[i..i + 3][2] == s[i + 2];
        }
      }
      DashHere(s, i + 2);
      if IsSpace(s[i + 1]) {
        DashNextSkip(s, i + 1, i + 2);
      }
    }
  }

  /** A dash is itself the dash that comes next. */
  lemma DashHere(s: string, p: nat)
    requires p < |s|
    ensures s[p] == '-' ==> DashNext(s, p)
  {
    if s[p] == '-' {
      assert RunLen(s, p, IsSpace) == 0;
    }
  }

  /** The dash pass, then the whitespace pass, then `strip()`: no two dashes
      with only whitespace between them, no two whitespace characters in a
      row, no whitespace at either end. */
  lemma CollapseThenStrip(x: string)
    ensures var r := Strip(CollapseSpaces(CollapseDashes(x)));
      NoLoose(r) && NoDoubleSpace(r) && (r != [] ==> !IsSpace(r[0]) && !IsSpace(r[|r| - 1]))
  {
    var d := CollapseDashes(x);
    DashesClean(x, 0);
    assert NoLoose(d);
    var c := CollapseSpaces(d);
    SpacesClean(d, 0);
    SpacesCollapsed(d, 0);
    var a, b := StripSetSlice(c, Whitespace);
    NoLooseSlice(c, a, b);
    NoDoubleSpaceSlice(c, a, b);
    StripSetEnds(c, Whitespace);
  }
}

=== FILE: vidforge.dfy ===
/** The legacy filename inference of VidForge.py: its own `extract_venue`
    (the dash slot title-cases unknown names), its own `CITY_STATE_RE` (lazy
    city, verbose separator), `infer_from_name` and the name-list loader.
    `split_tokens`, `find_state`, `normalize_name` and `extract_date` there
    are the same as in utils/helpers.py and are used from Helpers and Dates. */
module VidForge {
  import opened Wrappers
  import opened PyStr
  import opened PyDict
  import opened Dates
  import opened Helpers
  import TextUtils

  // ---------------------------------------------------------------- find_state on reversed tokens

  function Reverse<T>(xs: seq<T>): (r: seq<T>)
    ensures |r| == |xs| && forall k :: 0 <= k < |xs| ==> r[k] == xs[|xs| - 1 - k]
  {
    seq(|xs|, k requires 0 <= k < |xs| => xs[|xs| - 1 - k])
  }

  /** `find_state(toks[::-1])` finds the last state token: its reversed index
      r points at `toks[|toks| - 1 - r]`, and no later token is a state. */
  lemma FindStateReversed(toks: seq<string>)
    ensures match FindState(Reverse(toks), 0)
      case Some((r, st)) =>
        var idx := |toks| - 1 - r;
        0 <= idx < |toks| && toks[idx] in StateSet && st == Upper(toks[idx])
        && forall j :: idx < j < |toks| ==> toks[j] !in StateSet
      case None => forall j :: 0 <= j < |toks| ==> toks[j] !in StateSet
  {
    var rev := Reverse(toks);
    match FindState(rev, 0)
    case Some((r, st)) =>
      forall j | |toks| - 1 - r < j < |toks| ensures toks[j] !in StateSet {
        assert rev[|toks| - 1 - j] == toks[j];
      }
    case None =>
      forall j | 0 <= j < |toks| ensures toks[j] !in StateSet {
        assert rev[|toks| - 1 - j] == toks[j];
      }
  }

  // ---------------------------------------------------------------- CITY_STATE_RE of VidForge.py

  /** `[A-Za-z.'-]`, the city class. */
  predicate IsCityChar(c: char) { IsAlpha(c) || c == '.' || c == '\'' || c == '-' }
  /** `[,\.\- ]`, the separator class. */
  predicate IsSepChar(c: char) { c == ',' || c == '.' || c == '-' || c == ' ' }
  /** Characters the separator part `\s*[,\.\- ]+\s*` can consume. */
  predicate IsRunChar(c: char) { IsSpace(c) || IsSepChar(c) }

  /** `w` splits as whitespace, a non-empty run of separator-class characters,
      then whitespace. */
  predicate SepSplitAt(w: string, i: nat, j: nat) {
    i < j <= |w|
    && (forall k :: 0 <= k < i ==> IsSpace(w[k]))
    && (forall k :: i <= k < j ==> IsSepChar(w[k]))
    && (forall k :: j <= k < |w| ==> IsSpace(w[k]))
  }

  /** `w` is matched in full by `\s*[,\.\- ]+\s*`. */
  predicate SepMatches(w: string) {
    exists i: nat, j: nat | i < j <= |w| :: SepSplitAt(w, i, j)
  }

  /** The pattern matches at s with a city group of length L.  The separator
      part can only consume run characters and the state must start with a
      letter, so the separator part ends where the maximal run does. */
  predicate StateAt(t: string, s: nat, L: nat) {
    1 <= L && s + L <= |t|
    && (forall k :: s <= k < s + L ==> IsCityChar(t[k]))
    && var q := s + L + RunLen(t, s + L, IsRunChar);
       SepMatches(t[s + L..q]) && q + 2 <= |t| && Upper(t[q..q + 2]) in StateAbbr
       && (q + 2 == |t| || !IsWord(t[q + 2]))
  }

  /** The end of the separator run after a city group of length L. */
  function StateStart(t: string, s: nat, L: nat): nat
    requires s + L <= |t|
  {
    s + L + RunLen(t, s + L, IsRunChar)
  }

  lemma CityTooLong(t: string, s: nat, m: nat)
    requires s <= |t| && m == RunLen(t, s, IsCityChar)
    ensures forall L2: nat :: m < L2 ==> !StateAt(t, s, L2)
  {
    forall L2: nat | m < L2
      ensures !StateAt(t, s, L2)
    {
      if s + L2 <= |t| {
        assert s <= s + m < s + L2 && !IsCityChar(t[s + m]);
      }
    }
  }

  /** The lazy city group `+?` grows one character at a time from length L up to m. */
  function CityLenFrom(t: string, s: nat, L: nat, m: nat): (r: Option<nat>)
    requires 1 <= L
    ensures r.Some? ==> L <= r.value <= m && StateAt(t, s, r.value)
    ensures r.Some? ==> forall L2: nat :: L <= L2 < r.value ==> !StateAt(t, s, L2)
    ensures r.None? ==> forall L2: nat :: L <= L2 <= m ==> !StateAt(t, s, L2)
    decreases m + 1 - L
  {
    if L > m then None
    else if StateAt(t, s, L) then Some(L)
    else CityLenFrom(t, s, L + 1, m)
  }

  /** Where a match starts and how long its city group is. */
  datatype Span = Span(start: nat, len: nat)

  /** `CITY_STATE_RE.search(t)` from s: the leftmost start, and there the shortest city. */
  function StateSearchFrom(t: string, s: nat): (r: Option<Span>)
    ensures r.Some? ==> s <= r.value.start && StateAt(t, r.value.start, r.value.len)
    ensures r.Some? ==> forall s2: nat, L2: nat :: s <= s2 < r.value.start ==> !StateAt(t, s2, L2)
    ensures r.Some? ==> forall L2: nat :: L2 < r.value.len ==> !StateAt(t, r.value.start, L2)
    ensures r.None? ==> forall s2: nat, L2: nat :: s <= s2 ==> !StateAt(t, s2, L2)
    decreases |t| + 1 - s
  {
    if s >= |t| then None
    else
      var m := RunLen(t, s, IsCityChar);
      CityTooLong(t, s, m);
      match CityLenFrom(t, s, 1, m)
      case Some(L) =>
        ShortestCityAt(t, s, m, L);
        Some(Span(s, L))
      case None =>
        var r := StateSearchFrom(t, s + 1);
        NoStateAt(t, s, m);
        if r.Some? then
          NoStateBefore(t, s, r.value.start);
          r
        else r
  }

  lemma NoStateBefore(t: string, s: nat, e: nat)
    requires forall L2: nat :: !StateAt(t, s, L2)
    requires forall s2: nat, L2: nat :: s + 1 <= s2 < e ==> !StateAt(t, s2, L2)
    ensures forall s2: nat, L2: nat :: s <= s2 < e ==> !StateAt(t, s2, L2)
  {
  }

  /** The length the lazy group stops at is the shortest that matches. */
  lemma ShortestCityAt(t: string, s: nat, m: nat, L: nat)
    requires CityLenFrom(t, s, 1, m) == Some(L)
    ensures StateAt(t, s, L) && forall L2: nat :: L2 < L ==> !StateAt(t, s, L2)
  {
    assert !StateAt(t, s, 0);
  }

  /** No city length fits at s when none up to the letter run does. */
  lemma NoStateAt(t: string, s: nat, m: nat)
    requires s <= |t| && m == RunLen(t, s, IsCityChar) && CityLenFrom(t, s, 1, m).None?
    ensures forall L2: nat :: !StateAt(t, s, L2)
  {
    CityTooLong(t, s, m);
  }

  /** `hit.group("st").upper()` of the search, if it matches. */
  function StateSearch(t: string): (r: Option<string>)
    ensures r.Some? ==> r.value in StateAbbr
  {
    match StateSearchFrom(t, 0)
    case None => None
    case Some(Span(s, L)) =>
      var q := StateStart(t, s, L);
      StateGroup(t, s, L);
      Some(Upper(t[q..q + 2]))
  }

  lemma StateGroup(t: string, s: nat, L: nat)
    requires StateAt(t, s, L)
    ensures var q := StateStart(t, s, L); q + 2 <= |t| && Upper(t[q..q + 2]) in StateAbbr
  {
  }

  // ---------------------------------------------------------------- extract_venue

  /** `chk(c)`: the venue stored under c's key, else c title-cased. */
  function Check(c: string, venues: Dict<string>): string {
    GetOr(venues, NormalizeKey(c), if c != "" then Title(c) else "")
  }

  /** `extract_venue` of VidForge.py: the third " - " slot (known or not),
      then the widest and earliest window whose key is present, then the
      first key contained in the normalised name. */
  function ExtractVenue(base: string, venues: Dict<string>): (r: string)
    ensures var parts := DashParts(base);
      r == "" || IsValue(venues, r) || (|parts| >= 3 && r == Title(parts[2]))
  {
    var parts := DashParts(base);
    var dash := if |parts| >= 3 then Check(parts[2], venues) else "";
    assert dash == "" || IsValue(venues, dash) || (|parts| >= 3 && dash == Title(parts[2])) by {
      if |parts| >= 3 {
        GetOrIsValue(venues, NormalizeKey(parts[2]), if parts[2] != "" then Title(parts[2]) else "");
      }
    }
    WindowMatchIsValue(SepSplit(base), venues, false);
    if dash != "" then dash
    else match WindowMatch(SepSplit(base), venues, false)
      case Some(v) => v
      case None =>
        match FirstKeyIn(venues, NormalizeKey(base), 0)
        case Some(k) => assert IsValue(venues, venues[k].1); venues[k].1
        case None => ""
  }

  /** A non-empty third dash slot that is no key is the venue, title-cased. */
  lemma ExtractVenueResult(base: string, venues: Dict<string>)
    ensures var parts := DashParts(base);
      |parts| >= 3 && parts[2] != "" && !HasKey(venues, NormalizeKey(parts[2]))
      ==> ExtractVenue(base, venues) == Title(parts[2])
  {
    var parts := DashParts(base);
    if |parts| >= 3 && parts[2] != "" {
      assert |Title(parts[2])| == |parts[2]|;
    }
  }

  // ---------------------------------------------------------------- infer_from_name

  /** `re.split(r"[._\-\s]", base)[0]`: the text before the first separator. */
  function FirstPiece(base: string): (r: string)
    ensures StartsWith(base, r) && forall i :: 0 <= i < |r| ==> !IsWindowSep(r[i])
    ensures |r| < |base| ==> IsWindowSep(base[|r|])
  {
    base[..RunLen(base, 0, c => !IsWindowSep(c))]
  }

  /** The artist: the value of the first artist key inside the normalised
      name, unless that is empty, else the first piece title-cased. */
  function ArtistOf(base: string, artists: Dict<string>): (r: string)
    ensures IsValue(artists, r) || r == Title(FirstPiece(base))
  {
    var fromDict := match FirstKeyIn(artists, NormalizeKey(base), 0)
      case Some(i) => assert IsValue(artists, artists[i].1); artists[i].1
      case None => "";
    if fromDict != "" then fromDict else Title(FirstPiece(base))
  }

  /** The artist is never empty when the name starts with anything but a separator. */
  lemma ArtistNonEmpty(base: string, artists: Dict<string>)
    requires base != [] && !IsWindowSep(base[0])
    ensures ArtistOf(base, artists) != ""
  {
    var n := RunLen(base, 0, c => !IsWindowSep(c));
    assert n >= 1;
    assert |Title(FirstPiece(base))| == n;
  }

  /** `\b4k\b` matched case-insensitively at i. */
  predicate FourKAt(t: string, i: nat) {
    i + 2 <= |t| && t[i] == '4' && (t[i + 1] == 'k' || t[i + 1] == 'K')
    && (i == 0 || !IsWord(t[i - 1])) && (i + 2 == |t| || !IsWord(t[i + 2]))
  }

  predicate HasFourK(t: string) {
    exists i: nat | i + 2 <= |t| :: FourKAt(t, i)
  }

  /** The format: "2160p" for a stand-alone "4k", else the first resolution. */
  function FormatOf(base: string): (r: string)
    ensures r == "" || exists k :: 0 <= k < |Resolutions| && r == Resolutions[k] + "p"
  {
    if HasFourK(base) then assert "2160p" == Resolutions[0] + "p"; "2160p" else
      var f := InferResolution(base);
      assert f != "" ==> exists k :: 0 <= k < |Resolutions| && f == Resolutions[k] + "p" by {
        if ResolutionFrom(base, 0).Some? {
          var d := ResolutionFrom(base, 0).value;
          var k :| 0 <= k < |Resolutions| && Resolutions[k] == d;
        }
      }
      f
  }

  /** The name with the third dash slot removed when it names the venue. */
  function Purified(base: string, venue: string): (r: string)
    ensures r == base || (|DashParts(base)| >= 3 && NormalizeKey(DashParts(base)[2]) == NormalizeKey(venue))
  {
    var parts := DashParts(base);
    if |parts| >= 3 && NormalizeKey(parts[2]) == NormalizeKey(venue) then Join(" - ", parts[..2] + parts[3..])
    else base
  }

  /** The city: a dictionary city whose key occurs in the purified name, with
      the regex state appended when it does not already end the name; else the
      token before the last state token, looked up or title-cased, plus that
      state.  An empty first key is falsy and sends the search to the token
      fallback. */
  function CityOf(purified: string, cities: Dict<string>): (r: string)
    ensures var key := FirstKeyIn(cities, NormalizeKey(purified), 0);
      (key.Some? && cities[key.value].0 != "") || r == "" || exists s :: s in StateSet && EndsWith(r, ", " + Upper(s))
  {
    var normPur := NormalizeKey(purified);
    var key := FirstKeyIn(cities, normPur, 0);
    if key.Some? && cities[key.value].0 != "" then
      var cname := RStrip(cities[key.value].1, {',', ' '});
      match StateSearch(purified)
      case Some(st) => if EndsWith(Upper(cname), st) then cname else cname + ", " + st
      case None => cname
    else
      var toks := SplitTokens(purified);
      match FindState(Reverse(toks), 0)
      case Some((idxR, st)) =>
        if idxR < |toks| - 1 then
          var idx := |toks| - 1 - idxR;
          var raw := if idx > 0 then toks[idx - 1] else "";
          if raw != "" then
            var c := GetOr(cities, raw, Title(raw));
            assert EndsWith(c + (", " + st), ", " + st) && Reverse(toks)[idxR] in StateSet;
            assert c + ", " + st == c + (", " + st);
            c + ", " + st
          else ""
        else ""
      case None => ""
  }

  lemma UpperOfUpper(s: string)
    ensures Upper(Upper(s)) == Upper(s)
  {
  }

  lemma UpperConcat(a: string, b: string)
    ensures Upper(a + b) == Upper(a) + Upper(b)
  {
  }

  /** When a dictionary city is used and the regex finds a state, the city's
      upper-case form ends with that state. */
  lemma CityEndsWithState(purified: string, cities: Dict<string>)
    requires var key := FirstKeyIn(cities, NormalizeKey(purified), 0);
      key.Some? && cities[key.value].0 != "" && StateSearch(purified).Some?
    ensures EndsWith(Upper(CityOf(purified, cities)), StateSearch(purified).value)
  {
    var key := FirstKeyIn(cities, NormalizeKey(purified), 0);
    var cname := RStrip(cities[key.value].1, {',', ' '});
    var st := StateSearch(purified).value;
    if !EndsWith(Upper(cname), st) {
      var r := cname + ", " + st;
      UpperConcat(cname + ", ", st);
      assert st == Upper(st) by {
        var Span(s, L) := StateSearchFrom(purified, 0).value;
        var q := StateStart(purified, s, L);
        UpperOfUpper(purified[q..q + 2]);
      }
      assert Upper(r)[|Upper(r)| - |st|..] == st;
    }
  }

  /** At most one state token has no state token after it. */
  lemma LastStateUnique(toks: seq<string>, idx: nat)
    requires idx < |toks| && toks[idx] in StateSet && forall j :: idx < j < |toks| ==> toks[j] !in StateSet
    ensures forall i | 0 <= i < |toks| && toks[i] in StateSet ::
      (forall j :: i < j < |toks| ==> toks[j] !in StateSet) ==> i == idx
  {
  }

  /** Without a usable dictionary key, the city is built from the token just
      before the last state token of the purified name. */
  lemma CityFromLastState(purified: string, cities: Dict<string>)
    requires var key := FirstKeyIn(cities, NormalizeKey(purified), 0);
      key.None? || cities[key.value].0 == ""
    ensures var toks := SplitTokens(purified);
      CityOf(purified, cities) != "" <==>
        exists idx :: 0 < idx < |toks| && toks[idx] in StateSet
    ensures var toks := SplitTokens(purified);
      forall idx :: 0 < idx < |toks| && toks[idx] in StateSet && (forall j :: idx < j < |toks| ==> toks[j] !in StateSet)
        ==> CityOf(purified, cities) == GetOr(cities, toks[idx - 1], Title(toks[idx - 1])) + ", " + Upper(toks[idx])
  {
    var toks := SplitTokens(purified);
    FindStateReversed(toks);
    SplitTokensSpec(purified);
    var city := CityOf(purified, cities);
    var fs := FindState(Reverse(toks), 0);
    if fs.Some? {
      var idx := |toks| - 1 - fs.value.0;
      var st := fs.value.1;
      if idx > 0 {
        assert toks[idx - 1] != [];
        assert city == GetOr(cities, toks[idx - 1], Title(toks[idx - 1])) + ", " + st;
        LastStateUnique(toks, idx);
      } else {
        assert city == "";
        assert forall i :: 0 < i < |toks| ==> toks[i] !in StateSet;
      }
    } else {
      assert city == "";
    }
  }

  /** `infer_from_name` of VidForge.py; the additional field is never filled. */
  function InferFromName(fname: string, artists: Dict<string>, cities: Dict<string>, venues: Dict<string>): (r: TextUtils.Info)
    ensures r.additional == ""
    ensures r.format == "" || exists k :: 0 <= k < |Resolutions| && r.format == Resolutions[k] + "p"
  {
    var base := SplitExtRoot(fname);
    var venue := ExtractVenue(base, venues);
    TextUtils.Info(ArtistOf(base, artists), ExtractDate(base), venue,
                   CityOf(Purified(base, venue), cities), FormatOf(base), "")
  }

  // ---------------------------------------------------------------- _load_names

  /** The (key, name) assignments a word list makes, in file order: each
      non-blank stripped line under its normalised key. */
  function LineEntries(lines: seq<string>): seq<(string, string)> {
    if lines == [] then []
    else
      var ln := Strip(lines[|lines| - 1]);
      LineEntries(lines[..|lines| - 1]) + (if ln != "" then [(NormalizeKey(ln), ln)] else [])
  }

  /** Each assignment stores a non-blank stripped line under its normalised form. */
  lemma {:induction false} LineEntriesSound(lines: seq<string>)
    ensures forall e :: e in LineEntries(lines) ==>
      e.1 != "" && e.0 == NormalizeKey(e.1) && exists i :: 0 <= i < |lines| && Strip(lines[i]) == e.1
  {
    if lines != [] {
      var init := lines[..|lines| - 1];
      LineEntriesSound(init);
      forall e | e in LineEntries(lines)
        ensures e.1 != "" && e.0 == NormalizeKey(e.1) && exists i :: 0 <= i < |lines| && Strip(lines[i]) == e.1
      {
        if e in LineEntries(init) {
          var i :| 0 <= i < |init| && Strip(init[i]) == e.1;
          assert lines[i] == init[i];
        } else {
          assert Strip(lines[|lines| - 1]) == e.1;
        }
      }
    }
  }

  /** Every non-blank line is assigned. */
  lemma {:induction false} LineEntriesComplete(lines: seq<string>, i: nat)
    requires i < |lines| && Strip(lines[i]) != ""
    ensures (NormalizeKey(Strip(lines[i])), Strip(lines[i])) in LineEntries(lines)
  {
    if i < |lines| - 1 {
      var init := lines[..|lines| - 1];
      assert init[i] == lines[i];
      LineEntriesComplete(init, i);
    }
  }

  /** The name dictionary a word list yields; a later line replaces an
      earlier one with the same key. */
  function NamesOf(lines: seq<string>): Dict<string> {
    PutAll(LineEntries(lines))
  }

  /** `_load_names` over the lines of the word file (an absent file gives no lines). */
  method LoadNames(lines: seq<string>) returns (d: Dict<string>)
    ensures d == NamesOf(lines)
  {
    d := [];
    var i := 0;
    while i < |lines|
      invariant 0 <= i <= |lines|
      invariant d == PutAll(LineEntries(lines[..i]))
    {
      assert lines[..i + 1][..i] == lines[..i];
      var ln := Strip(lines[i]);
      ghost var es := LineEntries(lines[..i]);
      if ln != "" {
        d := Put(d, NormalizeKey(ln), ln);
        assert (es + [(NormalizeKey(ln), ln)])[..|es|] == es;
      } else {
        assert es + [] == es;
      }
      i := i + 1;
    }
    assert lines[..i] == lines;
  }

  /** The keys are the normalised non-blank lines, each stored once, and
      every stored name is a non-blank stripped line whose key is its
      normalised form. */
  lemma NamesOfSpec(lines: seq<string>)
    ensures KeysUnique(NamesOf(lines))
    ensures forall i :: 0 <= i < |lines| && Strip(lines[i]) != "" ==> HasKey(NamesOf(lines), NormalizeKey(Strip(lines[i])))
    ensures forall e :: e in NamesOf(lines) ==>
      e.1 != "" && e.0 == NormalizeKey(e.1) && exists i :: 0 <= i < |lines| && Strip(lines[i]) == e.1
  {
    var es := LineEntries(lines);
    LineEntriesSound(lines);
    PutAllKeys(es);
    PutAllEntries(es);
    forall i | 0 <= i < |lines| && Strip(lines[i]) != ""
      ensures HasKey(NamesOf(lines), NormalizeKey(Strip(lines[i])))
    {
      LineEntriesComplete(lines, i);
      var e := (NormalizeKey(Strip(lines[i])), Strip(lines[i]));
      var j :| 0 <= j < |es| && es[j] == e;
    }
  }
}

=== FILE: wrappers.dfy ===
/** Option and Result, the two failure-compatible wrappers the model uses for
    Python's `None` results and raised exceptions. */
module Wrappers {

  datatype Option<+T> = None | Some(value: T) {
    predicate IsFailure() { None? }

    function PropagateFailure<U>(): Option<U>
      requires None?
    {
      None
    }

    function Extract(): T
      requires Some?
    {
      value
    }

    /** `value` when present, `default` otherwise. */
    function GetOr(default: T): T {
      match this
      case Some(v) => v
      case None => default
    }
  }

  datatype Result<+R, +E> = Success(value: R) | Failure(error: E) {
    predicate IsFailure() { Failure? }

    function PropagateFailure<U>(): Result<U, E>
      requires Failure?
    {
      Failure(error)
    }

    function Extract(): R
      requires Success?
    {
      value
    }
  }
}
